=== FILE: README.md ===
# PyLog in Dafny

A model of PyLog, a small Prolog engine written in Python 2, and proofs about
it. PyLog compiles Prolog clauses to Python classes and runs them as
generators.

- **Terms.** Variables are cells that hold nothing or a term. Atoms wrap a
  host value. Compound terms are instances of a registered term class with
  argument slots. `cons` and `nil` are two such classes.
- **Unification.** `mgu` is a work-stack unifier with no occurs check. A
  `Unifier` applies its bindings and undoes them again.
- **Resolution.** Goals are solution streams: `true`, `fail`, `cut`, `And`,
  `Or`, `softcut`, `unify`, `notunify`, the primitives, and calls of
  compiled predicates. The cut travels as a `CutException`.
- **Parser.** An ordered-choice recursive descent over a token sequence.
- **Clause compiler.** It groups rules by name, collects variable names, and
  desugars negation and if-then-else into `&`, `|` and `cut`.
- **Primitives and library.** The type tests, the standard-order
  comparisons, `functor`, `arg`, `setarg`, `=..`, `between`, `succ`,
  `plus`, and the `sort` and `msort` predicates of the Prolog library.

Every file cited below is `old/PyLog-2.1.2/pylog.py`. The older copies
(`old/PyLog-2.1/pylog.py`, `old/PyLog-2.1/PyLog/pylogsrc.py`) hold the same
engine, parser and primitives line for line, up to whitespace.

How the model is built:

- **Store.** Python mutates `Var.term` in place. Here every operation takes
  a `Store` (`map<nat, Term>`, an absent key being a free cell) and returns
  a new one.
- **Solutions.** A goal's generator becomes an `Outcome`: the list of
  environments it yields, in order, and how the stream ends. `Done` means
  exhausted, `Pruned` means a `CutException`, `Raised` means any other
  Python exception, and `OutOfFuel` means the model's bound on predicate
  calls ran out.
- **Backtracking.** The store is a value, so the bindings a generator undoes
  on resumption are not carried into the next solution. The trail itself
  (`Unifier.unify` and `undo`) is modelled too, and `EngineLaws.TrailAgrees`
  proves that the clause loop run with the trail gives the same solutions.
  The source skips the undo wherever the restore code follows a `yield`
  and a cut raised after that `yield` abandons the generator: `unify`, a
  call of a user predicate, `functor`, `arg`, `=..`, `setarg`, `between`,
  `succ` and `plus`. The model undoes them anyway, as "Left out" says
  under `Engine.Eval`.
- **Compiled code.** The compiler does not produce Python text. It produces
  the goal objects that text evaluates to. `&` and `|` are left-grouping
  binary `And` and `Or`, because Python parses the generated code that way,
  and `&` binds tighter than `|`.
- **Faithful and corrected versions.** Every environment carries a flag
  `fixed`. With it off, `Eval` runs the code as written: `mgu` and the
  primitives `is_ground`, `==` and the other comparisons, `compare`,
  `functor`, `arg` and `setarg`. With it on, it runs the corrected
  versions that the "Findings" section argues for. The compiler takes a
  flag of the same name: off, it builds the goals the generated text
  evaluates to; on, it adds the parentheses that are missing. `Modes` runs
  each finding's goal through the engine in both modes. `CodeLaws` proves
  that the missing parentheses matter only around a cut.

Module layout:

| file | module | contents |
|---|---|---|
| `wrappers.dfy` | `Wrappers` | `Option`, `Result` |
| `terms.dfy` | `Terms` | terms, lists, store, `deref`, `bind` |
| `unify.dfy` | `Unify` | `mgu`, `Unifier.unify`/`undo` |
| `unify_fixed.dfy` | `UnifyFixed` | the corrected `mgu`, and the unifier each mode runs |
| `order.dfy` | `Order` | the standard order of terms |
| `goals.dfy` | `Goals` | environments, outcomes, goals, compiled predicates |
| `primitives.dfy` | `Primitives` | the primitive goals |
| `engine.dfy` | `Engine`, `EngineLaws` | goal evaluation and its laws |
| `modes.dfy` | `Modes` | the findings' goals run through the engine in both modes |
| `ast.dfy` | `Ast` | the syntax tree the parser builds |
| `parser.dfy` | `Parser` | the parser |
| `parser_laws.dfy` | `ParserLaws` | terms and argument lists read back |
| `goal_laws.dfy` | `GoalLaws` | goals, rules and programs read back |
| `compiler.dfy` | `Compiler`, `Predicates` | `genCode`, `genPredicateCode`, `_Rules` |
| `desugar.dfy` | `Desugar` | what the compiled control constructs do |
| `code_laws.dfy` | `CodeLaws` | the two versions of the compiler agree on bodies without a cut |
| `library.dfy` | `Library` | `sort/2` and `msort/2` |

## Model

| member | source | states |
|---|---|---|
| Terms.ListItems | old/PyLog-2.1.2/pylog.py:98-108 | `pylist` exists only for `nil` and `cons` terms, and is empty for `nil` |
| Terms.ConsArgList | old/PyLog-2.1.2/pylog.py:81-85 | `consarglist` builds a proper list whose items are exactly the arguments, in order |
| Terms.AddArgsItems | old/PyLog-2.1.2/pylog.py:82-84 | consing the arguments from the last one onto a list of items `tail` gives the arguments followed by `tail` |
| Terms.ListItemsInverse | old/PyLog-2.1.2/pylog.py:81-108 | `consarglist` inverts `pylist`: a term whose `pylist` succeeds is rebuilt exactly from its items |
| Terms.Deref | old/PyLog-2.1.2/pylog.py:144-146 | `deref` returns a non-variable or a free variable unchanged, and otherwise some term stored in the store |
| Terms.DerefFollows | old/PyLog-2.1.2/pylog.py:144-146 | on an acyclic store, `deref` ends at a free variable or a non-variable, is idempotent, and a bound variable dereferences like its contents |
| Terms.DerefVarFixed | old/PyLog-2.1.2/pylog.py:144-146 | a walk that ends at a variable ends there again when started from that variable |
| Terms.DerefAfterBind | old/PyLog-2.1.2/pylog.py:147-152 | storing a resolved term in a free cell redirects exactly the walks that ended at that cell |
| Terms.Bind | old/PyLog-2.1.2/pylog.py:147-152 | `bind` raises `BindingError` exactly when the target does not dereference to a variable; only the cell at the end of the target's chain changes |
| Terms.BindSound | old/PyLog-2.1.2/pylog.py:147-152 | after a successful `bind` both sides dereference to the same term; the store stays acyclic with no self-link; only walks that ended where the target's did are redirected |
| Unify.Lookup | old/PyLog-2.1.2/pylog.py:191-193 | `u[v]` finds an entry exactly when the unifier has one for `v` |
| Unify.Push | old/PyLog-2.1.2/pylog.py:186-190 | a pair is scheduled unless it is already done or, in the written mode, the list test `in stack` finds a stacked pair whose two sides are each identical or equal under `__cmp__` as written (in the corrected mode, an equal stacked pair); the frame is unchanged exactly when the pair was already scheduled, and otherwise only that pair is appended |
| Unify.PushArgs | old/PyLog-2.1.2/pylog.py:198-202 | after `term_term` every argument pair is scheduled in the sense of `Unify.Push`, and the old stack is a prefix of the new one |
| Unify.SkipsSamePair | old/PyLog-2.1.2/pylog.py:45-78 | with `X = h(a)`, the pair `(Z, g(h(a)))` equals `(Z, g(X))` under the list test, since `__cmp__` dereferences the right-hand `X` |
| Unify.SkipsFirstTurn | old/PyLog-2.1.2/pylog.py:186-190 | with `X = h(a)`, the first turn on `f(Z, Z) = f(g(X), g(h(a)))` pushes `(Z, g(X))` and skips `(Z, g(h(a)))` |
| Unify.SkipsSecondTurn | old/PyLog-2.1.2/pylog.py:191-193 | popping `(Z, t)` with nothing recorded records `Z` against `t` |
| Unify.MguSkipsEqualAsWritten | old/PyLog-2.1.2/pylog.py:179-226 | with `X = h(a)`, `mgu` as written on `f(Z, Z) = f(g(X), g(h(a)))` records `Z` against `g(X)` alone |
| Unify.Update | old/PyLog-2.1.2/pylog.py:191-193 | a variable seen for the first time is recorded with its partner and nothing else changes; a recorded one leaves the unifier as it is |
| Unify.Step | old/PyLog-2.1.2/pylog.py:206-224 | a turn of the loop that succeeds moves the popped pair into `done` |
| Unify.StepKeepsU | old/PyLog-2.1.2/pylog.py:206-224 | a turn of the loop only extends the unifier |
| Unify.StepKeepsInv | old/PyLog-2.1.2/pylog.py:206-224 | each turn keeps every stacked and done pair inside the finite universe of subterms, so the loop terminates even on cyclic structure |
| Unify.Run | old/PyLog-2.1.2/pylog.py:206-226 | the loop's result extends the unifier built so far |
| Unify.Turn | old/PyLog-2.1.2/pylog.py:207-224 | popping a pair and carrying on also only extends the unifier |
| Unify.Mgu | old/PyLog-2.1.2/pylog.py:179-226 | two atoms unify exactly when their payloads are equal, with an empty unifier; an atom never unifies with a compound; compounds of different class or arity never unify; a free variable side gets one binding |
| Unify.FirstStepMismatch | old/PyLog-2.1.2/pylog.py:198-202 | two compounds whose class names or arities differ fail on the first turn |
| Unify.FirstStep | old/PyLog-2.1.2/pylog.py:206-226 | when the first pair is not two compounds, the first turn alone decides the result |
| Unify.MguReflexive | old/PyLog-2.1.2/pylog.py:179-226 | equal terms always unify |
| Unify.MguFresh | old/PyLog-2.1.2/pylog.py:179-226 | on an acyclic store the unifier's keys are distinct free cells, so applying it never raises |
| Unify.MguSound | old/PyLog-2.1.2/pylog.py:179-226 | on an acyclic store, applying the unifier keeps the store acyclic and makes the two terms agree at the top: the same term, or compounds of one class and arity. The argument pairs are not claimed, since the loop as written does not unify them (`UnifyFixed.MguAsWrittenUnsound`) |
| Unify.MguTwoFree | old/PyLog-2.1.2/pylog.py:179-226 | unifying `Term(X, Y)` with `Term(p, q)` for free `X`, `Y` binds exactly `Y` to `q` and `X` to `p`, in the stack's pop order |
| Unify.MguAtomPairs | old/PyLog-2.1.2/pylog.py:198-202 | two binary compounds with atom arguments unify exactly when their arguments are pairwise equal |
| Unify.Apply | old/PyLog-2.1.2/pylog.py:170-174 | `unify` records one backup entry per variable, in order, and raises exactly when some binding in the sequence raises |
| Unify.Undo | old/PyLog-2.1.2/pylog.py:175-177 | `undo` clears the backup, leaves every unrecorded cell as it was, and puts back each recorded cell's old contents |
| Unify.ApplyFresh | old/PyLog-2.1.2/pylog.py:170-174 | with fresh keys every binding succeeds, every cell is recorded as free, and other cells are untouched |
| Unify.UndoApply | old/PyLog-2.1.2/pylog.py:170-177 | `undo` after `unify` restores exactly the store before the `unify` |
| Unify.ApplySound | old/PyLog-2.1.2/pylog.py:170-174 | applying a unifier with fresh keys keeps the store acyclic and free of self-links |
| Unify.ApplyTwoFree | old/PyLog-2.1.2/pylog.py:170-174 | applying `[(Y, q), (X, p)]` to an acyclic store with `X`, `Y` free succeeds, keeps the store acyclic, makes `X` agree with `p` and `Y` with `q`, leaves walks to non-variables alone, and keeps equal walks equal |
| UnifyFixed.FixStep | old/PyLog-2.1.2/pylog.py:206-224 | a turn of the corrected loop that succeeds moves the popped pair into the processed pairs |
| UnifyFixed.MguFixed | old/PyLog-2.1.2/pylog.py:179-226 | the corrected `mgu`: terms that dereference alike need no binding; a variable side gets exactly one binding, to the other side; atoms unify exactly on equal payloads; an atom never unifies with a compound; compounds of different class or arity never unify |
| UnifyFixed.MguFixedSound | old/PyLog-2.1.2/pylog.py:179-226 | on an acyclic store the corrected unifier applies without raising, keeps the store acyclic, only adds bindings, and leaves the two terms standing for the same, possibly infinite, tree |
| UnifyFixed.UnifiedAgree | old/PyLog-2.1.2/pylog.py:179-226 | terms that stand for the same tree agree at the top |
| UnifyFixed.MguFixedGround | old/PyLog-2.1.2/pylog.py:179-226 | on two terms without variables the corrected `mgu` succeeds exactly when they are equal |
| UnifyFixed.MguFixedIdempotent | old/PyLog-2.1.2/pylog.py:179-226 | terms that already stand for the same tree unify with no binding, so unifying again after a success binds nothing |
| UnifyFixed.MguBy | old/PyLog-2.1.2/pylog.py:179-226 | in either mode, atoms unify exactly on equal payloads, and an atom with a compound or two compounds of different class or arity never unify |
| UnifyFixed.MguBySound | old/PyLog-2.1.2/pylog.py:179-226 | in either mode on an acyclic store: terms that dereference alike unify; a unifier found applies without raising, keeps the store acyclic, only adds bindings, and makes the two terms agree at the top; in the corrected mode they stand for the same tree |
| UnifyFixed.MguByFree | old/PyLog-2.1.2/pylog.py:179-226 | in either mode, a term whose chain ends in a free variable unifies with anything, and exactly the walks that ended at that variable now end where the other term does |
| UnifyFixed.MguByAtomPairs | old/PyLog-2.1.2/pylog.py:198-202 | in either mode, two binary compounds of one class with atom arguments unify exactly when the arguments are pairwise equal |
| UnifyFixed.MguFixedTwoFree | old/PyLog-2.1.2/pylog.py:179-226 | the corrected `mgu(Term(X, Y), Term(p, q))` for distinct free `X`, `Y` succeeds, only adds bindings, and makes `X` agree with `p` and `Y` with `q` |
| UnifyFixed.MguByTwoFree | old/PyLog-2.1.2/pylog.py:179-226 | the same in either mode: how a call binds the two arguments of a head |
| UnifyFixed.AsWrittenTrace | old/PyLog-2.1.2/pylog.py:186-224 | `mgu` as written on `f(X, Y, X) = f(t, X, Y)` records `X` against `Y` and `Y` against `X`, and nothing for `t` |
| UnifyFixed.MguAsWrittenUnsound | old/PyLog-2.1.2/pylog.py:186-193 | as written, `f(V, W, V) = f(g(a), V, W)` gets a unifier that leaves `V = W` free, and the two sides do not stand for the same tree |
| Order.CompareInt | old/PyLog-2.1.2/pylog.py:45-49 | Python's `cmp` on integers: negative, zero or positive exactly as `a < b`, `a == b`, `a > b` |
| Order.StringAntisymmetric | old/PyLog-2.1.2/pylog.py:154-157 | `cmp` on strings is antisymmetric and zero exactly on equal strings |
| Order.StringTransitive | old/PyLog-2.1.2/pylog.py:154-157 | `cmp` on strings is transitive |
| Order.ComparePayload | old/PyLog-2.1.2/pylog.py:45-58 | symbols sort below integers, and integers below strings |
| Order.PayloadTotalOrder | old/PyLog-2.1.2/pylog.py:45-58 | the payload order is antisymmetric, zero exactly on equal payloads, and transitive |
| Order.Compare | old/PyLog-2.1.2/pylog.py:45-78 | variables sort below atoms, and atoms below compound terms |
| Order.CompareAntisymmetric | old/PyLog-2.1.2/pylog.py:71-78 | the order of terms is antisymmetric and zero exactly on equal terms |
| Order.ArgsAntisymmetric | old/PyLog-2.1.2/pylog.py:71-78 | the lexicographic order of argument lists is antisymmetric and zero exactly on equal lists |
| Order.CompareTransitive | old/PyLog-2.1.2/pylog.py:71-78 | the order of terms is transitive |
| Order.ArgsTransitive | old/PyLog-2.1.2/pylog.py:71-78 | the order of argument lists is transitive |
| Order.Resolve | old/PyLog-2.1.2/pylog.py:144-146 | full substitution keeps the kind (variable, atom, compound) of the dereferenced term |
| Order.CompareAsWritten | old/PyLog-2.1.2/pylog.py:45-78 | the `__cmp__` methods as written, dereferencing only the right operand and comparing argument lists as Python lists, which skip identical elements, give -1, 0 or 1 |
| Order.AsWrittenReflexive | old/PyLog-2.1.2/pylog.py:45-78 | as written every term compares equal to itself under any store: both sides are dereferenced, and the list comparison inside `Term.__cmp__` counts an identical argument as equal without calling `__cmp__`, so a bound variable met on both sides is skipped |
| Order.AsWrittenAgreesWithoutBindings | old/PyLog-2.1.2/pylog.py:71-78 | with no bindings, the order as written is the standard order |
| Order.ArgsAgreeWithoutBindings | old/PyLog-2.1.2/pylog.py:71-78 | the same for argument lists |
| Order.AsWrittenNotAntisymmetric | old/PyLog-2.1.2/pylog.py:71-78 | with `X` bound to 1, `f(X)` sorts below `f(1)` while `f(1)` equals `f(X)` |
| Order.StandardOrder | old/PyLog-2.1.2/pylog.py:1225-1251 | on dereferenced operands, variables sort first |
| Order.StandardOrderTotal | old/PyLog-2.1.2/pylog.py:1225-1251 | the corrected order is antisymmetric, transitive, and zero exactly on terms with the same full substitution |
| Order.OrderBy | old/PyLog-2.1.2/pylog.py:1225-1251 | the order a comparison goal applies, as written or corrected, is -1, 0 or 1 |
| Order.OrderByWithoutBindings | old/PyLog-2.1.2/pylog.py:1225-1251 | with no bindings both versions are the standard order of terms |
| Goals.ShiftTerm | old/PyLog-2.1.2/pylog.py:894-908 | renumbering a clause term into an instance keeps atoms, shapes and class names, and moves each variable by the base |
| Goals.ShiftTerms | old/PyLog-2.1.2/pylog.py:894-908 | renumbering a list of terms renumbers each one |
| Primitives.UnifyGoal | old/PyLog-2.1.2/pylog.py:276-284 | `unify` yields at most one solution and raises only with none; it has no solution when the mode's `mgu` finds no unifier; a solution keeps the mode and allocates no cells |
| Primitives.UnifyGoalSound | old/PyLog-2.1.2/pylog.py:276-284 | on an acyclic store `unify` never raises, succeeds exactly when the mode's `mgu` succeeds, always succeeds on terms that dereference alike, and leaves an acyclic store that only adds bindings and where the two terms agree at the top; in the corrected mode they stand for the same tree |
| Primitives.UnifyGoalGround | old/PyLog-2.1.2/pylog.py:276-284 | in the corrected mode two terms without variables unify exactly when they are equal |
| Primitives.NotUnifyGoal | old/PyLog-2.1.2/pylog.py:286-290 | `notunify` yields nothing or the unchanged environment once |
| Primitives.NotUnifyComplement | old/PyLog-2.1.2/pylog.py:286-290 | `notunify` succeeds exactly when `unify` fails |
| Primitives.TypeTestsPartition | old/PyLog-2.1.2/pylog.py:1161-1205 | `is_var` and `is_nonvar` are complements; `is_number` is `is_integer`; `is_atomic` holds for atoms, integers and strings; those three exclude each other; a compound is nonvar and not atomic; a ground term is nonvar; the corrected `is_ground` accepts no term the written one rejects |
| Primitives.GroundNotVar | old/PyLog-2.1.2/pylog.py:1207-1220 | a ground term does not dereference to a variable |
| Primitives.GroundArgs | old/PyLog-2.1.2/pylog.py:1207-1220 | the corrected `is_ground` of a compound holds for each of its arguments, looking through bound variables at every level |
| Primitives.GroundImpliesAsWritten | old/PyLog-2.1.2/pylog.py:1207-1220 | every term the corrected `is_ground` accepts, the written one accepts too |
| Primitives.GroundAsWrittenMissesNested | old/PyLog-2.1.2/pylog.py:1207-1220 | with `Y = g(Z)` and `Z` free, the written `is_ground(f(Y))` succeeds although the written `is_ground(Y)` fails, and the corrected `is_ground(f(Y))` fails |
| Primitives.CompareGoal | old/PyLog-2.1.2/pylog.py:1225-1251 | a comparison yields nothing or the unchanged environment once; in the corrected mode `==` holds exactly on terms with equal full substitutions and `\==` exactly on the others; in both modes a term compared with itself satisfies exactly `==`, `@=<` and `@>=` |
| Primitives.CompareGoalDuality | old/PyLog-2.1.2/pylog.py:1225-1251 | in either mode `@=<` is the complement of `@>`, `@>=` that of `@<`, and exactly one of `@<`, `==`, `@>` holds; in the corrected mode `a @< b` is `b @> a` |
| Primitives.CompareGoalWithoutBindings | old/PyLog-2.1.2/pylog.py:1225-1251 | with no bindings, in either mode, a comparison succeeds exactly when the standard order of the two terms satisfies it |
| Primitives.CompareGoalAsWrittenAsymmetric | old/PyLog-2.1.2/pylog.py:1225-1251 | with `X = 1`, as written `f(X) == f(1)` fails while `f(1) == f(X)` succeeds; in the corrected mode both succeed |
| Primitives.Compare3 | old/PyLog-2.1.2/pylog.py:1252-1262 | `compare/3` yields at most one solution, in the environment's mode, allocating no cell below it |
| Primitives.Compare3Sound | old/PyLog-2.1.2/pylog.py:1252-1262 | with `Order` free, `compare/3` has one solution, binding `Order` to `<`, `=` or `>` exactly as the `lt`, `eq` or `gt` goal of the same mode succeeds, and moving no walk that did not end at `Order` |
| Primitives.BindOne | old/PyLog-2.1.2/pylog.py:1370-1374 | binding the end of a free chain yields one solution; binding a bound one raises |
| Primitives.BindOneInt | old/PyLog-2.1.2/pylog.py:1370-1374 | binding a free chain to an integer makes it dereference to that integer and leaves other walks alone |
| Primitives.FreeEnd | old/PyLog-2.1.2/pylog.py:153 | the free end of a chain is a free cell that dereferences to itself |
| Primitives.Between | old/PyLog-2.1.2/pylog.py:1362-1378 | with integer bounds and `V` free, one solution per value from `L` to `H`; with `V` an integer, one solution exactly when `L <= V <= H`; otherwise none |
| Primitives.Count | old/PyLog-2.1.2/pylog.py:1369-1374 | the enumeration yields `H - L + 1` solutions, the `i`-th binding `V` to `L + i` |
| Primitives.BetweenModesAgree | old/PyLog-2.1.2/pylog.py:1362-1378 | each solution of the enumerating mode binds `V` to `L + i` and passes the checking mode |
| Primitives.BetweenAccepts | old/PyLog-2.1.2/pylog.py:1376-1378 | with all three integers and `V` in range, `between` yields the environment once |
| Primitives.Succ | old/PyLog-2.1.2/pylog.py:1380-1398 | two integers succeed once exactly when `B = A + 1`; `B` free is bound to `A + 1`; `A` free is bound to `B - 1` with no lower bound; any other mode has no solution |
| Primitives.SuccModesAgree | old/PyLog-2.1.2/pylog.py:1380-1398 | each binding mode of `succ` yields one solution that passes `succ` with both arguments bound |
| Primitives.Plus | old/PyLog-2.1.2/pylog.py:1400-1424 | with one argument free and two integers, the free one is bound so that `A + B = C`; three integers are checked; any other mode has no solution |
| Primitives.PlusModesAgree | old/PyLog-2.1.2/pylog.py:1400-1424 | each binding mode of `plus` yields one solution that passes `plus` with all three arguments bound |
| Primitives.PlusBindsC | old/PyLog-2.1.2/pylog.py:1405-1410 | with `A`, `B` integers and `C` free, `C` becomes `A + B` and the check mode accepts it |
| Primitives.PlusBindsB | old/PyLog-2.1.2/pylog.py:1412-1416 | with `A`, `C` integers and `B` free, `B` becomes `C - A` and the check mode accepts it |
| Primitives.PlusBindsA | old/PyLog-2.1.2/pylog.py:1417-1421 | with `B`, `C` integers and `A` free, `A` becomes `C - B` and the check mode accepts it |
| Primitives.Construct | old/PyLog-2.1.2/pylog.py:87-90 | `_termdef[name](*args)` succeeds exactly for a registered class taking that many arguments, and builds that instance |
| Primitives.Fresh | old/PyLog-2.1.2/pylog.py:1296 | `n` fresh variables, numbered consecutively |
| Primitives.FunctorBuild | old/PyLog-2.1.2/pylog.py:1294-1300 | a free `T` gets no solution unless `Name` is a symbol and `Arity` an integer |
| Primitives.FunctorAsWritten | old/PyLog-2.1.2/pylog.py:1288-1306 | `functor` as written has no solution on an atom |
| Primitives.Functor | old/PyLog-2.1.2/pylog.py:1288-1306 | the corrected `functor` has no solution on an atom |
| Primitives.FunctorOfCompound | old/PyLog-2.1.2/pylog.py:1301-1306 | on a compound with `Name` and `Arity` free, one solution binding the class symbol and the arity |
| Primitives.FunctorBuildsCompound | old/PyLog-2.1.2/pylog.py:1294-1300 | on a free `T` with a registered symbol and matching arity, one solution binding `T` to an instance with fresh arguments |
| Primitives.FunctorAsWrittenMisses | old/PyLog-2.1.2/pylog.py:1301-1306 | as written, `functor(f(a), f, 1)` fails because the name is compared as a string |
| Primitives.PyIndex | old/PyLog-2.1.2/pylog.py:79-80 | a Python list index is valid exactly when `-n <= i < n`, a negative one counting from the end |
| Primitives.ArgAttempt | old/PyLog-2.1.2/pylog.py:1315-1320 | one position of the enumeration yields at most one solution and does not cut |
| Primitives.RunEachBounds | old/PyLog-2.1.2/pylog.py:1315-1320 | a `for` loop over attempts that each give at most one solution, and an error only with none, gives at most one solution per attempt and ends normally or by that error |
| Primitives.RunEachAll | old/PyLog-2.1.2/pylog.py:1315-1320 | a `for` loop over attempts that each succeed once yields one solution per attempt, in order |
| Primitives.ArgAttempts | old/PyLog-2.1.2/pylog.py:1315-1320 | the attempts of the enumeration, one per argument position |
| Primitives.ArgEnum | old/PyLog-2.1.2/pylog.py:1315-1320 | the enumeration is the `for` loop over its attempts: at most one solution per remaining position, ending normally or by an error |
| Primitives.ArgAsWritten | old/PyLog-2.1.2/pylog.py:1308-1327 | `arg` as written has no solution unless `T` is compound |
| Primitives.Arg | old/PyLog-2.1.2/pylog.py:1308-1327 | the corrected `arg` has no solution unless `T` is compound |
| Primitives.ArgInRange | old/PyLog-2.1.2/pylog.py:1321-1327 | with an integer `N` in `1 .. arity`, `arg` is `unify` of `V` with argument `N` |
| Primitives.ArgOutOfRange | old/PyLog-2.1.2/pylog.py:1321-1327 | with an integer `N` outside `1 .. arity`, the corrected `arg` has no solution |
| Primitives.ArgAgreesInRange | old/PyLog-2.1.2/pylog.py:1308-1327 | the written and the corrected `arg` agree on every input except an integer `N` outside `1 .. arity` of a compound |
| Primitives.ArgAsWrittenWraps | old/PyLog-2.1.2/pylog.py:1321-1327 | as written, `arg(0, f(a, b), X)` succeeds with `X = b`, while the corrected `arg` fails |
| Primitives.ArgEnumAll | old/PyLog-2.1.2/pylog.py:1315-1320 | when every position unifies once, the enumeration yields one solution per position, in order |
| Primitives.ArgAttemptOne | old/PyLog-2.1.2/pylog.py:1315-1320 | with `N` and `V` distinct free cells, every position unifies once |
| Primitives.ArgAttemptSound | old/PyLog-2.1.2/pylog.py:1315-1320 | position `k` binds `N` to `k + 1` and makes `V` agree with argument `k` |
| Primitives.ArgModesAgree | old/PyLog-2.1.2/pylog.py:1308-1327 | with `N` and `V` free, `arg` yields one solution per position, and the `k`-th passes the checking mode with `N = k + 1` |
| Primitives.ArgFreeN | old/PyLog-2.1.2/pylog.py:1313-1320 | with `N` free and `T` compound, `arg` runs the enumeration |
| Primitives.ArgEnumFree | old/PyLog-2.1.2/pylog.py:1315-1320 | with `N` and `V` distinct free cells, the enumeration yields exactly one solution per argument |
| Primitives.ArgRecheck | old/PyLog-2.1.2/pylog.py:1321-1327 | when `N = k + 1` and `V` already equals argument `k`, `arg` succeeds once |
| Primitives.ReplaceArg | old/PyLog-2.1.2/pylog.py:80 | `setarg` on a compound changes position `k` to the new value and keeps class, arity and every other argument |
| Primitives.LastCell | old/PyLog-2.1.2/pylog.py:144-146 | the cell holding the compound a bound chain ends in exists exactly when the term is a bound variable |
| Primitives.LastCellUpdate | old/PyLog-2.1.2/pylog.py:1336-1337 | overwriting that cell makes the chain end at the new term |
| Primitives.SetArgAt | old/PyLog-2.1.2/pylog.py:1333-1340 | replacing an argument in range yields exactly one solution and allocates no cells |
| Primitives.SetArgAsWritten | old/PyLog-2.1.2/pylog.py:1329-1340 | `setarg` as written has no solution unless `T` is compound and `N` an integer |
| Primitives.SetArg | old/PyLog-2.1.2/pylog.py:1329-1340 | the corrected `setarg` succeeds once exactly when `T` is compound and `N` is an integer in `1 .. arity` |
| Primitives.DerefAvoidsCell | old/PyLog-2.1.2/pylog.py:144-146 | overwriting a cell that holds a non-variable does not change walks that did not end at its contents |
| Primitives.SetArgThenArg | old/PyLog-2.1.2/pylog.py:1329-1340 | after `setarg(N, T, V)` on a compound reached through a variable, argument `N` of `T` is `V` and the others are unchanged |
| Primitives.SetArgAgreesInRange | old/PyLog-2.1.2/pylog.py:1329-1340 | inside `1 .. arity` the written and the corrected `setarg` agree |
| Primitives.SetArgAsWrittenWraps | old/PyLog-2.1.2/pylog.py:1333-1340 | as written, `setarg(0, T, x)` on `T = f(a, b)` overwrites the last argument, while the corrected `setarg` fails |
| Primitives.UnivList | old/PyLog-2.1.2/pylog.py:1347-1348 | the list `=..` builds is the class symbol followed by the arguments, in order |
| Primitives.Univ | old/PyLog-2.1.2/pylog.py:1342-1360 | on a compound `T`, `=..` is `unify` of `L` with that list; otherwise nothing unless `L` is a `cons` |
| Primitives.UnifyFreeWith | old/PyLog-2.1.2/pylog.py:276-284 | unifying a free variable with a resolved non-variable succeeds once and binds it |
| Primitives.UnivDecomposes | old/PyLog-2.1.2/pylog.py:1346-1351 | on a compound `T` with `L` free, one solution binding `L` to the class symbol and arguments |
| Primitives.UnivComposes | old/PyLog-2.1.2/pylog.py:1352-1357 | with `T` free and `L` such a list for a registered class, one solution binding `T` to the compound: the inverse of decomposing |
| Primitives.TypeTestNamed | old/PyLog-2.1.2/pylog.py:1164-1220 | each type-test class name stands for its test |
| Primitives.CmpOpNamed | old/PyLog-2.1.2/pylog.py:1228-1251 | each comparison class name stands for its comparison |
| Primitives.BuiltinArity | old/PyLog-2.1.2/pylog.py:1161-1424 | each primitive class's constructor takes its fixed number of arguments |
| Primitives.Builtin | old/PyLog-2.1.2/pylog.py:1161-1424 | a primitive name runs its goal and the wrong number of arguments raises; primitives never cut; `is_ground`, `==`, `functor`, `arg` and `setarg` run the version the environment's mode selects |
| Engine.Eval | old/PyLog-2.1.2/pylog.py:239-290 | every solution of a goal keeps the environment's mode and allocates no cell below it; a disjunction or a call never ends by a cut |
| Engine.AndSeq | old/PyLog-2.1.2/pylog.py:256-264 | a conjunction's solutions keep the mode and allocate only upward |
| Engine.AndEach | old/PyLog-2.1.2/pylog.py:260-264 | running the rest of a conjunction from solutions that extend an environment gives solutions that extend it too |
| Engine.OrSeq | old/PyLog-2.1.2/pylog.py:267-273 | `Or` catches the `CutException` of every alternative, so it never ends by a cut; its solutions keep the mode |
| Engine.TryClauses | old/PyLog-2.1.2/pylog.py:910-923 | the clause loop catches the `CutException` of every body, so a cut never escapes a call; its solutions keep the mode and allocate only upward |
| EngineLaws.AndEachNil | old/PyLog-2.1.2/pylog.py:260-264 | with nothing left to conjoin, every solution passes through and the end signal is kept |
| EngineLaws.AndSingle | old/PyLog-2.1.2/pylog.py:256-264 | a one-goal conjunction is the goal itself |
| EngineLaws.NoPruneEval | old/PyLog-2.1.2/pylog.py:251-273 | a goal with no `!` outside an `Or` or a call never ends by a cut |
| EngineLaws.NoPruneAnd | old/PyLog-2.1.2/pylog.py:256-264 | a conjunction of goals that cannot cut does not cut |
| EngineLaws.NoPruneEach | old/PyLog-2.1.2/pylog.py:260-264 | running the rest of a conjunction from each solution does not cut when nothing in it can |
| EngineLaws.CutThen | old/PyLog-2.1.2/pylog.py:251-264 | `!, G` yields exactly `G`'s solutions and then cuts, unless `G` raised or ran out |
| EngineLaws.CutCommits | old/PyLog-2.1.2/pylog.py:251-273 | in `(!, G ; H)` the alternative `H` never runs |
| EngineLaws.TryClausesTrail | old/PyLog-2.1.2/pylog.py:910-923 | the clause loop run with `unify` and `undo` yields nothing once the clauses are exhausted |
| EngineLaws.ClausesUnified | old/PyLog-2.1.2/pylog.py:910-923 | when a clause head unifies, the call yields the body's solutions from the head's bindings, then the later clauses unless the body cut |
| EngineLaws.TrailUnifiedStep | old/PyLog-2.1.2/pylog.py:910-923 | the trail loop at a unifying head runs the body in the bound store and carries on from the undone store |
| EngineLaws.TrailUnified | old/PyLog-2.1.2/pylog.py:910-923 | when `undo` restores the store, the trail loop and the pure loop agree at a unifying head |
| EngineLaws.TrailStep | old/PyLog-2.1.2/pylog.py:910-923 | on an acyclic store, if the two loops agree from clause `i + 1` on, they agree from clause `i` |
| EngineLaws.TrailAgrees | old/PyLog-2.1.2/pylog.py:910-923 | on an acyclic store, the clause loop with `Unifier.unify` and `undo` yields the same solutions as the pure loop |
| EngineLaws.AndOf | old/PyLog-2.1.2/pylog.py:256-264 | `A & B` runs `B` from each solution of `A` |
| EngineLaws.AndEachOne | old/PyLog-2.1.2/pylog.py:260-264 | continuing one solution with `B` is `B` from that solution |
| EngineLaws.ThenCut | old/PyLog-2.1.2/pylog.py:251-264 | `G & cut` yields the first solution of `G` and then cuts |
| EngineLaws.AndEachFail | old/PyLog-2.1.2/pylog.py:244-264 | continuing with `fail` drops every solution and keeps the end signal |
| EngineLaws.ThenFail | old/PyLog-2.1.2/pylog.py:244-264 | `G & fail` yields nothing and ends as `G` does |
| EngineLaws.OrOf | old/PyLog-2.1.2/pylog.py:267-273 | `Or(A, B)` yields `A`'s solutions, then `B`'s unless `A` cut, raised or ran out; a cut ends it as exhausted |
| EngineLaws.NegSemantics | old/PyLog-2.1.2/pylog.py:1034-1038 | `Or(And(G, cut, fail), true)` succeeds once, binding nothing, exactly when `G` has no solution |
| EngineLaws.IteSemantics | old/PyLog-2.1.2/pylog.py:961-968 | `Or(And(C, cut, T), E)` runs `T` from the first solution of `C`, and `E` only when `C` has none |
| EngineLaws.SoftCutAsIte | old/PyLog-2.1.2/pylog.py:1271-1286 | a soft-cut whose condition has at most one solution behaves as if-then-else |
| EngineLaws.SoftCutTrue | old/PyLog-2.1.2/pylog.py:1271-1286 | `C *-> true ; E` yields every solution of `C`, and `E`'s only when `C` has none |
| EngineLaws.AndEachTrue | old/PyLog-2.1.2/pylog.py:239-264 | continuing with `true` keeps every solution |
| EngineLaws.SoftCutRetriesElse | old/PyLog-2.1.2/pylog.py:1271-1286 | when the condition succeeds but `cond & then` yields nothing, `softcut` runs the else part, while if-then-else yields nothing |
| Compiler.FirstIndex | old/PyLog-2.1.2/pylog.py:926-934 | the position of the first occurrence of a name |
| Compiler.FirstIndexIs | old/PyLog-2.1.2/pylog.py:926-934 | a position holding `x` with no earlier `x` is its first occurrence |
| Compiler.Collect | old/PyLog-2.1.2/pylog.py:926-934 | the collected names are exactly the names seen, without duplicates |
| Compiler.CollectOrder | old/PyLog-2.1.2/pylog.py:926-934 | the collected names come out in the order of their first occurrence |
| Compiler.CompileTerm | old/PyLog-2.1.2/pylog.py:1040-1107 | a compiled term's variables are its named cells or anonymous cells numbered from `k`; exactly as many anonymous cells are handed out as the tree has `_` occurrences, and each of them occurs exactly once in the term |
| Compiler.CompileTerms | old/PyLog-2.1.2/pylog.py:985-990 | an argument list compiles term by term into as many terms, with all variables in scope and one fresh cell per `_`, each occurring once |
| Compiler.CompileTermInverse | old/PyLog-2.1.2/pylog.py:1040-1107 | reading a compiled term back gives the syntax tree, so compiling loses only the identity of anonymous variables |
| Compiler.CompileTermsInverse | old/PyLog-2.1.2/pylog.py:985-990 | the same for argument lists |
| Compiler.Disjuncts | old/PyLog-2.1.2/pylog.py:947-952 | one goal per disjunct of the generated text (a count only) |
| Compiler.Paren | old/PyLog-2.1.2/pylog.py:958 | a parenthesised text is well formed |
| Compiler.Prim | old/PyLog-2.1.2/pylog.py:1071-1084 | a single goal is well formed code |
| Compiler.AndCode | old/PyLog-2.1.2/pylog.py:954-959 | `a & b` joins the last disjunct of `a` with the first of `b`, since `&` binds tighter than Python's or-bar |
| Compiler.OrCode | old/PyLog-2.1.2/pylog.py:947-952 | joining `a` and `b` with Python's or-bar keeps the disjuncts of both |
| Compiler.ExprCode | old/PyLog-2.1.2/pylog.py:947-1038 | a body's code is well formed and numbers anonymous variables only upward (shape only; `CodeLaws.ExprCodeModesAgree` relates what the two versions run) |
| Compiler.OrItemsCode | old/PyLog-2.1.2/pylog.py:947-952 | the code of a disjunction is well formed (shape only) |
| Compiler.AndItemsCode | old/PyLog-2.1.2/pylog.py:954-959 | the code of a conjunction is a single disjunct, since each item is parenthesised (shape only) |
| Predicates.CompileRule | old/PyLog-2.1.2/pylog.py:935-945 | a rule's head has one term per argument, all inside the cells its instance allocates |
| Predicates.CompileClauses | old/PyLog-2.1.2/pylog.py:904-906 | one clause per rule, in order, with a width covering each |
| Predicates.CompilePred | old/PyLog-2.1.2/pylog.py:894-908 | the arity is the first rule's; one clause per rule; every head variable is inside the instance's width |
| Predicates.Names | old/PyLog-2.1.2/pylog.py:883-893 | the name of each rule, in order |
| Predicates.Named | old/PyLog-2.1.2/pylog.py:890 | the rules with a given name, exactly |
| Predicates.Others | old/PyLog-2.1.2/pylog.py:891 | the other rules, exactly; together with `Named` a permutation of the input |
| Predicates.Group | old/PyLog-2.1.2/pylog.py:886-893 | every group is non-empty |
| Predicates.GroupSpec | old/PyLog-2.1.2/pylog.py:886-893 | the groups come out in the order of each name's first occurrence, and the `i`-th holds exactly the rules of the `i`-th name, in source order |
| Predicates.GroupPartition | old/PyLog-2.1.2/pylog.py:886-893 | every rule lands in exactly one group, the one of its name |
| Predicates.RemoveSnoc | old/PyLog-2.1.2/pylog.py:891 | removing a name from a list with one more element at the end |
| Predicates.CollectFront | old/PyLog-2.1.2/pylog.py:926-934 | the first name collected is the first seen, and the rest are the collection of the remaining names |
| Predicates.CollectSnoc | old/PyLog-2.1.2/pylog.py:926-934 | collecting one more name adds it at the end exactly when it is new |
| Predicates.ProgramOfLookup | old/PyLog-2.1.2/pylog.py:886-893 | the compiled program defines exactly the group names, each bound to its group's predicate |
| Predicates.CompileProgramSpec | old/PyLog-2.1.2/pylog.py:883-908 | the program has one predicate per rule name, compiled from exactly the rules of that name, in source order |
| Desugar.NegCompiles | old/PyLog-2.1.2/pylog.py:1034-1038 | `\+ G` compiles to `Or(And(G, cut, fail), true)` when `G` is a single disjunct, and always with the parentheses added |
| Desugar.NegFixedIff | old/PyLog-2.1.2/pylog.py:1034-1038 | the corrected negation succeeds once, binding nothing, exactly when `G` has no solution |
| Desugar.IfThenCompiles | old/PyLog-2.1.2/pylog.py:961-968 | `C -> T ; E` on its own compiles to `Or(And(C, cut, T), E)` |
| Desugar.TrueOrFailCode | old/PyLog-2.1.2/pylog.py:947-959 | `(true ; fail)` compiles to the two disjuncts `true` and `fail` |
| Desugar.NegTrueOrFailWritten | old/PyLog-2.1.2/pylog.py:1034-1038 | the goal the code as written builds for `\+ (true ; fail)` |
| Desugar.NegTrueOrFailFixed | old/PyLog-2.1.2/pylog.py:1034-1038 | with the parentheses added it builds the negation of `true ; fail` |
| Desugar.NegPrecedenceAsWritten | old/PyLog-2.1.2/pylog.py:1034-1038 | as written, `\+ (true ; fail)` succeeds twice |
| Desugar.NegOfTrueOrFail | old/PyLog-2.1.2/pylog.py:1034-1038 | the negation shape applied to `true ; fail` fails |
| Desugar.NegPrecedenceFixed | old/PyLog-2.1.2/pylog.py:1034-1038 | with the parentheses added, `\+ (true ; fail)` fails |
| Desugar.NegPrecedence | old/PyLog-2.1.2/pylog.py:1034-1038 | the two halves side by side |
| Desugar.TrivialIteCode | old/PyLog-2.1.2/pylog.py:961-968 | `true -> true ; true` compiles to the disjuncts `true & cut & true` and `true` |
| Desugar.FailOrIteBuilt | old/PyLog-2.1.2/pylog.py:947-968 | the goals built for `fail ; true -> true ; true` as written and with the parentheses added |
| Desugar.CaughtCutTwice | old/PyLog-2.1.2/pylog.py:267-273 | `Or(Or(fail, And(And(true, cut), true)), true)` succeeds twice, since the inner `Or` catches the cut |
| Desugar.FailOrIteOnce | old/PyLog-2.1.2/pylog.py:961-968 | `fail` or-ed with the if-then-else shape of `true -> true ; true` succeeds once |
| Desugar.IteInOrAsWritten | old/PyLog-2.1.2/pylog.py:947-968 | as written, `fail ; true -> true ; true` succeeds twice |
| Desugar.IteInOrFixed | old/PyLog-2.1.2/pylog.py:947-968 | with each disjunct parenthesised, the same goal succeeds once |
| Desugar.IteInOrPrecedence | old/PyLog-2.1.2/pylog.py:947-968 | the two halves side by side |
| CodeLaws.NoCutNoPrune | old/PyLog-2.1.2/pylog.py:251-264 | a goal with no `cut` object never ends by a cut |
| CodeLaws.DisjunctsAppend | old/PyLog-2.1.2/pylog.py:947-952 | joining two texts with an or-bar joins their lists of disjuncts |
| CodeLaws.CodeGoalNoCut | old/PyLog-2.1.2/pylog.py:947-959 | code without a `cut` evaluates to goals without one |
| CodeLaws.ExprCodeNoCut | old/PyLog-2.1.2/pylog.py:947-1038 | in either version, the code of a body without `!`, `->` or `\+` holds no `cut` |
| CodeLaws.OrChainAppend | old/PyLog-2.1.2/pylog.py:267-273 | without a cut, the or-bar over a list of goals runs them one after another however the list is grouped: `(a \| b) \| c` and `a \| (b \| c)` yield the same stream |
| CodeLaws.OrCodeRuns | old/PyLog-2.1.2/pylog.py:947-952 | the text `a \| b` without a cut runs `a`'s goal, then `b`'s unless `a` raised or ran out |
| CodeLaws.OrPairRuns | old/PyLog-2.1.2/pylog.py:267-273 | two goals without a cut joined by the or-bar run one after the other |
| CodeLaws.OrCodeCongruent | old/PyLog-2.1.2/pylog.py:947-952 | the text `a \| b` without a cut runs alike when `a` and `b` are replaced by code that runs alike |
| CodeLaws.AndEachCongruent | old/PyLog-2.1.2/pylog.py:260-264 | continuing solutions with goals that run alike from every environment gives the same stream |
| CodeLaws.AndPairCongruent | old/PyLog-2.1.2/pylog.py:256-264 | `a & b` runs alike when `a` and `b` are replaced by goals that run alike |
| CodeLaws.AndChainCongruent | old/PyLog-2.1.2/pylog.py:954-959 | an `&`-chain runs alike when each item is replaced by one that runs alike |
| CodeLaws.SoftCutCongruent | old/PyLog-2.1.2/pylog.py:1271-1286 | a soft-cut runs alike when its three parts are replaced by goals that run alike |
| CodeLaws.ExprCodeModesAgree | old/PyLog-2.1.2/pylog.py:947-1038 | on a body without `!`, `->` or `\+`, the code as written and the code with the parentheses added number anonymous variables alike and run alike from every environment |
| CodeLaws.OrItemsModesAgree | old/PyLog-2.1.2/pylog.py:947-952 | the same for the items of a disjunction, parenthesised or not |
| CodeLaws.AndItemsModesAgree | old/PyLog-2.1.2/pylog.py:954-959 | the same, item by item, for the items of a conjunction |
| Modes.UnifyAsWrittenMode | old/PyLog-2.1.2/pylog.py:179-226 | run through the engine as written, `f(V, W, V) = f(g(a), V, W)` succeeds once and leaves the two sides standing for different trees |
| Modes.UnifyFixedMode | old/PyLog-2.1.2/pylog.py:276-284 | in the corrected mode, a `unify` goal on an acyclic store ends normally with at most one solution, in which the two sides stand for the same tree |
| Modes.CallUnify | old/PyLog-2.1.2/pylog.py:276-284 | a call of `unify` that no predicate shadows runs the unification goal |
| Modes.UnifyAsWritten | old/PyLog-2.1.2/pylog.py:276-284 | as written, `unify` with a unifier that applies yields the store it leaves, once |
| Modes.GroundModes | old/PyLog-2.1.2/pylog.py:1207-1220 | through the engine, with `Y = g(Z)` and `Z` free, `is_ground(f(Y))` succeeds as written and fails in the corrected mode |
| Modes.EqModes | old/PyLog-2.1.2/pylog.py:1225-1251 | through the engine, with `X = 1`, `f(X) == f(1)` fails as written and succeeds in the corrected mode |
| Modes.EqSelfModes | old/PyLog-2.1.2/pylog.py:1225-1251 | through the engine, with `T = f(X)` and `X = 1`, `T == T` and `f(X) == f(X)` succeed and `T @< T` fails, in both modes |
| Modes.FunctorModes | old/PyLog-2.1.2/pylog.py:1301-1306 | through the engine, `functor(f(a), f, 1)` fails as written and succeeds once in the corrected mode |
| Modes.ArgModes | old/PyLog-2.1.2/pylog.py:1321-1327 | through the engine, `arg(0, f(a, b), X)` gives `X = b` as written and fails in the corrected mode |
| Modes.SetArgModes | old/PyLog-2.1.2/pylog.py:1333-1340 | through the engine, `setarg(0, T, x)` with `T = f(a, b)` overwrites the last argument as written and fails in the corrected mode |
| Parser.ParseTerm | old/PyLog-2.1.2/pylog.py:499-557 | TERM consumes at least one token and builds a term whose written compounds have arguments |
| Parser.ParseArgs | old/PyLog-2.1.2/pylog.py:473-497 | ARGS never fails and never consumes more than it is given |
| Parser.ParseList | old/PyLog-2.1.2/pylog.py:839-848 | LIST never fails |
| Parser.ParseSList | old/PyLog-2.1.2/pylog.py:850-870 | SLIST never fails |
| Parser.ParseInfix | old/PyLog-2.1.2/pylog.py:741-800 | an infix form consumes tokens and builds a well-formed goal |
| Parser.ParseAtom | old/PyLog-2.1.2/pylog.py:741-837 | ATOM_EXPR consumes tokens and builds a well-formed goal |
| Parser.ParseAnd | old/PyLog-2.1.2/pylog.py:725-739 | AND_EXPR builds a non-empty conjunction |
| Parser.ParseIfThen | old/PyLog-2.1.2/pylog.py:685-723 | IF_THEN_EXPR builds a well-formed goal |
| Parser.ParseElse | old/PyLog-2.1.2/pylog.py:685-723 | the else part never fails |
| Parser.ParseExpr | old/PyLog-2.1.2/pylog.py:665-683 | EXPR builds a non-empty disjunction |
| Parser.ParseRule | old/PyLog-2.1.2/pylog.py:459-471 | RULE consumes tokens and builds a rule with a well-formed body |
| Parser.ParseStart | old/PyLog-2.1.2/pylog.py:446-457 | START never fails and every rule it returns has a well-formed body |
| ParserLaws.TermToken | old/PyLog-2.1.2/pylog.py:499-557 | a variable, `_`, a string or an integer reads back as itself |
| ParserLaws.TermRoundTrip | old/PyLog-2.1.2/pylog.py:499-557 | every printable term reads back as itself, leaving the rest |
| ParserLaws.NilRoundTrip | old/PyLog-2.1.2/pylog.py:839-848 | `[]` reads as `_Nil` |
| ParserLaws.CompoundRoundTrip | old/PyLog-2.1.2/pylog.py:499-557 | a compound with arguments reads back as itself |
| ParserLaws.ConsRoundTrip | old/PyLog-2.1.2/pylog.py:839-870 | a list cell reads back as itself |
| ParserLaws.ArgsRoundTrip | old/PyLog-2.1.2/pylog.py:473-497 | ARGS reads back the argument list it is given |
| ParserLaws.CommaTermsRoundTrip | old/PyLog-2.1.2/pylog.py:473-497 | the `, TERM` loop reads back every term |
| ParserLaws.SListItems | old/PyLog-2.1.2/pylog.py:850-870 | SLIST reads back the items and the tail of a list |
| ParserLaws.ListRoundTrip | old/PyLog-2.1.2/pylog.py:839-870 | `[a, b]` reads as nested `_List` ending in `_Nil`, and `[a, b` followed by a tail part `T]` as nested `_List` ending in `T` |
| ParserLaws.EmptyParens | old/PyLog-2.1.2/pylog.py:473-497 | ARGS reads `()` as no arguments and consumes it |
| ParserLaws.NameTerm | old/PyLog-2.1.2/pylog.py:509-518 | a name with no argument list, or with `()`, reads as an atom |
| ParserLaws.ArgsUnclosed | old/PyLog-2.1.2/pylog.py:473-497 | an argument list without `)` gives back the tokens from `(` on, with the arguments read so far |
| GoalLaws.InfixNone | old/PyLog-2.1.2/pylog.py:741-800 | when TERM fails or no operator follows it, no infix form matches |
| GoalLaws.InfixPicks | old/PyLog-2.1.2/pylog.py:741-800 | `l op r` reads as the comparison with that operator, whatever its place in the order |
| GoalLaws.EveryOpListed | old/PyLog-2.1.2/pylog.py:742 | every infix operator is in the order tried |
| GoalLaws.AtomToken | old/PyLog-2.1.2/pylog.py:800-825 | `!`, `true` and `fail` read as themselves |
| GoalLaws.AtomCall | old/PyLog-2.1.2/pylog.py:741-837 | a call reads as a call, not as the left side of a comparison |
| GoalLaws.CallEmptyArgs | old/PyLog-2.1.2/pylog.py:741-837 | `foo()` as a goal is the call `foo` with no arguments |
| GoalLaws.AtomRoundTrip | old/PyLog-2.1.2/pylog.py:741-837 | every ATOM_EXPR result reads back as itself |
| GoalLaws.AndRoundTrip | old/PyLog-2.1.2/pylog.py:725-739 | every conjunction reads back as itself |
| GoalLaws.CommaAtomsRoundTrip | old/PyLog-2.1.2/pylog.py:725-739 | the `, ATOM_EXPR` loop reads back every item |
| GoalLaws.ItemRoundTrip | old/PyLog-2.1.2/pylog.py:685-723 | every IF_THEN_EXPR result reads back as itself |
| GoalLaws.ArrowRoundTrip | old/PyLog-2.1.2/pylog.py:685-723 | an if-then-else or soft-cut reads back as itself |
| GoalLaws.ElseRoundTrip | old/PyLog-2.1.2/pylog.py:685-723 | the else part reads back, and a missing one is `fail` |
| GoalLaws.OrRoundTrip | old/PyLog-2.1.2/pylog.py:665-683 | every disjunction reads back as itself |
| GoalLaws.SemiItemsRoundTrip | old/PyLog-2.1.2/pylog.py:665-683 | the `; IF_THEN_EXPR` loop reads back every item |
| GoalLaws.RuleFact | old/PyLog-2.1.2/pylog.py:459-471 | a rule without `:-` is a fact whose body is `true` |
| GoalLaws.RuleBody | old/PyLog-2.1.2/pylog.py:459-471 | a rule with `:-` has the parsed body |
| GoalLaws.RuleRoundTrip | old/PyLog-2.1.2/pylog.py:459-471 | every rule reads back as itself |
| GoalLaws.StartRoundTrip | old/PyLog-2.1.2/pylog.py:446-457 | START reads back a sequence of rules and stops where no rule parses |
| GoalLaws.ProgramRoundTrip | old/PyLog-2.1.2/pylog.py:446-457 | a printed program reads back whole, to the end |
| Library.LessTransitive | old/PyLog-2.1.2/pylog.py:1225-1251 | `@<` chained with `@=<` is `@<` |
| Library.SortSplit | old/PyLog-2.1.2/pylog.py:1734-1747 | `zz_sort_split` sends elements below the pivot to one part and above to the other, drops those equal to it, and loses nothing else |
| Library.ZzSort | old/PyLog-2.1.2/pylog.py:1718-1733 | `zz_sort` gives a strictly ascending list of exactly the input's elements |
| Library.JoinStrict | old/PyLog-2.1.2/pylog.py:1718-1733 | the sorted parts around the pivot form a strictly ascending list |
| Library.StrictUnique | old/PyLog-2.1.2/pylog.py:1709-1733 | a strictly ascending list is determined by its elements |
| Library.SortIdempotent | old/PyLog-2.1.2/pylog.py:1709-1733 | sorting a sorted list changes nothing, and sorting twice is sorting once |
| Library.MsortSplit | old/PyLog-2.1.2/pylog.py:1774-1786 | `zz_msort_split` sends elements below the pivot to one part and the rest to the other, losing nothing |
| Library.ZzMsort | old/PyLog-2.1.2/pylog.py:1758-1773 | `zz_msort` gives an ascending permutation of the input |
| Library.MsortJoin | old/PyLog-2.1.2/pylog.py:1758-1773 | the sorted parts around the pivot form an ascending permutation |
| Library.JoinAscending | old/PyLog-2.1.2/pylog.py:1758-1773 | the sorted parts around the pivot form an ascending list |
| Library.AscendingUnique | old/PyLog-2.1.2/pylog.py:1749-1773 | an ascending list is determined by its multiset of elements |
| Library.MsortLaws | old/PyLog-2.1.2/pylog.py:1709-1773 | `msort` of a sorted list changes nothing, keeps the length, and `sort` of it is `sort` of the input |
| Library.SortList | old/PyLog-2.1.2/pylog.py:1709-1717 | on a proper list, `sort/2` gives the strictly ascending list of exactly its resolved items; on anything else the model gives no answer |
| Library.MsortList | old/PyLog-2.1.2/pylog.py:1749-1757 | on a proper list, `msort/2` gives an ascending permutation of its resolved items; on anything else the model gives no answer |

## Left out

- The regular-expression lexer and the parser runtime it comes with are not modelled. Parsing works on an abstract token sequence.
- The grammar for host-language objects (OBJECT, SOBJECT, OBJECTS, INDICE, IDENT) and its syntax nodes are not modelled. They resolve host names.
- Floating-point values are not modelled: the `floating` token, `_Floating`, `is_float`, and the float branch of `is_number`.
- Emitting Python source text and running it with `exec` is not modelled. The compiler builds the predicate units the text would evaluate to when every term functor names a term class in scope.
- Printing is not modelled: every `__str__`, `_PyLogObject_str` and `_strlist`.
- `repeat` is left out. It is an infinite stream of successes.
- The `--build` tag parser, file I/O, the install and setup scripts, and the demos are outside the engine.
- The list and set predicates of the library other than `sort` and `msort` are not modelled. They are compiled clauses like any other, and `sort` and `msort` stand for them.
- `_termdef` holds Python classes. It is modelled as a registry mapping each name to one arity, while a class `class f(Term): pass` accepts any number of arguments (old/PyLog-2.1.2/pylog.py:67).
- Python 2's cross-type `cmp` between payloads is fixed as symbols < integers < strings, a concrete total order.
- `Var.__cmp__` compares variables by name. The model compares them by cell id, which presumes distinct names for distinct cells.
- `mgu`'s `done` dict hashes its pairs by object identity. The model tests `done` with structural equality. The test `in stack` is modelled as written: a stacked pair matches when each side is identical or equal under `__cmp__`. The corrected loop tests the stack with structural equality.
- The list comparison inside `Term.__cmp__` skips identical objects; `Order.ArgsAsWritten` skips equal values instead. The two agree: equal variables are one cell, and equal atoms or compound terms that are distinct objects compare equal under `__cmp__` anyway.
- The unifier is a Python dict, so the order in which `unify` applies its bindings follows hashing. The model applies them in insertion order.
- Evaluation is bounded by a fuel count of predicate calls. A stream cut short by it ends with `OutOfFuel`, and no law claims anything about such streams beyond what they state.
- `setarg` mutates the compound in place, and every term sharing that object sees the change. The model can update only a compound reached through a variable cell (`Primitives.SetArgThenArg`). A compound written directly into a goal is copied.
- The parser does not check that the input ends after the last rule. It stops where no rule parses, and so does the model.
- `Compiler.CompileTermInverse` requires that no term class in the syntax tree is named `cons` or `nil`. Otherwise a compound and a list cell compile to the same term.
- The laws about the trail (`EngineLaws.TrailAgrees`) assume an acyclic store. Unification without an occurs check can build a cycle, and then they say nothing.
- Engine.Eval: when a cut abandons a generator, the source never runs the restore code that follows its `yield`, so the bindings it made leak into the alternatives tried after the cut is caught. This holds for `unify` (old/PyLog-2.1.2/pylog.py:251-254, 276-284), for every call of a user predicate, whose `u.undo()` (old/PyLog-2.1.2/pylog.py:922) runs only when the clause loop ends normally, for `functor`, `arg` and `=..` (old/PyLog-2.1.2/pylog.py:1300, 1306, 1321, 1327, 1352, 1358), for the argument `setarg` overwrote (old/PyLog-2.1.2/pylog.py:1340) and for `between`, `succ` and `plus` (old/PyLog-2.1.2/pylog.py:1375, 1392, 1398, 1412, 1418, 1423). So `(\+ Y = 1 ; true)` answers with `Y = 1`, and with the clause `p(1).` the goal `(\+ p(Y) ; Y = 2)` has no answer, since `Y` stays bound to 1; every `\+` over a goal that binds is affected. The model restarts every alternative and every clause from the store it was called with, so it answers `Y` free and `Y = 2` there.
- Compiler.CompileTerm: presumes that every term functor names a term class in scope. The emitted `f(...)` is resolved by name when the code runs (old/PyLog-2.1.2/pylog.py:1044, 905). An unknown name raises `NameError`. A name that is a predicate or a primitive builds a goal object instead, which `Term.__init__` wraps as an atom (old/PyLog-2.1.2/pylog.py:22-24, 67). The model builds a compound term with that name in both cases, and `Engine.Builds` checks only goal names.
- Unify.MguSound: states agreement only at the top, because the loop as written is unsound (see "Findings"). Full soundness is proved for the corrected loop, `UnifyFixed.MguFixedSound`. Completeness is stated only for terms that already dereference alike and, in the corrected mode, for terms without variables (`UnifyFixed.MguFixedGround`).
- Primitives.UnifyGoalSound: in the written mode it promises only agreement at the top, for the reason given under `Unify.MguSound`; in the corrected mode it promises the same tree. `Modes.UnifyAsWrittenMode` runs the failing case through the engine.
- Library.SortList: answers only on a proper list. On a free or partial list the source's `zz_sort` clauses for the empty and the one-element list bind the list and succeed, and the model gives no answer. It compares resolved items with the corrected order, while `zz_sort_split` applies `__cmp__` as written; the two agree on a store with no bindings (`Order.AsWrittenAgreesWithoutBindings`). It is stated directly, not derived by running the library's clauses through `Engine.Eval`.
- Library.MsortList: the same as `Library.SortList`, for `zz_msort` and `zz_msort_split`.
- Primitives.RunEach: a reference definition of a `for` loop over independent attempts. It carries no contract of its own. `Primitives.RunEachBounds` and `Primitives.RunEachAll` state what it computes, and `Primitives.ArgEnum` is defined through it.

## Findings

| source | as written | input that shows it | evidently intended | confidence | as-written member | corrected member |
|---|---|---|---|---|---|---|
| old/PyLog-2.1.2/pylog.py:186-193 | `update` records only the first term a variable meets, and later pushes `(u[v], t)` without looking through the other records, so two variables recorded against each other never take the term one of them also meets | `f(V, W, V) = f(g(a), V, W)` | `V = W = g(a)` | high, not executed | UnifyFixed.MguAsWrittenUnsound | UnifyFixed.MguFixedSound |
| old/PyLog-2.1.2/pylog.py:1034-1038 | `_Neg.genCode` emits `G & cut & fail`, an or-bar, then `true`, without parentheses around `G`, so an or-bar inside `G` binds looser than the `&` | `\+ (true ; fail)` | the negation fails, since `true ; fail` has a solution | high, not executed | Desugar.NegPrecedenceAsWritten | Desugar.NegPrecedenceFixed |
| old/PyLog-2.1.2/pylog.py:947-968 | `_Or_expr.genCode` joins items with an unparenthesised or-bar, and `_IfThen_expr.genCode` emits one too, so an if-then-else after another item regroups and its cut is caught by the inner `Or` | `fail ; true -> true ; true` | one solution, by the then branch | high, not executed | Desugar.IteInOrAsWritten | Desugar.IteInOrFixed |
| old/PyLog-2.1.2/pylog.py:1321-1327 | `arg` indexes `t.getarg(a.obj-1)` with no range check, and Python lists accept negative indexes | `arg(0, f(a, b), X)` | no solution | high, not executed | Primitives.ArgAsWrittenWraps | Primitives.ArgOutOfRange |
| old/PyLog-2.1.2/pylog.py:1333-1340 | `setarg` replaces position `a.obj-1` with no range check | `setarg(0, T, x)` with `T = f(a, b)` | no solution | high, not executed | Primitives.SetArgAsWrittenWraps | Primitives.SetArg |
| old/PyLog-2.1.2/pylog.py:1207-1220 | `is_ground` dereferences only the top term; a bound variable among the arguments is neither free nor a `Term`, so what it is bound to is never examined | `Y = g(Z), is_ground(f(Y))` | no solution, since `Z` is free | high, not executed | Primitives.GroundAsWrittenMissesNested | Modes.GroundModes |
| old/PyLog-2.1.2/pylog.py:71-78 | `Term.__cmp__` dereferences `other` but compares the argument lists with Python's `cmp`, which dereferences only the right-hand argument at each level | `X = 1, f(X) == f(1)` | success, as for `f(1) == f(X)` | high, not executed | Order.AsWrittenNotAntisymmetric | Order.StandardOrderTotal |
| old/PyLog-2.1.2/pylog.py:1301-1306 | `functor` on a compound unifies `Name` with the class name as a plain string, while the other branch and `=..` use an `atom` symbol | `functor(f(a), f, 1)` | success | medium, not executed | Primitives.FunctorAsWrittenMisses | Primitives.FunctorOfCompound |

=== FILE: ast.dfy ===
/** The syntax tree the parser builds: terms (`_Var`, `_AnonymousVar`,
    `_Atom`, `_Term`, `_List`, `_Nil`, `_String`, `_Integer`), clause bodies
    (`_Or_expr`, `_And_expr`, `_IfThen_expr`, `_SoftCut`, `_Call`, the
    comparison nodes, `_Cut`, `_True`, `_Fail`, `_Neg`) and rules. */
module Ast {
  datatype TermAst =
    | AVar(name: string)
    | AAnon
    | AAtom(name: string)
    | ATerm(name: string, args: seq<TermAst>)
    | AList(head: TermAst, tail: TermAst)
    | ANil
    | AString(text: string)
    | AInt(value: int)

  /** The infix goal forms, in the order the parser tries them. */
  datatype CompOp = UnivOp | EqOp | NeOp | UnifyOp | NotUnifyOp | LeOp | LtOp | GeOp | GtOp

  datatype Expr =
    | OrExpr(items: seq<Expr>)
    | AndExpr(items: seq<Expr>)
    | IfThen(cond: Expr, thenExpr: Expr, elseExpr: Expr)
    | SoftExpr(cond: Expr, thenExpr: Expr, elseExpr: Expr)
    | CallExpr(name: string, args: seq<TermAst>)
    | CompExpr(op: CompOp, left: TermAst, right: TermAst)
    | CutExpr
    | TrueExpr
    | FailExpr
    | NegExpr(arg: Expr)

  datatype Rule = Rule(name: string, args: seq<TermAst>, body: Expr)

  /** Every `_Or_expr` and `_And_expr` has at least one item, as the parser
      guarantees. */
  predicate WellFormed(x: Expr)
    decreases x
  {
    match x
    case OrExpr(items) => |items| > 0 && forall i :: 0 <= i < |items| ==> WellFormed(items[i])
    case AndExpr(items) => |items| > 0 && forall i :: 0 <= i < |items| ==> WellFormed(items[i])
    case IfThen(c, t, e) => WellFormed(c) && WellFormed(t) && WellFormed(e)
    case SoftExpr(c, t, e) => WellFormed(c) && WellFormed(t) && WellFormed(e)
    case NegExpr(a) => WellFormed(a)
    case _ => true
  }
}

=== FILE: code_laws.dfy ===
/** What the missing parentheses of the compiler change, and what they do
    not. On a body with no `!`, no `->` and no `\+`, the code as written
    and the corrected code run alike: without a cut an or-bar regrouped
    one way or the other yields the same stream, so the two findings
    about `genCode` show up only around a cut. */
module CodeLaws {
  import opened Goals
  import opened Primitives
  import opened Ast
  import opened Engine
  import opened EngineLaws
  import opened Compiler

  /** No `!`, `->` or `\+` anywhere in the body: the constructs whose code
      holds a `cut`. */
  predicate CutFree(x: Expr)
    decreases x
  {
    match x
    case OrExpr(items) => forall i :: 0 <= i < |items| ==> CutFree(items[i])
    case AndExpr(items) => forall i :: 0 <= i < |items| ==> CutFree(items[i])
    case SoftExpr(c, t, el) => CutFree(c) && CutFree(t) && CutFree(el)
    case CallExpr(_, _) => true
    case CompExpr(_, _, _) => true
    case TrueExpr => true
    case FailExpr => true
    case _ => false
  }

  /** No `cut` object anywhere in the goal. */
  predicate NoCut(g: Goal)
    decreases g
  {
    match g
    case Cut => false
    case And(gs) => forall i :: 0 <= i < |gs| ==> NoCut(gs[i])
    case Or(gs) => forall i :: 0 <= i < |gs| ==> NoCut(gs[i])
    case SoftCut(c, t, el) => NoCut(c) && NoCut(t) && NoCut(el)
    case _ => true
  }

  predicate AllNoCut(gs: seq<Goal>) {
    forall i :: 0 <= i < |gs| ==> NoCut(gs[i])
  }

  predicate CodeNoCut(c: Code) {
    forall i :: 0 <= i < |c| ==> AllNoCut(c[i])
  }

  /** A goal without a `cut` never ends its stream by one. */
  lemma {:induction false} NoCutNoPrune(g: Goal)
    requires NoCut(g)
    ensures !MayPrune(g)
    decreases g
  {
    match g
    case And(gs) =>
      forall i | 0 <= i < |gs| ensures !MayPrune(gs[i]) {
        NoCutNoPrune(gs[i]);
      }
    case SoftCut(c, t, el) =>
      NoCutNoPrune(c);
      NoCutNoPrune(t);
      NoCutNoPrune(el);
    case _ =>
  }

  lemma {:induction false} AndChainNoCut(gs: seq<Goal>)
    requires |gs| > 0 && AllNoCut(gs)
    ensures NoCut(AndChain(gs))
    decreases |gs|
  {
    if |gs| > 1 {
      AndChainNoCut(gs[..|gs| - 1]);
    }
  }

  lemma {:induction false} OrChainNoCut(gs: seq<Goal>)
    requires |gs| > 0 && AllNoCut(gs)
    ensures NoCut(OrChain(gs))
    decreases |gs|
  {
    if |gs| > 1 {
      OrChainNoCut(gs[..|gs| - 1]);
    }
  }

  /** The `i`-th goal of the text is the `&`-chain of its `i`-th disjunct. */
  lemma {:induction false} DisjunctsAt(c: Code, i: nat)
    requires forall j :: 0 <= j < |c| ==> |c[j]| > 0
    requires i < |c|
    ensures Disjuncts(c)[i] == AndChain(c[i])
    decreases i
  {
    if i > 0 {
      DisjunctsAt(c[1..], i - 1);
    }
  }

  /** Joining two texts with an or-bar joins their lists of disjuncts. */
  lemma {:induction false} DisjunctsAppend(a: Code, b: Code)
    requires forall j :: 0 <= j < |a| ==> |a[j]| > 0
    requires forall j :: 0 <= j < |b| ==> |b[j]| > 0
    ensures Disjuncts(a + b) == Disjuncts(a) + Disjuncts(b)
    decreases |a|
  {
    if |a| == 0 {
      assert a + b == b;
    } else {
      assert (a + b)[1..] == a[1..] + b;
      DisjunctsAppend(a[1..], b);
    }
  }

  /** Code without a `cut` evaluates to goals without one. */
  lemma {:induction false} CodeGoalNoCut(c: Code)
    requires CodeOk(c) && CodeNoCut(c)
    ensures AllNoCut(Disjuncts(c)) && NoCut(CodeGoal(c))
  {
    forall i | 0 <= i < |c| ensures NoCut(Disjuncts(c)[i]) {
      DisjunctsAt(c, i);
      AndChainNoCut(c[i]);
    }
    OrChainNoCut(Disjuncts(c));
  }

  /** `(c)` and a one-goal text evaluate to what their goal does. */
  lemma {:induction false} PrimGoal(g: Goal)
    ensures CodeGoal(Prim(g)) == g
  {
    assert Disjuncts([[g]]) == [AndChain([g])] + Disjuncts([]);
  }

  lemma {:induction false} ParenSame(c: Code)
    requires CodeOk(c)
    ensures Paren(c) == Prim(CodeGoal(c)) && CodeGoal(Paren(c)) == CodeGoal(c)
  {
    PrimGoal(CodeGoal(c));
  }

  lemma {:induction false} AndCodeNoCut(a: Code, b: Code)
    requires CodeOk(a) && CodeOk(b) && CodeNoCut(a) && CodeNoCut(b)
    ensures CodeNoCut(AndCode(a, b))
  {
    var r := AndCode(a, b);
    forall i | 0 <= i < |r| ensures AllNoCut(r[i]) {
      if i < |a| - 1 {
        assert r[i] == a[i];
      } else if i > |a| - 1 {
        assert r[i] == b[i - |a| + 1];
      } else {
        assert r[i] == a[|a| - 1] + b[0];
        assert AllNoCut(a[|a| - 1]) && AllNoCut(b[0]);
      }
    }
  }

  lemma {:induction false} OrCodeNoCut(a: Code, b: Code)
    requires CodeOk(a) && CodeOk(b) && CodeNoCut(a) && CodeNoCut(b)
    ensures CodeNoCut(OrCode(a, b))
  {
    var r := OrCode(a, b);
    forall i | 0 <= i < |r| ensures AllNoCut(r[i]) {
      if i < |a| {
        assert r[i] == a[i];
      } else {
        assert r[i] == b[i - |a|];
      }
    }
  }

  /** In either version, the code of a body without `!`, `->` or `\+` holds
      no `cut`. */
  lemma {:induction false} ExprCodeNoCut(x: Expr, names: seq<string>, k: nat, fixed: bool)
    requires WellFormed(x) && Covers(names, ExprNames(x)) && k >= |names| && CutFree(x)
    ensures CodeNoCut(ExprCode(x, names, k, fixed).0)
    decreases x, 1
  {
    if x.OrExpr? {
      OrItemsNoCut(x.items, names, k, fixed);
    } else if x.AndExpr? {
      AndItemsNoCut(x.items, names, k, fixed);
    } else if x.SoftExpr? {
      var c, t, el := x.cond, x.thenExpr, x.elseExpr;
      CoversSplit(names, ExprNames(c) + ExprNames(t), ExprNames(el));
      CoversSplit(names, ExprNames(c), ExprNames(t));
      var (cc, k1) := ExprCode(c, names, k, fixed);
      var (tc, k2) := ExprCode(t, names, k1, fixed);
      var ec := ExprCode(el, names, k2, fixed).0;
      ExprCodeNoCut(c, names, k, fixed);
      ExprCodeNoCut(t, names, k1, fixed);
      ExprCodeNoCut(el, names, k2, fixed);
      CodeGoalNoCut(cc);
      CodeGoalNoCut(tc);
      CodeGoalNoCut(ec);
    }
  }

  lemma {:induction false} OrItemsNoCut(items: seq<Expr>, names: seq<string>, k: nat, fixed: bool)
    requires |items| > 0
    requires forall i :: 0 <= i < |items| ==> WellFormed(items[i]) && CutFree(items[i])
    requires Covers(names, ExprsNames(items)) && k >= |names|
    ensures CodeNoCut(OrItemsCode(items, names, k, fixed).0)
    decreases items, 0
  {
    CoversSplit(names, ExprNames(items[0]), ExprsNames(items[1..]));
    var (c0, k1) := ExprCode(items[0], names, k, fixed);
    ExprCodeNoCut(items[0], names, k, fixed);
    CodeGoalNoCut(c0);
    var c := if fixed then Paren(c0) else c0;
    if |items| > 1 {
      OrItemsNoCut(items[1..], names, k1, fixed);
      OrCodeNoCut(c, OrItemsCode(items[1..], names, k1, fixed).0);
    }
  }

  lemma {:induction false} AndItemsNoCut(items: seq<Expr>, names: seq<string>, k: nat, fixed: bool)
    requires |items| > 0
    requires forall i :: 0 <= i < |items| ==> WellFormed(items[i]) && CutFree(items[i])
    requires Covers(names, ExprsNames(items)) && k >= |names|
    ensures CodeNoCut(AndItemsCode(items, names, k, fixed).0)
    decreases items, 0
  {
    CoversSplit(names, ExprNames(items[0]), ExprsNames(items[1..]));
    var (c0, k1) := ExprCode(items[0], names, k, fixed);
    ExprCodeNoCut(items[0], names, k, fixed);
    CodeGoalNoCut(c0);
    if |items| > 1 {
      AndItemsNoCut(items[1..], names, k1, fixed);
      AndCodeNoCut(Paren(c0), AndItemsCode(items[1..], names, k1, fixed).0);
    }
  }

  // The streams of the generated goals.

  /** The stream of `o1` followed by that of `o2`, unless `o1` ended by
      an exception or ran out of fuel. */
  function Then(o1: Outcome, o2: Outcome): Outcome {
    if o1.signal == Done then Outcome(o1.sols + o2.sols, o2.signal) else o1
  }

  lemma {:induction false} ThenAssoc(a: Outcome, b: Outcome, c: Outcome)
    ensures Then(Then(a, b), c) == Then(a, Then(b, c))
  {
    if a.signal == Done && b.signal == Done {
      assert (a.sols + b.sols) + c.sols == a.sols + (b.sols + c.sols);
    }
  }

  lemma {:induction false} NoCutEval(p: Program, reg: Registry, g: Goal, e: Env, fuel: nat)
    requires NoCut(g)
    ensures Eval(p, reg, g, e, fuel).signal != Pruned
  {
    NoCutNoPrune(g);
    NoPruneEval(p, reg, g, e, fuel);
  }

  /** Without a cut, the or-bar over a list of goals yields their streams
      one after another however the list is split: `(a | b) | c` and
      `a | (b | c)` run alike. */
  lemma {:induction false} OrChainAppend(p: Program, reg: Registry, xs: seq<Goal>, ys: seq<Goal>, e: Env, fuel: nat)
    requires |xs| > 0 && |ys| > 0 && AllNoCut(xs) && AllNoCut(ys)
    ensures Eval(p, reg, OrChain(xs + ys), e, fuel) ==
      Then(Eval(p, reg, OrChain(xs), e, fuel), Eval(p, reg, OrChain(ys), e, fuel))
    decreases |ys|
  {
    var zs := xs + ys;
    var init, last := zs[..|zs| - 1], zs[|zs| - 1];
    var ys' := ys[..|ys| - 1];
    assert init == xs + ys' && last == ys[|ys| - 1];
    var rl := Eval(p, reg, last, e, fuel);
    assert Eval(p, reg, OrChain(zs), e, fuel) == Then(Eval(p, reg, OrChain(init), e, fuel), rl) by {
      assert AllNoCut(init);
      OrChainNoCut(init);
      OrPairRuns(p, reg, OrChain(init), last, e, fuel);
    }
    if |ys| > 1 {
      var rx, ry := Eval(p, reg, OrChain(xs), e, fuel), Eval(p, reg, OrChain(ys'), e, fuel);
      assert Eval(p, reg, OrChain(init), e, fuel) == Then(rx, ry) by {
        OrChainAppend(p, reg, xs, ys', e, fuel);
      }
      assert Eval(p, reg, OrChain(ys), e, fuel) == Then(ry, rl) by {
        OrChainNoCut(ys');
        OrPairRuns(p, reg, OrChain(ys'), last, e, fuel);
      }
      ThenAssoc(rx, ry, rl);
    }
  }

  /** Two goals without a cut joined by the or-bar run one after the other. */
  lemma {:induction false} OrPairRuns(p: Program, reg: Registry, a: Goal, b: Goal, e: Env, fuel: nat)
    requires NoCut(a) && NoCut(b)
    ensures Eval(p, reg, Or([a, b]), e, fuel) == Then(Eval(p, reg, a, e, fuel), Eval(p, reg, b, e, fuel))
  {
    NoCutEval(p, reg, a, e, fuel);
    NoCutEval(p, reg, b, e, fuel);
    OrOf(p, reg, a, b, e, fuel);
  }

  /** The text `a | b` without a cut runs `a`'s goal, then `b`'s. */
  lemma {:induction false} OrCodeRuns(p: Program, reg: Registry, a: Code, b: Code, e: Env, fuel: nat)
    requires CodeOk(a) && CodeOk(b) && CodeNoCut(a) && CodeNoCut(b)
    ensures Eval(p, reg, CodeGoal(OrCode(a, b)), e, fuel) ==
      Then(Eval(p, reg, CodeGoal(a), e, fuel), Eval(p, reg, CodeGoal(b), e, fuel))
  {
    DisjunctsAppend(a, b);
    CodeGoalNoCut(a);
    CodeGoalNoCut(b);
    OrChainAppend(p, reg, Disjuncts(a), Disjuncts(b), e, fuel);
  }

  // Goals that run alike from every environment stay alike in context.

  lemma {:induction false} AndEachCongruent(p: Program, reg: Registry, b: Goal, b': Goal, sols: seq<Env>, sig: Signal, fuel: nat)
    requires forall s :: Eval(p, reg, b, s, fuel) == Eval(p, reg, b', s, fuel)
    ensures AndEach(p, reg, [b], sols, sig, fuel) == AndEach(p, reg, [b'], sols, sig, fuel)
    decreases |sols|
  {
    if |sols| > 0 {
      assert [b][1..] == [] && [b'][1..] == [];
      assert AndSeq(p, reg, [b], sols[0], fuel) == AndSeq(p, reg, [b'], sols[0], fuel);
      AndEachCongruent(p, reg, b, b', sols[1..], sig, fuel);
    }
  }

  lemma {:induction false} AndPairCongruent(p: Program, reg: Registry, a: Goal, a': Goal, b: Goal, b': Goal, fuel: nat)
    requires forall s :: Eval(p, reg, a, s, fuel) == Eval(p, reg, a', s, fuel)
    requires forall s :: Eval(p, reg, b, s, fuel) == Eval(p, reg, b', s, fuel)
    ensures forall s :: Eval(p, reg, And([a, b]), s, fuel) == Eval(p, reg, And([a', b']), s, fuel)
  {
    forall s ensures Eval(p, reg, And([a, b]), s, fuel) == Eval(p, reg, And([a', b']), s, fuel) {
      AndOf(p, reg, a, b, s, fuel);
      AndOf(p, reg, a', b', s, fuel);
      var ra := Eval(p, reg, a, s, fuel);
      AndEachCongruent(p, reg, b, b', ra.sols, ra.signal, fuel);
    }
  }

  lemma {:induction false} AndChainCongruent(p: Program, reg: Registry, gs: seq<Goal>, hs: seq<Goal>, fuel: nat)
    requires |gs| == |hs| > 0
    requires forall i, s :: 0 <= i < |gs| ==> Eval(p, reg, gs[i], s, fuel) == Eval(p, reg, hs[i], s, fuel)
    ensures forall s :: Eval(p, reg, AndChain(gs), s, fuel) == Eval(p, reg, AndChain(hs), s, fuel)
    decreases |gs|
  {
    if |gs| > 1 {
      var n := |gs| - 1;
      AndChainCongruent(p, reg, gs[..n], hs[..n], fuel);
      AndPairCongruent(p, reg, AndChain(gs[..n]), AndChain(hs[..n]), gs[n], hs[n], fuel);
    }
  }

  lemma {:induction false} SoftCutCongruent(p: Program, reg: Registry, c: Goal, c': Goal, t: Goal, t': Goal, el: Goal, el': Goal, fuel: nat)
    requires forall s :: Eval(p, reg, c, s, fuel) == Eval(p, reg, c', s, fuel)
    requires forall s :: Eval(p, reg, t, s, fuel) == Eval(p, reg, t', s, fuel)
    requires forall s :: Eval(p, reg, el, s, fuel) == Eval(p, reg, el', s, fuel)
    ensures forall s :: Eval(p, reg, SoftCut(c, t, el), s, fuel) == Eval(p, reg, SoftCut(c', t', el'), s, fuel)
  {
    AndPairCongruent(p, reg, c, c', t, t', fuel);
    forall s ensures Eval(p, reg, SoftCut(c, t, el), s, fuel) == Eval(p, reg, SoftCut(c', t', el'), s, fuel) {
      SoftCutOf(p, reg, c, t, el, s, fuel);
      SoftCutOf(p, reg, c', t', el', s, fuel);
    }
  }

  /** A soft cut runs its condition and branch as the pair `And([c, t])`. */
  lemma SoftCutOf(p: Program, reg: Registry, c: Goal, t: Goal, el: Goal, s: Env, fuel: nat)
    ensures var r := Eval(p, reg, And([c, t]), s, fuel);
      Eval(p, reg, SoftCut(c, t, el), s, fuel) == if r.sols != [] || r.signal != Done then r else Eval(p, reg, el, s, fuel)
  {
  }

  // The two versions of `genCode` on a body without a cut.

  /** On a body without `!`, `->` or `\+`, the code as written and the
      code with the parentheses added number the anonymous variables
      alike and run alike from every environment. */
  lemma {:induction false} ExprCodeModesAgree(p: Program, reg: Registry, x: Expr, names: seq<string>, k: nat, fuel: nat)
    requires WellFormed(x) && Covers(names, ExprNames(x)) && k >= |names| && CutFree(x)
    ensures ExprCode(x, names, k, false).1 == ExprCode(x, names, k, true).1
    ensures forall s ::
              Eval(p, reg, CodeGoal(ExprCode(x, names, k, false).0), s, fuel) ==
              Eval(p, reg, CodeGoal(ExprCode(x, names, k, true).0), s, fuel)
    decreases x, 1
  {
    if x.OrExpr? {
      OrItemsModesAgree(p, reg, x.items, names, k, fuel);
    } else if x.AndExpr? {
      AndItemsModesAgree(p, reg, x.items, names, k, fuel);
      var w, f := AndItemsCode(x.items, names, k, false).0, AndItemsCode(x.items, names, k, true).0;
      AndChainCongruent(p, reg, w[0], f[0], fuel);
      assert Disjuncts(w) == [AndChain(w[0])] + Disjuncts([]) by { assert w[1..] == []; }
      assert Disjuncts(f) == [AndChain(f[0])] + Disjuncts([]) by { assert f[1..] == []; }
    } else if x.SoftExpr? {
      var c, t, el := x.cond, x.thenExpr, x.elseExpr;
      CoversSplit(names, ExprNames(c) + ExprNames(t), ExprNames(el));
      CoversSplit(names, ExprNames(c), ExprNames(t));
      ExprCodeModesAgree(p, reg, c, names, k, fuel);
      var k1 := ExprCode(c, names, k, false).1;
      ExprCodeModesAgree(p, reg, t, names, k1, fuel);
      var k2 := ExprCode(t, names, k1, false).1;
      ExprCodeModesAgree(p, reg, el, names, k2, fuel);
      SoftCutCongruent(p, reg,
        CodeGoal(ExprCode(c, names, k, false).0), CodeGoal(ExprCode(c, names, k, true).0),
        CodeGoal(ExprCode(t, names, k1, false).0), CodeGoal(ExprCode(t, names, k1, true).0),
        CodeGoal(ExprCode(el, names, k2, false).0), CodeGoal(ExprCode(el, names, k2, true).0), fuel);
      PrimGoal(SoftCut(CodeGoal(ExprCode(c, names, k, false).0), CodeGoal(ExprCode(t, names, k1, false).0),
                       CodeGoal(ExprCode(el, names, k2, false).0)));
      PrimGoal(SoftCut(CodeGoal(ExprCode(c, names, k, true).0), CodeGoal(ExprCode(t, names, k1, true).0),
                       CodeGoal(ExprCode(el, names, k2, true).0)));
    }
  }

  lemma {:induction false} OrItemsModesAgree(p: Program, reg: Registry, items: seq<Expr>, names: seq<string>, k: nat, fuel: nat)
    requires |items| > 0
    requires forall i :: 0 <= i < |items| ==> WellFormed(items[i]) && CutFree(items[i])
    requires Covers(names, ExprsNames(items)) && k >= |names|
    ensures OrItemsCode(items, names, k, false).1 == OrItemsCode(items, names, k, true).1
    ensures forall s ::
              Eval(p, reg, CodeGoal(OrItemsCode(items, names, k, false).0), s, fuel) ==
              Eval(p, reg, CodeGoal(OrItemsCode(items, names, k, true).0), s, fuel)
    decreases items, 0
  {
    CoversSplit(names, ExprNames(items[0]), ExprsNames(items[1..]));
    ExprCodeModesAgree(p, reg, items[0], names, k, fuel);
    var (w0, k1) := ExprCode(items[0], names, k, false);
    var f0 := ExprCode(items[0], names, k, true).0;
    assert CodeGoal(Paren(f0)) == CodeGoal(f0) by {
      ParenSame(f0);
    }
    if |items| > 1 {
      OrItemsModesAgree(p, reg, items[1..], names, k1, fuel);
      var w1, f1 := OrItemsCode(items[1..], names, k1, false).0, OrItemsCode(items[1..], names, k1, true).0;
      assert CodeNoCut(w0) && CodeNoCut(Paren(f0)) && CodeNoCut(w1) && CodeNoCut(f1) by {
        ExprCodeNoCut(items[0], names, k, false);
        ExprCodeNoCut(items[0], names, k, true);
        OrItemsNoCut(items[1..], names, k1, false);
        OrItemsNoCut(items[1..], names, k1, true);
        CodeGoalNoCut(f0);
      }
      assert OrItemsCode(items, names, k, false).0 == OrCode(w0, w1);
      assert OrItemsCode(items, names, k, true).0 == OrCode(Paren(f0), f1);
      OrCodeCongruent(p, reg, w0, Paren(f0), w1, f1, fuel);
    }
  }

  /** The text `a | b` without a cut runs alike when `a` and `b` are
      replaced by code that runs alike. */
  lemma {:induction false} OrCodeCongruent(p: Program, reg: Registry, a: Code, a': Code, b: Code, b': Code, fuel: nat)
    requires CodeOk(a) && CodeOk(a') && CodeOk(b) && CodeOk(b')
    requires CodeNoCut(a) && CodeNoCut(a') && CodeNoCut(b) && CodeNoCut(b')
    requires forall s :: Eval(p, reg, CodeGoal(a), s, fuel) == Eval(p, reg, CodeGoal(a'), s, fuel)
    requires forall s :: Eval(p, reg, CodeGoal(b), s, fuel) == Eval(p, reg, CodeGoal(b'), s, fuel)
    ensures forall s :: Eval(p, reg, CodeGoal(OrCode(a, b)), s, fuel) == Eval(p, reg, CodeGoal(OrCode(a', b')), s, fuel)
  {
    forall s ensures Eval(p, reg, CodeGoal(OrCode(a, b)), s, fuel) == Eval(p, reg, CodeGoal(OrCode(a', b')), s, fuel) {
      OrCodeRuns(p, reg, a, b, s, fuel);
      OrCodeRuns(p, reg, a', b', s, fuel);
    }
  }

  lemma {:induction false} AndItemsModesAgree(p: Program, reg: Registry, items: seq<Expr>, names: seq<string>, k: nat, fuel: nat)
    requires |items| > 0
    requires forall i :: 0 <= i < |items| ==> WellFormed(items[i]) && CutFree(items[i])
    requires Covers(names, ExprsNames(items)) && k >= |names|
    ensures AndItemsCode(items, names, k, false).1 == AndItemsCode(items, names, k, true).1
    ensures var w, f := AndItemsCode(items, names, k, false).0[0], AndItemsCode(items, names, k, true).0[0];
      && |w| == |f| == |items|
      && forall i, s :: 0 <= i < |w| ==> Eval(p, reg, w[i], s, fuel) == Eval(p, reg, f[i], s, fuel)
    decreases items, 0
  {
    CoversSplit(names, ExprNames(items[0]), ExprsNames(items[1..]));
    ExprCodeModesAgree(p, reg, items[0], names, k, fuel);
    var (w0, k1) := ExprCode(items[0], names, k, false);
    var f0 := ExprCode(items[0], names, k, true).0;
    ParenSame(w0);
    ParenSame(f0);
    if |items| > 1 {
      AndItemsModesAgree(p, reg, items[1..], names, k1, fuel);
      var w1, f1 := AndItemsCode(items[1..], names, k1, false).0, AndItemsCode(items[1..], names, k1, true).0;
      var w, f := AndItemsCode(items, names, k, false).0[0], AndItemsCode(items, names, k, true).0[0];
      assert w == [CodeGoal(w0)] + w1[0];
      assert f == [CodeGoal(f0)] + f1[0];
      forall i, s | 0 <= i < |w| ensures Eval(p, reg, w[i], s, fuel) == Eval(p, reg, f[i], s, fuel) {
        if i > 0 {
          assert w[i] == w1[0][i - 1] && f[i] == f1[0][i - 1];
        }
      }
    }
  }
}

=== FILE: compiler.dfy ===
/** The clause compiler: `_Rules.genCode` groups the rules by name,
    `_VariableCollector` gathers each predicate's variable names, and the
    `genCode` methods turn a body into Python text that Python then parses.
    The text is modelled by what Python makes of it: a disjunction (`|`) of
    conjunctions (`&`) of primaries, since `&` binds tighter than `|`. */
module Compiler {
  import opened Terms
  import opened Goals
  import opened Ast

  predicate NoDup<T(==)>(s: seq<T>) {
    forall i, j :: 0 <= i < j < |s| ==> s[i] != s[j]
  }

  /** The position of the first occurrence of `x`. */
  function FirstIndex<T(==)>(xs: seq<T>, x: T): (r: nat)
    requires x in xs
    ensures r < |xs| && xs[r] == x && x !in xs[..r]
    decreases |xs|
  {
    if xs[0] == x then 0
    else
      var r := 1 + FirstIndex(xs[1..], x);
      assert xs[..r] == [xs[0]] + xs[1..][..r - 1];
      r
  }

  lemma {:induction false} FirstIndexIs<T>(xs: seq<T>, x: T, k: nat)
    requires k < |xs| && xs[k] == x && x !in xs[..k]
    ensures FirstIndex(xs, x) == k
  {
  }

  /** `_VariableCollector.collect` applied to each name of `xs` in turn: a
      name is appended only if it is not already in the list. */
  function Collect(xs: seq<string>): (r: seq<string>)
    ensures forall x :: x in r <==> x in xs
    ensures NoDup(r)
    decreases |xs|
  {
    if |xs| == 0 then []
    else
      var init := xs[..|xs| - 1];
      var d := Collect(init);
      assert xs == init + [xs[|xs| - 1]];
      if xs[|xs| - 1] in d then d else d + [xs[|xs| - 1]]
  }

  /** The collected names come out in the order of their first occurrence. */
  lemma {:induction false} CollectOrder(xs: seq<string>)
    ensures forall i, j :: 0 <= i < j < |Collect(xs)| ==>
      FirstIndex(xs, Collect(xs)[i]) < FirstIndex(xs, Collect(xs)[j])
    decreases |xs|
  {
    if |xs| > 0 {
      var init, z := xs[..|xs| - 1], xs[|xs| - 1];
      var d := Collect(init);
      CollectOrder(init);
      assert xs == init + [z];
      forall y | y in init ensures FirstIndex(xs, y) == FirstIndex(init, y) {
        var f := FirstIndex(init, y);
        assert xs[..f] == init[..f];
        FirstIndexIs(xs, y, f);
      }
      if z !in d {
        assert xs[..|init|] == init;
        FirstIndexIs(xs, z, |init|);
        var r := d + [z];
        forall i, j | 0 <= i < j < |r| ensures FirstIndex(xs, r[i]) < FirstIndex(xs, r[j]) {
          assert r[i] in init;
          if j < |d| {
            assert r[i] == d[i] && r[j] == d[j];
          }
        }
      }
    }
  }

  // The names of the named variables, in the order `collectVariables`
  // visits them.

  function TermNames(t: TermAst): seq<string>
    decreases t
  {
    match t
    case AVar(n) => [n]
    case ATerm(_, args) => TermsNames(args)
    case AList(h, tl) => TermNames(h) + TermNames(tl)
    case _ => []
  }

  function TermsNames(ts: seq<TermAst>): seq<string>
    decreases ts
  {
    if |ts| == 0 then [] else TermNames(ts[0]) + TermsNames(ts[1..])
  }

  function ExprNames(x: Expr): seq<string>
    decreases x
  {
    match x
    case OrExpr(items) => ExprsNames(items)
    case AndExpr(items) => ExprsNames(items)
    case IfThen(c, t, e) => ExprNames(c) + ExprNames(t) + ExprNames(e)
    case SoftExpr(c, t, e) => ExprNames(c) + ExprNames(t) + ExprNames(e)
    case CallExpr(_, args) => TermsNames(args)
    case CompExpr(_, l, r) => TermNames(l) + TermNames(r)
    case NegExpr(a) => ExprNames(a)
    case _ => []
  }

  function ExprsNames(xs: seq<Expr>): seq<string>
    decreases xs
  {
    if |xs| == 0 then [] else ExprNames(xs[0]) + ExprsNames(xs[1..])
  }

  function RuleNames(r: Rule): seq<string> {
    TermsNames(r.args) + ExprNames(r.body)
  }

  function RulesNames(rs: seq<Rule>): seq<string>
    decreases |rs|
  {
    if |rs| == 0 then [] else RuleNames(rs[0]) + RulesNames(rs[1..])
  }

  /** Every name of `xs` is one of `names`. */
  predicate Covers(names: seq<string>, xs: seq<string>) {
    forall i :: 0 <= i < |xs| ==> xs[i] in names
  }

  lemma {:induction false} CoversSplit(names: seq<string>, a: seq<string>, b: seq<string>)
    requires Covers(names, a + b)
    ensures Covers(names, a) && Covers(names, b)
  {
    forall i | 0 <= i < |a| ensures a[i] in names {
      assert (a + b)[i] == a[i];
    }
    forall i | 0 <= i < |b| ensures b[i] in names {
      assert (a + b)[|a| + i] == b[i];
    }
  }

  /** The cell ids of the variables in a term. */
  function VarsOf(t: Term): set<nat>
    decreases t
  {
    match t
    case Var(v) => {v}
    case Atom(_) => {}
    case Cmp(_, args) => VarsOfAll(args)
  }

  function VarsOfAll(ts: seq<Term>): set<nat>
    decreases ts
  {
    if |ts| == 0 then {} else VarsOf(ts[0]) + VarsOfAll(ts[1..])
  }

  /** The cell ids of the variables in a term, one per occurrence. */
  function VarBag(t: Term): (r: multiset<nat>)
    ensures forall v :: v in r <==> v in VarsOf(t)
    decreases t
  {
    match t
    case Var(v) => multiset{v}
    case Atom(_) => multiset{}
    case Cmp(_, args) => VarBagAll(args)
  }

  function VarBagAll(ts: seq<Term>): (r: multiset<nat>)
    ensures forall v :: v in r <==> v in VarsOfAll(ts)
    decreases ts
  {
    if |ts| == 0 then multiset{} else VarBag(ts[0]) + VarBagAll(ts[1..])
  }

  /** The number of `_` occurrences in a syntax tree. */
  function AnonCount(t: TermAst): nat
    decreases t
  {
    match t
    case AAnon => 1
    case ATerm(_, args) => AnonsCount(args)
    case AList(h, tl) => AnonCount(h) + AnonCount(tl)
    case _ => 0
  }

  function AnonsCount(ts: seq<TermAst>): nat
    decreases ts
  {
    if |ts| == 0 then 0 else AnonCount(ts[0]) + AnonsCount(ts[1..])
  }

  /** A variable numbered for the instance: a named one below `n`, or an
      anonymous one handed out from `lo` to `hi`. */
  predicate InScope(v: nat, n: nat, lo: nat, hi: nat) {
    v < n || lo <= v < hi
  }

  /** Two parts whose fresh cells come from adjacent ranges: together
      each cell of the joint range occurs once. */
  lemma FreshJoin(a: multiset<nat>, b: multiset<nat>, n: nat, k: nat, k1: nat, k2: nat)
    requires n <= k <= k1 <= k2
    requires forall v :: v in a ==> InScope(v, n, k, k1)
    requires forall v :: v in b ==> InScope(v, n, k1, k2)
    requires forall v :: k <= v < k1 ==> a[v] == 1
    requires forall v :: k1 <= v < k2 ==> b[v] == 1
    ensures forall v :: k <= v < k2 ==> (a + b)[v] == 1
  {
    forall v | k <= v < k2 ensures (a + b)[v] == 1 {
      if v < k1 {
        assert v !in b;
      } else {
        assert v !in a;
      }
    }
  }

  /** A list cell built from two compiled parts keeps their variables in
      scope and their fresh cells once each. */
  lemma {:induction false} ConsScope(h: Term, t: Term, n: nat, k: nat, k1: nat, k2: nat)
    requires n <= k <= k1 <= k2
    requires forall v :: v in VarsOf(h) ==> InScope(v, n, k, k1)
    requires forall v :: v in VarsOf(t) ==> InScope(v, n, k1, k2)
    requires forall v :: k <= v < k1 ==> VarBag(h)[v] == 1
    requires forall v :: k1 <= v < k2 ==> VarBag(t)[v] == 1
    ensures forall v :: v in VarsOf(Cons(h, t)) ==> InScope(v, n, k, k2)
    ensures forall v :: k <= v < k2 ==> VarBag(Cons(h, t))[v] == 1
  {
    ConsParts(h, t);
    FreshJoin(VarBag(h), VarBag(t), n, k, k1, k2);
  }

  /** The variables of a list cell are those of its head and its tail. */
  lemma {:induction false} ConsParts(h: Term, t: Term)
    ensures VarsOf(Cons(h, t)) == VarsOf(h) + VarsOf(t)
    ensures VarBag(Cons(h, t)) == VarBag(h) + VarBag(t)
  {
    assert [h, t][1..] == [t] && [t][1..] == [];
    assert VarsOfAll([t]) == VarsOf(t);
    assert VarBagAll([t]) == VarBag(t);
  }

  /** The code a term's `genCode` emits, evaluated in the instance whose
      named variables are `names`: named variable `X` is the instance's cell
      for `X`, each `_` is a fresh cell numbered from `k`, an atom name is
      an `atom` symbol, and lists are `cons`/`nil` terms. Returns the next
      unused anonymous number. */
  function CompileTerm(t: TermAst, names: seq<string>, k: nat): (r: (Term, nat))
    requires Covers(names, TermNames(t))
    requires k >= |names|
    ensures r.1 == k + AnonCount(t)
    ensures forall v :: v in VarsOf(r.0) ==> InScope(v, |names|, k, r.1)
    ensures forall v :: k <= v < r.1 ==> VarBag(r.0)[v] == 1
    decreases t
  {
    match t
    case AVar(n) =>
      assert TermNames(t)[0] == n;
      (Var(FirstIndex(names, n)), k)
    case AAnon => (Var(k), k + 1)
    case AAtom(n) => (Atom(Sym(n)), k)
    case ATerm(n, args) =>
      var (ts, k1) := CompileTerms(args, names, k);
      (Cmp(n, ts), k1)
    case AList(h, tl) =>
      CoversSplit(names, TermNames(h), TermNames(tl));
      var (h', k1) := CompileTerm(h, names, k);
      var (t', k2) := CompileTerm(tl, names, k1);
      ConsScope(h', t', |names|, k, k1, k2);
      (Cons(h', t'), k2)
    case ANil => (Nil, k)
    case AString(s) => (Atom(Str(s)), k)
    case AInt(i) => (IntAtom(i), k)
  }

  function CompileTerms(ts: seq<TermAst>, names: seq<string>, k: nat): (r: (seq<Term>, nat))
    requires Covers(names, TermsNames(ts))
    requires k >= |names|
    ensures r.1 == k + AnonsCount(ts)
    ensures |r.0| == |ts|
    ensures forall v :: v in VarsOfAll(r.0) ==> InScope(v, |names|, k, r.1)
    ensures forall v :: k <= v < r.1 ==> VarBagAll(r.0)[v] == 1
    decreases ts
  {
    if |ts| == 0 then ([], k)
    else
      CoversSplit(names, TermNames(ts[0]), TermsNames(ts[1..]));
      var (t', k1) := CompileTerm(ts[0], names, k);
      var (rest, k2) := CompileTerms(ts[1..], names, k1);
      assert ([t'] + rest)[1..] == rest;
      assert VarBagAll([t'] + rest) == VarBag(t') + VarBagAll(rest);
      FreshJoin(VarBag(t'), VarBagAll(rest), |names|, k, k1, k2);
      ([t'] + rest, k2)
  }

  /** No compound term of the tree could be mistaken for a list cell or
      the empty list once compiled. */
  predicate Unambiguous(t: TermAst)
    decreases t
  {
    match t
    case ATerm(n, args) =>
      !(n == "cons" && |args| == 2) && !(n == "nil" && |args| == 0)
      && forall i :: 0 <= i < |args| ==> Unambiguous(args[i])
    case AList(h, tl) => Unambiguous(h) && Unambiguous(tl)
    case _ => true
  }

  /** Reading a compiled term back: a cell below `n` is the named variable
      it was made for, any other cell is an anonymous variable. */
  function Decompile(t: Term, names: seq<string>): TermAst
    decreases t
  {
    match t
    case Var(v) => if v < |names| then AVar(names[v]) else AAnon
    case Atom(Sym(n)) => AAtom(n)
    case Atom(Int(i)) => AInt(i)
    case Atom(Str(s)) => AString(s)
    case Cmp(n, args) =>
      if n == "cons" && |args| == 2 then AList(Decompile(args[0], names), Decompile(args[1], names))
      else if n == "nil" && |args| == 0 then ANil
      else ATerm(n, DecompileAll(args, names))
  }

  function DecompileAll(ts: seq<Term>, names: seq<string>): seq<TermAst>
    decreases ts
  {
    if |ts| == 0 then [] else [Decompile(ts[0], names)] + DecompileAll(ts[1..], names)
  }

  /** Compiling a term loses nothing but the identity of anonymous
      variables' numbers: reading it back gives the tree again. */
  lemma {:induction false} CompileTermInverse(t: TermAst, names: seq<string>, k: nat)
    requires Covers(names, TermNames(t)) && k >= |names|
    requires Unambiguous(t)
    ensures Decompile(CompileTerm(t, names, k).0, names) == t
    decreases t
  {
    match t
    case AVar(n) =>
      assert TermNames(t)[0] == n;
    case ATerm(n, args) =>
      CompileTermsInverse(args, names, k);
    case AList(h, tl) =>
      CoversSplit(names, TermNames(h), TermNames(tl));
      var k1 := CompileTerm(h, names, k).1;
      CompileTermInverse(h, names, k);
      CompileTermInverse(tl, names, k1);
    case _ =>
  }

  lemma {:induction false} CompileTermsInverse(ts: seq<TermAst>, names: seq<string>, k: nat)
    requires Covers(names, TermsNames(ts)) && k >= |names|
    requires forall i :: 0 <= i < |ts| ==> Unambiguous(ts[i])
    ensures DecompileAll(CompileTerms(ts, names, k).0, names) == ts
    decreases ts
  {
    if |ts| > 0 {
      CoversSplit(names, TermNames(ts[0]), TermsNames(ts[1..]));
      var k1 := CompileTerm(ts[0], names, k).1;
      CompileTermInverse(ts[0], names, k);
      CompileTermsInverse(ts[1..], names, k1);
      var r := CompileTerms(ts, names, k).0;
      assert r[1..] == CompileTerms(ts[1..], names, k1).0;
      assert ts == [ts[0]] + ts[1..];
    }
  }

  // Python's reading of the generated text.

  /** Generated code as Python parses it: the `|`-separated disjuncts, each
      a non-empty `&`-chain of primaries. */
  type Code = seq<seq<Goal>>

  predicate CodeOk(c: Code) {
    |c| > 0 && forall i :: 0 <= i < |c| ==> |c[i]| > 0
  }

  /** `a & b & c` is `And(And(a, b), c)`: `&` groups to the left. */
  function AndChain(gs: seq<Goal>): Goal
    requires |gs| > 0
    decreases |gs|
  {
    if |gs| == 1 then gs[0] else And([AndChain(gs[..|gs| - 1]), gs[|gs| - 1]])
  }

  /** `a | b | c` is `Or(Or(a, b), c)`. */
  function OrChain(gs: seq<Goal>): Goal
    requires |gs| > 0
    decreases |gs|
  {
    if |gs| == 1 then gs[0] else Or([OrChain(gs[..|gs| - 1]), gs[|gs| - 1]])
  }

  function Disjuncts(c: Code): (r: seq<Goal>)
    requires forall i :: 0 <= i < |c| ==> |c[i]| > 0
    ensures |r| == |c|
    decreases |c|
  {
    if |c| == 0 then [] else [AndChain(c[0])] + Disjuncts(c[1..])
  }

  /** The goal object the text evaluates to. */
  function CodeGoal(c: Code): Goal
    requires CodeOk(c)
  {
    OrChain(Disjuncts(c))
  }

  /** The text `(c)`: a single primary. */
  function Paren(c: Code): (r: Code)
    requires CodeOk(c)
    ensures CodeOk(r)
  {
    [[CodeGoal(c)]]
  }

  function Prim(g: Goal): (r: Code)
    ensures CodeOk(r)
  {
    [[g]]
  }

  /** The text `a & b`: the last disjunct of `a` and the first of `b` join
      into one `&`-chain. */
  function AndCode(a: Code, b: Code): (r: Code)
    requires CodeOk(a) && CodeOk(b)
    ensures CodeOk(r)
    ensures |r| == |a| + |b| - 1
  {
    var r := a[..|a| - 1] + [a[|a| - 1] + b[0]] + b[1..];
    assert forall i :: 0 <= i < |r| ==> |r[i]| > 0 by {
      forall i | 0 <= i < |r| ensures |r[i]| > 0 {
        if i < |a| - 1 { assert r[i] == a[i]; }
        else if i > |a| - 1 { assert r[i] == b[i - |a| + 1]; }
      }
    }
    r
  }

  /** The text `a | b`. */
  function OrCode(a: Code, b: Code): (r: Code)
    requires CodeOk(a) && CodeOk(b)
    ensures CodeOk(r)
    ensures |r| == |a| + |b|
  {
    var r := a + b;
    assert forall i :: 0 <= i < |r| ==> |r[i]| > 0 by {
      forall i | 0 <= i < |r| ensures |r[i]| > 0 {
        if i >= |a| { assert r[i] == b[i - |a|]; }
      }
    }
    r
  }

  /** The primitive class each infix goal form calls. */
  function OpName(op: CompOp): string {
    match op
    case UnivOp => "univ"
    case EqOp => "eq"
    case NeOp => "ne"
    case UnifyOp => "unify"
    case NotUnifyOp => "notunify"
    case LeOp => "le"
    case LtOp => "lt"
    case GeOp => "ge"
    case GtOp => "gt"
  }

  /** A body's `genCode`. With `fixed` false this is the text as the source
      writes it: `_Or_expr` joins its items with ` | ` unparenthesised and
      `_Neg` puts its goal unparenthesised before ` & cut & fail`. With
      `fixed` true both are parenthesised. Anonymous variables are numbered
      from `k`; the second component is the next free number. */
  function ExprCode(x: Expr, names: seq<string>, k: nat, fixed: bool): (r: (Code, nat))
    requires WellFormed(x) && Covers(names, ExprNames(x)) && k >= |names|
    ensures CodeOk(r.0) && r.1 >= k
    decreases x, 1
  {
    match x
    case OrExpr(items) => OrItemsCode(items, names, k, fixed)
    case AndExpr(items) => AndItemsCode(items, names, k, fixed)
    case IfThen(c, t, e) =>
      CoversSplit(names, ExprNames(c) + ExprNames(t), ExprNames(e));
      CoversSplit(names, ExprNames(c), ExprNames(t));
      var (cc, k1) := ExprCode(c, names, k, fixed);
      var (tc, k2) := ExprCode(t, names, k1, fixed);
      var (ec, k3) := ExprCode(e, names, k2, fixed);
      (OrCode(AndCode(AndCode(Paren(cc), Prim(Cut)), Paren(tc)), Paren(ec)), k3)
    case SoftExpr(c, t, e) =>
      CoversSplit(names, ExprNames(c) + ExprNames(t), ExprNames(e));
      CoversSplit(names, ExprNames(c), ExprNames(t));
      var (cc, k1) := ExprCode(c, names, k, fixed);
      var (tc, k2) := ExprCode(t, names, k1, fixed);
      var (ec, k3) := ExprCode(e, names, k2, fixed);
      (Prim(SoftCut(CodeGoal(cc), CodeGoal(tc), CodeGoal(ec))), k3)
    case CallExpr(n, args) =>
      var (ts, k1) := CompileTerms(args, names, k);
      (Prim(Call(n, ts)), k1)
    case CompExpr(op, l, rt) =>
      CoversSplit(names, TermNames(l), TermNames(rt));
      var (l', k1) := CompileTerm(l, names, k);
      var (r', k2) := CompileTerm(rt, names, k1);
      (Prim(Call(OpName(op), [l', r'])), k2)
    case CutExpr => (Prim(Cut), k)
    case TrueExpr => (Prim(True), k)
    case FailExpr => (Prim(Fail), k)
    case NegExpr(a) =>
      var (ac, k1) := ExprCode(a, names, k, fixed);
      var g := if fixed then Paren(ac) else ac;
      (Paren(OrCode(AndCode(AndCode(g, Prim(Cut)), Prim(Fail)), Prim(True))), k1)
  }

  /** `_Or_expr.genCode`: the items' code joined by ` | `. */
  function OrItemsCode(items: seq<Expr>, names: seq<string>, k: nat, fixed: bool): (r: (Code, nat))
    requires |items| > 0
    requires forall i :: 0 <= i < |items| ==> WellFormed(items[i])
    requires Covers(names, ExprsNames(items)) && k >= |names|
    ensures CodeOk(r.0) && r.1 >= k
    decreases items, 0
  {
    CoversSplit(names, ExprNames(items[0]), ExprsNames(items[1..]));
    var (c0, k1) := ExprCode(items[0], names, k, fixed);
    var c := if fixed then Paren(c0) else c0;
    if |items| == 1 then (c, k1)
    else
      var (rest, k2) := OrItemsCode(items[1..], names, k1, fixed);
      (OrCode(c, rest), k2)
  }

  /** `_And_expr.genCode`: each item parenthesised, joined by ` & `. */
  function AndItemsCode(items: seq<Expr>, names: seq<string>, k: nat, fixed: bool): (r: (Code, nat))
    requires |items| > 0
    requires forall i :: 0 <= i < |items| ==> WellFormed(items[i])
    requires Covers(names, ExprsNames(items)) && k >= |names|
    ensures CodeOk(r.0) && |r.0| == 1 && r.1 >= k
    decreases items, 0
  {
    CoversSplit(names, ExprNames(items[0]), ExprsNames(items[1..]));
    var (c0, k1) := ExprCode(items[0], names, k, fixed);
    if |items| == 1 then (Paren(c0), k1)
    else
      var (rest, k2) := AndItemsCode(items[1..], names, k1, fixed);
      (AndCode(Paren(c0), rest), k2)
  }
}

/** `_Rules.genCode` and `genPredicateCode`: rules grouped by name into
    compiled predicates. */
module Predicates {
  import opened Terms
  import opened Goals
  import opened Ast
  import opened Compiler

  /** Every name in a clause's own variable list is in the list of the
      rules it belongs to. */
  lemma {:induction false} RulesNamesHas(rs: seq<Rule>, i: nat)
    requires i < |rs|
    ensures forall x :: x in RuleNames(rs[i]) ==> x in RulesNames(rs)
    decreases |rs|
  {
    if i > 0 {
      RulesNamesHas(rs[1..], i - 1);
    }
  }

  predicate AllWellFormed(rs: seq<Rule>) {
    forall i :: 0 <= i < |rs| ==> WellFormed(rs[i].body)
  }

  /** One rule compiled in the instance whose named variables are `names`:
      the head arguments (`genArgs`) and then the body, anonymous variables
      numbered from `|names|` on. The second component is one past the last
      anonymous cell. */
  function CompileRule(r: Rule, names: seq<string>, fixed: bool): (c: (Clause, nat))
    requires WellFormed(r.body) && Covers(names, RuleNames(r))
    ensures c.1 >= |names|
    ensures |c.0.head| == |r.args|
    ensures forall v :: v in VarsOfAll(c.0.head) ==> v < c.1
  {
    CoversSplit(names, TermsNames(r.args), ExprNames(r.body));
    var (head, k1) := CompileTerms(r.args, names, |names|);
    var (code, k2) := ExprCode(r.body, names, k1, fixed);
    (Clause(head, CodeGoal(code)), k2)
  }

  /** The clauses of a predicate and the number of cells an instance needs
      for the largest of them. */
  function CompileClauses(rs: seq<Rule>, names: seq<string>, fixed: bool): (r: (seq<Clause>, nat))
    requires forall i :: 0 <= i < |rs| ==> WellFormed(rs[i].body) && Covers(names, RuleNames(rs[i]))
    ensures |r.0| == |rs| && r.1 >= |names|
    ensures forall i :: 0 <= i < |rs| ==> r.0[i] == CompileRule(rs[i], names, fixed).0
    ensures forall i :: 0 <= i < |rs| ==> CompileRule(rs[i], names, fixed).1 <= r.1
    decreases |rs|
  {
    if |rs| == 0 then ([], |names|)
    else
      var (c, k) := CompileRule(rs[0], names, fixed);
      var (cs, w) := CompileClauses(rs[1..], names, fixed);
      assert forall i :: 1 <= i < |rs| ==> rs[i] == rs[1..][i - 1];
      ([c] + cs, if k > w then k else w)
  }

  /** `genPredicateCode`: the arity is the first rule's argument count, the
      variables are collected over all the rules, and each rule becomes a
      clause. */
  function CompilePred(group: seq<Rule>, fixed: bool): (p: Pred)
    requires |group| > 0
    requires AllWellFormed(group)
    ensures p.arity == |group[0].args|
    ensures |p.clauses| == |group|
    ensures forall i :: 0 <= i < |group| ==> |p.clauses[i].head| == |group[i].args|
    ensures forall i, v :: 0 <= i < |group| && v in VarsOfAll(p.clauses[i].head) ==> v < p.width
  {
    var names := Collect(RulesNames(group));
    forall i | 0 <= i < |group| ensures Covers(names, RuleNames(group[i])) {
      RulesNamesHas(group, i);
    }
    var (cs, w) := CompileClauses(group, names, fixed);
    Pred(|group[0].args|, w, cs)
  }

  function Names(rs: seq<Rule>): (r: seq<string>)
    ensures |r| == |rs| && forall i :: 0 <= i < |rs| ==> r[i] == rs[i].name
    decreases |rs|
  {
    if |rs| == 0 then [] else [rs[0].name] + Names(rs[1..])
  }

  /** The rules named `n`, in their original order. */
  function Named(rs: seq<Rule>, n: string): (r: seq<Rule>)
    ensures forall x :: x in r <==> x in rs && x.name == n
    decreases |rs|
  {
    if |rs| == 0 then []
    else if rs[0].name == n then [rs[0]] + Named(rs[1..], n)
    else Named(rs[1..], n)
  }

  /** The rules not named `n`, in their original order. */
  function Others(rs: seq<Rule>, n: string): (r: seq<Rule>)
    ensures forall x :: x in r <==> x in rs && x.name != n
    ensures multiset(Named(rs, n)) + multiset(r) == multiset(rs)
    decreases |rs|
  {
    if |rs| == 0 then []
    else
      assert rs == [rs[0]] + rs[1..];
      if rs[0].name == n then Others(rs[1..], n) else [rs[0]] + Others(rs[1..], n)
  }

  /** The `while rules:` loop of `_Rules.genCode`: take every rule named
      like the first remaining one, keep the rest for the next round. */
  function Group(rs: seq<Rule>): (r: seq<seq<Rule>>)
    ensures forall i :: 0 <= i < |r| ==> |r[i]| > 0
    decreases |rs|
  {
    if |rs| == 0 then []
    else
      var n := rs[0].name;
      OthersShorter(rs);
      [Named(rs, n)] + Group(Others(rs, n))
  }

  /** Taking out the rules named like the first one leaves fewer rules. */
  lemma {:induction false} OthersShorter(rs: seq<Rule>)
    requires |rs| > 0
    ensures |Others(rs, rs[0].name)| < |rs|
  {
    var n := rs[0].name;
    assert |multiset(Named(rs, n))| >= 1 by { assert rs[0] in Named(rs, n); }
    assert |multiset(Others(rs, n))| < |multiset(rs)|;
  }

  /** `xs` without any occurrence of `x`. */
  function Remove(xs: seq<string>, x: string): (r: seq<string>)
    ensures forall y :: y in r <==> y in xs && y != x
    decreases |xs|
  {
    if |xs| == 0 then []
    else if xs[0] == x then Remove(xs[1..], x)
    else [xs[0]] + Remove(xs[1..], x)
  }

  lemma {:induction false} RemoveSnoc(xs: seq<string>, z: string, x: string)
    ensures Remove(xs + [z], x) == Remove(xs, x) + (if z == x then [] else [z])
    decreases |xs|
  {
    if |xs| == 0 {
      assert [z][1..] == [];
    } else {
      assert (xs + [z])[1..] == xs[1..] + [z];
      RemoveSnoc(xs[1..], z, x);
    }
  }

  /** The first name collected is the first name seen; the rest are the
      names of the remainder without it, in order. */
  lemma {:induction false} CollectFront(xs: seq<string>)
    requires |xs| > 0
    ensures Collect(xs) == [xs[0]] + Collect(Remove(xs, xs[0]))
    decreases |xs|
  {
    var x0 := xs[0];
    if |xs| == 1 {
      assert xs[..0] == [];
      assert Remove(xs, x0) == [] by { assert xs[1..] == []; }
    } else {
      var init, z := xs[..|xs| - 1], xs[|xs| - 1];
      assert xs == init + [z];
      assert init[0] == x0;
      CollectFront(init);
      RemoveSnoc(init, z, x0);
      CollectSnoc(init, z);
      var ri := Remove(init, x0);
      var c := Collect(ri);
      assert Collect(init) == [x0] + c;
      if z != x0 {
        CollectSnoc(ri, z);
        assert Remove(xs, x0) == ri + [z];
        if z in c {
          assert Collect(xs) == [x0] + c;
        } else {
          assert z !in Collect(init);
          assert Collect(xs) == ([x0] + c) + [z] == [x0] + (c + [z]);
        }
      } else {
        assert z in Collect(init);
        assert Remove(xs, x0) == ri;
      }
    }
  }

  lemma {:induction false} CollectSnoc(xs: seq<string>, z: string)
    ensures Collect(xs + [z]) == if z in Collect(xs) then Collect(xs) else Collect(xs) + [z]
  {
    assert (xs + [z])[..|xs|] == xs;
  }

  lemma {:induction false} NamesOthers(rs: seq<Rule>, n: string)
    ensures Names(Others(rs, n)) == Remove(Names(rs), n)
    decreases |rs|
  {
    if |rs| > 0 {
      NamesOthers(rs[1..], n);
      assert Names(rs)[1..] == Names(rs[1..]);
    }
  }

  lemma {:induction false} NamedOthers(rs: seq<Rule>, n: string, m: string)
    requires m != n
    ensures Named(Others(rs, n), m) == Named(rs, m)
    decreases |rs|
  {
    if |rs| > 0 {
      NamedOthers(rs[1..], n, m);
    }
  }

  /** The groups come out in the order of each name's first occurrence, and
      the group for a name holds exactly the rules of that name in their
      original order. */
  lemma {:induction false} GroupStep(rs: seq<Rule>)
    requires |rs| > 0
    ensures Group(rs) == [Named(rs, rs[0].name)] + Group(Others(rs, rs[0].name))
  {
  }

  lemma {:induction false} NamesHead(rs: seq<Rule>, n: string)
    requires |rs| > 0 && n == rs[0].name
    ensures Collect(Names(rs)) == [n] + Collect(Names(Others(rs, n)))
  {
    CollectFront(Names(rs));
    NamesOthers(rs, n);
  }

  /** The groups come out in the order of each name's first occurrence, and
      the group for a name holds exactly the rules of that name in their
      original order. */
  lemma {:induction false} GroupSpec(rs: seq<Rule>)
    ensures |Group(rs)| == |Collect(Names(rs))|
    ensures forall i :: 0 <= i < |Group(rs)| ==> Group(rs)[i] == Named(rs, Collect(Names(rs))[i])
    decreases |rs|
  {
    if |rs| > 0 {
      var n := rs[0].name;
      var rest := Others(rs, n);
      OthersShorter(rs);
      GroupSpec(rest);
      GroupStep(rs);
      NamesHead(rs, n);
      var c := Collect(Names(rest));
      var g, c0 := Group(rs), Collect(Names(rs));
      forall i | 0 < i < |g| ensures g[i] == Named(rs, c0[i]) {
        assert g[i] == Group(rest)[i - 1] == Named(rest, c[i - 1]);
        OthersNamed(rs, n, c[i - 1]);
      }
    }
  }

  /** The rules of another name are the same before and after the rules
      named `n` are taken out. */
  lemma {:induction false} OthersNamed(rs: seq<Rule>, n: string, m: string)
    requires m in Names(Others(rs, n))
    ensures m != n && Named(Others(rs, n), m) == Named(rs, m)
  {
    NamesOthers(rs, n);
    NamedOthers(rs, n, m);
  }

  /** Every rule lands in exactly one group: the one of its name. */
  lemma {:induction false} GroupPartition(rs: seq<Rule>, j: nat)
    requires j < |rs|
    ensures rs[j].name in Collect(Names(rs))
    ensures forall i :: 0 <= i < |Group(rs)| ==>
      (rs[j] in Group(rs)[i] <==> i == FirstIndex(Collect(Names(rs)), rs[j].name))
  {
    GroupSpec(rs);
    var c := Collect(Names(rs));
    assert Names(rs)[j] == rs[j].name;
    var k := FirstIndex(c, rs[j].name);
    forall i | 0 <= i < |Group(rs)| ensures rs[j] in Group(rs)[i] <==> i == k {
      if rs[j] in Group(rs)[i] {
        assert c[i] == rs[j].name;
      }
    }
  }

  /** The map binding each key to the value at the same position; an
      earlier position wins over a later one with the same key. */
  function MapFrom<K(==, !new), V>(ks: seq<K>, vs: seq<V>): (m: map<K, V>)
    requires |ks| == |vs|
    ensures forall k :: k in m <==> k in ks
    decreases |ks|
  {
    if |ks| == 0 then map[]
    else
      var m := MapFrom(ks[1..], vs[1..]);
      assert forall k :: k in ks <==> k == ks[0] || k in ks[1..];
      m[ks[0] := vs[0]]
  }

  /** With distinct keys, each key maps to the value at its own position. */
  lemma {:induction false} MapFromLookup<K(!new), V>(ks: seq<K>, vs: seq<V>)
    requires |ks| == |vs| && NoDup(ks)
    ensures forall i :: 0 <= i < |ks| ==> ks[i] in MapFrom(ks, vs) && MapFrom(ks, vs)[ks[i]] == vs[i]
    decreases |ks|
  {
    if |ks| > 0 {
      var ks', vs' := ks[1..], vs[1..];
      MapFromLookup(ks', vs');
      forall i | 0 < i < |ks| ensures ks[i] != ks[0] && ks[i] == ks'[i - 1] && vs[i] == vs'[i - 1] {
      }
    }
  }

  /** One compiled class per group, named after the group; a later `class`
      statement would rebind an earlier name, which distinct group names
      never do. */
  function ProgramOf(groups: seq<seq<Rule>>, fixed: bool): Program
    requires forall i :: 0 <= i < |groups| ==> |groups[i]| > 0 && AllWellFormed(groups[i])
  {
    var heads := seq(|groups|, i requires 0 <= i < |groups| => groups[i][0].name);
    var preds := seq(|groups|, i requires 0 <= i < |groups| => CompilePred(groups[i], fixed));
    MapFrom(heads, preds)
  }

  /** The program a source text compiles to. */
  function CompileProgram(rs: seq<Rule>, fixed: bool): Program
    requires AllWellFormed(rs)
  {
    GroupSpec(rs);
    var groups := Group(rs);
    forall i | 0 <= i < |groups| ensures AllWellFormed(groups[i]) {
      var g := groups[i];
      forall j | 0 <= j < |g| ensures WellFormed(g[j].body) {
        assert g[j] in rs;
      }
    }
    ProgramOf(groups, fixed)
  }

  /** The compiled program defines exactly the group names, and with
      distinct names each maps to its own group's compiled predicate. */
  lemma {:induction false} ProgramOfLookup(groups: seq<seq<Rule>>, heads: seq<string>, fixed: bool)
    requires forall i :: 0 <= i < |groups| ==> |groups[i]| > 0 && AllWellFormed(groups[i])
    requires |heads| == |groups| && NoDup(heads)
    requires forall i :: 0 <= i < |groups| ==> groups[i][0].name == heads[i]
    ensures forall n :: n in ProgramOf(groups, fixed) <==> n in heads
    ensures forall i :: 0 <= i < |groups| ==>
      heads[i] in ProgramOf(groups, fixed) && ProgramOf(groups, fixed)[heads[i]] == CompilePred(groups[i], fixed)
  {
    var preds := seq(|groups|, i requires 0 <= i < |groups| => CompilePred(groups[i], fixed));
    assert heads == seq(|groups|, i requires 0 <= i < |groups| => groups[i][0].name);
    assert ProgramOf(groups, fixed) == MapFrom(heads, preds);
    MapFromLookup(heads, preds);
  }

  /** The compiled program has one predicate per rule name, and the
      predicate for a name is compiled from exactly the rules of that name,
      in their order. */
  lemma {:induction false} CompileProgramSpec(rs: seq<Rule>, fixed: bool)
    requires AllWellFormed(rs)
    ensures forall n :: n in CompileProgram(rs, fixed) <==> n in Names(rs)
    ensures forall n :: n in CompileProgram(rs, fixed) ==>
      |Named(rs, n)| > 0 && AllWellFormed(Named(rs, n)) &&
      CompileProgram(rs, fixed)[n] == CompilePred(Named(rs, n), fixed)
  {
    GroupSpec(rs);
    var groups, heads := Group(rs), Collect(Names(rs));
    forall i | 0 <= i < |groups| ensures |groups[i]| > 0 && AllWellFormed(groups[i]) && groups[i][0].name == heads[i] {
      var g := groups[i];
      assert g[0] in g;
      forall j | 0 <= j < |g| ensures WellFormed(g[j].body) {
        assert g[j] in rs;
      }
    }
    ProgramOfLookup(groups, heads, fixed);
    forall n | n in CompileProgram(rs, fixed)
      ensures |Named(rs, n)| > 0 && AllWellFormed(Named(rs, n)) && CompileProgram(rs, fixed)[n] == CompilePred(Named(rs, n), fixed)
    {
      var i := FirstIndex(heads, n);
      assert groups[i] == Named(rs, n);
    }
  }
}

=== FILE: desugar.dfy ===
/** What the compiled control constructs do when run: negation, if-then-else
    and disjunction, for the code as the source generates it and for the
    code with the missing parentheses added. */
module Desugar {
  import opened Terms
  import opened Goals
  import opened Ast
  import opened Primitives
  import opened Engine
  import opened EngineLaws
  import opened Compiler

  lemma {:induction false} AndChainSnoc(gs: seq<Goal>, x: Goal)
    requires |gs| > 0
    ensures AndChain(gs + [x]) == And([AndChain(gs), x])
  {
    assert (gs + [x])[..|gs|] == gs;
  }

  lemma {:induction false} CodeGoalSingle(c: Code)
    requires CodeOk(c) && |c| == 1
    ensures CodeGoal(c) == AndChain(c[0])
  {
    assert Disjuncts(c) == [AndChain(c[0])] by { assert c[1..] == []; }
  }

  lemma {:induction false} CodeGoalParen(c: Code)
    requires CodeOk(c)
    ensures CodeGoal(Paren(c)) == CodeGoal(c)
  {
    CodeGoalSingle(Paren(c));
  }

  /** Two single `&`-chains joined by ` & ` make one chain. */
  lemma {:induction false} AndCodeChains(x: seq<Goal>, y: seq<Goal>)
    requires |x| > 0 && |y| > 0
    ensures AndCode([x], [y]) == [x + y]
  {
    assert [x][..0] == [] && [y][1..] == [];
  }

  /** `a & y` with `y` a single chain extends the last disjunct of `a`. */
  lemma {:induction false} AndCodeLast(a: Code, y: seq<Goal>)
    requires CodeOk(a) && |y| > 0
    ensures AndCode(a, [y]) == a[..|a| - 1] + [a[|a| - 1] + y]
  {
    assert [y][1..] == [];
  }

  lemma {:induction false} AndChain3(a: Goal, b: Goal, c: Goal)
    ensures AndChain([a, b, c]) == And([And([a, b]), c])
  {
    assert [a, b, c][..2] == [a, b];
    assert [a, b][..1] == [a];
    assert AndChain([a]) == a;
    assert AndChain([a, b]) == And([a, b]);
  }

  lemma {:induction false} CodeGoalTwo(x: Code)
    requires CodeOk(x) && |x| == 2
    ensures CodeGoal(x) == Or([AndChain(x[0]), AndChain(x[1])])
  {
    assert x[1..][1..] == [];
    assert Disjuncts(x[1..]) == [AndChain(x[1])];
    assert Disjuncts(x) == [AndChain(x[0]), AndChain(x[1])];
    assert [AndChain(x[0]), AndChain(x[1])][..1] == [AndChain(x[0])];
    assert OrChain([AndChain(x[0])]) == AndChain(x[0]);
  }

  /** `(G & cut & fail | true)` with the code of `G` a single `&`-chain. */
  lemma {:induction false} NegCodeShape(g: Code)
    requires CodeOk(g) && |g| == 1
    ensures CodeGoal(Paren(OrCode(AndCode(AndCode(g, Prim(Cut)), Prim(Fail)), Prim(True)))) == NegShape(CodeGoal(g))
  {
    var x := OrCode(AndCode(AndCode(g, Prim(Cut)), Prim(Fail)), Prim(True));
    assert g == [g[0]];
    AndCodeChains(g[0], [Cut]);
    AndCodeChains(g[0] + [Cut], [Fail]);
    assert x == [g[0] + [Cut] + [Fail], [True]];
    CodeGoalParen(x);
    AndChainSnoc(g[0], Cut);
    AndChainSnoc(g[0] + [Cut], Fail);
    CodeGoalSingle(g);
    CodeGoalTwo(x);
  }

  /** `(C) & cut & (T) | (E)`. */
  lemma {:induction false} IteCodeShape(cc: Code, tc: Code, ec: Code)
    requires CodeOk(cc) && CodeOk(tc) && CodeOk(ec)
    ensures CodeGoal(OrCode(AndCode(AndCode(Paren(cc), Prim(Cut)), Paren(tc)), Paren(ec)))
      == IteShape(CodeGoal(cc), CodeGoal(tc), CodeGoal(ec))
  {
    var gc, gt, ge := CodeGoal(cc), CodeGoal(tc), CodeGoal(ec);
    var x := OrCode(AndCode(AndCode(Paren(cc), Prim(Cut)), Paren(tc)), Paren(ec));
    AndCodeChains([gc], [Cut]);
    AndCodeChains([gc, Cut], [gt]);
    assert [gc] + [Cut] == [gc, Cut] && [gc, Cut] + [gt] == [gc, Cut, gt];
    assert x == [[gc, Cut, gt], [ge]];
    AndChain3(gc, Cut, gt);
    CodeGoalTwo(x);
  }

  /** With the parentheses added, `\+ G` always compiles to the negation
      shape around `G`'s own goal; as written it does so whenever `G`'s code
      is a single `&`-chain. */
  lemma {:induction false} NegCompiles(a: Expr, names: seq<string>, k: nat, fixed: bool)
    requires WellFormed(a) && Covers(names, ExprNames(a)) && k >= |names|
    requires fixed || |ExprCode(a, names, k, fixed).0| == 1
    ensures CodeGoal(ExprCode(NegExpr(a), names, k, fixed).0) == NegShape(CodeGoal(ExprCode(a, names, k, fixed).0))
  {
    var ac := ExprCode(a, names, k, fixed).0;
    if fixed {
      NegCodeShape(Paren(ac));
      CodeGoalParen(ac);
    } else {
      NegCodeShape(ac);
    }
  }

  /** The corrected negation succeeds, once and binding nothing, exactly
      when `G` ends normally with no solution; otherwise it yields nothing. */
  lemma {:induction false} NegFixedIff(p: Program, reg: Registry, a: Expr, names: seq<string>, k: nat, e: Env, fuel: nat)
    requires WellFormed(a) && Covers(names, ExprNames(a)) && k >= |names|
    ensures var g := CodeGoal(ExprCode(a, names, k, true).0);
      var r := Eval(p, reg, CodeGoal(ExprCode(NegExpr(a), names, k, true).0), e, fuel);
      var rg := Eval(p, reg, g, e, fuel);
      && (r.sols != [] <==> rg.sols == [] && rg.signal == Done)
      && (r.sols != [] ==> r.sols == [e])
      && (r.signal == Done || r.signal == rg.signal)
  {
    var g := CodeGoal(ExprCode(a, names, k, true).0);
    NegCompiles(a, names, k, true);
    NegSemantics(p, reg, g, e, fuel);
  }

  /** `C -> T ; E` on its own compiles to the if-then-else shape. */
  lemma {:induction false} IfThenCompiles(c: Expr, t: Expr, el: Expr, names: seq<string>, k: nat, fixed: bool)
    requires WellFormed(IfThen(c, t, el)) && Covers(names, ExprNames(IfThen(c, t, el))) && k >= |names|
    requires Covers(names, ExprNames(c)) && Covers(names, ExprNames(t)) && Covers(names, ExprNames(el))
    ensures var k1 := ExprCode(c, names, k, fixed).1;
      var k2 := ExprCode(t, names, k1, fixed).1;
      CodeGoal(ExprCode(IfThen(c, t, el), names, k, fixed).0) ==
        IteShape(CodeGoal(ExprCode(c, names, k, fixed).0), CodeGoal(ExprCode(t, names, k1, fixed).0),
                 CodeGoal(ExprCode(el, names, k2, fixed).0))
  {
    var k1 := ExprCode(c, names, k, fixed).1;
    var k2 := ExprCode(t, names, k1, fixed).1;
    IteCodeShape(ExprCode(c, names, k, fixed).0, ExprCode(t, names, k1, fixed).0, ExprCode(el, names, k2, fixed).0);
  }

  lemma {:induction false} CodeGoalPrim(g: Goal)
    ensures CodeGoal(Prim(g)) == g
  {
    CodeGoalSingle(Prim(g));
  }

  lemma {:induction false} CodeGoalThree(x: Code)
    requires CodeOk(x) && |x| == 3
    ensures CodeGoal(x) == Or([Or([AndChain(x[0]), AndChain(x[1])]), AndChain(x[2])])
  {
    var d := [AndChain(x[0]), AndChain(x[1]), AndChain(x[2])];
    assert x[1..][0] == x[1] && x[1..][1..][0] == x[2];
    assert x[1..][1..][1..] == [];
    assert Disjuncts(x[1..][1..]) == [AndChain(x[2])];
    assert Disjuncts(x[1..]) == [AndChain(x[1]), AndChain(x[2])];
    assert Disjuncts(x) == d;
    assert d[..2] == [AndChain(x[0]), AndChain(x[1])];
    assert d[..2][..1] == [AndChain(x[0])];
    assert OrChain(d[..2][..1]) == AndChain(x[0]);
    assert OrChain(d[..2]) == Or([AndChain(x[0]), AndChain(x[1])]);
    assert OrChain(d) == Or([OrChain(d[..2]), d[2]]);
  }

  /** The source's `\+ G` when `G`'s code has two disjuncts: the cut and
      the `fail` attach to the second one only. */
  lemma {:induction false} NegTwoDisjuncts(ac: Code)
    requires CodeOk(ac) && |ac| == 2
    ensures CodeGoal(Paren(OrCode(AndCode(AndCode(ac, Prim(Cut)), Prim(Fail)), Prim(True)))) ==
      Or([Or([AndChain(ac[0]), And([And([AndChain(ac[1]), Cut]), Fail])]), True])
  {
    AndCodeLast(ac, [Cut]);
    assert ac[..1] == [ac[0]];
    var x1 := [ac[0], ac[1] + [Cut]];
    assert AndCode(ac, Prim(Cut)) == x1;
    AndCodeLast(x1, [Fail]);
    assert x1[..1] == [ac[0]];
    var x2 := [ac[0], ac[1] + [Cut] + [Fail]];
    assert AndCode(x1, Prim(Fail)) == x2;
    var body := x2 + [[True]];
    assert OrCode(x2, Prim(True)) == body;
    CodeGoalParen(body);
    CodeGoalThree(body);
    AndChainSnoc(ac[1], Cut);
    AndChainSnoc(ac[1] + [Cut], Fail);
    assert AndChain([True]) == True;
  }

  lemma {:induction false} NamesOfUnit(x: Expr)
    requires x == TrueExpr || x == FailExpr || x == CutExpr
    ensures ExprNames(AndExpr([x])) == []
  {
    assert ExprNames(x) == [];
    assert [x][1..] == [];
    assert ExprsNames([x]) == ExprNames(x) + ExprsNames([x][1..]);
  }

  /** A one-item conjunction of `true`, `fail` or `!` compiles to that goal
      alone. */
  lemma {:induction false} UnitCode(x: Expr, g: Goal, k: nat, fixed: bool)
    requires (x == TrueExpr && g == True) || (x == FailExpr && g == Fail) || (x == CutExpr && g == Cut)
    ensures ExprNames(AndExpr([x])) == []
    ensures ExprCode(AndExpr([x]), [], k, fixed) == (Prim(g), k)
  {
    NamesOfUnit(x);
    assert ExprCode(x, [], k, fixed) == (Prim(g), k);
    CodeGoalPrim(g);
    assert Paren(Prim(g)) == Prim(g);
    assert AndItemsCode([x], [], k, fixed) == (Paren(Prim(g)), k);
  }

  lemma {:induction false} PrimOrPrim(g0: Goal, g1: Goal)
    ensures OrCode(Prim(g0), Prim(g1)) == [[g0], [g1]]
  {
  }

  /** `(true ; fail)` compiles to the two disjuncts `true` and `fail`. */
  lemma {:induction false} TrueOrFailCode(fixed: bool)
    ensures WellFormed(OrExpr([AndExpr([TrueExpr]), AndExpr([FailExpr])]))
    ensures ExprNames(OrExpr([AndExpr([TrueExpr]), AndExpr([FailExpr])])) == []
    ensures ExprCode(OrExpr([AndExpr([TrueExpr]), AndExpr([FailExpr])]), [], 0, fixed).0 == [[True], [Fail]]
  {
    var t, f := AndExpr([TrueExpr]), AndExpr([FailExpr]);
    UnitCode(TrueExpr, True, 0, fixed);
    UnitCode(FailExpr, Fail, 0, fixed);
    OrItemsTwo(t, f, Prim(True), Prim(Fail), fixed);
    assert Paren(Prim(True)) == Prim(True) by { CodeGoalPrim(True); }
    assert Paren(Prim(Fail)) == Prim(Fail) by { CodeGoalPrim(Fail); }
    PrimOrPrim(True, Fail);
  }

  /** `\+ (true ; fail)`. */
  function NegTrueOrFail(): Expr {
    NegExpr(OrExpr([AndExpr([TrueExpr]), AndExpr([FailExpr])]))
  }

  /** The goal the source builds for `\+ (true ; fail)`. */
  lemma {:induction false} NegTrueOrFailWritten(x: Expr)
    requires x == NegTrueOrFail()
    ensures WellFormed(x) && ExprNames(x) == []
    ensures CodeGoal(ExprCode(x, [], 0, false).0) == Or([Or([True, And([And([Fail, Cut]), Fail])]), True])
  {
    var a := OrExpr([AndExpr([TrueExpr]), AndExpr([FailExpr])]);
    TrueOrFailCode(false);
    assert ExprNames(NegExpr(a)) == ExprNames(a);
    var ac: Code := [[True], [Fail]];
    assert ExprCode(NegExpr(a), [], 0, false).0 ==
      Paren(OrCode(AndCode(AndCode(ac, Prim(Cut)), Prim(Fail)), Prim(True)));
    assert AndChain([True]) == True && AndChain([Fail]) == Fail;
    NegTwoDisjuncts(ac);
  }

  /** The goal for `\+ (true ; fail)` with the parentheses added. */
  lemma {:induction false} NegTrueOrFailFixed(x: Expr)
    requires x == NegTrueOrFail()
    ensures WellFormed(x) && ExprNames(x) == []
    ensures CodeGoal(ExprCode(x, [], 0, true).0) == NegShape(Or([True, Fail]))
  {
    var a := OrExpr([AndExpr([TrueExpr]), AndExpr([FailExpr])]);
    TrueOrFailCode(true);
    assert ExprNames(NegExpr(a)) == ExprNames(a);
    var ac: Code := [[True], [Fail]];
    assert AndChain([True]) == True && AndChain([Fail]) == Fail;
    CodeGoalTwo(ac);
    NegCompiles(a, [], 0, true);
  }

  lemma {:induction false} TwiceThenTrue(p: Program, reg: Registry, e: Env, fuel: nat)
    ensures Eval(p, reg, Or([Or([True, And([And([Fail, Cut]), Fail])]), True]), e, fuel) == Outcome([e, e], Done)
  {
    var y := And([And([Fail, Cut]), Fail]);
    ThenCut(p, reg, Fail, e, fuel);
    ThenFail(p, reg, And([Fail, Cut]), e, fuel);
    assert Eval(p, reg, y, e, fuel) == Outcome([], Done);
    OrOf(p, reg, True, y, e, fuel);
    assert Eval(p, reg, Or([True, y]), e, fuel) == Outcome([e], Done);
    OrOf(p, reg, Or([True, y]), True, e, fuel);
  }

  /** As the source compiles it, `\+ (true ; fail)` succeeds twice. */
  lemma {:induction false} NegPrecedenceAsWritten(x: Expr, p: Program, reg: Registry, e: Env, fuel: nat)
    requires x == NegTrueOrFail()
    ensures WellFormed(x) && ExprNames(x) == []
    ensures Eval(p, reg, CodeGoal(ExprCode(x, [], 0, false).0), e, fuel) == Outcome([e, e], Done)
  {
    NegTrueOrFailWritten(x);
    TwiceThenTrue(p, reg, e, fuel);
  }

  /** The negation of `true ; fail` fails. */
  lemma {:induction false} NegOfTrueOrFail(p: Program, reg: Registry, e: Env, fuel: nat)
    ensures Eval(p, reg, NegShape(Or([True, Fail])), e, fuel) == Outcome([], Done)
  {
    var g := Or([True, Fail]);
    OrOf(p, reg, True, Fail, e, fuel);
    assert Eval(p, reg, g, e, fuel) == Outcome([e], Done);
    NegSemantics(p, reg, g, e, fuel);
  }

  /** With `G` parenthesised, `\+ (true ; fail)` fails. */
  lemma {:induction false} NegPrecedenceFixed(x: Expr, p: Program, reg: Registry, e: Env, fuel: nat)
    requires x == NegTrueOrFail()
    ensures WellFormed(x) && ExprNames(x) == []
    ensures Eval(p, reg, CodeGoal(ExprCode(x, [], 0, true).0), e, fuel) == Outcome([], Done)
  {
    NegTrueOrFailFixed(x);
    NegOfTrueOrFail(p, reg, e, fuel);
  }

  /** `\+ (true ; fail)` succeeds twice as the source compiles it, since
      ` & cut & fail` attaches to the last disjunct only; with `G`
      parenthesised it fails, as the negation of a goal that succeeds must. */
  lemma {:induction false} NegPrecedence(x: Expr, p: Program, reg: Registry, e: Env, fuel: nat)
    requires x == NegTrueOrFail()
    ensures WellFormed(x) && ExprNames(x) == []
    ensures && Eval(p, reg, CodeGoal(ExprCode(x, [], 0, false).0), e, fuel) == Outcome([e, e], Done)
            && Eval(p, reg, CodeGoal(ExprCode(x, [], 0, true).0), e, fuel) == Outcome([], Done)
  {
    NegPrecedenceAsWritten(x, p, reg, e, fuel);
    NegPrecedenceFixed(x, p, reg, e, fuel);
  }

  /** `true -> true ; true`, the if-then-else used below. */
  function TrivialIte(): Expr {
    IfThen(AndExpr([TrueExpr]), AndExpr([TrueExpr]), AndExpr([TrueExpr]))
  }

  lemma {:induction false} TrivialIteCode(k: nat, fixed: bool)
    ensures WellFormed(TrivialIte()) && ExprNames(TrivialIte()) == []
    ensures ExprCode(TrivialIte(), [], k, fixed) == ([[True, Cut, True], [True]], k)
  {
    var t := AndExpr([TrueExpr]);
    UnitCode(TrueExpr, True, k, fixed);
    CodeGoalPrim(True);
    assert Paren(Prim(True)) == Prim(True);
    assert ExprNames(TrivialIte()) == ExprNames(t) + ExprNames(t) + ExprNames(t);
    AndCodeChains([True], [Cut]);
    AndCodeChains([True, Cut], [True]);
    assert [True] + [Cut] == [True, Cut] && [True, Cut] + [True] == [True, Cut, True];
    assert OrCode([[True, Cut, True]], [[True]]) == [[True, Cut, True], [True]];
  }

  /** `fail ; true -> true ; true`, an if-then-else as the second item of
      a disjunction. */
  function FailOrIte(): Expr {
    OrExpr([AndExpr([FailExpr]), TrivialIte()])
  }

  lemma FailOrIteNames()
    ensures WellFormed(FailOrIte()) && ExprNames(FailOrIte()) == []
  {
    UnitCode(FailExpr, Fail, 0, false);
    TrivialIteCode(0, false);
    OrItemsTwo(AndExpr([FailExpr]), TrivialIte(), Prim(Fail), [[True, Cut, True], [True]], false);
  }

  /** One step of `_Or_expr.genCode` on a two-item disjunction whose items
      compile to `c0` and `c1`, numbering nothing. */
  lemma {:induction false} OrItemsTwo(x0: Expr, x1: Expr, c0: Code, c1: Code, fixed: bool)
    requires WellFormed(x0) && WellFormed(x1)
    requires ExprNames(x0) == [] && ExprNames(x1) == []
    requires ExprCode(x0, [], 0, fixed) == (c0, 0) && ExprCode(x1, [], 0, fixed) == (c1, 0)
    ensures ExprsNames([x0, x1]) == []
    ensures CodeOk(c0) && CodeOk(c1)
    ensures OrItemsCode([x0, x1], [], 0, fixed) ==
      if fixed then (OrCode(Paren(c0), Paren(c1)), 0) else (OrCode(c0, c1), 0)
    ensures WellFormed(OrExpr([x0, x1])) && ExprNames(OrExpr([x0, x1])) == []
    ensures ExprCode(OrExpr([x0, x1]), [], 0, fixed).0 ==
      if fixed then OrCode(Paren(c0), Paren(c1)) else OrCode(c0, c1)
  {
    var items := [x0, x1];
    assert items[1..] == [x1] && [x1][1..] == [];
    assert ExprsNames([x1]) == ExprNames(x1) + ExprsNames([]);
    assert ExprsNames(items) == ExprNames(x0) + ExprsNames([x1]);
    var p1 := if fixed then Paren(c1) else c1;
    assert OrItemsCode([x1], [], 0, fixed) == (p1, 0);
  }

  /** `g | c`, with both sides parenthesised when `fixed`. */
  lemma {:induction false} PrimOrCode(g: Goal, c: Code, fixed: bool)
    requires CodeOk(c)
    ensures (if fixed then OrCode(Paren(Prim(g)), Paren(c)) else OrCode(Prim(g), c)) ==
      if fixed then [[g], [CodeGoal(c)]] else [[g]] + c
  {
    CodeGoalPrim(g);
  }

  lemma {:induction false} FailOrIteCode(f: Expr, ite: Expr, ic: Code, fixed: bool)
    requires f == AndExpr([FailExpr]) && ite == TrivialIte() && ic == [[True, Cut, True], [True]]
    ensures ExprNames(OrExpr([f, ite])) == []
    ensures ExprCode(OrExpr([f, ite]), [], 0, fixed).0 ==
      if fixed then [[Fail], [CodeGoal(ic)]] else [[Fail]] + ic
  {
    assert WellFormed(f) && ExprNames(f) == [] && ExprCode(f, [], 0, fixed) == (Prim(Fail), 0) by {
      UnitCode(FailExpr, Fail, 0, fixed);
    }
    assert WellFormed(ite) && ExprNames(ite) == [] && ExprCode(ite, [], 0, fixed) == (ic, 0) by {
      TrivialIteCode(0, fixed);
    }
    OrItemsTwo(f, ite, Prim(Fail), ic, fixed);
    PrimOrCode(Fail, ic, fixed);
  }

  lemma FailOrIteGoals()
    ensures CodeGoal([[Fail], [True, Cut, True], [True]]) ==
      Or([Or([Fail, And([And([True, Cut]), True])]), True])
    ensures CodeGoal([[Fail], [CodeGoal([[True, Cut, True], [True]])]]) ==
      Or([Fail, IteShape(True, True, True)])
  {
    var x: Code := [[Fail], [True, Cut, True], [True]];
    CodeGoalThree(x);
    AndChain3(True, Cut, True);
    assert AndChain([Fail]) == Fail && AndChain([True]) == True;
    var ic: Code := [[True, Cut, True], [True]];
    CodeGoalTwo(ic);
    var y: Code := [[Fail], [CodeGoal(ic)]];
    CodeGoalTwo(y);
    assert AndChain([CodeGoal(ic)]) == CodeGoal(ic);
  }

  /** `fail ; ((true, !), true) ; true` succeeds twice: the cut is caught
      by the inner disjunction, so the last disjunct runs as well. */
  lemma {:induction false} CaughtCutTwice(p: Program, reg: Registry, e: Env, fuel: nat)
    ensures Eval(p, reg, Or([Or([Fail, And([And([True, Cut]), True])]), True]), e, fuel) == Outcome([e, e], Done)
  {
    var y := And([And([True, Cut]), True]);
    ThenCut(p, reg, True, e, fuel);
    AndOf(p, reg, And([True, Cut]), True, e, fuel);
    AndEachOne(p, reg, True, e, Pruned, fuel);
    assert Eval(p, reg, y, e, fuel) == Outcome([e], Pruned);
    OrOf(p, reg, Fail, y, e, fuel);
    assert Eval(p, reg, Or([Fail, y]), e, fuel) == Outcome([e], Done);
    OrOf(p, reg, Or([Fail, y]), True, e, fuel);
  }

  /** `fail ; true -> true ; true` built from the if-then-else shape
      succeeds once. */
  lemma {:induction false} FailOrIteOnce(p: Program, reg: Registry, e: Env, fuel: nat)
    ensures Eval(p, reg, Or([Fail, IteShape(True, True, True)]), e, fuel) == Outcome([e], Done)
  {
    var g := IteShape(True, True, True);
    IteSemantics(p, reg, True, True, True, e, fuel);
    assert Eval(p, reg, g, e, fuel) == Outcome([e], Done);
    OrOf(p, reg, Fail, g, e, fuel);
  }

  /** The goals the source builds for `fail ; true -> true ; true`, as
      written and with each disjunct parenthesised. */
  lemma {:induction false} FailOrIteBuilt(x: Expr)
    requires x == FailOrIte()
    ensures WellFormed(x) && ExprNames(x) == []
    ensures CodeGoal(ExprCode(x, [], 0, false).0) == Or([Or([Fail, And([And([True, Cut]), True])]), True])
    ensures CodeGoal(ExprCode(x, [], 0, true).0) == Or([Fail, IteShape(True, True, True)])
  {
    var f, ite, ic := AndExpr([FailExpr]), TrivialIte(), [[True, Cut, True], [True]];
    FailOrIteNames();
    FailOrIteCode(f, ite, ic, false);
    FailOrIteCode(f, ite, ic, true);
    FailOrIteGoals();
  }

  /** As the source compiles `fail ; true -> true ; true`, the cut of the
      if-then-else is caught by the disjunction with `fail`, so the else
      branch runs as well and the goal succeeds twice. */
  lemma {:induction false} IteInOrAsWritten(x: Expr, p: Program, reg: Registry, e: Env, fuel: nat)
    requires x == FailOrIte()
    ensures WellFormed(x) && ExprNames(x) == []
    ensures Eval(p, reg, CodeGoal(ExprCode(x, [], 0, false).0), e, fuel) == Outcome([e, e], Done)
  {
    FailOrIteBuilt(x);
    CaughtCutTwice(p, reg, e, fuel);
  }

  /** With each disjunct parenthesised, the same goal succeeds once, by the
      then branch. */
  lemma {:induction false} IteInOrFixed(x: Expr, p: Program, reg: Registry, e: Env, fuel: nat)
    requires x == FailOrIte()
    ensures WellFormed(x) && ExprNames(x) == []
    ensures Eval(p, reg, CodeGoal(ExprCode(x, [], 0, true).0), e, fuel) == Outcome([e], Done)
  {
    FailOrIteBuilt(x);
    FailOrIteOnce(p, reg, e, fuel);
  }

  /** The two halves side by side. */
  lemma {:induction false} IteInOrPrecedence(x: Expr, p: Program, reg: Registry, e: Env, fuel: nat)
    requires x == FailOrIte()
    ensures WellFormed(x) && ExprNames(x) == []
    ensures && Eval(p, reg, CodeGoal(ExprCode(x, [], 0, false).0), e, fuel) == Outcome([e, e], Done)
            && Eval(p, reg, CodeGoal(ExprCode(x, [], 0, true).0), e, fuel) == Outcome([e], Done)
  {
    IteInOrAsWritten(x, p, reg, e, fuel);
    IteInOrFixed(x, p, reg, e, fuel);
  }
}

=== FILE: engine.dfy ===
/** The resolution engine: goals as lazy solution streams, modelled as the
    finite list of solutions a goal yields within a fuel bound, together
    with the way the stream ends. A cut ends its stream with `Pruned`
    (a `CutException` in flight); `Or` and the predicate boundary absorb
    it, `And` passes it on. */
module Engine {
  import opened Wrappers
  import opened Terms
  import opened Unify
  import opened UnifyFixed
  import opened Goals
  import opened Primitives

  function SeqSize(gs: seq<Goal>): nat
    decreases gs
  {
    if |gs| == 0 then 0 else GoalSize(gs[0]) + SeqSize(gs[1..])
  }

  lemma {:induction false} SeqSizePair(a: Goal, b: Goal)
    ensures SeqSize([a, b]) == GoalSize(a) + GoalSize(b)
  {
    assert [a, b][1..] == [b];
    assert [b][1..] == [];
    assert SeqSize([b]) == GoalSize(b) + SeqSize([]);
  }

  function GoalSize(g: Goal): (r: nat)
    ensures r >= 1
    decreases g
  {
    match g
    case And(gs) => 1 + SeqSize(gs)
    case Or(gs) => 1 + SeqSize(gs)
    case SoftCut(c, t, e) => 1 + GoalSize(c) + GoalSize(t) + GoalSize(e)
    case _ => 1
  }

  /** Python resolves every name in a clause body when the body's lambda
      runs, before any of its goals: a name that is neither a predicate
      nor a primitive, or a wrong argument count, raises at that point. */
  predicate Builds(p: Program, g: Goal)
    decreases g
  {
    match g
    case And(gs) => forall i :: 0 <= i < |gs| ==> Builds(p, gs[i])
    case Or(gs) => forall i :: 0 <= i < |gs| ==> Builds(p, gs[i])
    case SoftCut(c, t, e) => Builds(p, c) && Builds(p, t) && Builds(p, e)
    case Call(name, args) =>
      if name in p then |args| == p[name].arity else BuiltinArity(name) == Some(|args|)
    case _ => true
  }

  /** Running goal `g` in environment `e` with `fuel` predicate calls left
      on any path: the solutions in the order the generator yields them,
      and how the stream ends. Every solution runs in `e`'s mode and hands
      out cells no earlier than `e`; a cut never escapes a disjunction or a
      call. */
  function Eval(p: Program, reg: Registry, g: Goal, e: Env, fuel: nat): (r: Outcome)
    ensures Extends(e, r.sols)
    ensures g.Or? || g.Call? ==> r.signal != Pruned
    decreases fuel, GoalSize(g), 0, 0
  {
    match g
    case True => Outcome([e], Done)
    case Fail => Outcome([], Done)
    case Cut => Outcome([e], Pruned)
    case And(gs) => AndSeq(p, reg, gs, e, fuel)
    case Or(gs) => OrSeq(p, reg, gs, e, fuel)
    case SoftCut(c, t, el) =>
      SeqSizePair(c, t);
      var r := AndSeq(p, reg, [c, t], e, fuel);
      if r.sols != [] || r.signal != Done then r else Eval(p, reg, el, e, fuel)
    case Call(name, args) =>
      if name in p then
        if |args| != p[name].arity then Outcome([], Raised)
        else if fuel == 0 then Outcome([], OutOfFuel)
        else TryClauses(p, reg, p[name], args, e.(next := e.next + p[name].width), e.next, 0, fuel)
      else
        match Builtin(reg, name, e, args)
        case None => Outcome([], Raised)
        case Some(o) => o
  }

  /** `And._and`: every solution of the first goal is extended by the
      conjunction of the rest. */
  function AndSeq(p: Program, reg: Registry, gs: seq<Goal>, e: Env, fuel: nat): (r: Outcome)
    ensures Extends(e, r.sols)
    decreases fuel, SeqSize(gs), 1, 0
  {
    if |gs| == 0 then Outcome([e], Done)
    else
      var first := Eval(p, reg, gs[0], e, fuel);
      AndEach(p, reg, gs[1..], first.sols, first.signal, fuel)
  }

  /** The rest of a conjunction run from each of `sols` in turn. A
      continuation that ends other than `Done` ends the whole stream;
      otherwise the stream ends as the first goal's did (`sig`). */
  function AndEach(p: Program, reg: Registry, rest: seq<Goal>, sols: seq<Env>, sig: Signal, fuel: nat): (r: Outcome)
    ensures forall e0: Env :: Extends(e0, sols) ==> Extends(e0, r.sols)
    decreases fuel, SeqSize(rest), 2, |sols|
  {
    if |sols| == 0 then Outcome([], sig)
    else
      var r1 := AndSeq(p, reg, rest, sols[0], fuel);
      if r1.signal != Done then r1
      else
        var r2 := AndEach(p, reg, rest, sols[1..], sig, fuel);
        assert forall e0: Env :: Extends(e0, sols) ==> Extends(e0, r1.sols + r2.sols) by {
          forall e0: Env | Extends(e0, sols) ensures Extends(e0, r1.sols + r2.sols) {
            assert sols[0].fixed == e0.fixed && sols[0].next >= e0.next;
            assert Extends(e0, sols[1..]);
          }
        }
        Outcome(r1.sols + r2.sols, r2.signal)
  }

  /** `Or.__call__`: the alternatives one after another; a cut in any of
      them stops the disjunction, which then ends normally. */
  function OrSeq(p: Program, reg: Registry, gs: seq<Goal>, e: Env, fuel: nat): (r: Outcome)
    ensures Extends(e, r.sols)
    ensures r.signal != Pruned
    decreases fuel, SeqSize(gs), 1, 0
  {
    if |gs| == 0 then Outcome([], Done)
    else
      var r1 := Eval(p, reg, gs[0], e, fuel);
      if r1.signal == Pruned then Outcome(r1.sols, Done)
      else if r1.signal != Done then r1
      else
        var r2 := OrSeq(p, reg, gs[1..], e, fuel);
        Outcome(r1.sols + r2.sols, r2.signal)
  }

  /** `PyLogPredicate.__call__` from clause `i` on: the call's arguments are
      unified with the clause head (its variables numbered from `base`);
      the body runs with one less unit of fuel; the bindings are undone
      before the next clause, so each clause starts from the store `e`
      holds. A cut in a body stops the remaining clauses and does not
      escape the call. */
  function TryClauses(p: Program, reg: Registry, pr: Pred, args: seq<Term>, e: Env, base: nat, i: nat, fuel: nat): (r: Outcome)
    requires fuel > 0 && i <= |pr.clauses|
    ensures Extends(e, r.sols)
    ensures r.signal != Pruned
    decreases fuel, 0, 0, |pr.clauses| - i
  {
    if i == |pr.clauses| then Outcome([], Done)
    else
      var c := pr.clauses[i];
      match MguBy(e.fixed, e.store, Cmp("Term", args), Cmp("Term", ShiftTerms(c.head, base)))
      case None => TryClauses(p, reg, pr, args, e, base, i + 1, fuel)
      case Some(u) =>
        match Apply(e.store, u)
        case Err(_) => Outcome([], Raised)
        case Ok(applied) =>
          if !Builds(p, c.body) then Outcome([], Raised)
          else
            var r1 := Eval(p, reg, ShiftGoal(c.body, base), e.(store := applied.0), fuel - 1);
            if r1.signal == Pruned then Outcome(r1.sols, Done)
            else if r1.signal != Done then r1
            else
              var r2 := TryClauses(p, reg, pr, args, e, base, i + 1, fuel);
              Outcome(r1.sols + r2.sols, r2.signal)
  }
}

/** Laws of the engine: conjunction with no further goals, the places a cut
    stops at, and the undo discipline of the clause loop. */
module EngineLaws {
  import opened Wrappers
  import opened Terms
  import opened Unify
  import opened UnifyFixed
  import opened Goals
  import opened Primitives
  import opened Engine

  /** With nothing left to conjoin, every solution passes through and the
      stream ends as it did. */
  lemma {:induction false} AndEachNil(p: Program, reg: Registry, sols: seq<Env>, sig: Signal, fuel: nat)
    ensures AndEach(p, reg, [], sols, sig, fuel) == Outcome(sols, sig)
    decreases |sols|
  {
    if |sols| > 0 {
      AndEachNil(p, reg, sols[1..], sig, fuel);
      assert [sols[0]] + sols[1..] == sols;
    }
  }

  /** A one-goal conjunction is the goal itself. */
  lemma {:induction false} AndSingle(p: Program, reg: Registry, g: Goal, e: Env, fuel: nat)
    ensures Eval(p, reg, And([g]), e, fuel) == Eval(p, reg, g, e, fuel)
  {
    var first := Eval(p, reg, g, e, fuel);
    assert [g][1..] == [];
    AndEachNil(p, reg, first.sols, first.signal, fuel);
  }

  /** A cut can reach the end of `g`'s stream only from a `!` that is not
      inside an `Or` or a call. */
  predicate MayPrune(g: Goal)
    decreases g
  {
    match g
    case Cut => true
    case And(gs) => exists i :: 0 <= i < |gs| && MayPrune(gs[i])
    case SoftCut(c, t, el) => MayPrune(c) || MayPrune(t) || MayPrune(el)
    case _ => false
  }

  /** A goal with no `!` outside an `Or` or a call never ends `Pruned`. */
  lemma {:induction false} NoPruneEval(p: Program, reg: Registry, g: Goal, e: Env, fuel: nat)
    requires !MayPrune(g)
    ensures Eval(p, reg, g, e, fuel).signal != Pruned
    decreases fuel, GoalSize(g), 0, 0
  {
    match g
    case And(gs) => NoPruneAnd(p, reg, gs, e, fuel);
    case SoftCut(c, t, el) =>
      SeqSizePair(c, t);
      NoPruneAnd(p, reg, [c, t], e, fuel);
      NoPruneEval(p, reg, el, e, fuel);
    case _ =>
  }

  lemma {:induction false} NoPruneAnd(p: Program, reg: Registry, gs: seq<Goal>, e: Env, fuel: nat)
    requires forall i :: 0 <= i < |gs| ==> !MayPrune(gs[i])
    ensures AndSeq(p, reg, gs, e, fuel).signal != Pruned
    decreases fuel, SeqSize(gs), 1, 0
  {
    if |gs| > 0 {
      NoPruneEval(p, reg, gs[0], e, fuel);
      var first := Eval(p, reg, gs[0], e, fuel);
      NoPruneEach(p, reg, gs[1..], first.sols, first.signal, fuel);
    }
  }

  lemma {:induction false} NoPruneEach(p: Program, reg: Registry, rest: seq<Goal>, sols: seq<Env>, sig: Signal, fuel: nat)
    requires sig != Pruned
    requires forall i :: 0 <= i < |rest| ==> !MayPrune(rest[i])
    ensures AndEach(p, reg, rest, sols, sig, fuel).signal != Pruned
    decreases fuel, SeqSize(rest), 2, |sols|
  {
    if |sols| > 0 {
      NoPruneAnd(p, reg, rest, sols[0], fuel);
      NoPruneEach(p, reg, rest, sols[1..], sig, fuel);
    }
  }

  /** `!, G` yields exactly `G`'s solutions and then cuts. */
  lemma {:induction false} CutThen(p: Program, reg: Registry, g: Goal, e: Env, fuel: nat)
    ensures var r := Eval(p, reg, g, e, fuel);
      Eval(p, reg, And([Cut, g]), e, fuel) == if r.signal == Done then Outcome(r.sols, Pruned) else r
  {
    var r := Eval(p, reg, g, e, fuel);
    assert [Cut, g][1..] == [g];
    AndSingle(p, reg, g, e, fuel);
    assert AndSeq(p, reg, [g], e, fuel) == r;
    assert Eval(p, reg, Cut, e, fuel) == Outcome([e], Pruned);
    assert [e][1..] == [];
    assert AndEach(p, reg, [g], [], Pruned, fuel) == Outcome([], Pruned);
    assert r.sols + [] == r.sols;
    assert AndSeq(p, reg, [Cut, g], e, fuel) == AndEach(p, reg, [g], [e], Pruned, fuel);
  }

  /** In `(!, G ; H)` the alternative `H` never runs: the disjunction yields
      `G`'s solutions and ends normally. */
  lemma {:induction false} CutCommits(p: Program, reg: Registry, g: Goal, h: Goal, e: Env, fuel: nat)
    requires Eval(p, reg, g, e, fuel).signal == Done
    ensures Eval(p, reg, Or([And([Cut, g]), h]), e, fuel) == Outcome(Eval(p, reg, g, e, fuel).sols, Done)
  {
    CutThen(p, reg, g, e, fuel);
  }

  /** The clause loop as the source runs it: after a clause's solutions the
      unifier's bindings are undone, and the next clause starts from the
      store the undo leaves. */
  function TryClausesTrail(p: Program, reg: Registry, pr: Pred, args: seq<Term>, e: Env, base: nat, i: nat, fuel: nat): (r: Outcome)
    requires fuel > 0 && i <= |pr.clauses|
    ensures i == |pr.clauses| ==> r == Outcome([], Done)
    decreases |pr.clauses| - i
  {
    if i == |pr.clauses| then Outcome([], Done)
    else
      var c := pr.clauses[i];
      match MguBy(e.fixed, e.store, Cmp("Term", args), Cmp("Term", ShiftTerms(c.head, base)))
      case None => TryClausesTrail(p, reg, pr, args, e, base, i + 1, fuel)
      case Some(u) =>
        match Apply(e.store, u)
        case Err(_) => Outcome([], Raised)
        case Ok(applied) =>
          if !Builds(p, c.body) then Outcome([], Raised)
          else
            var r1 := Eval(p, reg, ShiftGoal(c.body, base), e.(store := applied.0), fuel - 1);
            if r1.signal == Pruned then Outcome(r1.sols, Done)
            else if r1.signal != Done then r1
            else
              var undone := Undo(applied.0, applied.1).0;
              var r2 := TryClausesTrail(p, reg, pr, args, e.(store := undone), base, i + 1, fuel);
              Outcome(r1.sols + r2.sols, r2.signal)
  }

  /** What a clause whose head unified into `store` yields, given what the
      clauses after it yield. */
  function AfterHead(p: Program, reg: Registry, c: Clause, e: Env, base: nat, fuel: nat, store: Store, rest: Outcome): Outcome
    requires fuel > 0
  {
    if !Builds(p, c.body) then Outcome([], Raised)
    else
      var r1 := Eval(p, reg, ShiftGoal(c.body, base), e.(store := store), fuel - 1);
      if r1.signal == Pruned then Outcome(r1.sols, Done)
      else if r1.signal != Done then r1
      else Outcome(r1.sols + rest.sols, rest.signal)
  }

  lemma {:induction false} ClausesUnified(p: Program, reg: Registry, pr: Pred, args: seq<Term>, e: Env, base: nat, i: nat, fuel: nat, u: Unifier)
    requires fuel > 0 && i < |pr.clauses|
    requires MguBy(e.fixed, e.store, Cmp("Term", args), Cmp("Term", ShiftTerms(pr.clauses[i].head, base))) == Some(u)
    requires Apply(e.store, u).Ok?
    ensures TryClauses(p, reg, pr, args, e, base, i, fuel) ==
      AfterHead(p, reg, pr.clauses[i], e, base, fuel, Apply(e.store, u).value.0, TryClauses(p, reg, pr, args, e, base, i + 1, fuel))
  {
  }

  lemma {:induction false} TrailUnifiedStep(p: Program, reg: Registry, pr: Pred, args: seq<Term>, e: Env, base: nat, i: nat, fuel: nat,
                         u: Unifier, s1: Store, bound: Backup)
    requires fuel > 0 && i < |pr.clauses|
    requires MguBy(e.fixed, e.store, Cmp("Term", args), Cmp("Term", ShiftTerms(pr.clauses[i].head, base))) == Some(u)
    requires Apply(e.store, u) == Ok((s1, bound))
    ensures TryClausesTrail(p, reg, pr, args, e, base, i, fuel) ==
      AfterHead(p, reg, pr.clauses[i], e, base, fuel, s1,
        TryClausesTrail(p, reg, pr, args, e.(store := Undo(s1, bound).0), base, i + 1, fuel))
  {
  }

  /** When the clause head unifies, the trail loop goes on from the store
      that undoing gives back. */
  lemma {:induction false} TrailUnified(p: Program, reg: Registry, pr: Pred, args: seq<Term>, e: Env, base: nat, i: nat, fuel: nat, u: Unifier)
    requires fuel > 0 && i < |pr.clauses|
    requires MguBy(e.fixed, e.store, Cmp("Term", args), Cmp("Term", ShiftTerms(pr.clauses[i].head, base))) == Some(u)
    requires Apply(e.store, u).Ok? && Undo(Apply(e.store, u).value.0, Apply(e.store, u).value.1).0 == e.store
    requires TryClausesTrail(p, reg, pr, args, e, base, i + 1, fuel) == TryClauses(p, reg, pr, args, e, base, i + 1, fuel)
    ensures TryClausesTrail(p, reg, pr, args, e, base, i, fuel) == TryClauses(p, reg, pr, args, e, base, i, fuel)
  {
    var applied := Apply(e.store, u).value;
    assert e.(store := Undo(applied.0, applied.1).0) == e;
    ClausesUnified(p, reg, pr, args, e, base, i, fuel, u);
    TrailUnifiedStep(p, reg, pr, args, e, base, i, fuel, u, applied.0, applied.1);
  }

  /** One clause of the two loops: if they agree from clause `i + 1` on,
      they agree from clause `i`, since the undone store is the one the
      clause started from. */
  lemma {:induction false} TrailStep(p: Program, reg: Registry, pr: Pred, args: seq<Term>, e: Env, base: nat, i: nat, fuel: nat)
    requires fuel > 0 && i < |pr.clauses|
    requires Acyclic(e.store)
    requires TryClausesTrail(p, reg, pr, args, e, base, i + 1, fuel) == TryClauses(p, reg, pr, args, e, base, i + 1, fuel)
    ensures TryClausesTrail(p, reg, pr, args, e, base, i, fuel) == TryClauses(p, reg, pr, args, e, base, i, fuel)
  {
    var a, b := Cmp("Term", args), Cmp("Term", ShiftTerms(pr.clauses[i].head, base));
    MguBySound(e.fixed, e.store, a, b);
    if MguBy(e.fixed, e.store, a, b).Some? {
      var u := MguBy(e.fixed, e.store, a, b).value;
      UndoApply(e.store, u);
      TrailUnified(p, reg, pr, args, e, base, i, fuel, u);
    }
  }

  /** On an acyclic store `Unifier.undo` restores exactly the store the
      clause started from, so the loop that undoes and the loop that reuses
      the saved store agree. */
  lemma {:induction false} TrailAgrees(p: Program, reg: Registry, pr: Pred, args: seq<Term>, e: Env, base: nat, i: nat, fuel: nat)
    requires fuel > 0 && i <= |pr.clauses|
    requires Acyclic(e.store)
    ensures TryClausesTrail(p, reg, pr, args, e, base, i, fuel) == TryClauses(p, reg, pr, args, e, base, i, fuel)
    decreases |pr.clauses| - i
  {
    if i < |pr.clauses| {
      TrailAgrees(p, reg, pr, args, e, base, i + 1, fuel);
      TrailStep(p, reg, pr, args, e, base, i, fuel);
    }
  }

  lemma {:induction false} AndOf(p: Program, reg: Registry, a: Goal, b: Goal, e: Env, fuel: nat)
    ensures var ra := Eval(p, reg, a, e, fuel);
      Eval(p, reg, And([a, b]), e, fuel) == AndEach(p, reg, [b], ra.sols, ra.signal, fuel)
  {
    assert [a, b][1..] == [b];
  }

  lemma {:induction false} AndEachOne(p: Program, reg: Registry, b: Goal, s: Env, sig: Signal, fuel: nat)
    ensures var rb := Eval(p, reg, b, s, fuel);
      AndEach(p, reg, [b], [s], sig, fuel) == if rb.signal != Done then rb else Outcome(rb.sols, sig)
  {
    AndSingle(p, reg, b, s, fuel);
    assert AndSeq(p, reg, [b], s, fuel) == Eval(p, reg, b, s, fuel);
    assert [s][1..] == [];
    assert Eval(p, reg, b, s, fuel).sols + [] == Eval(p, reg, b, s, fuel).sols;
  }

  /** `G & cut`: the first solution of `G`, then the cut. */
  lemma {:induction false} ThenCut(p: Program, reg: Registry, a: Goal, e: Env, fuel: nat)
    ensures var ra := Eval(p, reg, a, e, fuel);
      Eval(p, reg, And([a, Cut]), e, fuel) ==
        if ra.sols == [] then Outcome([], ra.signal) else Outcome([ra.sols[0]], Pruned)
  {
    var ra := Eval(p, reg, a, e, fuel);
    AndOf(p, reg, a, Cut, e, fuel);
    if ra.sols != [] {
      AndSingle(p, reg, Cut, ra.sols[0], fuel);
    }
  }

  lemma {:induction false} AndEachFail(p: Program, reg: Registry, sols: seq<Env>, sig: Signal, fuel: nat)
    ensures AndEach(p, reg, [Fail], sols, sig, fuel) == Outcome([], sig)
    decreases |sols|
  {
    if |sols| > 0 {
      AndSingle(p, reg, Fail, sols[0], fuel);
      AndEachFail(p, reg, sols[1..], sig, fuel);
    }
  }

  /** `G & fail` yields nothing and ends as `G` does. */
  lemma {:induction false} ThenFail(p: Program, reg: Registry, a: Goal, e: Env, fuel: nat)
    ensures Eval(p, reg, And([a, Fail]), e, fuel) == Outcome([], Eval(p, reg, a, e, fuel).signal)
  {
    var ra := Eval(p, reg, a, e, fuel);
    AndOf(p, reg, a, Fail, e, fuel);
    AndEachFail(p, reg, ra.sols, ra.signal, fuel);
  }

  lemma {:induction false} OrOf(p: Program, reg: Registry, a: Goal, b: Goal, e: Env, fuel: nat)
    ensures var ra, rb := Eval(p, reg, a, e, fuel), Eval(p, reg, b, e, fuel);
      Eval(p, reg, Or([a, b]), e, fuel) ==
        if ra.signal == Pruned then Outcome(ra.sols, Done)
        else if ra.signal != Done then ra
        else if rb.signal == Pruned then Outcome(ra.sols + rb.sols, Done)
        else Outcome(ra.sols + rb.sols, rb.signal)
  {
    var rb := Eval(p, reg, b, e, fuel);
    assert [a, b][1..] == [b] && [b][1..] == [];
    assert rb.sols + [] == rb.sols;
    assert OrSeq(p, reg, [b], e, fuel) ==
      if rb.signal == Pruned then Outcome(rb.sols, Done)
      else if rb.signal != Done then rb
      else Outcome(rb.sols, Done);
  }

  /** The shape `\+ G` compiles to: `G & cut & fail | true`. */
  function NegShape(g: Goal): Goal {
    Or([And([And([g, Cut]), Fail]), True])
  }

  /** The negation of `G` succeeds once, binding nothing, exactly when `G`
      ends normally without a solution. A solution of `G`, or a cut inside
      `G` reaching the negation, makes it fail; an exception passes through. */
  lemma {:induction false} NegSemantics(p: Program, reg: Registry, g: Goal, e: Env, fuel: nat)
    ensures var r := Eval(p, reg, g, e, fuel);
      Eval(p, reg, NegShape(g), e, fuel) ==
        if r.sols != [] || r.signal == Pruned then Outcome([], Done)
        else if r.signal == Done then Outcome([e], Done)
        else Outcome([], r.signal)
  {
    var r := Eval(p, reg, g, e, fuel);
    ThenCut(p, reg, g, e, fuel);
    ThenFail(p, reg, And([g, Cut]), e, fuel);
    OrOf(p, reg, And([And([g, Cut]), Fail]), True, e, fuel);
  }

  /** The shape `C -> T ; E` compiles to: `C & cut & T | E`. */
  function IteShape(c: Goal, t: Goal, el: Goal): Goal {
    Or([And([And([c, Cut]), t]), el])
  }

  /** If-then-else commits to the first solution of the condition and runs
      the then-branch from it, cut-free; with no solution of the condition
      the else-branch runs, unless a cut in the condition reached the
      disjunction. */
  lemma {:induction false} IteSemantics(p: Program, reg: Registry, c: Goal, t: Goal, el: Goal, e: Env, fuel: nat)
    ensures var rc := Eval(p, reg, c, e, fuel);
      var r := Eval(p, reg, IteShape(c, t, el), e, fuel);
      && (rc.sols != [] ==>
            var rt := Eval(p, reg, t, rc.sols[0], fuel);
            r == if rt.signal == Done || rt.signal == Pruned then Outcome(rt.sols, Done) else rt)
      && (rc.sols == [] && rc.signal == Done ==>
            var re := Eval(p, reg, el, e, fuel);
            r == if re.signal == Pruned then Outcome(re.sols, Done) else re)
      && (rc.sols == [] && rc.signal == Pruned ==> r == Outcome([], Done))
      && (rc.sols == [] && rc.signal != Done && rc.signal != Pruned ==> r == Outcome([], rc.signal))
  {
    var rc := Eval(p, reg, c, e, fuel);
    ThenCut(p, reg, c, e, fuel);
    AndOf(p, reg, And([c, Cut]), t, e, fuel);
    if rc.sols != [] {
      AndEachOne(p, reg, t, rc.sols[0], Pruned, fuel);
    }
    OrOf(p, reg, And([And([c, Cut]), t]), el, e, fuel);
  }

  /** A soft-cut whose condition has at most one solution, whose
      then-branch succeeds from it, and whose branches end normally behaves
      as if-then-else. */
  lemma {:induction false} SoftCutAsIte(p: Program, reg: Registry, c: Goal, t: Goal, el: Goal, e: Env, fuel: nat)
    requires Eval(p, reg, c, e, fuel).signal == Done && |Eval(p, reg, c, e, fuel).sols| <= 1
    requires Eval(p, reg, c, e, fuel).sols != [] ==>
      var rt := Eval(p, reg, t, Eval(p, reg, c, e, fuel).sols[0], fuel);
      rt.signal == Done && rt.sols != []
    requires Eval(p, reg, c, e, fuel).sols == [] ==> Eval(p, reg, el, e, fuel).signal == Done
    ensures Eval(p, reg, SoftCut(c, t, el), e, fuel) == Eval(p, reg, IteShape(c, t, el), e, fuel)
  {
    var rc := Eval(p, reg, c, e, fuel);
    IteSemantics(p, reg, c, t, el, e, fuel);
    AndOf(p, reg, c, t, e, fuel);
    if rc.sols != [] {
      assert rc.sols == [rc.sols[0]];
      AndEachOne(p, reg, t, rc.sols[0], Done, fuel);
    }
  }

  /** `C *-> true ; E` yields every solution of `C`, and `E`'s only when
      `C` has none. */
  lemma {:induction false} SoftCutTrue(p: Program, reg: Registry, c: Goal, el: Goal, e: Env, fuel: nat)
    requires Eval(p, reg, c, e, fuel).signal == Done
    ensures var rc := Eval(p, reg, c, e, fuel);
      Eval(p, reg, SoftCut(c, True, el), e, fuel) == if rc.sols != [] then rc else Eval(p, reg, el, e, fuel)
  {
    var rc := Eval(p, reg, c, e, fuel);
    AndOf(p, reg, c, True, e, fuel);
    AndEachTrue(p, reg, rc.sols, Done, fuel);
  }

  lemma {:induction false} AndEachTrue(p: Program, reg: Registry, sols: seq<Env>, sig: Signal, fuel: nat)
    ensures AndEach(p, reg, [True], sols, sig, fuel) == Outcome(sols, sig)
    decreases |sols|
  {
    if |sols| > 0 {
      AndSingle(p, reg, True, sols[0], fuel);
      AndEachTrue(p, reg, sols[1..], sig, fuel);
      assert [sols[0]] + sols[1..] == sols;
    }
  }

  /** Unlike if-then-else, a soft-cut whose condition succeeds but whose
      then-branch then fails runs the else-branch: the source tests whether
      `cond & then` produced anything, not whether `cond` did. */
  lemma {:induction false} SoftCutRetriesElse(p: Program, reg: Registry, c: Goal, t: Goal, el: Goal, e: Env, s: Env, fuel: nat)
    requires Eval(p, reg, c, e, fuel) == Outcome([s], Done)
    requires Eval(p, reg, t, s, fuel) == Outcome([], Done)
    ensures Eval(p, reg, SoftCut(c, t, el), e, fuel) == Eval(p, reg, el, e, fuel)
    ensures Eval(p, reg, IteShape(c, t, el), e, fuel) == Outcome([], Done)
  {
    IteSemantics(p, reg, c, t, el, e, fuel);
    AndOf(p, reg, c, t, e, fuel);
    AndEachOne(p, reg, t, s, Done, fuel);
  }
}

=== FILE: goal_laws.dfy ===
/** What the goal grammar accepts, stated against a printer: every clause
    body in the parser's normal form prints to tokens that EXPR, IF_THEN_EXPR,
    AND_EXPR and ATOM_EXPR read back exactly, leaving what follows alone;
    every rule and every program of such rules round-trips through RULE and
    START. The normal form is what the grammar builds: `_Or_expr` around
    if-then items, `_And_expr` around atoms, parentheses as an `_Or_expr`
    atom, and an if-then without else only where nothing else can follow. */
module GoalLaws {
  import opened Wrappers
  import opened Ast
  import opened Parser
  import opened ParserLaws

  // The normal form.

  /** An ATOM_EXPR result. */
  predicate AtomNF(x: Expr)
    decreases x, 0
  {
    match x
    case CompExpr(_, l, r) => Printable(l) && Printable(r)
    case CallExpr(_, args) => AllPrintable(args)
    case CutExpr => true
    case TrueExpr => true
    case FailExpr => true
    case NegExpr(a) => AtomNF(a)
    case OrExpr(items) => ItemsNF(items)
    case _ => false
  }

  /** An AND_EXPR result: a non-empty `_And_expr` of atoms. */
  predicate AndNF(x: Expr)
    decreases x, 1
  {
    x.AndExpr? && |x.items| > 0 && forall i :: 0 <= i < |x.items| ==> AtomNF(x.items[i])
  }

  /** An if-then-else whose last else part is missing, so that a following
      `;` would be read as its else branch. */
  predicate Open(x: Expr)
    decreases x
  {
    match x
    case IfThen(_, _, e) => e == FailExpr || Open(e)
    case SoftExpr(_, _, e) => e == FailExpr || Open(e)
    case _ => false
  }

  /** An IF_THEN_EXPR result: a conjunction, or an if-then-else whose
      condition and then part are conjunctions and whose else part is
      missing (`fail`) or another item. */
  predicate ItemNF(x: Expr)
    decreases x, 2
  {
    match x
    case AndExpr(_) => AndNF(x)
    case IfThen(c, t, e) => AndNF(c) && AndNF(t) && (e == FailExpr || ItemNF(e))
    case SoftExpr(c, t, e) => AndNF(c) && AndNF(t) && (e == FailExpr || ItemNF(e))
    case _ => false
  }

  /** The items of an EXPR result: at least one, and none but the last
      open. */
  predicate ItemsNF(items: seq<Expr>)
    decreases items, 1
  {
    |items| > 0 && ItemSeq(items)
  }

  predicate ItemSeq(items: seq<Expr>)
    decreases items, 0
  {
    && (forall i :: 0 <= i < |items| ==> ItemNF(items[i]))
    && (forall i :: 0 <= i < |items| - 1 ==> !Open(items[i]))
  }

  // Printing goals.

  function PrintAtom(x: Expr): Tokens
    decreases x, 1
  {
    match x
    case CompExpr(op, l, r) => PrintTerm(l) + [TOp(op)] + PrintTerm(r)
    case CallExpr(n, args) => [TPredName(n)] + ArgList(args)
    case CutExpr => [TBang]
    case TrueExpr => [TTrue]
    case FailExpr => [TFail]
    case NegExpr(a) => [TNot] + PrintAtom(a)
    case OrExpr(items) => [TLParen] + PrintItems(items) + [TRParen]
    case _ => []
  }

  /** `a1, a2, ...` for a conjunction. */
  function PrintAnd(x: Expr): Tokens
    decreases x, 2
  {
    if x.AndExpr? && |x.items| > 0 then PrintAtom(x.items[0]) + CommaAtoms(x.items[1..]) else []
  }

  function CommaAtoms(items: seq<Expr>): (r: Tokens)
    ensures |items| == 0 <==> r == []
    ensures |items| > 0 ==> r[0] == TComma
    decreases items, 0
  {
    if |items| == 0 then [] else [TComma] + PrintAtom(items[0]) + CommaAtoms(items[1..])
  }

  /** `C -> T ; E`, `C *-> T ; E`, without `; E` when the else part is `fail`. */
  function PrintItem(x: Expr): Tokens
    decreases x, 3
  {
    match x
    case AndExpr(_) => PrintAnd(x)
    case IfThen(c, t, e) => PrintAnd(c) + [TArrow] + PrintAnd(t) + ElsePart(e)
    case SoftExpr(c, t, e) => PrintAnd(c) + [TSoftArrow] + PrintAnd(t) + ElsePart(e)
    case _ => []
  }

  function ElsePart(e: Expr): (r: Tokens)
    ensures r == [] || r[0] == TSemi
    decreases e, 4
  {
    if e == FailExpr then [] else [TSemi] + PrintItem(e)
  }

  /** `i1 ; i2 ; ...` for the items of a disjunction. */
  function PrintItems(items: seq<Expr>): Tokens
    decreases items, 1
  {
    if |items| == 0 then [] else PrintItem(items[0]) + SemiItems(items[1..])
  }

  function SemiItems(items: seq<Expr>): (r: Tokens)
    ensures |items| == 0 <==> r == []
    ensures |items| > 0 ==> r[0] == TSemi
    decreases items, 0
  {
    if |items| == 0 then [] else [TSemi] + PrintItem(items[0]) + SemiItems(items[1..])
  }

  // What may follow each level without being read into it.

  predicate AtomStop(rest: Tokens) {
    TermStop(rest) && (|rest| == 0 || !rest[0].TOp?)
  }

  predicate AndStop(rest: Tokens) {
    AtomStop(rest) && (|rest| == 0 || rest[0] != TComma)
  }

  predicate ItemStop(rest: Tokens) {
    AndStop(rest) && (|rest| == 0 || (rest[0] != TArrow && rest[0] != TSoftArrow))
  }

  predicate OrStop(rest: Tokens) {
    ItemStop(rest) && (|rest| == 0 || (rest[0] != TSemi && rest[0] != TBar))
  }

  lemma {:induction false} Regroup5<T>(a: seq<T>, b: seq<T>, c: seq<T>, d: seq<T>, e: seq<T>)
    ensures a + b + c + d + e == a + (b + (c + (d + e)))
  {
  }

  // The infix forms.

  /** When TERM fails, or what follows it is no operator, no infix form
      applies. */
  lemma {:induction false} InfixNone(ts: Tokens, ops: seq<CompOp>)
    requires var t := ParseTerm(ts); t.None? || |t.value.1| == 0 || !t.value.1[0].TOp?
    ensures ParseInfix(ts, ops).None?
    decreases |ops|
  {
    if |ops| > 0 {
      InfixNone(ts, ops[1..]);
    }
  }

  /** `l op r` reads as the comparison with that operator, whatever its
      place in the order the forms are tried. */
  lemma {:induction false} InfixPicks(l: TermAst, op: CompOp, r: TermAst, rest: Tokens, ops: seq<CompOp>)
    requires Printable(l) && Printable(r) && TermStop(rest) && op in ops
    ensures ParseInfix(PrintTerm(l) + ([TOp(op)] + (PrintTerm(r) + rest)), ops)
      == Some((CompExpr(op, l, r), rest))
    decreases |ops|
  {
    var after := [TOp(op)] + (PrintTerm(r) + rest);
    TermRoundTrip(l, after);
    TermRoundTrip(r, rest);
    assert after[1..] == PrintTerm(r) + rest;
    if ops[0] != op {
      assert op in ops[1..] by {
        assert ops == [ops[0]] + ops[1..];
      }
      InfixPicks(l, op, r, rest, ops[1..]);
    }
  }

  lemma {:induction false} EveryOpListed(op: CompOp)
    ensures op in InfixOrder
  {
  }

  // How ATOM_EXPR starts, one head token at a time.

  lemma {:induction false} AtomToken(x: Expr, rest: Tokens)
    requires x.CutExpr? || x.TrueExpr? || x.FailExpr?
    ensures ParseAtom(PrintAtom(x) + rest) == Some((x, rest))
  {
    var ts := PrintAtom(x) + rest;
    assert ParseTerm(ts).None?;
    InfixNone(ts, InfixOrder);
    assert ts[1..] == rest;
  }

  lemma {:induction false} AtomParen(ts: Tokens)
    ensures ParseAtom([TLParen] + ts) ==
      var inner := ParseExpr(ts);
      if inner.Some? && |inner.value.1| > 0 && inner.value.1[0] == TRParen
      then Some((inner.value.0, inner.value.1[1..]))
      else None
  {
    assert ParseTerm([TLParen] + ts).None?;
    InfixNone([TLParen] + ts, InfixOrder);
    assert ([TLParen] + ts)[1..] == ts;
  }

  lemma {:induction false} AtomNot(ts: Tokens)
    ensures ParseAtom([TNot] + ts) ==
      var a := ParseAtom(ts);
      if a.Some? then Some((NegExpr(a.value.0), a.value.1)) else None
  {
    assert ParseTerm([TNot] + ts).None?;
    InfixNone([TNot] + ts, InfixOrder);
    assert ([TNot] + ts)[1..] == ts;
  }

  /** A call reads as a call, not as the left side of a comparison. */
  lemma {:induction false} AtomCall(n: string, args: seq<TermAst>, rest: Tokens)
    requires AllPrintable(args) && AtomStop(rest)
    ensures ParseAtom([TPredName(n)] + (ArgList(args) + rest)) == Some((CallExpr(n, args), rest))
  {
    var ts := [TPredName(n)] + (ArgList(args) + rest);
    if |args| > 0 {
      assert Printable(ATerm(n, args));
      assert PrintTerm(ATerm(n, args)) + rest == ts;
      TermRoundTrip(ATerm(n, args), rest);
    } else {
      assert ArgList(args) + rest == rest;
      TermName(n, rest);
    }
    InfixNone(ts, InfixOrder);
    assert ts[1..] == ArgList(args) + rest;
    ArgsRoundTrip(args, rest);
  }

  /** `foo()` as a goal is the call `foo` with no arguments and the
      parentheses are read, unlike `foo()` as a term. */
  lemma {:induction false} CallEmptyArgs(n: string, rest: Tokens)
    requires AtomStop(rest)
    ensures ParseAtom([TPredName(n)] + ([TLParen, TRParen] + rest)) == Some((CallExpr(n, []), rest))
  {
    var parens := [TLParen, TRParen] + rest;
    var ts := [TPredName(n)] + parens;
    TermName(n, parens);
    EmptyParens(rest);
    InfixNone(ts, InfixOrder);
    assert ts[1..] == parens;
  }

  // The unfolding of the loops that follow a separator.

  lemma {:induction false} AndComma(acc: seq<Expr>, ts: Tokens, a: Expr, r: Tokens)
    requires AllWellFormed(acc) && ParseAtom(ts) == Some((a, r))
    ensures AllWellFormed(acc + [a])
    ensures AndRest(acc, [TComma] + ts) == AndRest(acc + [a], r)
  {
    assert ([TComma] + ts)[1..] == ts;
  }

  lemma {:induction false} ExprSemi(acc: seq<Expr>, ts: Tokens, e: Expr, r: Tokens)
    requires AllWellFormed(acc) && ParseIfThen(ts) == Some((e, r))
    ensures AllWellFormed(acc + [e])
    ensures ExprRest(acc, [TSemi] + ts) == ExprRest(acc + [e], r)
  {
    assert ([TSemi] + ts)[1..] == ts;
  }

  lemma {:induction false} ElseSemi(ts: Tokens, e: Expr, r: Tokens)
    requires ParseIfThen(ts) == Some((e, r))
    ensures ParseElse([TSemi] + ts) == (e, r)
  {
    assert ([TSemi] + ts)[1..] == ts;
  }

  /** IF_THEN_EXPR with an arrow: condition, arrow, then part, else part. */
  lemma {:induction false} ArrowUnfold(ts: Tokens, c: Expr, r1: Tokens, t: Expr, r2: Tokens, e: Expr, rest: Tokens)
    requires ParseAnd(ts) == Some((c, r1)) && |r1| > 0 && (r1[0] == TArrow || r1[0] == TSoftArrow)
    requires ParseAnd(r1[1..]) == Some((t, r2))
    requires ParseElse(r2) == (e, rest)
    ensures ParseIfThen(ts) == Some((if r1[0] == TArrow then IfThen(c, t, e) else SoftExpr(c, t, e), rest))
  {
  }

  lemma {:induction false} CommaAtomsCons(items: seq<Expr>, end: Tokens)
    requires |items| > 0
    ensures CommaAtoms(items) + end == [TComma] + (PrintAtom(items[0]) + (CommaAtoms(items[1..]) + end))
  {
    Regroup([TComma], PrintAtom(items[0]), CommaAtoms(items[1..]), end);
  }

  lemma {:induction false} SemiItemsCons(items: seq<Expr>, end: Tokens)
    requires |items| > 0
    ensures SemiItems(items) + end == [TSemi] + (PrintItem(items[0]) + (SemiItems(items[1..]) + end))
  {
    Regroup([TSemi], PrintItem(items[0]), SemiItems(items[1..]), end);
  }

  /** The first item of a disjunction may be followed by the rest. */
  lemma {:induction false} ItemsStep(items: seq<Expr>, rest: Tokens)
    requires |items| > 0 && ItemSeq(items) && OrStop(rest)
    ensures ItemNF(items[0]) && ItemSeq(items[1..])
    ensures var after := SemiItems(items[1..]) + rest;
      ItemStop(after) && (Open(items[0]) ==> OrStop(after))
  {
    var after := SemiItems(items[1..]) + rest;
    if |items[1..]| > 0 {
      assert after[0] == TSemi;
      assert !Open(items[0]);
    } else {
      assert after == rest;
    }
  }

  // The round trips.

  lemma {:induction false} AtomRoundTrip(x: Expr, rest: Tokens)
    requires AtomNF(x) && AtomStop(rest)
    ensures ParseAtom(PrintAtom(x) + rest) == Some((x, rest))
    decreases x, 1
  {
    match x
    case CompExpr(op, l, r) =>
      Regroup(PrintTerm(l), [TOp(op)], PrintTerm(r), rest);
      EveryOpListed(op);
      InfixPicks(l, op, r, rest, InfixOrder);
    case CallExpr(n, args) =>
      assert PrintAtom(x) + rest == [TPredName(n)] + (ArgList(args) + rest);
      AtomCall(n, args, rest);
    case CutExpr => AtomToken(x, rest);
    case TrueExpr => AtomToken(x, rest);
    case FailExpr => AtomToken(x, rest);
    case NegExpr(a) =>
      assert PrintAtom(x) + rest == [TNot] + (PrintAtom(a) + rest);
      AtomRoundTrip(a, rest);
      AtomNot(PrintAtom(a) + rest);
    case OrExpr(items) =>
      var close := [TRParen] + rest;
      Regroup([TLParen], PrintItems(items), [TRParen], rest);
      OrRoundTrip(items, close);
      AtomParen(PrintItems(items) + close);
      assert close[1..] == rest;
    case AndExpr(_) => assert false;
    case IfThen(_, _, _) => assert false;
    case SoftExpr(_, _, _) => assert false;
  }

  lemma {:induction false} AndRoundTrip(x: Expr, rest: Tokens)
    requires AndNF(x) && AndStop(rest)
    ensures ParseAnd(PrintAnd(x) + rest) == Some((x, rest))
    decreases x, 2
  {
    var items := x.items;
    var after := CommaAtoms(items[1..]) + rest;
    assert PrintAnd(x) + rest == PrintAtom(items[0]) + after;
    assert AtomNF(items[0]);
    assert AtomStop(after) by {
      if |items[1..]| > 0 { assert after[0] == TComma; } else { assert after == rest; }
    }
    AtomRoundTrip(items[0], after);
    CommaAtomsRoundTrip([items[0]], items[1..], rest);
    HeadTail([], items);
  }

  lemma {:induction false} CommaAtomsRoundTrip(acc: seq<Expr>, items: seq<Expr>, rest: Tokens)
    requires AllWellFormed(acc) && AndStop(rest)
    requires forall i :: 0 <= i < |items| ==> AtomNF(items[i])
    ensures AndRest(acc, CommaAtoms(items) + rest) == (acc + items, rest)
    decreases items, 0
  {
    if |items| == 0 {
      assert acc + items == acc;
      assert CommaAtoms(items) + rest == rest;
    } else {
      var after := CommaAtoms(items[1..]) + rest;
      CommaAtomsCons(items, rest);
      assert AtomNF(items[0]);
      assert AtomStop(after) by {
        if |items[1..]| > 0 { assert after[0] == TComma; } else { assert after == rest; }
      }
      AtomRoundTrip(items[0], after);
      AndComma(acc, PrintAtom(items[0]) + after, items[0], after);
      CommaAtomsRoundTrip(acc + [items[0]], items[1..], rest);
      HeadTail(acc, items);
    }
  }

  lemma {:induction false} ItemRoundTrip(x: Expr, rest: Tokens)
    requires ItemNF(x) && ItemStop(rest) && (Open(x) ==> OrStop(rest))
    ensures ParseIfThen(PrintItem(x) + rest) == Some((x, rest))
    decreases x, 3
  {
    match x
    case AndExpr(_) =>
      AndRoundTrip(x, rest);
    case IfThen(c, t, e) =>
      ArrowRoundTrip(x, TArrow, rest);
    case SoftExpr(c, t, e) =>
      ArrowRoundTrip(x, TSoftArrow, rest);
    case _ => assert false;
  }

  lemma {:induction false} ArrowPrint(x: Expr, arrow: Token, rest: Tokens)
    requires x.IfThen? || x.SoftExpr?
    requires arrow == if x.IfThen? then TArrow else TSoftArrow
    ensures PrintItem(x) + rest
      == PrintAnd(x.cond) + ([arrow] + (PrintAnd(x.thenExpr) + (ElsePart(x.elseExpr) + rest)))
  {
    Regroup5(PrintAnd(x.cond), [arrow], PrintAnd(x.thenExpr), ElsePart(x.elseExpr), rest);
  }

  lemma {:induction false} ArrowRoundTrip(x: Expr, arrow: Token, rest: Tokens)
    requires x.IfThen? || x.SoftExpr?
    requires arrow == if x.IfThen? then TArrow else TSoftArrow
    requires ItemNF(x) && ItemStop(rest) && (Open(x) ==> OrStop(rest))
    ensures ParseIfThen(PrintItem(x) + rest) == Some((x, rest))
    decreases x, 2
  {
    var c, t, e := x.cond, x.thenExpr, x.elseExpr;
    var elseToks := ElsePart(e) + rest;
    var afterThen := PrintAnd(t) + elseToks;
    var afterCond := [arrow] + afterThen;
    ArrowPrint(x, arrow, rest);
    AndRoundTrip(c, afterCond);
    assert afterCond[1..] == afterThen;
    ElseRoundTrip(e, rest);
    AndRoundTrip(t, elseToks);
    ArrowUnfold(PrintAnd(c) + afterCond, c, afterCond, t, elseToks, e, rest);
  }

  /** The else part reads back, `fail` when it is missing; what it leaves
      may follow a conjunction. */
  lemma {:induction false} ElseRoundTrip(e: Expr, rest: Tokens)
    requires e == FailExpr || ItemNF(e)
    requires ItemStop(rest) && ((e == FailExpr || Open(e)) ==> OrStop(rest))
    ensures AndStop(ElsePart(e) + rest)
    ensures ParseElse(ElsePart(e) + rest) == (e, rest)
    decreases e, 4
  {
    if e == FailExpr {
      assert ElsePart(e) + rest == rest;
    } else {
      assert ElsePart(e) + rest == [TSemi] + (PrintItem(e) + rest);
      ItemRoundTrip(e, rest);
      ElseSemi(PrintItem(e) + rest, e, rest);
    }
  }

  lemma {:induction false} OrRoundTrip(items: seq<Expr>, rest: Tokens)
    requires ItemsNF(items) && OrStop(rest)
    ensures ParseExpr(PrintItems(items) + rest) == Some((OrExpr(items), rest))
    decreases items, 2
  {
    var after := SemiItems(items[1..]) + rest;
    assert PrintItems(items) + rest == PrintItem(items[0]) + after;
    ItemsStep(items, rest);
    ItemRoundTrip(items[0], after);
    SemiItemsRoundTrip([items[0]], items[1..], rest);
    HeadTail([], items);
  }

  lemma {:induction false} SemiItemsRoundTrip(acc: seq<Expr>, items: seq<Expr>, rest: Tokens)
    requires AllWellFormed(acc) && OrStop(rest) && ItemSeq(items)
    ensures ExprRest(acc, SemiItems(items) + rest) == (acc + items, rest)
    decreases items, 0
  {
    if |items| == 0 {
      assert acc + items == acc;
      assert SemiItems(items) + rest == rest;
    } else {
      var after := SemiItems(items[1..]) + rest;
      SemiItemsCons(items, rest);
      ItemsStep(items, rest);
      ItemRoundTrip(items[0], after);
      ExprSemi(acc, PrintItem(items[0]) + after, items[0], after);
      SemiItemsRoundTrip(acc + [items[0]], items[1..], rest);
      HeadTail(acc, items);
    }
  }

  // Rules and programs.

  /** A RULE result: printable arguments and a body that is either the
      default `true` of a fact or an EXPR result. */
  predicate RuleNF(r: Rule) {
    AllPrintable(r.args) && (r.body == TrueExpr || (r.body.OrExpr? && ItemsNF(r.body.items)))
  }

  /** `name(args) :- body .`, or `name(args) .` for a fact. */
  function PrintRule(r: Rule): Tokens {
    [TPredName(r.name)] + ArgList(r.args) + BodyPart(r.body) + [TDot]
  }

  function BodyPart(body: Expr): (r: Tokens)
    ensures r == [] || r[0] == TNeck
  {
    if body.OrExpr? then [TNeck] + PrintItems(body.items) else []
  }

  function PrintRules(rs: seq<Rule>): Tokens {
    if |rs| == 0 then [] else PrintRule(rs[0]) + PrintRules(rs[1..])
  }

  /** A rule without `:-` is a fact with the body `true`. */
  lemma {:induction false} RuleFact(n: string, ts: Tokens, args: seq<TermAst>, rest: Tokens)
    requires ParseArgs(ts) == (args, [TDot] + rest)
    ensures ParseRule([TPredName(n)] + ts) == Some((Rule(n, args, TrueExpr), rest))
  {
    assert ([TPredName(n)] + ts)[1..] == ts;
    assert ([TDot] + rest)[1..] == rest;
  }

  lemma {:induction false} RuleBody(n: string, ts: Tokens, args: seq<TermAst>, body: Tokens, b: Expr, rest: Tokens)
    requires ParseArgs(ts) == (args, [TNeck] + body)
    requires ParseExpr(body) == Some((b, [TDot] + rest))
    ensures ParseRule([TPredName(n)] + ts) == Some((Rule(n, args, b), rest))
  {
    assert ([TPredName(n)] + ts)[1..] == ts;
    assert ([TNeck] + body)[1..] == body;
    assert ([TDot] + rest)[1..] == rest;
  }

  /** A rule reads back as itself; without `:-` its body is `true`, and a
      body that is the single goal `true` is kept apart from it, as the
      `_Or_expr` that EXPR builds. */
  lemma {:induction false} RuleRoundTrip(r: Rule, rest: Tokens)
    requires RuleNF(r)
    ensures ParseRule(PrintRule(r) + rest) == Some((r, rest))
  {
    var dot := [TDot] + rest;
    var afterArgs := BodyPart(r.body) + dot;
    var ts := ArgList(r.args) + afterArgs;
    assert PrintRule(r) + rest == [TPredName(r.name)] + ts by {
      Regroup5([TPredName(r.name)], ArgList(r.args), BodyPart(r.body), [TDot], rest);
    }
    assert ParseArgs(ts) == (r.args, afterArgs) by {
      assert TermStop(afterArgs) by {
        if r.body.OrExpr? { assert afterArgs[0] == TNeck; } else { assert afterArgs == dot; }
      }
      ArgsRoundTrip(r.args, afterArgs);
    }
    if r.body.OrExpr? {
      var body := PrintItems(r.body.items) + dot;
      assert afterArgs == [TNeck] + body;
      OrRoundTrip(r.body.items, dot);
      RuleBody(r.name, ts, r.args, body, r.body, rest);
    } else {
      assert afterArgs == dot;
      RuleFact(r.name, ts, r.args, rest);
    }
  }

  /** START reads back a whole program of rules, and stops where no rule
      begins. */
  lemma {:induction false} StartRoundTrip(rs: seq<Rule>, rest: Tokens)
    requires forall i :: 0 <= i < |rs| ==> RuleNF(rs[i])
    requires ParseRule(rest).None?
    ensures ParseStart(PrintRules(rs) + rest) == (rs, rest)
    decreases |rs|
  {
    if |rs| == 0 {
      assert PrintRules(rs) + rest == rest;
    } else {
      var after := PrintRules(rs[1..]) + rest;
      assert PrintRules(rs) + rest == PrintRule(rs[0]) + after;
      assert RuleNF(rs[0]);
      RuleRoundTrip(rs[0], after);
      StartRoundTrip(rs[1..], rest);
      HeadTail([], rs);
    }
  }

  /** A program on its own is read to the end. */
  lemma {:induction false} ProgramRoundTrip(rs: seq<Rule>)
    requires forall i :: 0 <= i < |rs| ==> RuleNF(rs[i])
    ensures ParseStart(PrintRules(rs)) == (rs, [])
  {
    assert ParseRule([]).None?;
    StartRoundTrip(rs, []);
    assert PrintRules(rs) + [] == PrintRules(rs);
  }
}

=== FILE: goals.dfy ===
/** The data of the resolution engine: environments, the outcome of running
    a goal, goals themselves, and compiled predicates. */
module Goals {
  import opened Terms

  /** The variable store plus the first cell id not yet handed out: a fresh
      `Var()` takes `next`. `fixed` selects which version of the primitives
      the goal runs: `false` runs them as the source writes them, `true`
      runs the corrected versions (see the findings in README.md). */
  datatype Env = Env(store: Store, next: nat, fixed: bool)

  /** Every solution runs in `e`'s mode and hands out fresh cells no
      earlier than `e` does. */
  predicate Extends(e: Env, sols: seq<Env>) {
    forall i :: 0 <= i < |sols| ==> sols[i].fixed == e.fixed && sols[i].next >= e.next
  }

  /** How a goal's solution stream ends: exhausted; cut off by a
      `CutException`; cut off by any other Python exception; or cut off by
      the fuel bound of the model. */
  datatype Signal = Done | Pruned | Raised | OutOfFuel

  /** The solutions a goal yields, in order, and how the stream ends. */
  datatype Outcome = Outcome(sols: seq<Env>, signal: Signal)

  /** The `ClauseExpr` objects: `true`, `fail`, `cut`, the n-ary `And` and
      `Or`, `softcut`, and a call of a predicate or primitive by name. */
  datatype Goal =
    | True
    | Fail
    | Cut
    | And(conj: seq<Goal>)
    | Or(disj: seq<Goal>)
    | SoftCut(cond: Goal, thenGoal: Goal, elseGoal: Goal)
    | Call(name: string, args: seq<Term>)

  /** A clause of a compiled predicate. Variables are numbered from 0
      relative to the cells the predicate instance allocates. */
  datatype Clause = Clause(head: seq<Term>, body: Goal)

  /** A compiled `PyLogPredicate` class: the number of formal arguments, the
      number of variable cells an instance allocates, and its clauses. */
  datatype Pred = Pred(arity: nat, width: nat, clauses: seq<Clause>)

  type Program = map<string, Pred>

  /** A clause variable numbered `i` becomes the cell `base + i`. */
  function ShiftTerm(t: Term, base: nat): (r: Term)
    ensures t.Var? <==> r.Var?
    ensures t.Atom? ==> r == t
    ensures t.Var? ==> r.id == base + t.id
    ensures t.Cmp? ==> r.Cmp? && r.name == t.name && |r.args| == |t.args|
    decreases t
  {
    match t
    case Var(i) => Var(base + i)
    case Atom(_) => t
    case Cmp(f, args) => Cmp(f, ShiftTerms(args, base))
  }

  function ShiftTerms(ts: seq<Term>, base: nat): (r: seq<Term>)
    ensures |r| == |ts|
    ensures forall i :: 0 <= i < |ts| ==> r[i] == ShiftTerm(ts[i], base)
    decreases ts
  {
    if |ts| == 0 then [] else [ShiftTerm(ts[0], base)] + ShiftTerms(ts[1..], base)
  }

  function ShiftGoal(g: Goal, base: nat): (r: Goal)
    decreases g
  {
    match g
    case True => True
    case Fail => Fail
    case Cut => Cut
    case And(gs) => And(ShiftGoals(gs, base))
    case Or(gs) => Or(ShiftGoals(gs, base))
    case SoftCut(c, t, e) => SoftCut(ShiftGoal(c, base), ShiftGoal(t, base), ShiftGoal(e, base))
    case Call(n, args) => Call(n, ShiftTerms(args, base))
  }

  function ShiftGoals(gs: seq<Goal>, base: nat): (r: seq<Goal>)
    ensures |r| == |gs|
    decreases gs
  {
    if |gs| == 0 then [] else [ShiftGoal(gs[0], base)] + ShiftGoals(gs[1..], base)
  }
}

=== FILE: library.dfy ===
/** The sorting predicates of the Prolog library, `sort/2` and `msort/2`.
    Both are a quicksort written in Prolog: the head of the list is the
    pivot, a split predicate sends each other element to the lower or upper
    part with the standard order comparisons, and the sorted parts are
    appended around the pivot. The cuts make each clause choice final, so
    on a proper list each predicate has exactly one answer, which is what
    these functions compute on the resolved items. */
module Library {
  import opened Wrappers
  import opened Terms
  import opened Order

  predicate Less(a: Term, b: Term) {
    Compare(a, b) < 0
  }

  /** Strictly ascending in the standard order: no element twice. */
  predicate StrictlyAscending(s: seq<Term>) {
    forall i, j :: 0 <= i < j < |s| ==> Less(s[i], s[j])
  }

  /** Ascending in the standard order, equal elements side by side. */
  predicate Ascending(s: seq<Term>) {
    forall i, j :: 0 <= i < j < |s| ==> Compare(s[i], s[j]) <= 0
  }

  lemma {:induction false} LessTransitive(a: Term, b: Term, c: Term)
    requires Compare(a, b) <= 0 && Compare(b, c) <= 0
    requires Less(a, b) || Less(b, c)
    ensures Less(a, c)
  {
    CompareTransitive(a, b, c);
    CompareAntisymmetric(a, c);
    CompareAntisymmetric(a, b);
    CompareAntisymmetric(b, c);
  }

  // sort/2

  /** `zz_sort_split(X, L, INF, SUP)`: elements above the pivot go to SUP,
      those below to INF, and those `==` to it are dropped. */
  function SortSplit(x: Term, ys: seq<Term>): (r: (seq<Term>, seq<Term>))
    ensures |r.0| + |r.1| <= |ys|
    ensures forall z :: z in r.0 ==> Less(z, x)
    ensures forall z :: z in r.1 ==> Less(x, z)
    ensures forall z :: z in ys && z != x <==> z in r.0 || z in r.1
  {
    if |ys| == 0 then ([], [])
    else
      var (inf, sup) := SortSplit(x, ys[1..]);
      var y := ys[0];
      CompareAntisymmetric(x, y);
      assert forall z :: z in ys <==> z == y || z in ys[1..] by {
        assert ys == [y] + ys[1..];
      }
      if Compare(x, y) < 0 then (inf, [y] + sup)
      else if Compare(x, y) > 0 then ([y] + inf, sup)
      else (inf, sup)
  }

  /** `zz_sort`: the empty list, a single element, or pivot and split. */
  function ZzSort(xs: seq<Term>): (r: seq<Term>)
    ensures StrictlyAscending(r)
    ensures forall z :: z in r <==> z in xs
    decreases |xs|
  {
    if |xs| <= 1 then xs
    else
      var x := xs[0];
      var (inf, sup) := SortSplit(x, xs[1..]);
      var lo, hi := ZzSort(inf), ZzSort(sup);
      JoinStrict(lo, x, hi);
      assert forall z :: z in xs <==> z == x || z in xs[1..] by {
        assert xs == [x] + xs[1..];
      }
      lo + [x] + hi
  }

  lemma {:induction false} JoinStrict(lo: seq<Term>, x: Term, hi: seq<Term>)
    requires StrictlyAscending(lo) && StrictlyAscending(hi)
    requires forall z :: z in lo ==> Less(z, x)
    requires forall z :: z in hi ==> Less(x, z)
    ensures StrictlyAscending(lo + [x] + hi)
  {
    var s := lo + [x] + hi;
    forall i, j | 0 <= i < j < |s|
      ensures Less(s[i], s[j])
    {
      if i < |lo| && j > |lo| {
        assert s[i] in lo && s[j] in hi;
        LessTransitive(s[i], x, s[j]);
      } else if i < |lo| && j == |lo| {
        assert s[i] in lo;
      } else if i == |lo| {
        assert s[j] in hi;
      }
    }
  }

  /** Two strictly ascending lists with the same elements are the same list,
      so `sort/2` is determined by the set of items alone. */
  lemma {:induction false} StrictUnique(a: seq<Term>, b: seq<Term>)
    requires StrictlyAscending(a) && StrictlyAscending(b)
    requires forall z :: z in a <==> z in b
    ensures a == b
    decreases |a|
  {
    if |a| > 0 && |b| > 0 {
      assert a[0] in b && b[0] in a;
      MinimumOf(a, b[0]);
      MinimumOf(b, a[0]);
      CompareAntisymmetric(a[0], b[0]);
      assert a[0] == b[0];
      forall z
        ensures z in a[1..] <==> z in b[1..]
      {
        TailMembers(a, z);
        TailMembers(b, z);
      }
      StrictUnique(a[1..], b[1..]);
      assert a == [a[0]] + a[1..] && b == [b[0]] + b[1..];
    } else if |a| > 0 {
      HeadIn(a, b);
      assert false;
    } else if |b| > 0 {
      HeadIn(b, a);
      assert false;
    }
  }

  lemma {:induction false} HeadIn(a: seq<Term>, b: seq<Term>)
    requires |a| > 0 && forall z :: z in a <==> z in b
    ensures a[0] in b
  {
  }

  lemma {:induction false} MinimumOf(a: seq<Term>, z: Term)
    requires StrictlyAscending(a) && z in a
    ensures Compare(a[0], z) <= 0
  {
    var k :| 0 <= k < |a| && a[k] == z;
    if k > 0 {
      assert Less(a[0], a[k]);
    } else {
      CompareAntisymmetric(z, z);
    }
  }

  lemma {:induction false} TailMembers(a: seq<Term>, z: Term)
    requires StrictlyAscending(a) && |a| > 0
    ensures z in a[1..] <==> z in a && z != a[0]
  {
    assert a == [a[0]] + a[1..];
    if z in a[1..] {
      var k :| 0 <= k < |a[1..]| && a[1..][k] == z;
      assert Less(a[0], a[k + 1]);
      CompareAntisymmetric(a[0], a[0]);
    }
  }

  /** Sorting a sorted list changes nothing; sorting twice is sorting once. */
  lemma {:induction false} SortIdempotent(xs: seq<Term>)
    ensures StrictlyAscending(xs) ==> ZzSort(xs) == xs
    ensures ZzSort(ZzSort(xs)) == ZzSort(xs)
  {
    if StrictlyAscending(xs) {
      StrictUnique(ZzSort(xs), xs);
    }
    StrictUnique(ZzSort(ZzSort(xs)), ZzSort(xs));
  }

  // msort/2

  /** `zz_msort_split(X, L, INF, SUP)`: elements not below the pivot go to
      SUP, the rest to INF; nothing is dropped. */
  function MsortSplit(x: Term, ys: seq<Term>): (r: (seq<Term>, seq<Term>))
    ensures multiset(r.0) + multiset(r.1) == multiset(ys)
    ensures forall z :: z in r.0 ==> Less(z, x)
    ensures forall z :: z in r.1 ==> Compare(x, z) <= 0
  {
    if |ys| == 0 then ([], [])
    else
      var (inf, sup) := MsortSplit(x, ys[1..]);
      var y := ys[0];
      CompareAntisymmetric(x, y);
      assert ys == [y] + ys[1..];
      if Compare(x, y) <= 0 then (inf, [y] + sup)
      else ([y] + inf, sup)
  }

  /** `zz_msort`: as `zz_sort`, with duplicates kept. */
  function ZzMsort(xs: seq<Term>): (r: seq<Term>)
    ensures Ascending(r)
    ensures multiset(r) == multiset(xs)
    decreases |xs|
  {
    if |xs| <= 1 then xs
    else
      var x := xs[0];
      var (inf, sup) := MsortSplit(x, xs[1..]);
      SplitSizes(inf, sup, xs[1..]);
      var lo, hi := ZzMsort(inf), ZzMsort(sup);
      MsortJoin(xs, inf, sup, lo, hi);
      lo + [x] + hi
  }

  lemma {:induction false} SplitSizes(inf: seq<Term>, sup: seq<Term>, ys: seq<Term>)
    requires multiset(inf) + multiset(sup) == multiset(ys)
    ensures |inf| + |sup| == |ys|
  {
    assert |multiset(inf) + multiset(sup)| == |multiset(ys)|;
  }

  /** The sorted parts around the pivot make an ascending permutation. */
  lemma {:induction false} MsortJoin(xs: seq<Term>, inf: seq<Term>, sup: seq<Term>, lo: seq<Term>, hi: seq<Term>)
    requires |xs| > 0
    requires multiset(inf) + multiset(sup) == multiset(xs[1..])
    requires forall z :: z in inf ==> Less(z, xs[0])
    requires forall z :: z in sup ==> Compare(xs[0], z) <= 0
    requires Ascending(lo) && multiset(lo) == multiset(inf)
    requires Ascending(hi) && multiset(hi) == multiset(sup)
    ensures Ascending(lo + [xs[0]] + hi)
    ensures multiset(lo + [xs[0]] + hi) == multiset(xs)
  {
    var x := xs[0];
    forall z | z in lo
      ensures Less(z, x)
    {
      assert z in multiset(lo);
    }
    forall z | z in hi
      ensures Compare(x, z) <= 0
    {
      assert z in multiset(hi);
    }
    JoinAscending(lo, x, hi);
    assert xs == [x] + xs[1..];
  }

  lemma {:induction false} JoinAscending(lo: seq<Term>, x: Term, hi: seq<Term>)
    requires Ascending(lo) && Ascending(hi)
    requires forall z :: z in lo ==> Less(z, x)
    requires forall z :: z in hi ==> Compare(x, z) <= 0
    ensures Ascending(lo + [x] + hi)
  {
    var s := lo + [x] + hi;
    forall i, j | 0 <= i < j < |s|
      ensures Compare(s[i], s[j]) <= 0
    {
      if i < |lo| && j > |lo| {
        assert s[i] in lo && s[j] in hi;
        LessTransitive(s[i], x, s[j]);
      } else if i < |lo| && j == |lo| {
        assert s[i] in lo;
      } else if i == |lo| {
        assert s[j] in hi;
      }
    }
  }

  /** Two ascending lists with the same elements counted with multiplicity
      are the same list, so `msort/2` is determined by the multiset of its
      items. */
  lemma {:induction false} AscendingUnique(a: seq<Term>, b: seq<Term>)
    requires Ascending(a) && Ascending(b)
    requires multiset(a) == multiset(b)
    ensures a == b
    decreases |a|
  {
    if |a| > 0 {
      SameHead(a, b);
      assert a == [a[0]] + a[1..] && b == [b[0]] + b[1..];
      assert multiset(a) == multiset{a[0]} + multiset(a[1..]);
      assert multiset(b) == multiset{b[0]} + multiset(b[1..]);
      assert multiset(a[1..]) == multiset(a) - multiset{a[0]};
      assert multiset(b[1..]) == multiset(b) - multiset{b[0]};
      AscendingUnique(a[1..], b[1..]);
    } else {
      assert |multiset(b)| == 0;
    }
  }

  /** The least element is where both ascending lists start. */
  lemma {:induction false} SameHead(a: seq<Term>, b: seq<Term>)
    requires Ascending(a) && Ascending(b)
    requires multiset(a) == multiset(b) && |a| > 0
    ensures |b| > 0 && a[0] == b[0]
  {
    assert a[0] in multiset(b);
    assert b[0] in multiset(a);
    LeastFirst(a, b[0]);
    LeastFirst(b, a[0]);
    CompareAntisymmetric(a[0], b[0]);
  }

  lemma {:induction false} LeastFirst(a: seq<Term>, z: Term)
    requires Ascending(a) && z in a
    ensures Compare(a[0], z) <= 0
  {
    var k :| 0 <= k < |a| && a[k] == z;
    if k > 0 {
      assert Compare(a[0], a[k]) <= 0;
    } else {
      CompareAntisymmetric(z, z);
    }
  }

  /** Sorting a sorted list changes nothing, and `sort/2` of a list is
      `sort/2` of its `msort/2`: the two agree up to duplicates. */
  lemma {:induction false} MsortLaws(xs: seq<Term>)
    ensures Ascending(xs) ==> ZzMsort(xs) == xs
    ensures |ZzMsort(xs)| == |xs|
    ensures ZzSort(ZzMsort(xs)) == ZzSort(xs)
  {
    if Ascending(xs) {
      AscendingUnique(ZzMsort(xs), xs);
    }
    assert |multiset(ZzMsort(xs))| == |multiset(xs)|;
    forall z
      ensures z in ZzSort(ZzMsort(xs)) <==> z in ZzSort(xs)
    {
      assert z in ZzMsort(xs) <==> z in multiset(ZzMsort(xs));
      assert z in xs <==> z in multiset(xs);
    }
    StrictUnique(ZzSort(ZzMsort(xs)), ZzSort(xs));
  }

  // The predicates on list terms.

  /** `sort(L, S)` on a proper list: S is the list of the resolved items in
      strictly ascending order. Anything else has no answer here. */
  function SortList(s: Store, l: Term): (r: Option<Term>)
    ensures r.Some? <==> ListItems(Resolve(s, l)).Some?
    ensures r.Some? ==>
      && ListItems(r.value).Some?
      && StrictlyAscending(ListItems(r.value).value)
      && forall z :: z in ListItems(r.value).value <==> z in ListItems(Resolve(s, l)).value
  {
    match ListItems(Resolve(s, l))
    case Some(items) => Some(ConsArgList(ZzSort(items)))
    case None => None
  }

  /** `msort(L, S)` on a proper list: the resolved items in ascending order,
      each as often as it occurs. */
  function MsortList(s: Store, l: Term): (r: Option<Term>)
    ensures r.Some? <==> ListItems(Resolve(s, l)).Some?
    ensures r.Some? ==>
      && ListItems(r.value).Some?
      && Ascending(ListItems(r.value).value)
      && multiset(ListItems(r.value).value) == multiset(ListItems(Resolve(s, l)).value)
  {
    match ListItems(Resolve(s, l))
    case Some(items) => Some(ConsArgList(ZzMsort(items)))
    case None => None
  }
}

=== FILE: modes.dfy ===
/** The two modes of the engine side by side: a call of a primitive that no
    predicate of the program shadows runs the primitive as the source
    writes it when the environment's `fixed` flag is off, and the corrected
    primitive when it is on. Each lemma runs one goal from the findings in
    both modes. */
module Modes {
  import opened Wrappers
  import opened Terms
  import opened Unify
  import opened UnifyFixed
  import opened Goals
  import opened Primitives
  import opened Engine

  /** `f(V, W, V) = f(g(a), V, W)` as written succeeds once, leaving the two
      sides standing for different trees. */
  lemma UnifyAsWrittenMode(p: Program, reg: Registry, fuel: nat)
    requires "unify" !in p
    ensures var a := Cmp("f", [Var(0), Var(1), Var(0)]);
      var b := Cmp("f", [Cmp("g", [Atom(Sym("a"))]), Var(0), Var(1)]);
      var r := Eval(p, reg, Call("unify", [a, b]), Env(map[], 2, false), fuel);
      && r.signal == Done && |r.sols| == 1
      && !Unified(r.sols[0].store, a, b)
  {
    var a := Cmp("f", [Var(0), Var(1), Var(0)]);
    var b := Cmp("f", [Cmp("g", [Atom(Sym("a"))]), Var(0), Var(1)]);
    var s: Store := map[];
    MguAsWrittenUnsound();
    var u := [(0, Var(1)), (1, Var(0))];
    CallUnify(p, reg, Env(s, 2, false), a, b, fuel);
    UnifyAsWritten(Env(s, 2, false), a, b, u);
  }

  /** In the corrected mode a unification on an acyclic store has at most
      one solution, and in it the two sides are the same tree; on
      `f(V, W, V) = f(g(a), V, W)` this is what the written mode misses. */
  lemma UnifyFixedMode(p: Program, reg: Registry, fuel: nat, e: Env, a: Term, b: Term)
    requires "unify" !in p && e.fixed && Acyclic(e.store)
    ensures var r := Eval(p, reg, Call("unify", [a, b]), e, fuel);
      && r.signal == Done && |r.sols| <= 1
      && forall i :: 0 <= i < |r.sols| ==> Unified(r.sols[i].store, a, b)
  {
    CallUnify(p, reg, e, a, b, fuel);
    UnifyGoalSound(e, a, b);
  }

  lemma {:induction false} CallUnify(p: Program, reg: Registry, e: Env, a: Term, b: Term, fuel: nat)
    requires "unify" !in p
    ensures Eval(p, reg, Call("unify", [a, b]), e, fuel) == UnifyGoal(e, a, b)
  {
  }

  lemma {:induction false} UnifyAsWritten(e: Env, a: Term, b: Term, u: Unifier)
    requires !e.fixed && Mgu(e.store, a, b) == Some(u) && Apply(e.store, u).Ok?
    ensures UnifyGoal(e, a, b) == Outcome([e.(store := Apply(e.store, u).value.0)], Done)
  {
  }

  /** With `Y = g(Z)` and `Z` free, `is_ground(f(Y))` succeeds as written
      and fails in the corrected mode. */
  lemma GroundModes(p: Program, reg: Registry, fuel: nat, fixed: bool)
    requires "is_ground" !in p
    ensures var s: Store := map[1 := Cmp("g", [Var(2)])];
      var e := Env(s, 3, fixed);
      Eval(p, reg, Call("is_ground", [Cmp("f", [Var(1)])]), e, fuel) ==
        Outcome(if fixed then [] else [e], Done)
  {
    GroundAsWrittenMissesNested();
  }

  /** With `X = 1`, `f(X) == f(1)` fails as written and succeeds in the
      corrected mode. */
  lemma EqModes(p: Program, reg: Registry, fuel: nat, fixed: bool)
    requires "eq" !in p
    ensures var e := Env(map[0 := IntAtom(1)], 1, fixed);
      Eval(p, reg, Call("eq", [Cmp("f", [Var(0)]), Cmp("f", [IntAtom(1)])]), e, fuel) ==
        Outcome(if fixed then [e] else [], Done)
  {
    CompareGoalAsWrittenAsymmetric();
  }

  /** With `T = f(X)` and `X = 1`, `T == T` succeeds and `T @< T` fails in
      both modes: as written the two sides are one object, and the list
      comparison inside `__cmp__` skips the identical argument `X`. */
  lemma EqSelfModes(p: Program, reg: Registry, fuel: nat, fixed: bool)
    requires "eq" !in p && "lt" !in p
    ensures var e := Env(map[0 := Cmp("f", [Var(1)]), 1 := IntAtom(1)], 2, fixed);
      && Eval(p, reg, Call("eq", [Var(0), Var(0)]), e, fuel) == Outcome([e], Done)
      && Eval(p, reg, Call("eq", [Cmp("f", [Var(1)]), Cmp("f", [Var(1)])]), e, fuel) == Outcome([e], Done)
      && Eval(p, reg, Call("lt", [Var(0), Var(0)]), e, fuel) == Outcome([], Done)
  {
  }

  /** `functor(f(a), f, 1)` fails as written and succeeds once in the
      corrected mode. */
  lemma FunctorModes(p: Program, reg: Registry, fuel: nat, fixed: bool)
    requires "functor" !in p
    ensures var r := Eval(p, reg, Call("functor", [Cmp("f", [Atom(Sym("a"))]), Atom(Sym("f")), IntAtom(1)]),
                          Env(map[], 0, fixed), fuel);
      |r.sols| == if fixed then 1 else 0
  {
    FunctorAsWrittenMisses(fixed);
  }

  /** `arg(0, f(a, b), X)` succeeds with `X = b` as written and fails in the
      corrected mode. */
  lemma ArgModes(p: Program, reg: Registry, fuel: nat, fixed: bool)
    requires "arg" !in p
    ensures var r := Eval(p, reg, Call("arg", [IntAtom(0), Cmp("f", [Atom(Sym("a")), Atom(Sym("b"))]), Var(0)]),
                          Env(map[], 1, fixed), fuel);
      && |r.sols| == (if fixed then 0 else 1)
      && (!fixed ==> Deref(r.sols[0].store, Var(0)) == Atom(Sym("b")))
  {
    ArgAsWrittenWraps(fixed);
  }

  /** `setarg(0, T, x)` with `T = f(a, b)` overwrites the last argument as
      written and fails in the corrected mode. */
  lemma SetArgModes(p: Program, reg: Registry, fuel: nat, fixed: bool)
    requires "setarg" !in p
    ensures var e := Env(map[0 := Cmp("f", [Atom(Sym("a")), Atom(Sym("b"))])], 1, fixed);
      var r := Eval(p, reg, Call("setarg", [IntAtom(0), Var(0), Atom(Sym("x"))]), e, fuel);
      && |r.sols| == (if fixed then 0 else 1)
      && (!fixed ==> Deref(r.sols[0].store, Var(0)) == Cmp("f", [Atom(Sym("a")), Atom(Sym("x"))]))
  {
    SetArgAsWrittenWraps(fixed);
  }
}

=== FILE: order.dfy ===
/** The standard order of terms defined by the `__cmp__` methods of `Var`,
    `Atom` and `Term`: variables first, then atoms, then compound terms;
    atoms by payload, compound terms by (class name, arity, arguments). */
module Order {
  import opened Terms

  /** Python's `cmp` on integers. */
  function CompareInt(a: int, b: int): (r: int)
    ensures r < 0 <==> a < b
    ensures r == 0 <==> a == b
    ensures -1 <= r <= 1
  {
    if a < b then -1 else if a == b then 0 else 1
  }

  /** Python's `cmp` on strings: character by character, a proper prefix
      first. */
  function CompareString(a: string, b: string): (r: int)
    ensures -1 <= r <= 1
    decreases |a|
  {
    if |a| == 0 then (if |b| == 0 then 0 else -1)
    else if |b| == 0 then 1
    else if a[0] != b[0] then CompareInt(a[0] as int, b[0] as int)
    else CompareString(a[1..], b[1..])
  }

  lemma {:induction false} StringAntisymmetric(a: string, b: string)
    ensures CompareString(a, b) == -CompareString(b, a)
    ensures CompareString(a, b) == 0 <==> a == b
    decreases |a|
  {
    if |a| > 0 && |b| > 0 && a[0] == b[0] {
      StringAntisymmetric(a[1..], b[1..]);
      assert a == [a[0]] + a[1..] && b == [b[0]] + b[1..];
    }
  }

  lemma {:induction false} StringTransitive(a: string, b: string, c: string)
    requires CompareString(a, b) <= 0 && CompareString(b, c) <= 0
    ensures CompareString(a, c) <= 0
    decreases |a|
  {
    if |a| > 0 && |b| > 0 && |c| > 0 && a[0] == b[0] && b[0] == c[0] {
      StringTransitive(a[1..], b[1..], c[1..]);
    }
  }

  /** Which kind of host value an atom wraps, in the order Python 2's
      cross-type `cmp` gives them: `atom` symbols sort below numbers (their
      `__cmp__` answers -1 to anything that is not a PyLog object), and
      numbers sort below strings. */
  function PayloadKind(p: Payload): nat {
    match p
    case Sym(_) => 0
    case Int(_) => 1
    case Str(_) => 2
  }

  /** `cmp(self.obj, other.obj)` in `Atom.__cmp__`. */
  function ComparePayload(p: Payload, q: Payload): (r: int)
    ensures -1 <= r <= 1
    ensures PayloadKind(p) < PayloadKind(q) ==> r == -1
    ensures PayloadKind(p) > PayloadKind(q) ==> r == 1
  {
    match (p, q)
    case (Sym(x), Sym(y)) => CompareString(x, y)
    case (Int(x), Int(y)) => CompareInt(x, y)
    case (Str(x), Str(y)) => CompareString(x, y)
    case _ => CompareInt(PayloadKind(p), PayloadKind(q))
  }

  lemma {:induction false} PayloadTotalOrder(p: Payload, q: Payload, o: Payload)
    ensures ComparePayload(p, q) == -ComparePayload(q, p)
    ensures ComparePayload(p, q) == 0 <==> p == q
    ensures ComparePayload(p, q) <= 0 && ComparePayload(q, o) <= 0 ==> ComparePayload(p, o) <= 0
  {
    match (p, q) {
      case (Sym(x), Sym(y)) => StringAntisymmetric(x, y);
      case (Str(x), Str(y)) => StringAntisymmetric(x, y);
      case _ =>
    }
    if ComparePayload(p, q) <= 0 && ComparePayload(q, o) <= 0 {
      match (p, q, o) {
        case (Sym(x), Sym(y), Sym(z)) => StringTransitive(x, y, z);
        case (Str(x), Str(y), Str(z)) => StringTransitive(x, y, z);
        case _ =>
      }
    }
  }

  /** Variables below atoms below compound terms. */
  function Kind(t: Term): nat {
    match t
    case Var(_) => 0
    case Atom(_) => 1
    case Cmp(_, _) => 2
  }

  /** The standard order on terms as they stand (no store): variables by
      identity, atoms by payload, compound terms by class name, then arity,
      then arguments from left to right. */
  function Compare(a: Term, b: Term): (r: int)
    ensures -1 <= r <= 1
    ensures Kind(a) < Kind(b) ==> r == -1
    ensures Kind(a) > Kind(b) ==> r == 1
    decreases a
  {
    match (a, b)
    case (Var(x), Var(y)) => CompareInt(x, y)
    case (Atom(p), Atom(q)) => ComparePayload(p, q)
    case (Cmp(f, xs), Cmp(g, ys)) =>
      var c := CompareString(f, g);
      if c != 0 then c
      else if |xs| != |ys| then CompareInt(|xs|, |ys|)
      else CompareArgs(xs, ys)
    case _ => CompareInt(Kind(a), Kind(b))
  }

  /** Lexicographic comparison of argument lists. */
  function CompareArgs(xs: seq<Term>, ys: seq<Term>): (r: int)
    ensures -1 <= r <= 1
    decreases xs
  {
    if |xs| == 0 then (if |ys| == 0 then 0 else -1)
    else if |ys| == 0 then 1
    else
      var c := Compare(xs[0], ys[0]);
      if c != 0 then c else CompareArgs(xs[1..], ys[1..])
  }

  /** `Compare` is antisymmetric and identifies exactly the equal terms. */
  lemma {:induction false} CompareAntisymmetric(a: Term, b: Term)
    ensures Compare(a, b) == -Compare(b, a)
    ensures Compare(a, b) == 0 <==> a == b
    decreases a
  {
    match (a, b)
    case (Atom(p), Atom(q)) => PayloadTotalOrder(p, q, q);
    case (Cmp(f, xs), Cmp(g, ys)) =>
      StringAntisymmetric(f, g);
      if f == g && |xs| == |ys| {
        ArgsAntisymmetric(xs, ys);
      }
    case _ =>
  }

  lemma {:induction false} ArgsAntisymmetric(xs: seq<Term>, ys: seq<Term>)
    ensures CompareArgs(xs, ys) == -CompareArgs(ys, xs)
    ensures CompareArgs(xs, ys) == 0 <==> xs == ys
    decreases xs
  {
    if |xs| > 0 && |ys| > 0 {
      CompareAntisymmetric(xs[0], ys[0]);
      ArgsAntisymmetric(xs[1..], ys[1..]);
      assert xs == [xs[0]] + xs[1..] && ys == [ys[0]] + ys[1..];
    }
  }

  /** `Compare` is transitive. */
  lemma {:induction false} CompareTransitive(a: Term, b: Term, c: Term)
    requires Compare(a, b) <= 0 && Compare(b, c) <= 0
    ensures Compare(a, c) <= 0
    decreases a
  {
    match (a, b, c)
    case (Atom(p), Atom(q), Atom(o)) => PayloadTotalOrder(p, q, o);
    case (Cmp(f, xs), Cmp(g, ys), Cmp(h, zs)) =>
      StringAntisymmetric(f, g);
      StringAntisymmetric(g, h);
      StringAntisymmetric(f, h);
      StringTransitive(f, g, h);
      if f == g && g == h && |xs| == |ys| == |zs| {
        ArgsTransitive(xs, ys, zs);
      }
    case _ =>
  }

  lemma {:induction false} ArgsTransitive(xs: seq<Term>, ys: seq<Term>, zs: seq<Term>)
    requires CompareArgs(xs, ys) <= 0 && CompareArgs(ys, zs) <= 0
    ensures CompareArgs(xs, zs) <= 0
    decreases xs
  {
    if |xs| > 0 && |ys| > 0 && |zs| > 0 {
      var a, b, c := xs[0], ys[0], zs[0];
      CompareAntisymmetric(a, b);
      CompareAntisymmetric(b, c);
      CompareAntisymmetric(a, c);
      if Compare(a, b) == 0 && Compare(b, c) == 0 {
        ArgsTransitive(xs[1..], ys[1..], zs[1..]);
      } else {
        CompareTransitive(a, b, c);
      }
    }
  }

  /** Substitutes the contents of every bound variable, all the way down.
      A cell is dropped from the store once it has been expanded on a path,
      so a cyclic binding (there is no occurs check) is unfolded once. */
  function Resolve(s: Store, t: Term): (r: Term)
    ensures Kind(r) == Kind(Deref(s, t))
    decreases s.Keys, t
  {
    match t
    case Var(v) => if v in s then Resolve(s - {v}, s[v]) else t
    case Atom(_) => t
    case Cmp(f, args) => Cmp(f, seq(|args|, i requires 0 <= i < |args| => Resolve(s, args[i])))
  }

  /** `x.__cmp__(y)` as written: only the right-hand operand is dereferenced,
      at every level, while a bound variable on the left is compared as a
      variable. The argument lists are compared as Python lists (see
      `ArgsAsWritten`). */
  function CompareAsWritten(s: Store, a: Term, b: Term): (r: int)
    ensures -1 <= r <= 1
    decreases a
  {
    var o := Deref(s, b);
    match a
    case Var(x) => if o.Var? then CompareInt(x, o.id) else -1
    case Atom(p) => if o.Atom? then ComparePayload(p, o.payload) else if o.Var? then 1 else -1
    case Cmp(f, xs) =>
      if !o.Cmp? then 1
      else
        var c := CompareString(f, o.name);
        if c != 0 then c
        else if |xs| != |o.args| then CompareInt(|xs|, |o.args|)
        else ArgsAsWritten(s, xs, o.args)
  }

  /** Python 2's comparison of two argument lists: the first position whose
      elements differ decides. Two elements that are the same object count
      as equal without calling `__cmp__`; a variable cell is one object, so
      equal variables are skipped even when they are bound. Equal terms
      that are distinct objects would be compared by `__cmp__`, which finds
      them equal too, so testing equality of values is exact here. */
  function ArgsAsWritten(s: Store, xs: seq<Term>, ys: seq<Term>): (r: int)
    ensures -1 <= r <= 1
    ensures xs == ys ==> r == 0
    decreases xs
  {
    if |xs| == 0 then (if |ys| == 0 then 0 else -1)
    else if |ys| == 0 then 1
    else if xs[0] == ys[0] then ArgsAsWritten(s, xs[1..], ys[1..])
    else
      var c := CompareAsWritten(s, xs[0], ys[0]);
      if c != 0 then c else ArgsAsWritten(s, xs[1..], ys[1..])
  }

  /** What `eq`, `lt`, `gt` and friends compute as written: both operands
      dereferenced once, then `__cmp__`. */
  function CompareGoalAsWritten(s: Store, a: Term, b: Term): int {
    CompareAsWritten(s, Deref(s, a), Deref(s, b))
  }

  /** As written a term compares equal to itself under every store, so
      `X = 1, f(X) == f(X)` and `T = f(X), X = 1, T == T` succeed: the two
      sides are dereferenced first, and below the top the list comparison
      skips identical arguments. */
  lemma AsWrittenReflexive(s: Store, a: Term)
    ensures CompareGoalAsWritten(s, a, a) == 0
  {
    var d := Deref(s, a);
    if d.Var? {
      DerefVarFixed(s, a);
    } else if d.Cmp? {
      StringAntisymmetric(d.name, d.name);
    } else {
      PayloadTotalOrder(d.payload, d.payload, d.payload);
    }
  }

  /** On a store with no bindings the code as written is the standard order. */
  lemma {:induction false} AsWrittenAgreesWithoutBindings(a: Term, b: Term)
    ensures CompareAsWritten(map[], a, b) == Compare(a, b)
    decreases a
  {
    if a.Cmp? && b.Cmp? {
      ArgsAgreeWithoutBindings(a.args, b.args);
    }
  }

  lemma {:induction false} ArgsAgreeWithoutBindings(xs: seq<Term>, ys: seq<Term>)
    ensures ArgsAsWritten(map[], xs, ys) == CompareArgs(xs, ys)
    decreases xs
  {
    if |xs| > 0 && |ys| > 0 {
      AsWrittenAgreesWithoutBindings(xs[0], ys[0]);
      CompareAntisymmetric(xs[0], ys[0]);
      ArgsAgreeWithoutBindings(xs[1..], ys[1..]);
    }
  }

  /** With `X` bound to 1, `f(X)` sorts strictly below `f(1)` while `f(1)`
      compares equal to `f(X)`: the order as written is not antisymmetric,
      so `X = 1, f(X) == f(1)` fails. */
  lemma AsWrittenNotAntisymmetric()
    ensures var s: Store := map[0 := IntAtom(1)];
      && CompareGoalAsWritten(s, Cmp("f", [Var(0)]), Cmp("f", [IntAtom(1)])) == -1
      && CompareGoalAsWritten(s, Cmp("f", [IntAtom(1)]), Cmp("f", [Var(0)])) == 0
  {
    var s: Store := map[0 := IntAtom(1)];
    assert Deref(s, Var(0)) == IntAtom(1);
    assert CompareString("f", "f") == 0;
  }

  /** The standard order of two terms under a store: both sides fully
      dereferenced before they are compared. */
  function StandardOrder(s: Store, a: Term, b: Term): (r: int)
    ensures -1 <= r <= 1
    ensures Kind(Deref(s, a)) < Kind(Deref(s, b)) ==> r == -1
  {
    Compare(Resolve(s, a), Resolve(s, b))
  }

  /** The order a comparison goal applies: the code as written, or the
      corrected standard order. */
  function OrderBy(fixed: bool, s: Store, a: Term, b: Term): (r: int)
    ensures -1 <= r <= 1
  {
    if fixed then StandardOrder(s, a, b) else CompareGoalAsWritten(s, a, b)
  }

  lemma {:induction false} ResolveEmpty(t: Term)
    ensures Resolve(map[], t) == t
    decreases t
  {
    if t.Cmp? {
      forall i | 0 <= i < |t.args| ensures Resolve(map[], t.args[i]) == t.args[i] {
        ResolveEmpty(t.args[i]);
      }
      assert Resolve(map[], t).args == t.args;
    }
  }

  /** With no bindings both versions are the plain order on terms. */
  lemma {:induction false} OrderByWithoutBindings(fixed: bool, a: Term, b: Term)
    ensures OrderBy(fixed, map[], a, b) == Compare(a, b)
  {
    if fixed {
      ResolveEmpty(a);
      ResolveEmpty(b);
    } else {
      AsWrittenAgreesWithoutBindings(a, b);
    }
  }

  /** The corrected order is a total order: antisymmetric, equal exactly on
      terms with the same resolved form, and transitive. */
  lemma {:induction false} StandardOrderTotal(s: Store, a: Term, b: Term, c: Term)
    ensures StandardOrder(s, a, b) == -StandardOrder(s, b, a)
    ensures StandardOrder(s, a, b) == 0 <==> Resolve(s, a) == Resolve(s, b)
    ensures StandardOrder(s, a, b) <= 0 && StandardOrder(s, b, c) <= 0 ==> StandardOrder(s, a, c) <= 0
  {
    var x, y, z := Resolve(s, a), Resolve(s, b), Resolve(s, c);
    CompareAntisymmetric(x, y);
    if Compare(x, y) <= 0 && Compare(y, z) <= 0 {
      CompareTransitive(x, y, z);
    }
  }
}

=== FILE: parser.dfy ===
/** The clause parser: the ordered-choice recursive descent of the generated
    `PrologParser` (rules START to SLIST), over an abstract token sequence.
    Each parse function takes the remaining tokens and returns what it built
    with the tokens left after it; an alternative that fails leaves the
    input as it was, which is the parser's restoring of `_cur_token`. */
module Parser {
  import opened Wrappers
  import opened Ast

  /** The tokens the lexer hands over. The nine infix goal operators
      `=..`, `==`, `\==`, `=`, `\=`, `<=`, `<`, `>=`, `>` are `TOp`. */
  datatype Token =
    | TNeck        // `:-`
    | TDot         // `.`
    | TLParen | TRParen | TComma | TUnderscore | TLBracket | TRBracket
    | TSemi        // `;`
    | TBar         // `|`
    | TArrow       // `->`
    | TSoftArrow   // `*->`
    | TOp(op: CompOp)
    | TBang        // `!`
    | TTrue | TFail
    | TNot         // `\+`
    | TPredName(name: string)
    | TVarName(name: string)
    | TString(text: string)
    | TInt(value: int)

  type Tokens = seq<Token>

  /** The order in which ATOM_EXPR tries the infix forms. */
  const InfixOrder: seq<CompOp> := [UnivOp, EqOp, NeOp, UnifyOp, NotUnifyOp, LeOp, LtOp, GeOp, GtOp]

  /** Every compound written with arguments has at least one: TERM turns a
      name with an empty or missing argument list into an atom. */
  predicate Printable(t: TermAst)
    decreases t
  {
    match t
    case ATerm(_, args) => |args| > 0 && forall i :: 0 <= i < |args| ==> Printable(args[i])
    case AList(h, tl) => Printable(h) && Printable(tl)
    case _ => true
  }

  predicate AllPrintable(ts: seq<TermAst>) {
    forall i :: 0 <= i < |ts| ==> Printable(ts[i])
  }

  predicate AllWellFormed(xs: seq<Expr>) {
    forall i :: 0 <= i < |xs| ==> WellFormed(xs[i])
  }

  // Terms.

  /** TERM: a variable, `_`, a name with optional arguments, a bracketed
      list, a string or an integer. */
  function ParseTerm(ts: Tokens): (r: Option<(TermAst, Tokens)>)
    ensures r.Some? ==> |r.value.1| < |ts| && Printable(r.value.0)
    decreases |ts|, 1, 0
  {
    if |ts| == 0 then None
    else match ts[0]
      case TVarName(n) => Some((AVar(n), ts[1..]))
      case TUnderscore => Some((AAnon, ts[1..]))
      case TPredName(n) =>
        var (args, rest) := ParseArgs(ts[1..]);
        if |args| > 0 then Some((ATerm(n, args), rest)) else Some((AAtom(n), ts[1..]))
      case TLBracket =>
        var (l, rest) := ParseList(ts[1..]);
        if |rest| > 0 && rest[0] == TRBracket then Some((l, rest[1..])) else None
      case TString(s) => Some((AString(s), ts[1..]))
      case TInt(v) => Some((AInt(v), ts[1..]))
      case _ => None
  }

  /** ARGS: an optional parenthesised, comma-separated list of terms. It
      never fails. When the closing `)` is missing the position goes back to
      before `(`, but the arguments already read stay in the list, as the
      source's `_Args` object keeps them. */
  function ParseArgs(ts: Tokens): (r: (seq<TermAst>, Tokens))
    ensures |r.1| <= |ts| && AllPrintable(r.0)
    decreases |ts|, 0, 0
  {
    if |ts| > 0 && ts[0] == TLParen then
      var first := ParseTerm(ts[1..]);
      var (args, after) := if first.Some? then ArgsRest([first.value.0], first.value.1) else ([], ts[1..]);
      if |after| > 0 && after[0] == TRParen then (args, after[1..]) else (args, ts)
    else ([], ts)
  }

  /** The `(',' TERM)*` loop of ARGS. */
  function ArgsRest(acc: seq<TermAst>, ts: Tokens): (r: (seq<TermAst>, Tokens))
    requires AllPrintable(acc)
    ensures |r.1| <= |ts| && AllPrintable(r.0)
    decreases |ts|, 0, 0
  {
    if |ts| > 0 && ts[0] == TComma then
      match ParseTerm(ts[1..])
      case Some((a, rest)) => ArgsRest(acc + [a], rest)
      case None => (acc, ts)
    else (acc, ts)
  }

  /** LIST: a term and its SLIST, or nothing at all, which is `[]`. */
  function ParseList(ts: Tokens): (r: (TermAst, Tokens))
    ensures |r.1| <= |ts| && Printable(r.0)
    decreases |ts|, 2, 0
  {
    match ParseTerm(ts)
    case Some((h, rest)) => ParseSList(h, rest)
    case None => (ANil, ts)
  }

  /** SLIST: `, TERM SLIST`, or `| TERM` for an explicit tail, or nothing,
      which ends the list with `[]`. */
  function ParseSList(head: TermAst, ts: Tokens): (r: (TermAst, Tokens))
    requires Printable(head)
    ensures |r.1| <= |ts| && Printable(r.0)
    decreases |ts|, 2, 0
  {
    var next := if |ts| > 0 then ParseTerm(ts[1..]) else None;
    if |ts| > 0 && ts[0] == TComma && next.Some? then
      var (tail, rest) := ParseSList(next.value.0, next.value.1);
      (AList(head, tail), rest)
    else if |ts| > 0 && ts[0] == TBar && next.Some? then
      (AList(head, next.value.0), next.value.1)
    else (AList(head, ANil), ts)
  }

  // Goals.

  /** The infix alternatives of ATOM_EXPR, tried in the order of `ops`:
      each parses a term, the operator and a second term. */
  function ParseInfix(ts: Tokens, ops: seq<CompOp>): (r: Option<(Expr, Tokens)>)
    ensures r.Some? ==> |r.value.1| < |ts| && WellFormed(r.value.0)
    decreases |ts|, 2, |ops|
  {
    if |ops| == 0 then None
    else
      var left := ParseTerm(ts);
      var right := if left.Some? && |left.value.1| > 0 then ParseTerm(left.value.1[1..]) else None;
      if left.Some? && |left.value.1| > 0 && left.value.1[0] == TOp(ops[0]) && right.Some? then
        Some((CompExpr(ops[0], left.value.0, right.value.0), right.value.1))
      else ParseInfix(ts, ops[1..])
  }

  /** ATOM_EXPR. After the infix forms the alternatives are told apart by
      their first token: a call, `!`, `true`, `fail`, `( EXPR )` and
      `\+ ATOM_EXPR`. */
  function ParseAtom(ts: Tokens): (r: Option<(Expr, Tokens)>)
    ensures r.Some? ==> |r.value.1| < |ts| && WellFormed(r.value.0)
    decreases |ts|, 3, 0
  {
    var infix := ParseInfix(ts, InfixOrder);
    if infix.Some? then infix
    else if |ts| == 0 then None
    else match ts[0]
      case TPredName(n) =>
        var (args, rest) := ParseArgs(ts[1..]);
        Some((CallExpr(n, args), rest))
      case TBang => Some((CutExpr, ts[1..]))
      case TTrue => Some((TrueExpr, ts[1..]))
      case TFail => Some((FailExpr, ts[1..]))
      case TLParen =>
        var inner := ParseExpr(ts[1..]);
        if inner.Some? && |inner.value.1| > 0 && inner.value.1[0] == TRParen
        then Some((inner.value.0, inner.value.1[1..]))
        else None
      case TNot =>
        var a := ParseAtom(ts[1..]);
        if a.Some? then Some((NegExpr(a.value.0), a.value.1)) else None
      case _ => None
  }

  /** AND_EXPR: atoms separated by `,`. */
  function ParseAnd(ts: Tokens): (r: Option<(Expr, Tokens)>)
    ensures r.Some? ==> |r.value.1| < |ts| && WellFormed(r.value.0) && r.value.0.AndExpr?
    decreases |ts|, 4, 0
  {
    match ParseAtom(ts)
    case None => None
    case Some((a, rest)) =>
      var (items, rest') := AndRest([a], rest);
      Some((AndExpr(items), rest'))
  }

  function AndRest(acc: seq<Expr>, ts: Tokens): (r: (seq<Expr>, Tokens))
    requires AllWellFormed(acc)
    ensures |r.1| <= |ts| && |r.0| >= |acc| && AllWellFormed(r.0)
    decreases |ts|, 4, 0
  {
    if |ts| > 0 && ts[0] == TComma then
      match ParseAtom(ts[1..])
      case Some((a, rest)) => AndRest(acc + [a], rest)
      case None => (acc, ts)
    else (acc, ts)
  }

  /** IF_THEN_EXPR: a conjunction, optionally followed by `-> AND_EXPR` or
      `*-> AND_EXPR` and an optional else part. */
  function ParseIfThen(ts: Tokens): (r: Option<(Expr, Tokens)>)
    ensures r.Some? ==> |r.value.1| < |ts| && WellFormed(r.value.0)
    decreases |ts|, 5, 0
  {
    match ParseAnd(ts)
    case None => None
    case Some((c, r1)) =>
      var arrow := |r1| > 0 && (r1[0] == TArrow || r1[0] == TSoftArrow);
      var thenPart := if arrow then ParseAnd(r1[1..]) else None;
      if arrow && thenPart.Some? then
        var (e, r3) := ParseElse(thenPart.value.1);
        var t := thenPart.value.0;
        Some((if r1[0] == TArrow then IfThen(c, t, e) else SoftExpr(c, t, e), r3))
      else Some((c, r1))
  }

  /** The else part: `;` or `|` and an IF_THEN_EXPR; without one the else
      branch is `fail`. */
  function ParseElse(ts: Tokens): (r: (Expr, Tokens))
    ensures |r.1| <= |ts| && WellFormed(r.0)
    decreases |ts|, 5, 0
  {
    var e := if |ts| > 0 then ParseIfThen(ts[1..]) else None;
    if |ts| > 0 && (ts[0] == TSemi || ts[0] == TBar) && e.Some? then e.value
    else (FailExpr, ts)
  }

  /** EXPR: if-then-else items separated by `;` or `|`, always wrapped in
      an `_Or_expr`. */
  function ParseExpr(ts: Tokens): (r: Option<(Expr, Tokens)>)
    ensures r.Some? ==> |r.value.1| < |ts| && WellFormed(r.value.0) && r.value.0.OrExpr?
    decreases |ts|, 6, 0
  {
    match ParseIfThen(ts)
    case None => None
    case Some((e, rest)) =>
      var (items, rest') := ExprRest([e], rest);
      Some((OrExpr(items), rest'))
  }

  function ExprRest(acc: seq<Expr>, ts: Tokens): (r: (seq<Expr>, Tokens))
    requires AllWellFormed(acc)
    ensures |r.1| <= |ts| && |r.0| >= |acc| && AllWellFormed(r.0)
    decreases |ts|, 6, 0
  {
    if |ts| > 0 && (ts[0] == TSemi || ts[0] == TBar) then
      match ParseIfThen(ts[1..])
      case Some((e, rest)) => ExprRest(acc + [e], rest)
      case None => (acc, ts)
    else (acc, ts)
  }

  // Rules.

  /** RULE: a name, its arguments, an optional `:- EXPR` and `.`; without
      `:-` the body is `true`. */
  function ParseRule(ts: Tokens): (r: Option<(Rule, Tokens)>)
    ensures r.Some? ==> |r.value.1| < |ts| && WellFormed(r.value.0.body)
  {
    if |ts| == 0 || !ts[0].TPredName? then None
    else
      var (args, r1) := ParseArgs(ts[1..]);
      var body := if |r1| > 0 && r1[0] == TNeck then ParseExpr(r1[1..]) else None;
      var (b, r2) := if body.Some? then body.value else (TrueExpr, r1);
      if |r2| > 0 && r2[0] == TDot then Some((Rule(ts[0].name, args, b), r2[1..])) else None
  }

  /** START: as many rules as parse, and the tokens where they stop. */
  function ParseStart(ts: Tokens): (r: (seq<Rule>, Tokens))
    ensures |r.1| <= |ts|
    ensures forall i :: 0 <= i < |r.0| ==> WellFormed(r.0[i].body)
    decreases |ts|
  {
    match ParseRule(ts)
    case None => ([], ts)
    case Some((rule, rest)) =>
      var (more, rest') := ParseStart(rest);
      ([rule] + more, rest')
  }
}

=== FILE: parser_laws.dfy ===
/** What the parser accepts, stated against a printer: for every term, goal
    and rule in the grammar's normal form, parsing its printed tokens gives
    it back and leaves the following tokens alone. Plus the particular
    choices the grammar makes: the infix order, names with an empty
    argument list, the default bodies and lists. */
module ParserLaws {
  import opened Wrappers
  import opened Ast
  import opened Parser

  // Printing terms.

  function PrintTerm(t: TermAst): Tokens
    decreases t, 1
  {
    match t
    case AVar(n) => [TVarName(n)]
    case AAnon => [TUnderscore]
    case AAtom(n) => [TPredName(n)]
    case ATerm(n, args) => [TPredName(n)] + ArgList(args)
    case AList(h, tl) => [TLBracket] + PrintTerm(h) + [TBar] + PrintTerm(tl) + [TRBracket]
    case ANil => [TLBracket, TRBracket]
    case AString(s) => [TString(s)]
    case AInt(v) => [TInt(v)]
  }

  /** `(a1, ..., an)`, or nothing for no arguments. */
  function ArgList(args: seq<TermAst>): Tokens
    decreases args, 0
  {
    if |args| == 0 then [] else [TLParen] + PrintTerm(args[0]) + CommaTerms(args[1..]) + [TRParen]
  }

  /** `, t1 , t2 ...`: each term preceded by a comma. */
  function CommaTerms(ts: seq<TermAst>): (r: Tokens)
    ensures |ts| == 0 <==> r == []
    ensures |ts| > 0 ==> r[0] == TComma
    decreases ts, 0
  {
    if |ts| == 0 then [] else [TComma] + PrintTerm(ts[0]) + CommaTerms(ts[1..])
  }

  /** What may follow a term without being read as part of it. */
  predicate TermStop(rest: Tokens) {
    |rest| == 0 || rest[0] != TLParen
  }

  /** Regrouping a concatenation to the right, stated once for any
      element type so that no printer is unfolded to prove it. */
  lemma {:induction false} Regroup<T>(a: seq<T>, b: seq<T>, c: seq<T>, d: seq<T>)
    ensures a + b + c + d == a + (b + (c + d))
  {
  }

  /** Splitting off the first element of a non-empty sequence. */
  lemma {:induction false} HeadTail<T>(acc: seq<T>, s: seq<T>)
    requires |s| > 0
    ensures [s[0]] + s[1..] == s
    ensures acc + [s[0]] + s[1..] == acc + s
  {
  }

  lemma {:induction false} Regroup6<T>(a: seq<T>, b: seq<T>, c: seq<T>, d: seq<T>, e: seq<T>, f: seq<T>)
    ensures a + b + c + d + e + f == a + (b + (c + (d + e + f)))
  {
  }

  // How TERM starts, one head token at a time.

  lemma {:induction false} TermName(n: string, ts: Tokens)
    ensures ParseTerm([TPredName(n)] + ts) ==
      var (args, rest) := ParseArgs(ts);
      if |args| > 0 then Some((ATerm(n, args), rest)) else Some((AAtom(n), ts))
  {
    assert ([TPredName(n)] + ts)[1..] == ts;
  }

  lemma {:induction false} TermBracket(ts: Tokens)
    ensures ParseTerm([TLBracket] + ts) ==
      var (l, rest) := ParseList(ts);
      if |rest| > 0 && rest[0] == TRBracket then Some((l, rest[1..])) else None
  {
    assert ([TLBracket] + ts)[1..] == ts;
  }

  /** A term that is one token. */
  lemma {:induction false} TermToken(t: TermAst, rest: Tokens)
    requires t.AVar? || t.AAnon? || t.AString? || t.AInt?
    ensures ParseTerm(PrintTerm(t) + rest) == Some((t, rest))
  {
    assert (PrintTerm(t) + rest)[1..] == rest;
  }

  // Term round trip.

  lemma {:induction false} TermRoundTrip(t: TermAst, rest: Tokens)
    requires Printable(t) && TermStop(rest)
    ensures ParseTerm(PrintTerm(t) + rest) == Some((t, rest))
    decreases t, 2
  {
    match t
    case AAtom(n) =>
      TermName(n, rest);
      assert ParseArgs(rest) == ([], rest);
    case ATerm(n, args) => CompoundRoundTrip(n, args, rest);
    case AList(h, tl) => ConsRoundTrip(h, tl, rest);
    case ANil => NilRoundTrip(rest);
    case _ => TermToken(t, rest);
  }

  lemma {:induction false} NilRoundTrip(rest: Tokens)
    ensures ParseTerm([TLBracket, TRBracket] + rest) == Some((ANil, rest))
  {
    TermBracket([TRBracket] + rest);
    assert [TLBracket, TRBracket] + rest == [TLBracket] + ([TRBracket] + rest);
    assert ParseTerm([TRBracket] + rest) == None;
    assert ([TRBracket] + rest)[1..] == rest;
  }

  lemma {:induction false} CompoundRoundTrip(n: string, args: seq<TermAst>, rest: Tokens)
    requires Printable(ATerm(n, args))
    ensures ParseTerm(PrintTerm(ATerm(n, args)) + rest) == Some((ATerm(n, args), rest))
    decreases ATerm(n, args), 1
  {
    assert PrintTerm(ATerm(n, args)) + rest == [TPredName(n)] + (ArgList(args) + rest);
    TermName(n, ArgList(args) + rest);
    ArgsRoundTrip(args, rest);
  }

  lemma {:induction false} ConsRoundTrip(h: TermAst, tl: TermAst, rest: Tokens)
    requires Printable(AList(h, tl))
    ensures ParseTerm(PrintTerm(AList(h, tl)) + rest) == Some((AList(h, tl), rest))
    decreases AList(h, tl), 1
  {
    var afterTail := [TRBracket] + rest;
    var afterHead := [TBar] + (PrintTerm(tl) + afterTail);
    var inner := PrintTerm(h) + afterHead;
    ConsPrint(h, tl, rest);
    TermBracket(inner);
    TermRoundTrip(h, afterHead);
    TermRoundTrip(tl, afterTail);
    SListBar(h, PrintTerm(tl) + afterTail, tl, afterTail);
    assert afterTail[1..] == rest;
  }

  lemma {:induction false} ConsPrint(h: TermAst, tl: TermAst, rest: Tokens)
    ensures PrintTerm(AList(h, tl)) + rest
      == [TLBracket] + (PrintTerm(h) + ([TBar] + (PrintTerm(tl) + ([TRBracket] + rest))))
  {
    Regroup6([TLBracket], PrintTerm(h), [TBar], PrintTerm(tl), [TRBracket], rest);
    Regroup([TBar], PrintTerm(tl), [TRBracket], rest);
  }

  lemma {:induction false} ArgsOpen(ts: Tokens)
    ensures ParseArgs([TLParen] + ts) ==
      var first := ParseTerm(ts);
      var (args, after) := if first.Some? then ArgsRest([first.value.0], first.value.1) else ([], ts);
      if |after| > 0 && after[0] == TRParen then (args, after[1..]) else (args, [TLParen] + ts)
  {
    assert ([TLParen] + ts)[1..] == ts;
  }

  lemma {:induction false} ArgsComma(acc: seq<TermAst>, ts: Tokens, a: TermAst, r: Tokens)
    requires AllPrintable(acc) && ParseTerm(ts) == Some((a, r))
    ensures AllPrintable(acc + [a])
    ensures ArgsRest(acc, [TComma] + ts) == ArgsRest(acc + [a], r)
  {
    assert ([TComma] + ts)[1..] == ts;
  }

  /** ARGS reads back the argument list it is given; with no arguments it
      reads nothing, provided no `(` follows. */
  lemma {:induction false} ArgsRoundTrip(args: seq<TermAst>, rest: Tokens)
    requires AllPrintable(args) && (|args| > 0 || TermStop(rest))
    ensures ParseArgs(ArgList(args) + rest) == (args, rest)
    decreases args, 0
  {
    if |args| > 0 {
      var close := [TRParen] + rest;
      var tail := CommaTerms(args[1..]) + close;
      Regroup([TLParen], PrintTerm(args[0]), CommaTerms(args[1..]) + [TRParen], rest);
      assert ArgList(args) + rest == [TLParen] + (PrintTerm(args[0]) + tail);
      ArgsOpen(PrintTerm(args[0]) + tail);
      assert Printable(args[0]);
      assert TermStop(tail) by {
        if |args[1..]| == 0 { assert tail == close; } else { assert tail[0] == TComma; }
      }
      TermRoundTrip(args[0], tail);
      CommaTermsRoundTrip([args[0]], args[1..], close);
      HeadTail([], args);
      assert close[1..] == rest;
    } else {
      assert ArgList(args) + rest == rest;
    }
  }

  lemma {:induction false} CommaTermsRoundTrip(acc: seq<TermAst>, ts: seq<TermAst>, rest: Tokens)
    requires AllPrintable(acc) && AllPrintable(ts)
    requires |rest| == 0 || (rest[0] != TComma && rest[0] != TLParen)
    ensures ArgsRest(acc, CommaTerms(ts) + rest) == (acc + ts, rest)
    decreases ts, 0
  {
    if |ts| == 0 {
      assert acc + ts == acc;
      assert CommaTerms(ts) + rest == rest;
    } else {
      var tail := CommaTerms(ts[1..]) + rest;
      CommaTermsCons(ts, rest);
      assert Printable(ts[0]);
      assert TermStop(tail) by {
        if |ts[1..]| == 0 { assert tail == rest; } else { assert tail[0] == TComma; }
      }
      TermRoundTrip(ts[0], tail);
      ArgsComma(acc, PrintTerm(ts[0]) + tail, ts[0], tail);
      CommaTermsRoundTrip(acc + [ts[0]], ts[1..], rest);
      HeadTail(acc, ts);
    }
  }

  // Lists with commas.

  /** The list `[t1, ..., tn | tail]` as nested `_List` nodes. */
  function ListOf(items: seq<TermAst>, tail: TermAst): (r: TermAst)
    ensures |items| == 0 ==> r == tail
    decreases |items|
  {
    if |items| == 0 then tail else AList(items[0], ListOf(items[1..], tail))
  }

  /** `| tail` unless the tail is `[]`. */
  function TailPart(tail: TermAst): (r: Tokens)
    ensures r == [] || r[0] == TBar
  {
    if tail == ANil then [] else [TBar] + PrintTerm(tail)
  }

  /** `[t1, ..., tn]` with a `| tail` part unless the tail is `[]`. */
  function PrintList(items: seq<TermAst>, tail: TermAst): Tokens
    requires |items| > 0
  {
    [TLBracket] + PrintTerm(items[0]) + CommaTerms(items[1..]) + TailPart(tail) + [TRBracket]
  }

  lemma {:induction false} SListComma(head: TermAst, ts: Tokens, a: TermAst, r: Tokens)
    requires Printable(head) && ParseTerm(ts) == Some((a, r))
    ensures ParseSList(head, [TComma] + ts) == (AList(head, ParseSList(a, r).0), ParseSList(a, r).1)
  {
    assert ([TComma] + ts)[1..] == ts;
  }

  lemma {:induction false} SListBar(head: TermAst, ts: Tokens, a: TermAst, r: Tokens)
    requires Printable(head) && ParseTerm(ts) == Some((a, r))
    ensures ParseSList(head, [TBar] + ts) == (AList(head, a), r)
  {
    assert ([TBar] + ts)[1..] == ts;
  }

  /** The end of a list: `]` alone, or `| tail ]`. */
  lemma {:induction false} SListEnd(head: TermAst, tail: TermAst, rest: Tokens)
    requires Printable(head) && Printable(tail)
    ensures ParseSList(head, TailPart(tail) + [TRBracket] + rest) == (AList(head, tail), [TRBracket] + rest)
  {
    var close := [TRBracket] + rest;
    if tail != ANil {
      assert TailPart(tail) + [TRBracket] + rest == [TBar] + (PrintTerm(tail) + close);
      TermRoundTrip(tail, close);
      SListBar(head, PrintTerm(tail) + close, tail, close);
    } else {
      assert TailPart(tail) + [TRBracket] + rest == close;
    }
  }

  lemma {:induction false} ListOfCons(head: TermAst, items: seq<TermAst>, tail: TermAst)
    ensures ListOf([head] + items, tail) == AList(head, ListOf(items, tail))
  {
    assert ([head] + items)[1..] == items;
  }

  lemma {:induction false} CommaTermsCons(ts: seq<TermAst>, end: Tokens)
    requires |ts| > 0
    ensures CommaTerms(ts) + end == [TComma] + (PrintTerm(ts[0]) + (CommaTerms(ts[1..]) + end))
  {
    Regroup([TComma], PrintTerm(ts[0]), CommaTerms(ts[1..]), end);
  }

  lemma {:induction false} SListItems(head: TermAst, items: seq<TermAst>, tail: TermAst, rest: Tokens)
    requires Printable(head) && AllPrintable(items) && Printable(tail)
    ensures ParseSList(head, CommaTerms(items) + (TailPart(tail) + [TRBracket] + rest))
      == (ListOf([head] + items, tail), [TRBracket] + rest)
    decreases |items|
  {
    var end := TailPart(tail) + [TRBracket] + rest;
    ListOfCons(head, items, tail);
    if |items| == 0 {
      assert CommaTerms(items) + end == end;
      SListEnd(head, tail, rest);
    } else {
      var after := CommaTerms(items[1..]) + end;
      var x := items[0];
      assert Printable(x);
      assert ParseTerm(PrintTerm(x) + after) == Some((x, after)) by {
        assert TermStop(after) by {
          if |items[1..]| > 0 { assert after[0] == TComma; }
          else if tail != ANil { assert after[0] == TBar; }
          else { assert after[0] == TRBracket; }
        }
        TermRoundTrip(x, after);
      }
      CommaTermsCons(items, end);
      SListComma(head, PrintTerm(x) + after, x, after);
      SListItems(x, items[1..], tail, rest);
      ListOfCons(x, items[1..], tail);
      HeadTail([], items);
    }
  }

  /** `[a, b]` is `_List(a, _List(b, _Nil))` and `[a, b | T]` is
      `_List(a, _List(b, T))`: a comma list reads as nested `_List` nodes
      ending in the explicit tail, or in `_Nil` when there is none. */
  lemma {:induction false} ListRoundTrip(items: seq<TermAst>, tail: TermAst, rest: Tokens)
    requires |items| > 0 && AllPrintable(items) && Printable(tail)
    ensures ParseTerm(PrintList(items, tail) + rest) == Some((ListOf(items, tail), rest))
  {
    var close := [TRBracket] + rest;
    var after := CommaTerms(items[1..]) + (TailPart(tail) + [TRBracket] + rest);
    var inner := PrintTerm(items[0]) + after;
    assert PrintList(items, tail) + rest == [TLBracket] + inner by {
      Regroup6([TLBracket], PrintTerm(items[0]), CommaTerms(items[1..]), TailPart(tail), [TRBracket], rest);
    }
    assert ParseList(inner) == (ListOf(items, tail), close) by {
      assert Printable(items[0]);
      assert TermStop(after) by {
        if |items[1..]| > 0 { assert after[0] == TComma; }
        else if tail != ANil { assert after[0] == TBar; }
        else { assert after[0] == TRBracket; }
      }
      TermRoundTrip(items[0], after);
      SListItems(items[0], items[1..], tail, rest);
      HeadTail([], items);
    }
    TermBracket(inner);
    assert close[1..] == rest;
  }

  // Names with and without arguments.

  /** ARGS reads `()` as no arguments and consumes it. */
  lemma {:induction false} EmptyParens(rest: Tokens)
    ensures ParseArgs([TLParen, TRParen] + rest) == ([], rest)
  {
    var close := [TRParen] + rest;
    assert [TLParen, TRParen] + rest == [TLParen] + close;
    ArgsOpen(close);
    assert ParseTerm(close).None?;
    assert close[1..] == rest;
  }

  /** `f` and `f()` both read as the atom `f` in a term, since `check`
      rejects an empty argument list; for `f()` the parentheses are left
      unread. */
  lemma {:induction false} NameTerm(n: string, rest: Tokens)
    requires TermStop(rest)
    ensures ParseTerm([TPredName(n)] + rest) == Some((AAtom(n), rest))
    ensures ParseTerm([TPredName(n)] + ([TLParen, TRParen] + rest))
      == Some((AAtom(n), [TLParen, TRParen] + rest))
  {
    TermName(n, rest);
    assert ParseArgs(rest) == ([], rest);
    TermName(n, [TLParen, TRParen] + rest);
    EmptyParens(rest);
  }

  /** A missing `)` sends ARGS back to before `(` with the argument it had
      already read, so `f(a b` reads as the compound `f(a)` followed by the
      unread `(a b`. */
  lemma {:induction false} ArgsUnclosed(n: string, t: TermAst, rest: Tokens)
    requires Printable(t) && TermStop(rest)
    requires |rest| == 0 || (rest[0] != TComma && rest[0] != TRParen)
    ensures ParseArgs([TLParen] + (PrintTerm(t) + rest)) == ([t], [TLParen] + (PrintTerm(t) + rest))
    ensures ParseTerm([TPredName(n)] + ([TLParen] + (PrintTerm(t) + rest)))
      == Some((ATerm(n, [t]), [TLParen] + (PrintTerm(t) + rest)))
  {
    var ts := [TLParen] + (PrintTerm(t) + rest);
    ArgsOpen(PrintTerm(t) + rest);
    TermRoundTrip(t, rest);
    assert ArgsRest([t], rest) == ([t], rest);
    TermName(n, ts);
  }
}

=== FILE: primitives.dfy ===
/** The primitive goals written directly in Python: `unify` and `notunify`,
    the type tests, the standard-order comparisons and `compare`, the term
    constructors `functor`, `arg`, `setarg` and `=..`, and the arithmetic
    predicates `between`, `succ` and `plus`. Each runs in an environment and
    yields at most finitely many solutions. */
module Primitives {
  import opened Wrappers
  import opened Terms
  import opened Order
  import opened Unify
  import opened UnifyFixed
  import opened Goals

  function NoSolution(): Outcome {
    Outcome([], Done)
  }

  /** `unify(t1, t2)`: one solution with the unifier applied, none when the
      terms do not unify. The environment's mode picks `mgu` as written or
      the corrected loop. */
  function UnifyGoal(e: Env, a: Term, b: Term): (r: Outcome)
    ensures |r.sols| <= 1
    ensures r.signal == Done || (r.signal == Raised && r.sols == [])
    ensures MguBy(e.fixed, e.store, a, b).None? ==> r == NoSolution()
    ensures forall i :: 0 <= i < |r.sols| ==> r.sols[i].next == e.next && r.sols[i].fixed == e.fixed
  {
    match MguBy(e.fixed, e.store, a, b)
    case None => NoSolution()
    case Some(u) =>
      match Apply(e.store, u)
      case Err(_) => Outcome([], Raised)
      case Ok(p) => Outcome([e.(store := p.0)], Done)
  }

  /** On an acyclic store `unify` never raises, succeeds exactly when a
      unifier is found, succeeds on terms that are already equal, and leaves
      the two terms agreeing at the top in an acyclic store that keeps every
      earlier binding. In the corrected mode the two terms then stand for
      the same tree; as written they need not (`MguAsWrittenUnsound`). */
  lemma {:induction false} UnifyGoalSound(e: Env, a: Term, b: Term)
    requires Acyclic(e.store)
    ensures UnifyGoal(e, a, b).signal == Done
    ensures UnifyGoal(e, a, b).sols != [] <==> MguBy(e.fixed, e.store, a, b).Some?
    ensures Deref(e.store, a) == Deref(e.store, b) ==> |UnifyGoal(e, a, b).sols| == 1
    ensures UnifyGoal(e, a, b).sols != [] ==>
      var s' := UnifyGoal(e, a, b).sols[0].store;
      && Acyclic(s') && Refines(e.store, s') && Agree(s', a, b)
      && (e.fixed ==> Unified(s', a, b))
  {
    MguBySound(e.fixed, e.store, a, b);
  }

  /** In the corrected mode, terms without variables unify exactly when
      they are equal. */
  lemma {:induction false} UnifyGoalGround(e: Env, a: Term, b: Term)
    requires Acyclic(e.store) && e.fixed && NoVars(a) && NoVars(b)
    ensures UnifyGoal(e, a, b).sols != [] <==> a == b
  {
    MguBySound(e.fixed, e.store, a, b);
    MguFixedGround(e.store, a, b);
  }

  /** `notunify(t1, t2)`: one solution, with nothing bound, exactly when no
      unifier is found. */
  function NotUnifyGoal(e: Env, a: Term, b: Term): (r: Outcome)
    ensures r.signal == Done
    ensures r.sols == [] || r.sols == [e]
  {
    if MguBy(e.fixed, e.store, a, b).None? then Outcome([e], Done) else NoSolution()
  }

  /** On an acyclic store `notunify` succeeds exactly when `unify` fails. */
  lemma {:induction false} NotUnifyComplement(e: Env, a: Term, b: Term)
    requires Acyclic(e.store)
    ensures NotUnifyGoal(e, a, b).sols != [] <==> UnifyGoal(e, a, b).sols == []
  {
    UnifyGoalSound(e, a, b);
  }

  /** A single solution, or none, with nothing bound. */
  function Check(e: Env, b: bool): (r: Outcome)
    ensures r.signal == Done && (r.sols == [e] <==> b) && (r.sols == [] <==> !b)
  {
    if b then Outcome([e], Done) else NoSolution()
  }

  predicate IsInt(t: Term) {
    t.Atom? && t.payload.Int?
  }

  /** The type-test predicates `is_var` … `is_ground`. */
  datatype TypeTest =
    | IsVar | IsNonvar | IsInteger | IsNumber | IsAtomic | IsAtom | IsString | IsCompound | IsGround

  /** Whether the term, dereferenced, passes the test. `is_compound`
      requires at least one argument, so `nil` is neither atomic nor
      compound. `is_ground` is the test as written, or the corrected
      `Ground` in the corrected mode. */
  function TypeHolds(k: TypeTest, e: Env, t: Term): bool {
    var s := e.store;
    var d := Deref(s, t);
    match k
    case IsVar => d.Var?
    case IsNonvar => !d.Var?
    case IsInteger => IsInt(d)
    case IsNumber => IsInt(d)
    case IsAtomic => d.Atom?
    case IsAtom => d.Atom? && d.payload.Sym?
    case IsString => d.Atom? && d.payload.Str?
    case IsCompound => d.Cmp? && |d.args| > 0
    case IsGround => if e.fixed then Ground(s, t) else GroundAsWritten(s, t)
  }

  /** How the type tests relate: `is_var` and `is_nonvar` are complements,
      the atomic terms are exactly the atoms, integers and strings, each in
      one class only, a compound or ground term is never a variable, and
      every term the corrected `is_ground` accepts, the written one accepts
      too. */
  lemma {:induction false} TypeTestsPartition(e: Env, t: Term)
    ensures TypeHolds(IsVar, e, t) != TypeHolds(IsNonvar, e, t)
    ensures TypeHolds(IsNumber, e, t) == TypeHolds(IsInteger, e, t)
    ensures TypeHolds(IsAtomic, e, t) <==>
      TypeHolds(IsAtom, e, t) || TypeHolds(IsInteger, e, t) || TypeHolds(IsString, e, t)
    ensures !(TypeHolds(IsAtom, e, t) && TypeHolds(IsInteger, e, t))
    ensures !(TypeHolds(IsAtom, e, t) && TypeHolds(IsString, e, t))
    ensures !(TypeHolds(IsInteger, e, t) && TypeHolds(IsString, e, t))
    ensures TypeHolds(IsCompound, e, t) ==> TypeHolds(IsNonvar, e, t) && !TypeHolds(IsAtomic, e, t)
    ensures TypeHolds(IsGround, e, t) ==> TypeHolds(IsNonvar, e, t)
    ensures TypeHolds(IsGround, e.(fixed := true), t) ==> TypeHolds(IsGround, e.(fixed := false), t)
  {
    if Ground(e.store, t) {
      GroundNotVar(e.store, t);
      GroundImpliesAsWritten(e.store, t);
    }
    if Deref(e.store, t).Var? {
      DerefVarFixed(e.store, t);
    }
  }

  /** The intended `is_ground`: no free variable is reachable from the term
      through the store, arguments dereferenced at every level. */
  predicate Ground(s: Store, t: Term) {
    NoVars(Resolve(s, t))
  }

  lemma {:induction false} GroundNotVar(s: Store, t: Term)
    requires Ground(s, t)
    ensures !Deref(s, t).Var?
  {
    assert Kind(Resolve(s, t)) == Kind(Deref(s, t));
  }

  /** `is_ground` as written: the argument is dereferenced at the top only;
      an argument that is a bound variable is taken as ground without
      looking at what it is bound to. */
  predicate GroundAsWritten(s: Store, t: Term) {
    Explore(s, Deref(s, t))
  }

  predicate Explore(s: Store, x: Term)
    decreases x
  {
    if IsFree(s, x) then false
    else if x.Cmp? then forall i :: 0 <= i < |x.args| ==> Explore(s, x.args[i])
    else true
  }

  /** Every term the corrected test accepts, the written one accepts too. */
  lemma {:induction false} GroundImpliesAsWritten(s: Store, t: Term)
    requires Ground(s, t)
    ensures GroundAsWritten(s, t)
  {
    GroundNotVar(s, t);
    ResolveDeref(s, t);
    ResolvedExplore(s, Deref(s, t));
  }

  /** Resolving in a larger store leaves no more variables. */
  lemma {:induction false} ResolveMono(s': Store, s: Store, x: Term)
    requires forall k :: k in s' ==> k in s && s[k] == s'[k]
    requires NoVars(Resolve(s', x))
    ensures NoVars(Resolve(s, x))
    decreases s.Keys, x
  {
    match x
    case Var(k) =>
      assert k in s';
      ResolveMono(s' - {k}, s - {k}, s[k]);
    case Atom(_) =>
    case Cmp(f, args) =>
      forall i | 0 <= i < |args| ensures NoVars(Resolve(s, args[i])) {
        ResolveArg(s', x, i);
        ResolveMono(s', s, args[i]);
      }
      forall i | 0 <= i < |args| ensures NoVars(Resolve(s, x).args[i]) {
        ResolveArg(s, x, i);
      }
  }

  /** A term whose resolution is variable-free resolves variable-free from
      the end of its chain too. */
  lemma {:induction false} ResolveDeref(s: Store, t: Term)
    requires NoVars(Resolve(s, t))
    ensures NoVars(Resolve(s, Deref(s, t)))
    decreases s.Keys
  {
    if t.Var? && t.id in s {
      var j := t.id;
      ResolveDeref(s - {j}, s[j]);
      ResolveMono(s - {j}, s, Deref(s - {j}, s[j]));
    }
  }

  lemma {:induction false} ResolvedExplore(s: Store, x: Term)
    requires NoVars(Resolve(s, x))
    ensures Explore(s, x)
    decreases x
  {
    assert Kind(Resolve(s, x)) == Kind(Deref(s, x));
    if x.Cmp? {
      forall i | 0 <= i < |x.args| ensures Explore(s, x.args[i]) {
        ResolveArg(s, x, i);
        ResolvedExplore(s, x.args[i]);
      }
    }
  }

  lemma {:induction false} ResolveArg(s: Store, x: Term, i: nat)
    requires x.Cmp? && i < |x.args|
    ensures Resolve(s, x).Cmp? && |Resolve(s, x).args| == |x.args|
    ensures Resolve(s, x).args[i] == Resolve(s, x.args[i])
  {
  }

  /** The corrected test looks through every level: each argument of a
      ground compound is ground. */
  lemma {:induction false} GroundArgs(s: Store, t: Term, i: nat)
    requires Deref(s, t).Cmp? && i < |Deref(s, t).args|
    ensures Ground(s, t) ==> Ground(s, Deref(s, t).args[i])
  {
    if Ground(s, t) {
      ResolveDeref(s, t);
      ResolveArg(s, Deref(s, t), i);
    }
  }

  /** With `Y` bound to `g(Z)` and `Z` free, `is_ground(f(Y))` succeeds as
      written although `Z` is reachable, and although `is_ground(Y)` fails:
      the written test is not closed under taking arguments. */
  lemma GroundAsWrittenMissesNested()
    ensures var s: Store := map[1 := Cmp("g", [Var(2)])];
      var t := Cmp("f", [Var(1)]);
      GroundAsWritten(s, t) && !GroundAsWritten(s, Var(1)) && !Ground(s, t)
  {
    var s: Store := map[1 := Cmp("g", [Var(2)])];
    var t := Cmp("f", [Var(1)]);
    assert Explore(s, Var(1));
    ResolveArg(s, t, 0);
    ResolveArg(s, Cmp("g", [Var(2)]), 0);
    assert Resolve(s, Var(1)) == Resolve(s - {1}, Cmp("g", [Var(2)]));
    ResolveArg(s - {1}, Cmp("g", [Var(2)]), 0);
    assert Resolve(s - {1}, Var(2)) == Var(2);
    assert GroundAsWritten(s, t);
    assert Deref(s, Var(1)) == Cmp("g", [Var(2)]);
    assert IsFree(s, Var(2));
    assert Resolve(s, t).args[0].args[0] == Var(2);
    assert !NoVars(Resolve(s, t).args[0]);
  }

  /** The six standard-order comparisons `==`, `\==`, `@<`, `@=<`, `@>`,
      `@>=` (the classes `eq` … `ge`). */
  datatype CmpOp = Eq | Ne | Lt | Le | Gt | Ge

  function Holds(op: CmpOp, c: int): bool {
    match op
    case Eq => c == 0
    case Ne => c != 0
    case Lt => c < 0
    case Le => c <= 0
    case Gt => c > 0
    case Ge => c >= 0
  }

  /** A comparison goal: one solution, nothing bound, exactly when the two
      terms stand in the relation. As written the order is `__cmp__` on the
      two operands dereferenced once; in the corrected mode it is the
      standard order, under which `==` and `\==` compare the fully
      substituted terms. */
  function CompareGoal(op: CmpOp, e: Env, a: Term, b: Term): (r: Outcome)
    ensures r.signal == Done && (r.sols == [] || r.sols == [e])
    ensures e.fixed && op == Eq ==> (r.sols != [] <==> Resolve(e.store, a) == Resolve(e.store, b))
    ensures e.fixed && op == Ne ==> (r.sols != [] <==> Resolve(e.store, a) != Resolve(e.store, b))
    ensures a == b ==> (r.sols != [] <==> op in {Eq, Le, Ge})
  {
    StandardOrderTotal(e.store, a, b, b);
    AsWrittenReflexive(e.store, a);
    Check(e, Holds(op, OrderBy(e.fixed, e.store, a, b)))
  }

  /** In either mode, with nothing bound a comparison is the plain order on
      terms. */
  lemma {:induction false} CompareGoalWithoutBindings(op: CmpOp, e: Env, a: Term, b: Term)
    requires e.store == map[]
    ensures CompareGoal(op, e, a, b).sols != [] <==> Holds(op, Compare(a, b))
  {
    OrderByWithoutBindings(e.fixed, a, b);
  }

  /** In either mode `@=<` is the complement of `@>`, `@>=` that of `@<`,
      and exactly one of `@<`, `==`, `@>` holds; in the corrected mode
      `a @< b` is moreover `b @> a`. */
  lemma {:induction false} CompareGoalDuality(e: Env, a: Term, b: Term)
    ensures e.fixed ==> CompareGoal(Lt, e, a, b) == CompareGoal(Gt, e, b, a)
    ensures CompareGoal(Le, e, a, b).sols != [] <==> CompareGoal(Gt, e, a, b).sols == []
    ensures CompareGoal(Ge, e, a, b).sols != [] <==> CompareGoal(Lt, e, a, b).sols == []
    ensures CompareGoal(Lt, e, a, b).sols != [] || CompareGoal(Eq, e, a, b).sols != [] ||
      CompareGoal(Gt, e, a, b).sols != []
    ensures !(CompareGoal(Lt, e, a, b).sols != [] && CompareGoal(Eq, e, a, b).sols != [])
    ensures !(CompareGoal(Lt, e, a, b).sols != [] && CompareGoal(Gt, e, a, b).sols != [])
    ensures !(CompareGoal(Eq, e, a, b).sols != [] && CompareGoal(Gt, e, a, b).sols != [])
  {
    StandardOrderTotal(e.store, a, b, b);
  }

  /** With `X` bound to 1, `f(X) == f(1)` fails as written while
      `f(1) == f(X)` succeeds; in the corrected mode both succeed. */
  lemma CompareGoalAsWrittenAsymmetric()
    ensures var s: Store := map[0 := IntAtom(1)];
      var x, one := Cmp("f", [Var(0)]), Cmp("f", [IntAtom(1)]);
      && CompareGoal(Eq, Env(s, 1, false), x, one).sols == []
      && CompareGoal(Eq, Env(s, 1, false), one, x).sols != []
      && CompareGoal(Eq, Env(s, 1, true), x, one).sols != []
      && CompareGoal(Eq, Env(s, 1, true), one, x).sols != []
  {
    var s: Store := map[0 := IntAtom(1)];
    var x, one := Cmp("f", [Var(0)]), Cmp("f", [IntAtom(1)]);
    AsWrittenNotAntisymmetric();
    ResolveArg(s, x, 0);
    ResolveArg(s, one, 0);
    assert Resolve(s, Var(0)) == Resolve(s - {0}, IntAtom(1));
    assert Resolve(s, x).args == Resolve(s, one).args;
  }

  /** The order symbol `compare/3` unifies with: the Python strings `'<'`,
      `'='` and `'>'` wrapped in an `Atom`. */
  function OrderSymbol(c: int): Term {
    Atom(Str(if c < 0 then "<" else if c == 0 then "=" else ">"))
  }

  /** `compare(Order, T1, T2)`: the disjunction of `lt`, `eq` and `gt`, each
      followed by a unification of `Order` with its symbol. Since the three
      tests compare the operands in the same order, exactly one of them
      holds, in either mode. */
  function Compare3(e: Env, o: Term, a: Term, b: Term): (r: Outcome)
    ensures Extends(e, r.sols)
    ensures |r.sols| <= 1
  {
    UnifyGoal(e, o, OrderSymbol(OrderBy(e.fixed, e.store, a, b)))
  }

  /** With `Order` free, `compare/3` has exactly one solution, binding it to
      `'<'` when `T1 @< T2`, `'='` when `T1 == T2` and `'>'` when `T1 @> T2`,
      and binding nothing else. */
  lemma {:induction false} Compare3Sound(e: Env, o: Term, a: Term, b: Term)
    requires Acyclic(e.store) && Deref(e.store, o).Var?
    ensures |Compare3(e, o, a, b).sols| == 1
    ensures var s' := Compare3(e, o, a, b).sols[0].store;
      && (Deref(s', o) == Atom(Str("<")) <==> CompareGoal(Lt, e, a, b).sols != [])
      && (Deref(s', o) == Atom(Str("=")) <==> CompareGoal(Eq, e, a, b).sols != [])
      && (Deref(s', o) == Atom(Str(">")) <==> CompareGoal(Gt, e, a, b).sols != [])
      && forall y :: Deref(e.store, y) != Deref(e.store, o) ==> Deref(s', y) == Deref(e.store, y)
  {
    var sym := OrderSymbol(OrderBy(e.fixed, e.store, a, b));
    UnifyGoalSound(e, o, sym);
    MguByFree(e.fixed, e.store, o, sym);
    var s' := Compare3(e, o, a, b).sols[0].store;
    assert Deref(s', o) == sym;
  }

  /** A single solution binding the free end of `x`'s chain to `t`. */
  function BindOne(e: Env, x: Term, t: Term): (r: Outcome)
    ensures Deref(e.store, x).Var? ==> r.signal == Done && |r.sols| == 1
    ensures !Deref(e.store, x).Var? ==> r == Outcome([], Raised)
    ensures Extends(e, r.sols)
  {
    match Bind(e.store, x, t)
    case Err(_) => Outcome([], Raised)
    case Ok(s') => Outcome([e.(store := s')], Done)
  }

  /** `between(L, H, V)`: with integer bounds and `V` free, one solution per
      value from `L` to `H` in ascending order; with `V` an integer, one
      solution exactly when `L <= V <= H`; otherwise none. */
  function Between(e: Env, lo: Term, hi: Term, v: Term): (r: Outcome)
    ensures Extends(e, r.sols)
    ensures r.signal == Done
    ensures var l, h, v' := Deref(e.store, lo), Deref(e.store, hi), Deref(e.store, v);
      && (!IsInt(l) || !IsInt(h) ==> r.sols == [])
      && (IsInt(l) && IsInt(h) && v'.Var? ==>
            && |r.sols| == (if h.payload.value < l.payload.value then 0 else h.payload.value - l.payload.value + 1)
            && forall i :: 0 <= i < |r.sols| ==>
                 Bind(e.store, v', IntAtom(l.payload.value + i)) == Ok(r.sols[i].store))
      && (IsInt(l) && IsInt(h) && !v'.Var? ==>
            (r.sols != [] <==> IsInt(v') && l.payload.value <= v'.payload.value <= h.payload.value))
  {
    var l, h, v' := Deref(e.store, lo), Deref(e.store, hi), Deref(e.store, v);
    if !IsInt(l) || !IsInt(h) then NoSolution()
    else if v'.Var? then
      DerefVarFixed(e.store, v);
      Outcome(Count(e, v', l.payload.value, h.payload.value), Done)
    else Check(e, IsInt(v') && l.payload.value <= v'.payload.value <= h.payload.value)
  }

  /** The solutions of `between` with `V` free, from `x` up to `h`. */
  function Count(e: Env, v: Term, x: int, h: int): (r: seq<Env>)
    requires Deref(e.store, v).Var?
    ensures |r| == (if h < x then 0 else h - x + 1)
    ensures forall i :: 0 <= i < |r| ==> Bind(e.store, v, IntAtom(x + i)) == Ok(r[i].store)
    ensures forall i :: 0 <= i < |r| ==> r[i].next == e.next && r[i].fixed == e.fixed
    decreases h - x + 1
  {
    if h < x then []
    else
      match Bind(e.store, v, IntAtom(x))
      case Err(_) => assert false; []
      case Ok(s') =>
        var rest := Count(e, v, x + 1, h);
        [e.(store := s')] + rest
  }

  /** Binding the free end of `x`'s chain to an integer on an acyclic
      store: `x` then dereferences to that integer, the store stays
      acyclic, and a term whose walk ended elsewhere is unaffected. */
  lemma {:induction false} BindOneInt(e: Env, x: Term, n: int, y: Term)
    requires Acyclic(e.store) && Deref(e.store, x).Var?
    ensures |BindOne(e, x, IntAtom(n)).sols| == 1
    ensures var e' := BindOne(e, x, IntAtom(n)).sols[0];
      && Acyclic(e'.store)
      && e'.next == e.next
      && Deref(e'.store, x) == IntAtom(n)
      && (Deref(e.store, y) != Deref(e.store, x) ==> Deref(e'.store, y) == Deref(e.store, y))
  {
    BindSound(e.store, x, IntAtom(n));
  }

  /** The free end of a dereferenced variable is itself. */
  lemma {:induction false} FreeEnd(s: Store, x: Term)
    requires Acyclic(s) && Deref(s, x).Var?
    ensures Deref(s, Deref(s, x)) == Deref(s, x)
    ensures Deref(s, x).id !in s
  {
    DerefFollows(s, x);
  }

  /** `succ(A, B)`: with two integers, one solution exactly when
      `B = A + 1`; with `A` an integer and `B` free, `B` is bound to `A + 1`;
      with `B` an integer and `A` free, `A` is bound to `B - 1`, with no
      lower bound; any other mode has no solution. */
  function Succ(e: Env, a: Term, b: Term): (r: Outcome)
    ensures Extends(e, r.sols)
    ensures |r.sols| <= 1
    ensures var a', b' := Deref(e.store, a), Deref(e.store, b);
      && (IsInt(a') && IsInt(b') ==> r == Check(e, b'.payload.value == a'.payload.value + 1))
      && (IsInt(a') && b'.Var? ==> r == BindOne(e, b', IntAtom(a'.payload.value + 1)))
      && (a'.Var? && IsInt(b') ==> r == BindOne(e, a', IntAtom(b'.payload.value - 1)))
      && (!IsInt(a') && !IsInt(b') ==> r == NoSolution())
      && (!IsInt(a') && !a'.Var? ==> r == NoSolution())
      && (!IsInt(b') && !b'.Var? ==> r == NoSolution())
  {
    var a', b' := Deref(e.store, a), Deref(e.store, b);
    if IsInt(a') then
      if IsInt(b') then Check(e, b'.payload.value == a'.payload.value + 1)
      else if b'.Var? then BindOne(e, b', IntAtom(a'.payload.value + 1))
      else NoSolution()
    else if IsInt(b') then
      if a'.Var? then BindOne(e, a', IntAtom(b'.payload.value - 1)) else NoSolution()
    else NoSolution()
  }

  /** The two binding modes of `succ` agree with its checking mode: the one
      solution they produce passes `succ` again with both arguments bound. */
  lemma {:induction false} SuccModesAgree(e: Env, a: Term, b: Term)
    requires Acyclic(e.store)
    requires var a', b' := Deref(e.store, a), Deref(e.store, b);
      (IsInt(a') && b'.Var?) || (a'.Var? && IsInt(b'))
    ensures |Succ(e, a, b).sols| == 1
    ensures var e' := Succ(e, a, b).sols[0];
      IsInt(Deref(e'.store, a)) && IsInt(Deref(e'.store, b)) && Succ(e', a, b).sols == [e']
  {
    var a', b' := Deref(e.store, a), Deref(e.store, b);
    if IsInt(a') {
      var n := a'.payload.value + 1;
      BindOneInt(e, b, n, a);
      DerefVarFixed(e.store, b);
      assert BindOne(e, b', IntAtom(n)) == BindOne(e, b, IntAtom(n));
      var e' := BindOne(e, b, IntAtom(n)).sols[0];
      assert IsInt(a') && b'.Var?;
      assert Succ(e, a, b) == BindOne(e, b', IntAtom(n));
      assert Deref(e'.store, a) == a' && Deref(e'.store, b) == IntAtom(n);
      assert Succ(e', a, b) == Check(e', true);
    } else {
      var n := b'.payload.value - 1;
      BindOneInt(e, a, n, b);
      DerefVarFixed(e.store, a);
      assert BindOne(e, a', IntAtom(n)) == BindOne(e, a, IntAtom(n));
      var e' := BindOne(e, a, IntAtom(n)).sols[0];
      assert a'.Var? && IsInt(b');
      assert Succ(e, a, b) == BindOne(e, a', IntAtom(n));
      assert Deref(e'.store, b) == b' && Deref(e'.store, a) == IntAtom(n);
      assert Succ(e', a, b) == Check(e', true);
    }
  }

  /** `plus(A, B, C)`: with exactly one argument free and the other two
      integers, the free one is bound so that `A + B = C`; with three
      integers, one solution exactly when `A + B = C`; otherwise none. */
  function Plus(e: Env, a: Term, b: Term, c: Term): (r: Outcome)
    ensures Extends(e, r.sols)
    ensures |r.sols| <= 1
    ensures IsInt(Deref(e.store, a)) && IsInt(Deref(e.store, b)) && IsInt(Deref(e.store, c)) ==>
      r == Check(e, Deref(e.store, c).payload.value == Deref(e.store, a).payload.value + Deref(e.store, b).payload.value)
    ensures IsInt(Deref(e.store, a)) && IsInt(Deref(e.store, b)) && Deref(e.store, c).Var? ==>
      r == BindOne(e, Deref(e.store, c), IntAtom(Deref(e.store, a).payload.value + Deref(e.store, b).payload.value))
    ensures IsInt(Deref(e.store, a)) && Deref(e.store, b).Var? && IsInt(Deref(e.store, c)) ==>
      r == BindOne(e, Deref(e.store, b), IntAtom(Deref(e.store, c).payload.value - Deref(e.store, a).payload.value))
    ensures Deref(e.store, a).Var? && IsInt(Deref(e.store, b)) && IsInt(Deref(e.store, c)) ==>
      r == BindOne(e, Deref(e.store, a), IntAtom(Deref(e.store, c).payload.value - Deref(e.store, b).payload.value))
    ensures !IsInt(Deref(e.store, a)) && !IsInt(Deref(e.store, b)) ==> r == NoSolution()
    ensures !IsInt(Deref(e.store, a)) && !IsInt(Deref(e.store, c)) ==> r == NoSolution()
    ensures !IsInt(Deref(e.store, b)) && !IsInt(Deref(e.store, c)) ==> r == NoSolution()
  {
    var a', b', c' := Deref(e.store, a), Deref(e.store, b), Deref(e.store, c);
    if IsInt(a') then
      if IsInt(b') then
        if c'.Var? then BindOne(e, c', IntAtom(a'.payload.value + b'.payload.value))
        else Check(e, IsInt(c') && c'.payload.value == a'.payload.value + b'.payload.value)
      else if b'.Var? && IsInt(c') then BindOne(e, b', IntAtom(c'.payload.value - a'.payload.value))
      else NoSolution()
    else if a'.Var? && IsInt(b') && IsInt(c') then BindOne(e, a', IntAtom(c'.payload.value - b'.payload.value))
    else NoSolution()
  }

  /** Each binding mode of `plus` yields one solution that passes `plus`
      again with all three arguments bound. */
  lemma {:induction false} PlusModesAgree(e: Env, a: Term, b: Term, c: Term)
    requires Acyclic(e.store)
    requires var a', b', c' := Deref(e.store, a), Deref(e.store, b), Deref(e.store, c);
      || (IsInt(a') && IsInt(b') && c'.Var?)
      || (IsInt(a') && b'.Var? && IsInt(c'))
      || (a'.Var? && IsInt(b') && IsInt(c'))
    ensures |Plus(e, a, b, c).sols| == 1
    ensures var e' := Plus(e, a, b, c).sols[0];
      && IsInt(Deref(e'.store, a)) && IsInt(Deref(e'.store, b)) && IsInt(Deref(e'.store, c))
      && Plus(e', a, b, c).sols == [e']
  {
    if Deref(e.store, c).Var? {
      PlusBindsC(e, a, b, c);
    } else if Deref(e.store, b).Var? {
      PlusBindsB(e, a, b, c);
    } else {
      PlusBindsA(e, a, b, c);
    }
  }

  lemma {:induction false} PlusBindsC(e: Env, a: Term, b: Term, c: Term)
    requires Acyclic(e.store)
    requires IsInt(Deref(e.store, a)) && IsInt(Deref(e.store, b)) && Deref(e.store, c).Var?
    ensures |Plus(e, a, b, c).sols| == 1
    ensures var e' := Plus(e, a, b, c).sols[0];
      && IsInt(Deref(e'.store, a)) && IsInt(Deref(e'.store, b)) && IsInt(Deref(e'.store, c))
      && Plus(e', a, b, c).sols == [e']
  {
    var a', b', c' := Deref(e.store, a), Deref(e.store, b), Deref(e.store, c);
    var n := a'.payload.value + b'.payload.value;
    BindOneInt(e, c, n, a);
    BindOneInt(e, c, n, b);
    DerefVarFixed(e.store, c);
    assert BindOne(e, c', IntAtom(n)) == BindOne(e, c, IntAtom(n));
    var e' := BindOne(e, c, IntAtom(n)).sols[0];
    assert Plus(e, a, b, c).sols[0] == e';
    assert Deref(e'.store, a) == a' && Deref(e'.store, b) == b' && Deref(e'.store, c) == IntAtom(n);
    assert Plus(e', a, b, c) == Check(e', true);
  }

  lemma {:induction false} PlusBindsB(e: Env, a: Term, b: Term, c: Term)
    requires Acyclic(e.store)
    requires IsInt(Deref(e.store, a)) && Deref(e.store, b).Var? && IsInt(Deref(e.store, c))
    ensures |Plus(e, a, b, c).sols| == 1
    ensures var e' := Plus(e, a, b, c).sols[0];
      && IsInt(Deref(e'.store, a)) && IsInt(Deref(e'.store, b)) && IsInt(Deref(e'.store, c))
      && Plus(e', a, b, c).sols == [e']
  {
    var a', b', c' := Deref(e.store, a), Deref(e.store, b), Deref(e.store, c);
    var n := c'.payload.value - a'.payload.value;
    BindOneInt(e, b, n, a);
    BindOneInt(e, b, n, c);
    DerefVarFixed(e.store, b);
    assert BindOne(e, b', IntAtom(n)) == BindOne(e, b, IntAtom(n));
    var e' := BindOne(e, b, IntAtom(n)).sols[0];
    assert Plus(e, a, b, c).sols[0] == e';
    assert Deref(e'.store, a) == a' && Deref(e'.store, c) == c' && Deref(e'.store, b) == IntAtom(n);
    assert Plus(e', a, b, c) == Check(e', true);
  }

  lemma {:induction false} PlusBindsA(e: Env, a: Term, b: Term, c: Term)
    requires Acyclic(e.store)
    requires Deref(e.store, a).Var? && IsInt(Deref(e.store, b)) && IsInt(Deref(e.store, c))
    ensures |Plus(e, a, b, c).sols| == 1
    ensures var e' := Plus(e, a, b, c).sols[0];
      && IsInt(Deref(e'.store, a)) && IsInt(Deref(e'.store, b)) && IsInt(Deref(e'.store, c))
      && Plus(e', a, b, c).sols == [e']
  {
    var a', b', c' := Deref(e.store, a), Deref(e.store, b), Deref(e.store, c);
    var n := c'.payload.value - b'.payload.value;
    BindOneInt(e, a, n, b);
    BindOneInt(e, a, n, c);
    DerefVarFixed(e.store, a);
    assert BindOne(e, a', IntAtom(n)) == BindOne(e, a, IntAtom(n));
    var e' := BindOne(e, a, IntAtom(n)).sols[0];
    assert Plus(e, a, b, c).sols[0] == e';
    assert Deref(e'.store, b) == b' && Deref(e'.store, c) == c' && Deref(e'.store, a) == IntAtom(n);
    assert Plus(e', a, b, c) == Check(e', true);
  }

  /** The enumerating mode of `between` agrees with its checking mode:
      the `i`-th solution binds `V` to `L + i`, which `between` then
      accepts with `V` bound. */
  lemma {:induction false} BetweenModesAgree(e: Env, lo: Term, hi: Term, v: Term, i: nat)
    requires Acyclic(e.store)
    requires IsInt(Deref(e.store, lo)) && IsInt(Deref(e.store, hi)) && Deref(e.store, v).Var?
    requires i < |Between(e, lo, hi, v).sols|
    ensures var e' := Between(e, lo, hi, v).sols[i];
      && Deref(e'.store, v) == IntAtom(Deref(e.store, lo).payload.value + i)
      && Between(e', lo, hi, v).sols == [e']
  {
    var s := e.store;
    var v' := Deref(s, v);
    var x := IntAtom(Deref(s, lo).payload.value + i);
    var e' := Between(e, lo, hi, v).sols[i];
    FreeEnd(s, v);
    DerefFollows(s, lo);
    DerefFollows(s, hi);
    BindSound(s, v', x);
    assert Bind(s, v', x) == Ok(e'.store);
    assert Deref(e'.store, lo) == Deref(s, lo) && Deref(e'.store, hi) == Deref(s, hi);
    BetweenAccepts(e', lo, hi, v);
  }

  /** With all three arguments integers and `V` inside the range, `between`
      succeeds once, binding nothing. */
  lemma {:induction false} BetweenAccepts(e: Env, lo: Term, hi: Term, v: Term)
    requires IsInt(Deref(e.store, lo)) && IsInt(Deref(e.store, hi)) && IsInt(Deref(e.store, v))
    requires Deref(e.store, lo).payload.value <= Deref(e.store, v).payload.value <= Deref(e.store, hi).payload.value
    ensures Between(e, lo, hi, v).sols == [e]
  {
  }

  /** The term classes `functor` and `=..` can build: `_termdef` maps a
      class name to its constructor, which takes any number of arguments
      (a class keeping `Term.__init__`) or exactly `n`. */
  datatype Arity = AnyArity | Exactly(n: nat)

  type Registry = map<string, Arity>

  /** `_termdef[name](*args)`: `None` models the `KeyError` of an
      unregistered name and the `TypeError` of a wrong argument count. */
  function Construct(reg: Registry, name: string, args: seq<Term>): (r: Option<Term>)
    ensures r.Some? <==> name in reg && (reg[name].AnyArity? || reg[name].n == |args|)
    ensures r.Some? ==> r.value == Cmp(name, args)
  {
    if name in reg && (reg[name].AnyArity? || reg[name].n == |args|) then Some(Cmp(name, args)) else None
  }

  /** `n` fresh variables numbered from `base`. */
  function Fresh(base: nat, n: nat): (r: seq<Term>)
    ensures |r| == n
    ensures forall i :: 0 <= i < n ==> r[i] == Var(base + i)
  {
    seq(n, i requires 0 <= i < n => Var(base + i))
  }

  /** The free-`T` branch of `functor`: `T` is bound to a new instance of the
      registered class with `max(N, 0)` fresh variables as arguments. */
  function FunctorBuild(reg: Registry, e: Env, t: Term, f: Term, a: Term): (r: Outcome)
    ensures Extends(e, r.sols)
    requires t.Var?
    ensures !(f.Atom? && f.payload.Sym? && IsInt(a)) ==> r == NoSolution()
  {
    if f.Atom? && f.payload.Sym? && IsInt(a) then
      var n := if a.payload.value < 0 then 0 else a.payload.value;
      match Construct(reg, f.payload.name, Fresh(e.next, n))
      case None => Outcome([], Raised)
      case Some(u) => UnifyGoal(e.(next := e.next + n), t, u)
    else NoSolution()
  }

  /** `functor(T, Name, Arity)` as written: on a compound `T`, `Name` is
      unified with the class name as a plain string atom. */
  function FunctorAsWritten(reg: Registry, e: Env, t: Term, f: Term, a: Term): (r: Outcome)
    ensures Extends(e, r.sols)
    ensures Deref(e.store, t).Atom? ==> r == NoSolution()
  {
    var t', f', a' := Deref(e.store, t), Deref(e.store, f), Deref(e.store, a);
    if t'.Var? then FunctorBuild(reg, e, t', f', a')
    else if t'.Cmp? then
      UnifyGoal(e, Cmp("Term", [f', a']), Cmp("Term", [Atom(Str(t'.name)), IntAtom(|t'.args|)]))
    else NoSolution()
  }

  /** `functor(T, Name, Arity)` with the name as the `atom` symbol that the
      free-`T` branch and `=..` use. */
  function Functor(reg: Registry, e: Env, t: Term, f: Term, a: Term): (r: Outcome)
    ensures Extends(e, r.sols)
    ensures Deref(e.store, t).Atom? ==> r == NoSolution()
  {
    var t', f', a' := Deref(e.store, t), Deref(e.store, f), Deref(e.store, a);
    if t'.Var? then FunctorBuild(reg, e, t', f', a')
    else if t'.Cmp? then
      UnifyGoal(e, Cmp("Term", [f', a']), Cmp("Term", [Atom(Sym(t'.name)), IntAtom(|t'.args|)]))
    else NoSolution()
  }

  /** On a compound `T` with `Name` and `Arity` free, `functor` has one
      solution, binding `Name` to the class symbol and `Arity` to the
      argument count, and leaving `T` as it was. */
  lemma {:induction false} FunctorOfCompound(reg: Registry, e: Env, t: Term, f: Term, a: Term)
    requires Acyclic(e.store) && Deref(e.store, t).Cmp?
    requires Deref(e.store, f).Var? && Deref(e.store, a).Var? && Deref(e.store, f) != Deref(e.store, a)
    ensures |Functor(reg, e, t, f, a).sols| == 1
    ensures var s' := Functor(reg, e, t, f, a).sols[0].store;
      var t' := Deref(e.store, t);
      && Deref(s', f) == Atom(Sym(t'.name))
      && Deref(s', a) == IntAtom(|t'.args|)
      && Deref(s', t) == t'
  {
    var s := e.store;
    var t', f', a' := Deref(s, t), Deref(s, f), Deref(s, a);
    FreeEnd(s, f);
    FreeEnd(s, a);
    DerefFollows(s, t);
    var p, q := Atom(Sym(t'.name)), IntAtom(|t'.args|);
    MguByTwoFree(e.fixed, s, f'.id, a'.id, p, q);
    var s' := Functor(reg, e, t, f, a).sols[0].store;
    assert Deref(s, f) == Deref(s, Var(f'.id)) && Deref(s, a) == Deref(s, Var(a'.id));
    assert Deref(s', t) == t';
  }

  /** On a free `T`, with a registered symbol and a matching non-negative
      arity, `functor` binds `T` to a compound of that class and arity;
      `functor` on that compound gives the symbol and arity back. */
  lemma {:induction false} FunctorBuildsCompound(reg: Registry, e: Env, t: Term, name: string, n: nat)
    requires Acyclic(e.store) && Deref(e.store, t).Var?
    requires name in reg && (reg[name].AnyArity? || reg[name].n == n)
    ensures var r := Functor(reg, e, t, Atom(Sym(name)), IntAtom(n));
      && |r.sols| == 1
      && Deref(r.sols[0].store, t) == Cmp(name, Fresh(e.next, n))
      && r.sols[0].next == e.next + n
  {
    var s := e.store;
    var t' := Deref(s, t);
    FreeEnd(s, t);
    var u := Cmp(name, Fresh(e.next, n));
    var e1 := e.(next := e.next + n);
    UnifyGoalSound(e1, t', u);
    MguByFree(e.fixed, s, t', u);
    DerefFollows(s, t);
  }

  /** As written, `functor(f(a), f, 1)` fails, because `f` is a symbol and
      the written code compares it with the string `'f'`; the corrected
      `functor` succeeds. Either unifier gives the same answer here. */
  lemma FunctorAsWrittenMisses(fixed: bool)
    ensures var e := Env(map[], 0, fixed);
      var t := Cmp("f", [Atom(Sym("a"))]);
      && FunctorAsWritten(map[], e, t, Atom(Sym("f")), IntAtom(1)).sols == []
      && |Functor(map[], e, t, Atom(Sym("f")), IntAtom(1)).sols| == 1
  {
    var s: Store := map[];
    var l := Cmp("Term", [Atom(Sym("f")), IntAtom(1)]);
    var bad := Cmp("Term", [Atom(Str("f")), IntAtom(1)]);
    var good := Cmp("Term", [Atom(Sym("f")), IntAtom(1)]);
    assert Acyclic(s);
    MguByAtomPairs(fixed, s, "Term", Atom(Sym("f")), IntAtom(1), Atom(Str("f")), IntAtom(1));
    MguByAtomPairs(fixed, s, "Term", Atom(Sym("f")), IntAtom(1), Atom(Sym("f")), IntAtom(1));
    UnifyGoalSound(Env(s, 0, fixed), l, good);
  }

  /** Python list indexing `xs[i]` on a list of length `n`: a negative `i`
      counts from the end; anything outside `-n .. n-1` raises
      `IndexError` (`None`). */
  function PyIndex(i: int, n: nat): (r: Option<nat>)
    ensures r.Some? <==> 0 <= n + i && i < n
    ensures r.Some? ==> r.value < n && r.value as int == (if i < 0 then n + i else i)
  {
    if 0 <= i < n then Some(i) else if 0 <= n + i && i < 0 then Some(n + i) else None
  }

  /** The unification attempted at one argument position. */
  function ArgAttempt(e: Env, a: Term, v: Term, args: seq<Term>, k: nat): (r: Outcome)
    requires k < |args|
    ensures OneShot(r) && Extends(e, r.sols)
  {
    UnifyGoal(e, Cmp("Term", [a, v]), Cmp("Term", [IntAtom(k + 1), args[k]]))
  }

  /** What a `mgu`-then-`yield` step can give: at most one solution, and an
      error only with none. */
  predicate OneShot(o: Outcome) {
    |o.sols| <= 1 && (o.signal == Done || (o.signal == Raised && o.sols == []))
  }

  /** A `for` loop over independent attempts, from `start`: the solutions
      of each in turn, stopping at the first that raises. */
  function RunEach(os: seq<Outcome>, start: nat): (r: Outcome)
    requires start <= |os|
    decreases |os| - start
  {
    if start == |os| then NoSolution()
    else if os[start].signal == Raised then os[start]
    else
      var rest := RunEach(os, start + 1);
      Outcome(os[start].sols + rest.sols, rest.signal)
  }

  /** A loop over attempts that each give at most one solution, and an
      error only with none, gives at most one solution per attempt, ends
      normally or by that error, and allocates upward like its attempts. */
  lemma {:induction false} RunEachBounds(e: Env, os: seq<Outcome>, start: nat)
    requires start <= |os|
    requires forall j :: start <= j < |os| ==> OneShot(os[j]) && Extends(e, os[j].sols)
    ensures |RunEach(os, start).sols| <= |os| - start
    ensures RunEach(os, start).signal == Done || RunEach(os, start).signal == Raised
    ensures Extends(e, RunEach(os, start).sols)
    decreases |os| - start
  {
    if start < |os| && os[start].signal != Raised {
      RunEachBounds(e, os, start + 1);
      var rest := RunEach(os, start + 1);
    }
  }

  /** When every attempt from `start` on succeeds once, the loop yields
      one solution per attempt, in order. */
  lemma {:induction false} RunEachAll(os: seq<Outcome>, start: nat, k: nat)
    requires forall j :: start <= j < |os| ==> os[j].signal == Done && |os[j].sols| == 1
    requires start <= k < |os|
    ensures RunEach(os, start).signal == Done
    ensures |RunEach(os, start).sols| == |os| - start
    ensures RunEach(os, start).sols[k - start] == os[k].sols[0]
    decreases |os| - start
  {
    var rest := RunEach(os, start + 1);
    if start + 1 < |os| {
      RunEachAll(os, start + 1, if k == start then start + 1 else k);
    } else {
      assert rest == NoSolution();
    }
    assert RunEach(os, start) == Outcome(os[start].sols + rest.sols, rest.signal);
    if k > start {
      ConcatIndex(os[start].sols, rest.sols, k - start);
    }
  }

  lemma {:induction false} ConcatIndex<T>(x: seq<T>, y: seq<T>, i: nat)
    requires |x| <= i < |x| + |y|
    ensures (x + y)[i] == y[i - |x|]
  {
  }

  /** The attempts of the enumerating branch of `arg`, one per position. */
  function ArgAttempts(e: Env, a: Term, v: Term, args: seq<Term>): (os: seq<Outcome>)
    ensures |os| == |args|
    ensures forall j :: 0 <= j < |args| ==> os[j] == ArgAttempt(e, a, v, args, j)
  {
    seq(|args|, j requires 0 <= j < |args| => ArgAttempt(e, a, v, args, j))
  }

  /** The enumerating branch of `arg` with `N` free: the `for` loop over
      the argument positions from `start`, each one attempt to unify
      `Term(N, V)` with `Term(i + 1, arg_i)`. */
  function ArgEnum(e: Env, a: Term, v: Term, args: seq<Term>, start: nat): (r: Outcome)
    requires start <= |args|
    ensures |r.sols| <= |args| - start
    ensures r.signal == Done || r.signal == Raised
    ensures Extends(e, r.sols)
  {
    var os := ArgAttempts(e, a, v, args);
    RunEachBounds(e, os, start);
    RunEach(os, start)
  }

  /** `arg(N, T, V)` as written: the `N`-th argument is `t.getarg(N-1)`, a
      Python list index, so `N <= 0` counts from the end and a too large
      `N` raises. */
  function ArgAsWritten(e: Env, a: Term, t: Term, v: Term): (r: Outcome)
    ensures Extends(e, r.sols)
    ensures !Deref(e.store, t).Cmp? ==> r == NoSolution()
  {
    var a', t', v' := Deref(e.store, a), Deref(e.store, t), Deref(e.store, v);
    if !t'.Cmp? then NoSolution()
    else if a'.Var? then ArgEnum(e, a', v', t'.args, 0)
    else if IsInt(a') then
      match PyIndex(a'.payload.value - 1, |t'.args|)
      case None => Outcome([], Raised)
      case Some(k) => UnifyGoal(e, v', t'.args[k])
    else NoSolution()
  }

  /** `arg(N, T, V)` with positions counted from 1 and no solution outside
      `1 .. arity`. */
  function Arg(e: Env, a: Term, t: Term, v: Term): (r: Outcome)
    ensures Extends(e, r.sols)
    ensures !Deref(e.store, t).Cmp? ==> r == NoSolution()
  {
    var a', t', v' := Deref(e.store, a), Deref(e.store, t), Deref(e.store, v);
    if !t'.Cmp? then NoSolution()
    else if a'.Var? then ArgEnum(e, a', v', t'.args, 0)
    else if IsInt(a') && 1 <= a'.payload.value <= |t'.args| then
      UnifyGoal(e, v', t'.args[a'.payload.value - 1])
    else NoSolution()
  }
  /** With `N` an integer inside `1 .. arity`, `arg` unifies `V` with
      argument `N` of the compound. */
  lemma {:induction false} ArgInRange(e: Env, a: Term, t: Term, v: Term)
    requires IsInt(Deref(e.store, a)) && Deref(e.store, t).Cmp?
    requires 1 <= Deref(e.store, a).payload.value <= |Deref(e.store, t).args|
    ensures Arg(e, a, t, v) == UnifyGoal(e, Deref(e.store, v), Deref(e.store, t).args[Deref(e.store, a).payload.value - 1])
  {
  }

  /** With `N` an integer outside `1 .. arity`, `arg` has no solution. */
  lemma {:induction false} ArgOutOfRange(e: Env, a: Term, t: Term, v: Term)
    requires IsInt(Deref(e.store, a)) && Deref(e.store, t).Cmp?
    requires !(1 <= Deref(e.store, a).payload.value <= |Deref(e.store, t).args|)
    ensures Arg(e, a, t, v) == NoSolution()
  {
  }

  /** Inside `1 .. arity` the written `arg` and the corrected one agree;
      they differ only for the positions Python's negative indexing
      reaches. */
  lemma {:induction false} ArgAgreesInRange(e: Env, a: Term, t: Term, v: Term)
    requires var a', t' := Deref(e.store, a), Deref(e.store, t);
      !(IsInt(a') && t'.Cmp? && !(1 <= a'.payload.value <= |t'.args|))
    ensures ArgAsWritten(e, a, t, v) == Arg(e, a, t, v)
  {
  }

  /** As written, `arg(0, f(a, b), X)` succeeds with `X = b`; the corrected
      `arg` has no solution. Either unifier gives the same answer here. */
  lemma ArgAsWrittenWraps(fixed: bool)
    ensures var e := Env(map[], 1, fixed);
      var t := Cmp("f", [Atom(Sym("a")), Atom(Sym("b"))]);
      var r := ArgAsWritten(e, IntAtom(0), t, Var(0));
      && |r.sols| == 1
      && Deref(r.sols[0].store, Var(0)) == Atom(Sym("b"))
      && Arg(e, IntAtom(0), t, Var(0)).sols == []
  {
    var s: Store := map[];
    var e := Env(s, 1, fixed);
    var t := Cmp("f", [Atom(Sym("a")), Atom(Sym("b"))]);
    var b := Atom(Sym("b"));
    assert PyIndex(-1, 2) == Some(1);
    assert ArgAsWritten(e, IntAtom(0), t, Var(0)) == UnifyGoal(e, Var(0), b);
    assert Arg(e, IntAtom(0), t, Var(0)) == NoSolution();
    var r := UnifyGoal(e, Var(0), b);
    assert |r.sols| == 1 && Deref(r.sols[0].store, Var(0)) == b by {
      assert Acyclic(s);
      UnifyGoalSound(e, Var(0), b);
      MguByFree(fixed, s, Var(0), b);
    }
  }

  /** When every position's unification succeeds once, the enumerating
      branch of `arg` yields exactly one solution per remaining position,
      in order: the one that position's unification gives. */
  lemma {:induction false} ArgEnumAll(e: Env, a: Term, v: Term, args: seq<Term>, start: nat, k: nat)
    requires forall j :: start <= j < |args| ==>
      ArgAttempt(e, a, v, args, j).signal == Done && |ArgAttempt(e, a, v, args, j).sols| == 1
    requires start <= k < |args|
    ensures ArgEnum(e, a, v, args, start).signal == Done
    ensures |ArgEnum(e, a, v, args, start).sols| == |args| - start
    ensures |ArgAttempt(e, a, v, args, k).sols| == 1
    ensures ArgEnum(e, a, v, args, start).sols[k - start] == ArgAttempt(e, a, v, args, k).sols[0]
  {
    RunEachAll(ArgAttempts(e, a, v, args), start, k);
  }

  lemma {:induction false} ArgAttemptOne(e: Env, a: Term, v: Term, args: seq<Term>, k: nat)
    requires Acyclic(e.store) && a.Var? && v.Var? && a != v && a.id !in e.store && v.id !in e.store
    requires k < |args|
    ensures ArgAttempt(e, a, v, args, k).signal == Done && |ArgAttempt(e, a, v, args, k).sols| == 1
  {
    MguByTwoFree(e.fixed, e.store, a.id, v.id, IntAtom(k + 1), args[k]);
  }

  /** One attempt of the enumerating branch of `arg`, with `N` and `V`
      reaching two distinct free variables: it succeeds once, binding `N`
      to the position and `V` to that argument, and leaves `T` as it was. */
  lemma {:induction false} ArgAttemptSound(e: Env, a: Term, t: Term, v: Term, k: nat)
    requires Acyclic(e.store)
    requires Deref(e.store, a).Var? && Deref(e.store, v).Var? && Deref(e.store, a) != Deref(e.store, v)
    requires Deref(e.store, t).Cmp? && k < |Deref(e.store, t).args|
    ensures var o := ArgAttempt(e, Deref(e.store, a), Deref(e.store, v), Deref(e.store, t).args, k);
      && |o.sols| == 1
      && var s' := o.sols[0].store;
      && Acyclic(s')
      && Deref(s', a) == IntAtom(k + 1)
      && Deref(s', v) == Deref(s', Deref(e.store, t).args[k])
      && Deref(s', t) == Deref(e.store, t)
  {
    var s := e.store;
    var a', t', v' := Deref(s, a), Deref(s, t), Deref(s, v);
    FreeEnd(s, a);
    FreeEnd(s, v);
    var x := t'.args[k];
    MguByTwoFree(e.fixed, s, a'.id, v'.id, IntAtom(k + 1), x);
    var s' := ArgAttempt(e, a', v', t'.args, k).sols[0].store;
    assert Deref(s', Var(a'.id)) == IntAtom(k + 1);
    assert Deref(s, a) == Deref(s, Var(a'.id));
    assert Deref(s, v) == Deref(s, Var(v'.id));
  }

  /** The enumerating mode of `arg` agrees with its checking mode: with
      `N` and `V` free, `arg` has one solution per argument position, and
      in the `k`-th, `N` is `k + 1` and `arg(N, T, V)` holds again. */
  lemma {:induction false} ArgModesAgree(e: Env, a: Term, t: Term, v: Term, k: nat)
    requires Acyclic(e.store)
    requires Deref(e.store, a).Var? && Deref(e.store, v).Var? && Deref(e.store, a) != Deref(e.store, v)
    requires Deref(e.store, t).Cmp? && k < |Deref(e.store, t).args|
    ensures |Arg(e, a, t, v).sols| == |Deref(e.store, t).args|
    ensures var e' := Arg(e, a, t, v).sols[k];
      && Deref(e'.store, a) == IntAtom(k + 1)
      && |Arg(e', a, t, v).sols| == 1
  {
    var s := e.store;
    var a', t', v' := Deref(s, a), Deref(s, t), Deref(s, v);
    FreeEnd(s, a);
    FreeEnd(s, v);
    ArgFreeN(e, a, t, v);
    ArgEnumFree(e, a', v', t'.args, k);
    ArgAttemptSound(e, a, t, v, k);
    var e' := ArgAttempt(e, a', v', t'.args, k).sols[0];
    ArgRecheck(e', a, t, v, t', k);
  }

  /** With `N` free and `T` compound, `arg` runs the enumerating branch. */
  lemma {:induction false} ArgFreeN(e: Env, a: Term, t: Term, v: Term)
    requires Deref(e.store, a).Var? && Deref(e.store, t).Cmp?
    ensures Arg(e, a, t, v) == ArgEnum(e, Deref(e.store, a), Deref(e.store, v), Deref(e.store, t).args, 0)
  {
  }

  /** With `N` and `V` two distinct unbound variables, the enumerating
      branch yields one solution per position, the `k`-th being that
      position's attempt. */
  lemma {:induction false} ArgEnumFree(e: Env, a: Term, v: Term, args: seq<Term>, k: nat)
    requires Acyclic(e.store) && a.Var? && v.Var? && a != v && a.id !in e.store && v.id !in e.store
    requires k < |args|
    ensures |ArgEnum(e, a, v, args, 0).sols| == |args|
    ensures |ArgAttempt(e, a, v, args, k).sols| == 1
    ensures ArgEnum(e, a, v, args, 0).sols[k] == ArgAttempt(e, a, v, args, k).sols[0]
  {
    forall j | 0 <= j < |args|
      ensures ArgAttempt(e, a, v, args, j).signal == Done && |ArgAttempt(e, a, v, args, j).sols| == 1
    {
      ArgAttemptOne(e, a, v, args, j);
    }
    ArgEnumAll(e, a, v, args, 0, k);
  }

  /** In a store where `N` is `k + 1` and `V` already equals the `k`-th
      argument of `T`, `arg(N, T, V)` succeeds once. */
  lemma {:induction false} ArgRecheck(e: Env, a: Term, t: Term, v: Term, t0: Term, k: nat)
    requires Acyclic(e.store)
    requires t0.Cmp? && k < |t0.args| && Deref(e.store, t) == t0
    requires Deref(e.store, a) == IntAtom(k + 1)
    requires Deref(e.store, v) == Deref(e.store, t0.args[k])
    ensures |Arg(e, a, t, v).sols| == 1
  {
    var s := e.store;
    ArgInRange(e, a, t, v);
    DerefFollows(s, t0.args[k]);
    UnifyGoalSound(e, Deref(s, v), t0.args[k]);
  }

  /** The compound `t` with its `k`-th argument replaced by `x`:
      `Term.setarg`. */
  function ReplaceArg(t: Term, k: nat, x: Term): (r: Term)
    requires t.Cmp? && k < |t.args|
    ensures r.Cmp? && r.name == t.name && |r.args| == |t.args|
    ensures r.args[k] == x
    ensures forall j :: 0 <= j < |t.args| && j != k ==> r.args[j] == t.args[j]
  {
    Cmp(t.name, t.args[k := x])
  }

  /** The cell holding the term a bound variable's chain ends in: the
      object that `deref` returns, and that `setarg` mutates in place.
      `None` when `t` is not a bound variable. */
  function LastCell(s: Store, t: Term): (r: Option<nat>)
    ensures r.Some? ==> r.value in s && s[r.value] == Deref(s, t)
    ensures r.None? ==> Deref(s, t) == t
    ensures r.Some? <==> t.Var? && t.id in s
    decreases s.Keys
  {
    if t.Var? && t.id in s then
      match LastCell(s - {t.id}, s[t.id])
      case None => Some(t.id)
      case Some(c) => Some(c)
    else None
  }

  /** Overwriting the last cell of `t`'s chain with a non-variable makes
      `t` dereference to it. */
  lemma {:induction false} LastCellUpdate(s: Store, t: Term, x: Term)
    requires LastCell(s, t).Some? && !x.Var?
    ensures Deref(s[LastCell(s, t).value := x], t) == x
    decreases s.Keys
  {
    var c := LastCell(s, t).value;
    var s' := s[c := x];
    var w := t.id;
    if LastCell(s - {w}, s[w]).None? {
      assert c == w;
      assert Deref(s', t) == Deref(s' - {w}, x);
    } else {
      assert c != w && c in s - {w};
      assert s' - {w} == (s - {w})[c := x];
      LastCellUpdate(s - {w}, s[w], x);
      assert s'[w] == s[w];
    }
  }

  /** `setarg(N, T, V)` shared by the written and the corrected version:
      the compound `T` dereferences to gets `V` at position `k`, for one
      solution. A compound reached through a bound variable is changed in
      that variable's last cell; a compound written directly in the goal
      is not reachable from the store, so its change is not observable. */
  function SetArgAt(e: Env, t: Term, k: nat, v: Term): (r: Outcome)
    ensures Extends(e, r.sols)
    requires Deref(e.store, t).Cmp? && k < |Deref(e.store, t).args|
    ensures r.signal == Done && |r.sols| == 1 && r.sols[0].next == e.next
  {
    var t' := Deref(e.store, t);
    var x := ReplaceArg(t', k, Deref(e.store, v));
    match LastCell(e.store, t)
    case None => Outcome([e], Done)
    case Some(c) => Outcome([e.(store := e.store[c := x])], Done)
  }

  /** `setarg(N, T, V)` as written: position `N-1` is a Python list index,
      so `N <= 0` counts from the end and a too large `N` raises. */
  function SetArgAsWritten(e: Env, a: Term, t: Term, v: Term): (r: Outcome)
    ensures Extends(e, r.sols)
    ensures !Deref(e.store, t).Cmp? || !IsInt(Deref(e.store, a)) ==> r == NoSolution()
  {
    var a', t' := Deref(e.store, a), Deref(e.store, t);
    if t'.Cmp? && IsInt(a') then
      match PyIndex(a'.payload.value - 1, |t'.args|)
      case None => Outcome([], Raised)
      case Some(k) => SetArgAt(e, t, k, v)
    else NoSolution()
  }

  /** `setarg(N, T, V)` with positions counted from 1 and no solution
      outside `1 .. arity`. */
  function SetArg(e: Env, a: Term, t: Term, v: Term): (r: Outcome)
    ensures Extends(e, r.sols)
    ensures r.signal == Done && |r.sols| <= 1
    ensures r.sols != [] <==>
      Deref(e.store, t).Cmp? && IsInt(Deref(e.store, a)) &&
      1 <= Deref(e.store, a).payload.value <= |Deref(e.store, t).args|
  {
    var a', t' := Deref(e.store, a), Deref(e.store, t);
    if t'.Cmp? && IsInt(a') && 1 <= a'.payload.value <= |t'.args| then
      SetArgAt(e, t, a'.payload.value - 1, v)
    else NoSolution()
  }

  /** Overwriting a cell that holds a non-variable with another
      non-variable leaves every walk that did not end there as it was. */
  lemma {:induction false} DerefAvoidsCell(s: Store, c: nat, x: Term, y: Term)
    requires c in s && !s[c].Var? && !x.Var? && Deref(s, y) != s[c]
    ensures Deref(s[c := x], y) == Deref(s, y)
    decreases s.Keys
  {
    if y.Var? && y.id in s {
      var w := y.id;
      assert w != c;
      assert s[c := x] - {w} == (s - {w})[c := x];
      DerefAvoidsCell(s - {w}, c, x, s[w]);
    }
  }

  /** After `setarg(N, T, V)` on a compound reached through a variable,
      `T` is the same compound with `V` at position `N` and every other
      argument unchanged, and `arg(N, T, W)` then unifies `W` with `V`. */
  lemma {:induction false} SetArgThenArg(e: Env, a: Term, t: Term, v: Term, w: Term)
    requires t.Var? && t.id in e.store && Deref(e.store, t).Cmp? && IsInt(Deref(e.store, a))
    requires 1 <= Deref(e.store, a).payload.value <= |Deref(e.store, t).args|
    ensures var e' := SetArg(e, a, t, v).sols[0];
      var k := Deref(e.store, a).payload.value - 1;
      && Deref(e'.store, t) == ReplaceArg(Deref(e.store, t), k, Deref(e.store, v))
      && Arg(e', a, t, w) == UnifyGoal(e', Deref(e'.store, w), Deref(e.store, v))
  {
    var s := e.store;
    var k := Deref(s, a).payload.value - 1;
    var x := ReplaceArg(Deref(s, t), k, Deref(s, v));
    var c := LastCell(s, t).value;
    LastCellUpdate(s, t, x);
    DerefAvoidsCell(s, c, x, a);
    var e' := SetArg(e, a, t, v).sols[0];
    assert e'.store == s[c := x];
    assert Deref(e'.store, a) == Deref(s, a);
    assert Deref(e'.store, t) == x;
    ArgInRange(e', a, t, w);
  }

  /** Inside `1 .. arity` the written `setarg` and the corrected one agree. */
  lemma {:induction false} SetArgAgreesInRange(e: Env, a: Term, t: Term, v: Term)
    requires Deref(e.store, t).Cmp? && IsInt(Deref(e.store, a))
    requires 1 <= Deref(e.store, a).payload.value <= |Deref(e.store, t).args|
    ensures SetArgAsWritten(e, a, t, v) == SetArg(e, a, t, v)
  {
  }

  /** As written, `setarg(0, T, x)` with `T = f(a, b)` overwrites the last
      argument, giving `f(a, x)`; the corrected `setarg` has no solution. */
  lemma SetArgAsWrittenWraps(fixed: bool)
    ensures var e := Env(map[0 := Cmp("f", [Atom(Sym("a")), Atom(Sym("b"))])], 1, fixed);
      var r := SetArgAsWritten(e, IntAtom(0), Var(0), Atom(Sym("x")));
      && |r.sols| == 1
      && Deref(r.sols[0].store, Var(0)) == Cmp("f", [Atom(Sym("a")), Atom(Sym("x"))])
      && SetArg(e, IntAtom(0), Var(0), Atom(Sym("x"))).sols == []
  {
    var s: Store := map[0 := Cmp("f", [Atom(Sym("a")), Atom(Sym("b"))])];
    var x := Cmp("f", [Atom(Sym("a")), Atom(Sym("x"))]);
    assert LastCell(s, Var(0)) == Some(0);
    assert ReplaceArg(s[0], 1, Atom(Sym("x"))) == x;
    LastCellUpdate(s, Var(0), x);
  }

  /** The list `=..` relates a compound to: its class symbol followed by its
      arguments. */
  function UnivList(t: Term): (r: Term)
    requires t.Cmp?
    ensures ListItems(r) == Some([Atom(Sym(t.name))] + t.args)
  {
    var r := Cons(Atom(Sym(t.name)), ConsArgList(t.args));
    assert ListItems(r) == Some([Atom(Sym(t.name))] + t.args);
    r
  }

  /** `T =.. L`: on a compound `T`, `L` is unified with its class symbol
      and arguments. Otherwise `L` must be a `cons` whose head is an `atom`
      symbol and whose tail is a proper list; neither head nor tail is
      dereferenced. A non-`cons` `L` or an improper tail raises
      `AttributeError`, an unregistered class or a wrong argument count
      raises; otherwise `T` is unified with the new instance. */
  function Univ(reg: Registry, e: Env, t: Term, l: Term): (r: Outcome)
    ensures Extends(e, r.sols)
    ensures Deref(e.store, t).Cmp? ==> r == UnifyGoal(e, Deref(e.store, l), UnivList(Deref(e.store, t)))
    ensures !Deref(e.store, t).Cmp? && !(Deref(e.store, l).Cmp? && Deref(e.store, l).name == "cons") ==>
      r == Outcome([], Raised)
  {
    var t', l' := Deref(e.store, t), Deref(e.store, l);
    if t'.Cmp? then UnifyGoal(e, l', UnivList(t'))
    else if !(l'.Cmp? && l'.name == "cons" && |l'.args| == 2) then Outcome([], Raised)
    else if l'.args[0].Atom? && l'.args[0].payload.Sym? then
      match ListItems(l'.args[1])
      case None => Outcome([], Raised)
      case Some(items) =>
        match Construct(reg, l'.args[0].payload.name, items)
        case None => Outcome([], Raised)
        case Some(u) => UnifyGoal(e, t', u)
    else NoSolution()
  }

  /** Binding a free variable `x` by unification with a non-variable `u`
      on an acyclic store: one solution, in which `x` is `u` and every term
      that did not reach `x`'s cell is as it was. */
  lemma {:induction false} UnifyFreeWith(e: Env, x: Term, u: Term)
    requires Acyclic(e.store) && Deref(e.store, x).Var? && Deref(e.store, u) == u && !u.Var?
    ensures |UnifyGoal(e, x, u).sols| == 1
    ensures var s' := UnifyGoal(e, x, u).sols[0].store;
      && Deref(s', x) == u
      && forall y :: Deref(e.store, y) != Deref(e.store, x) ==> Deref(s', y) == Deref(e.store, y)
  {
    UnifyGoalSound(e, x, u);
    MguByFree(e.fixed, e.store, x, u);
  }

  /** `=..` decomposes: on a compound `T` with `L` free, one solution, in
      which `L` is the class symbol followed by the arguments. */
  lemma {:induction false} UnivDecomposes(reg: Registry, e: Env, t: Term, l: Term)
    requires Acyclic(e.store) && Deref(e.store, t).Cmp? && Deref(e.store, l).Var?
    ensures |Univ(reg, e, t, l).sols| == 1
    ensures Deref(Univ(reg, e, t, l).sols[0].store, l) == UnivList(Deref(e.store, t))
  {
    var s := e.store;
    var l' := Deref(s, l);
    var u := UnivList(Deref(s, t));
    DerefVarFixed(s, l);
    UnifyFreeWith(e, l', u);
    FreeEnd(s, l);
    MguByFree(e.fixed, s, l', u);
    assert Deref(s, l) == Deref(s, l');
  }

  /** `=..` composes, inverting the decomposition: with `T` free and `L`
      the list of a registered class symbol and arguments of a matching
      count, one solution, in which `T` is that compound. */
  lemma {:induction false} UnivComposes(reg: Registry, e: Env, t: Term, c: Term)
    requires Acyclic(e.store) && Deref(e.store, t).Var? && c.Cmp?
    requires c.name in reg && (reg[c.name].AnyArity? || reg[c.name].n == |c.args|)
    ensures |Univ(reg, e, t, UnivList(c)).sols| == 1
    ensures Deref(Univ(reg, e, t, UnivList(c)).sols[0].store, t) == c
  {
    var s := e.store;
    var l := UnivList(c);
    assert l.args[1] == ConsArgList(c.args);
    assert Univ(reg, e, t, l) == UnifyGoal(e, Deref(s, t), c);
    DerefVarFixed(s, t);
    UnifyFreeWith(e, Deref(s, t), c);
    MguByFree(e.fixed, s, Deref(s, t), c);
    FreeEnd(s, t);
    assert Deref(s, t) == Deref(s, Deref(s, t));
  }

  /** The type test a primitive class name stands for. */
  function TypeTestNamed(name: string): (r: Option<TypeTest>)
    ensures r == Some(IsGround) <==> name == "is_ground"
    ensures r == Some(IsVar) <==> name == "is_var"
  {
    if name == "is_var" then Some(IsVar)
    else if name == "is_nonvar" then Some(IsNonvar)
    else if name == "is_integer" then Some(IsInteger)
    else if name == "is_number" then Some(IsNumber)
    else if name == "is_atomic" then Some(IsAtomic)
    else if name == "is_atom" then Some(IsAtom)
    else if name == "is_string" then Some(IsString)
    else if name == "is_compound" then Some(IsCompound)
    else if name == "is_ground" then Some(IsGround)
    else None
  }

  /** The comparison a primitive class name stands for. */
  function CmpOpNamed(name: string): (r: Option<CmpOp>)
    ensures r == Some(Eq) <==> name == "eq"
    ensures r == Some(Lt) <==> name == "lt"
  {
    if name == "eq" then Some(Eq)
    else if name == "ne" then Some(Ne)
    else if name == "lt" then Some(Lt)
    else if name == "le" then Some(Le)
    else if name == "gt" then Some(Gt)
    else if name == "ge" then Some(Ge)
    else None
  }

  /** The number of arguments each primitive class's constructor takes;
      `None` for a name that is not a primitive. */
  function BuiltinArity(name: string): (r: Option<nat>)
    ensures TypeTestNamed(name).Some? ==> r == Some(1)
    ensures CmpOpNamed(name).Some? ==> r == Some(2)
  {
    if TypeTestNamed(name).Some? then Some(1)
    else if CmpOpNamed(name).Some? then Some(2)
    else if name in {"unify", "notunify", "univ", "succ"} then Some(2)
    else if name in {"compare", "functor", "arg", "setarg", "between", "plus"} then Some(3)
    else None
  }

  /** Running a primitive by name. A name that is no primitive gives `None`
      (the engine then reports the `NameError`); a wrong argument count
      raises the constructor's `TypeError`. The environment's mode picks
      the written or the corrected `is_ground`, comparisons, unifier,
      `functor`, `arg` and `setarg`. */
  function Builtin(reg: Registry, name: string, e: Env, args: seq<Term>): (r: Option<Outcome>)
    ensures r.Some? <==> BuiltinArity(name).Some?
    ensures r.Some? ==> r.value.signal == Done || r.value.signal == Raised
    ensures r.Some? && |args| != BuiltinArity(name).value ==> r.value == Outcome([], Raised)
    ensures r.Some? ==> Extends(e, r.value.sols)
    ensures name == "unify" && |args| == 2 ==> r == Some(UnifyGoal(e, args[0], args[1]))
    ensures name == "is_ground" && |args| == 1 ==>
      r == Some(Check(e, if e.fixed then Ground(e.store, args[0]) else GroundAsWritten(e.store, args[0])))
    ensures name == "eq" && |args| == 2 ==> r == Some(CompareGoal(Eq, e, args[0], args[1]))
    ensures name == "functor" && |args| == 3 ==>
      r == Some(if e.fixed then Functor(reg, e, args[0], args[1], args[2])
                else FunctorAsWritten(reg, e, args[0], args[1], args[2]))
    ensures name == "arg" && |args| == 3 ==>
      r == Some(if e.fixed then Arg(e, args[0], args[1], args[2]) else ArgAsWritten(e, args[0], args[1], args[2]))
    ensures name == "setarg" && |args| == 3 ==>
      r == Some(if e.fixed then SetArg(e, args[0], args[1], args[2]) else SetArgAsWritten(e, args[0], args[1], args[2]))
  {
    match BuiltinArity(name)
    case None => None
    case Some(n) =>
      if |args| != n then Some(Outcome([], Raised))
      else Some(Dispatch(reg, name, e, args))
  }

  /** The primitive `name` run on the right number of arguments, in the
      version the environment's mode selects. */
  function Dispatch(reg: Registry, name: string, e: Env, args: seq<Term>): (r: Outcome)
    requires BuiltinArity(name) == Some(|args|)
    ensures r.signal == Done || r.signal == Raised
    ensures Extends(e, r.sols)
    ensures name == "is_ground" ==>
      r == Check(e, if e.fixed then Ground(e.store, args[0]) else GroundAsWritten(e.store, args[0]))
    ensures name == "eq" ==> r == CompareGoal(Eq, e, args[0], args[1])
    ensures name == "unify" ==> r == UnifyGoal(e, args[0], args[1])
    ensures name == "functor" ==>
      r == if e.fixed then Functor(reg, e, args[0], args[1], args[2]) else FunctorAsWritten(reg, e, args[0], args[1], args[2])
    ensures name == "arg" ==>
      r == if e.fixed then Arg(e, args[0], args[1], args[2]) else ArgAsWritten(e, args[0], args[1], args[2])
    ensures name == "setarg" ==>
      r == if e.fixed then SetArg(e, args[0], args[1], args[2]) else SetArgAsWritten(e, args[0], args[1], args[2])
  {
    if TypeTestNamed(name).Some? then Check(e, TypeHolds(TypeTestNamed(name).value, e, args[0]))
    else if CmpOpNamed(name).Some? then CompareGoal(CmpOpNamed(name).value, e, args[0], args[1])
    else if |args| == 2 then Dispatch2(reg, name, e, args)
    else Dispatch3(reg, name, e, args)
  }

  /** The two-argument primitives other than the comparisons. */
  function Dispatch2(reg: Registry, name: string, e: Env, args: seq<Term>): (r: Outcome)
    requires |args| == 2
    ensures r.signal == Done || r.signal == Raised
    ensures Extends(e, r.sols)
    ensures name == "unify" ==> r == UnifyGoal(e, args[0], args[1])
  {
    if name == "unify" then UnifyGoal(e, args[0], args[1])
    else if name == "notunify" then NotUnifyGoal(e, args[0], args[1])
    else if name == "univ" then Univ(reg, e, args[0], args[1])
    else Succ(e, args[0], args[1])
  }

  /** The three-argument primitives. */
  function Dispatch3(reg: Registry, name: string, e: Env, args: seq<Term>): (r: Outcome)
    requires |args| == 3
    ensures r.signal == Done || r.signal == Raised
    ensures Extends(e, r.sols)
    ensures name == "functor" ==>
      r == if e.fixed then Functor(reg, e, args[0], args[1], args[2]) else FunctorAsWritten(reg, e, args[0], args[1], args[2])
    ensures name == "arg" ==>
      r == if e.fixed then Arg(e, args[0], args[1], args[2]) else ArgAsWritten(e, args[0], args[1], args[2])
    ensures name == "setarg" ==>
      r == if e.fixed then SetArg(e, args[0], args[1], args[2]) else SetArgAsWritten(e, args[0], args[1], args[2])
  {
    if name == "compare" then Compare3(e, args[0], args[1], args[2])
    else if name == "functor" then
      if e.fixed then Functor(reg, e, args[0], args[1], args[2])
      else FunctorAsWritten(reg, e, args[0], args[1], args[2])
    else if name == "arg" then
      if e.fixed then Arg(e, args[0], args[1], args[2]) else ArgAsWritten(e, args[0], args[1], args[2])
    else if name == "setarg" then
      if e.fixed then SetArg(e, args[0], args[1], args[2]) else SetArgAsWritten(e, args[0], args[1], args[2])
    else if name == "between" then Between(e, args[0], args[1], args[2])
    else Plus(e, args[0], args[1], args[2])
  }
}

=== FILE: terms.dfy ===
/** The term model of PyLog: atoms, compound terms (instances of a term class
    with argument slots), and variables whose contents live in an explicit
    store instead of a mutable `term` field. */
module Terms {
  import opened Wrappers

  /** What an `Atom` wraps: an `atom(name)` symbol, a Python integer or a
      Python string. */
  datatype Payload = Sym(name: string) | Int(value: int) | Str(text: string)

  /** `Var(id)` is a variable cell, `Atom(p)` wraps a host value, and
      `Cmp(name, args)` is an instance of the term class `name` whose arity
      is `|args|`. */
  datatype Term =
    | Var(id: nat)
    | Atom(payload: Payload)
    | Cmp(name: string, args: seq<Term>)

  /** A term without variables. */
  predicate NoVars(t: Term)
    decreases t
  {
    match t
    case Var(_) => false
    case Atom(_) => true
    case Cmp(_, args) => forall i :: 0 <= i < |args| ==> NoVars(args[i])
  }

  function Cons(head: Term, tail: Term): Term {
    Cmp("cons", [head, tail])
  }

  /** The `nil` singleton: a term class of arity 0. */
  const Nil: Term := Cmp("nil", [])

  function IntAtom(i: int): Term {
    Atom(Int(i))
  }

  /** Python's `cons.pylist` / `nil.pylist`: the items of a proper list.
      Anything else (a variable, an atom, another class) has no `pylist`. */
  function ListItems(t: Term): (r: Option<seq<Term>>)
    ensures r.Some? ==> t.Cmp? && (t.name == "nil" || t.name == "cons")
    ensures t == Nil ==> r == Some([])
  {
    match t
    case Cmp(name, args) =>
      if name == "nil" && |args| == 0 then Some([])
      else if name == "cons" && |args| == 2 then
        match ListItems(args[1])
        case Some(rest) => Some([args[0]] + rest)
        case None => None
      else None
    case _ => None
  }

  /** The inner helper of `Term.consarglist`: conses the arguments onto `l`
      starting from the last one. */
  function AddArgs(args: seq<Term>, l: Term): Term
    decreases |args|
  {
    if |args| == 0 then l
    else AddArgs(args[..|args| - 1], Cons(args[|args| - 1], l))
  }

  /** `Term.consarglist`: the arguments as a proper list, in order. */
  function ConsArgList(args: seq<Term>): (r: Term)
    ensures ListItems(r) == Some(args)
  {
    AddArgsItems(args, Nil, []);
    assert args + [] == args;
    AddArgs(args, Nil)
  }

  lemma {:induction false} AddArgsItems(args: seq<Term>, l: Term, tail: seq<Term>)
    requires ListItems(l) == Some(tail)
    ensures ListItems(AddArgs(args, l)) == Some(args + tail)
    decreases |args|
  {
    if |args| > 0 {
      var init, last := args[..|args| - 1], args[|args| - 1];
      assert ListItems(Cons(last, l)) == Some([last] + tail);
      AddArgsItems(init, Cons(last, l), [last] + tail);
      assert args == init + [last];
      assert init + ([last] + tail) == args + tail;
    } else {
      assert args + tail == tail;
    }
  }

  lemma {:induction false} AddArgsFront(h: Term, rest: seq<Term>, l: Term)
    ensures AddArgs([h] + rest, l) == Cons(h, AddArgs(rest, l))
    decreases |rest|
  {
    if |rest| > 0 {
      var init, last := rest[..|rest| - 1], rest[|rest| - 1];
      assert ([h] + rest)[..|rest|] == [h] + init;
      AddArgsFront(h, init, Cons(last, l));
    }
  }

  /** `consarglist` and `pylist` are inverse: a term whose `pylist` succeeds
      is rebuilt exactly from its items. */
  lemma {:induction false} ListItemsInverse(t: Term, items: seq<Term>)
    requires ListItems(t) == Some(items)
    ensures ConsArgList(items) == t
  {
    var args := t.args;
    if t.name == "cons" {
      var rest := ListItems(args[1]).value;
      ListItemsInverse(args[1], rest);
      AddArgsFront(args[0], rest, Nil);
      assert items == [args[0]] + rest;
      assert args == [args[0], args[1]];
    } else {
      assert args == [];
    }
  }

  /** The contents of every variable cell; a cell absent from the map holds
      `None`, i.e. the variable is free. */
  type Store = map<nat, Term>

  /** The term is not a variable with something stored in it. */
  predicate Resolved(s: Store, t: Term) {
    !(t.Var? && t.id in s)
  }

  /** `Var.deref`: follows the `term` links. Each visited cell is dropped
      from the store on the way, so the walk ends even on a store with a
      cycle; on an acyclic store it is the plain transitive walk (see
      `DerefFollows`). */
  function Deref(s: Store, t: Term): (r: Term)
    ensures !t.Var? ==> r == t
    ensures t.Var? && t.id !in s ==> r == t
    ensures r == t || r in s.Values
    decreases s.Keys
  {
    if t.Var? && t.id in s then
      var r := Deref(s - {t.id}, s[t.id]);
      assert (s - {t.id}).Values <= s.Values;
      r
    else t
  }

  /** The chain of bindings from cell `v` ends in a free variable or a
      non-variable. */
  ghost predicate ChainEnds(s: Store, v: nat) {
    v in s ==> Resolved(s, Deref(s, Var(v)))
  }

  /** Every chain of bindings ends in a free variable or a non-variable. */
  ghost predicate Acyclic(s: Store) {
    forall v :: ChainEnds(s, v)
  }

  /** `Var.isfree`. */
  predicate IsFree(s: Store, t: Term) {
    Deref(s, t).Var?
  }

  /** Dropping a cell that the walk from `y` never reaches does not change
      where the walk ends. */
  lemma {:induction false} DerefRemove(s: Store, k: nat, y: Term)
    requires k in s
    requires Deref(s - {k}, y) != Var(k)
    ensures Deref(s, y) == Deref(s - {k}, y)
    decreases s.Keys
  {
    if y.Var? && y.id in s && y.id != k {
      var w := y.id;
      assert (s - {w}) - {k} == (s - {k}) - {w};
      DerefRemove(s - {w}, k, s[w]);
    }
  }

  /** A walk that ends at a variable ends there again when started from
      that variable, on any store. */
  lemma {:induction false} DerefVarFixed(s: Store, t: Term)
    requires Deref(s, t).Var?
    ensures Deref(s, Deref(s, t)) == Deref(s, t)
    decreases s.Keys
  {
    if t.Var? && t.id in s {
      var j := t.id;
      var k := Deref(s, t).id;
      DerefVarFixed(s - {j}, s[j]);
      if k != j && k in s {
        assert (s - {k}) - {j} == (s - {j}) - {k};
        DerefRemove(s - {k}, j, s[k]);
      }
    }
  }

  /** `deref` follows `term` links transitively and stops at a free variable
      or a non-variable. */
  lemma {:induction false} DerefFollows(s: Store, t: Term)
    requires Acyclic(s)
    ensures Resolved(s, Deref(s, t))
    ensures Deref(s, Deref(s, t)) == Deref(s, t)
    ensures t.Var? && t.id in s ==> Deref(s, t) == Deref(s, s[t.id])
  {
    if t.Var? && t.id in s {
      var v := t.id;
      assert ChainEnds(s, v);
      DerefRemove(s, v, s[v]);
    }
  }

  /** Binding a free cell `v` to a resolved `t` redirects exactly the walks
      that used to end at `v`. */
  lemma {:induction false} DerefAfterBind(s: Store, v: nat, t: Term, x: Term)
    requires v !in s
    requires Resolved(s, t) && t != Var(v)
    ensures Deref(s[v := t], x) == if Deref(s, x) == Var(v) then t else Deref(s, x)
    decreases s.Keys
  {
    var s' := s[v := t];
    if x.Var? && x.id == v {
      assert s' - {v} == s;
    } else if x.Var? && x.id in s {
      var w := x.id;
      assert s' - {w} == (s - {w})[v := t];
      DerefAfterBind(s - {w}, v, t, s[w]);
    }
  }

  datatype BindError = BindingError

  /** `Var.bind`: stores the dereferenced `obj` in the cell at the end of
      `x`'s chain; binding a cell to itself changes nothing; a bound `x`
      whose chain ends in a non-variable raises `BindingError`. */
  function Bind(s: Store, x: Term, obj: Term): (r: Result<Store, BindError>)
    ensures r.Err? <==> !Deref(s, x).Var?
    ensures r.Ok? ==> forall k :: k in s && k != Deref(s, x).id ==> k in r.value && r.value[k] == s[k]
    ensures r.Ok? ==> r.value.Keys <= s.Keys + {Deref(s, x).id}
  {
    var v := Deref(s, x);
    var t := Deref(s, obj);
    if !v.Var? then Err(BindingError)
    else if t == v then Ok(s)
    else Ok(s[v.id := t])
  }

  /** No cell holds a link to itself. */
  predicate NoSelfLoop(s: Store) {
    forall k :: k in s ==> s[k] != Var(k)
  }

  /** On an acyclic store, a successful `bind` makes `x` and `obj`
      dereference to the same term, keeps the store acyclic and free of
      self-links, and redirects only the walks that ended where `x`'s did. */
  lemma {:induction false} BindSound(s: Store, x: Term, obj: Term)
    requires Acyclic(s)
    ensures Bind(s, x, obj).Ok? ==>
      var s' := Bind(s, x, obj).value;
      && Deref(s', x) == Deref(s', obj)
      && Acyclic(s')
      && NoSelfLoop(s')
      && forall y :: Deref(s', y) == if Deref(s, y) == Deref(s, x) then Deref(s, obj) else Deref(s, y)
  {
    var v, t := Deref(s, x), Deref(s, obj);
    DerefFollows(s, x);
    DerefFollows(s, obj);
    if v.Var? {
      var s' := Bind(s, x, obj).value;
      if t == v {
        assert s' == s;
        forall k | k in s ensures s[k] != Var(k) {
          DerefFollows(s, Var(k));
        }
      } else {
        assert s' == s[v.id := t];
        forall y ensures Deref(s', y) == if Deref(s, y) == v then t else Deref(s, y) {
          DerefAfterBind(s, v.id, t, y);
        }
        forall k ensures ChainEnds(s', k) {
          DerefFollows(s, Var(k));
        }
        forall k | k in s' ensures s'[k] != Var(k) {
          DerefFollows(s', Var(k));
        }
      }
    }
  }
}

=== FILE: unify.dfy ===
/** `mgu`, the work-stack unifier without occurs check, and the `Unifier`
    trail that applies its bindings and undoes them again. */
module Unify {
  import opened Wrappers
  import opened Terms
  import opened Order

  type Pair = (Term, Term)

  /** A `Unifier`: variable cells mapped to the terms they are to be bound
      to, in insertion order. */
  type Unifier = seq<(nat, Term)>

  /** `u[v]`: the term recorded for `v`, if any. */
  function Lookup(u: Unifier, v: nat): (r: Option<Term>)
    ensures r.None? <==> forall i :: 0 <= i < |u| ==> u[i].0 != v
    ensures r.Some? ==> exists i :: 0 <= i < |u| && u[i] == (v, r.value)
  {
    if |u| == 0 then None
    else if u[0].0 == v then Some(u[0].1)
    else
      var r := Lookup(u[1..], v);
      assert forall i :: 1 <= i < |u| ==> u[i] == u[1..][i - 1];
      r
  }

  /** Every variable of the unifier occurs once and is free in `s`. */
  predicate KeysFresh(s: Store, u: Unifier) {
    && (forall i, j :: 0 <= i < j < |u| ==> u[i].0 != u[j].0)
    && (forall i :: 0 <= i < |u| ==> u[i].0 !in s)
  }

  /** The state of `mgu`: the work stack, the pairs already processed, and
      the unifier built so far. */
  datatype Frame = Frame(stack: seq<Pair>, done: set<Pair>, u: Unifier)

  /** Python's `==` on two pairs of terms as `(t1, t2) in stack` applies
      it: position by position, the same object counts as equal at once,
      and otherwise `__cmp__` as written decides, with the new pair on the
      left. Equal values stand for the same object here: equal variables
      are one cell, and equal atoms or compound terms that are distinct
      objects compare equal under `__cmp__` anyway. */
  predicate SamePair(s: Store, p: Pair, q: Pair) {
    && (p.0 == q.0 || CompareAsWritten(s, p.0, q.0) == 0)
    && (p.1 == q.1 || CompareAsWritten(s, p.1, q.1) == 0)
  }

  /** `(t1, t2) in stack`, on the Python list `stack`. */
  predicate OnStack(s: Store, stack: seq<Pair>, p: Pair) {
    exists i :: 0 <= i < |stack| && SamePair(s, p, stack[i])
  }

  /** Whether `store` leaves the pair `p` out: it is done, or it is on the
      stack, by the list test as written or, in the corrected loop, as a
      value. */
  predicate Scheduled(s: Store, f: Frame, p: Pair, written: bool) {
    p in f.done || (if written then OnStack(s, f.stack, p) else p in f.stack)
  }

  /** `store(t1, t2)`: schedules the dereferenced pair unless it is already on
      the stack or already done. `written` selects the stack test of the
      code as written. */
  function Push(s: Store, f: Frame, a: Term, b: Term, written: bool): (r: Frame)
    ensures r.done == f.done && r.u == f.u
    ensures Scheduled(s, r, (Deref(s, a), Deref(s, b)), written)
    ensures r.stack == f.stack <==> Scheduled(s, f, (Deref(s, a), Deref(s, b)), written)
    ensures r.stack == f.stack ||
      (&& r.stack == f.stack + [(Deref(s, a), Deref(s, b))]
       && (Deref(s, a), Deref(s, b)) !in f.stack
       && (Deref(s, a), Deref(s, b)) !in f.done)
  {
    var p := (Deref(s, a), Deref(s, b));
    InStackOnStack(s, f.stack, p);
    if Scheduled(s, f, p, written) then f
    else
      var r := f.(stack := f.stack + [p]);
      assert SamePair(s, p, r.stack[|f.stack|]);
      r
  }

  /** A pair that is on the stack as a value passes the list test. */
  lemma InStackOnStack(s: Store, stack: seq<Pair>, p: Pair)
    ensures p in stack ==> OnStack(s, stack, p)
  {
    if p in stack {
      var i :| 0 <= i < |stack| && stack[i] == p;
      assert SamePair(s, p, stack[i]);
    }
  }

  lemma {:induction false} OnStackGrows(s: Store, xs: seq<Pair>, ys: seq<Pair>, p: Pair)
    requires xs <= ys && OnStack(s, xs, p)
    ensures OnStack(s, ys, p)
  {
    var i :| 0 <= i < |xs| && SamePair(s, p, xs[i]);
    assert ys[i] == xs[i];
  }

  /** `for (a1, a2) in zip(t1.args, t2.args): store(a1, a2)`. */
  function PushArgs(s: Store, f: Frame, xs: seq<Term>, ys: seq<Term>, written: bool): (r: Frame)
    requires |xs| == |ys|
    ensures r.done == f.done && r.u == f.u
    ensures f.stack <= r.stack
    ensures forall i :: 0 <= i < |xs| ==> Scheduled(s, r, (Deref(s, xs[i]), Deref(s, ys[i])), written)
    decreases |xs|
  {
    if |xs| == 0 then f
    else
      var g := Push(s, f, xs[0], ys[0], written);
      var r := PushArgs(s, g, xs[1..], ys[1..], written);
      assert forall i :: 1 <= i < |xs| ==> xs[i] == xs[1..][i - 1] && ys[i] == ys[1..][i - 1];
      var p := (Deref(s, xs[0]), Deref(s, ys[0]));
      assert Scheduled(s, r, p, written) by {
        if written && p !in g.done {
          OnStackGrows(s, g.stack, r.stack, p);
        }
      }
      r
  }

  /** `update(v, t)`: a variable seen for the first time is recorded with
      `t`; otherwise its recorded term is scheduled against `t`. */
  function Update(s: Store, f: Frame, v: nat, t: Term): (r: Frame)
    ensures r.done == f.done
    ensures Lookup(f.u, v).None? ==> r == f.(u := f.u + [(v, t)])
    ensures Lookup(f.u, v).Some? ==> r.u == f.u
  {
    match Lookup(f.u, v)
    case Some(w) => Push(s, f, w, t, true)
    case None => f.(u := f.u + [(v, t)])
  }

  /** One turn of the `while stack` loop: pop the last pair, mark it done,
      and dispatch on the kinds of its two sides. `None` is `NoMGU`. */
  function Step(s: Store, f: Frame): (r: Option<Frame>)
    requires |f.stack| > 0
    ensures r.Some? ==> r.value.done == f.done + {f.stack[|f.stack| - 1]}
  {
    var p := f.stack[|f.stack| - 1];
    var g := Frame(f.stack[..|f.stack| - 1], f.done + {p}, f.u);
    match p.0
    case Atom(x) =>
      (match p.1
       case Atom(y) => if x != y then None else Some(g)
       case Cmp(_, _) => None
       case Var(v) => Some(Update(s, g, v, p.0)))
    case Cmp(n, xs) =>
      (match p.1
       case Atom(_) => None
       case Cmp(m, ys) => if n == m && |xs| == |ys| then Some(PushArgs(s, g, xs, ys, true)) else None
       case Var(v) => Some(Update(s, g, v, p.0)))
    case Var(v) => Some(Update(s, g, v, p.1))
  }

  /** All subterms of `t`, `t` included. */
  ghost function Subterms(t: Term): (r: set<Term>)
    ensures t in r
    decreases t
  {
    {t} + (if t.Cmp? then (set i, x | 0 <= i < |t.args| && x in Subterms(t.args[i]) :: x) else {})
  }

  lemma {:induction false} SubtermsClosed(t: Term, x: Term, j: int)
    requires x in Subterms(t) && x.Cmp? && 0 <= j < |x.args|
    ensures x.args[j] in Subterms(t)
    decreases t
  {
    if x != t {
      var i :| 0 <= i < |t.args| && x in Subterms(t.args[i]);
      SubtermsClosed(t.args[i], x, j);
    } else {
      assert x.args[j] in Subterms(x.args[j]);
    }
  }

  /** Every term `mgu(a, b)` can ever look at: the subterms of `a`, of `b`
      and of everything stored in `s`. */
  ghost function Universe(s: Store, a: Term, b: Term): set<Term> {
    Subterms(a) + Subterms(b) + (set v, x | v in s && x in Subterms(s[v]) :: x)
  }

  /** `U` is closed under dereferencing and under taking arguments. */
  ghost predicate Closed(s: Store, U: set<Term>) {
    && (forall x :: x in U ==> Deref(s, x) in U)
    && (forall x, j :: x in U && x.Cmp? && 0 <= j < |x.args| ==> x.args[j] in U)
  }

  lemma {:induction false} UniverseClosed(s: Store, a: Term, b: Term)
    ensures Closed(s, Universe(s, a, b))
    ensures a in Universe(s, a, b) && b in Universe(s, a, b)
  {
    var U := Universe(s, a, b);
    forall x | x in U ensures Deref(s, x) in U {
      var r := Deref(s, x);
      if r != x {
        var v :| v in s && s[v] == r;
        assert r in Subterms(s[v]);
      }
    }
    forall x, j | x in U && x.Cmp? && 0 <= j < |x.args| ensures x.args[j] in U {
      if x in Subterms(a) {
        SubtermsClosed(a, x, j);
      } else if x in Subterms(b) {
        SubtermsClosed(b, x, j);
      } else {
        var v :| v in s && x in Subterms(s[v]);
        SubtermsClosed(s[v], x, j);
      }
    }
  }

  ghost function Pairs(U: set<Term>): set<Pair> {
    set x, y | x in U && y in U :: (x, y)
  }

  /** The loop invariant of `mgu`: the stack holds no pair twice and no pair
      already done, and every term in play lies in `U`. */
  ghost predicate Inv(U: set<Term>, f: Frame) {
    && (forall i, j :: 0 <= i < j < |f.stack| ==> f.stack[i] != f.stack[j])
    && (forall i :: 0 <= i < |f.stack| ==> f.stack[i] !in f.done)
    && (forall i :: 0 <= i < |f.stack| ==> f.stack[i].0 in U && f.stack[i].1 in U)
    && (forall i :: 0 <= i < |f.u| ==> f.u[i].1 in U)
  }

  lemma {:induction false} PushKeepsInv(s: Store, U: set<Term>, f: Frame, a: Term, b: Term, written: bool)
    requires Closed(s, U) && Inv(U, f) && a in U && b in U
    ensures Inv(U, Push(s, f, a, b, written))
  {
  }

  lemma {:induction false} PushArgsKeepsInv(s: Store, U: set<Term>, f: Frame, xs: seq<Term>, ys: seq<Term>, written: bool)
    requires Closed(s, U) && Inv(U, f) && |xs| == |ys|
    requires forall i :: 0 <= i < |xs| ==> xs[i] in U && ys[i] in U
    ensures Inv(U, PushArgs(s, f, xs, ys, written))
    decreases |xs|
  {
    if |xs| > 0 {
      PushKeepsInv(s, U, f, xs[0], ys[0], written);
      PushArgsKeepsInv(s, U, Push(s, f, xs[0], ys[0], written), xs[1..], ys[1..], written);
    }
  }

  lemma {:induction false} StepKeepsInv(s: Store, U: set<Term>, f: Frame)
    requires Closed(s, U) && Inv(U, f) && |f.stack| > 0
    ensures f.stack[|f.stack| - 1] in Pairs(U) && f.stack[|f.stack| - 1] !in f.done
    ensures Step(s, f).Some? ==> Inv(U, Step(s, f).value)
  {
    var p := f.stack[|f.stack| - 1];
    var g := Frame(f.stack[..|f.stack| - 1], f.done + {p}, f.u);
    assert Inv(U, g);
    match p.0
    case Atom(x) =>
      if p.1.Var? {
        UpdateKeepsInv(s, U, g, p.1.id, p.0);
      }
    case Cmp(n, xs) =>
      if p.1.Var? {
        UpdateKeepsInv(s, U, g, p.1.id, p.0);
      } else if p.1.Cmp? && n == p.1.name && |xs| == |p.1.args| {
        PushArgsKeepsInv(s, U, g, xs, p.1.args, true);
      }
    case Var(v) =>
      UpdateKeepsInv(s, U, g, v, p.1);
  }

  lemma {:induction false} UpdateKeepsInv(s: Store, U: set<Term>, f: Frame, v: nat, t: Term)
    requires Closed(s, U) && Inv(U, f) && t in U
    ensures Inv(U, Update(s, f, v, t))
  {
    match Lookup(f.u, v)
    case Some(w) => PushKeepsInv(s, U, f, w, t, true);
    case None =>
  }

  lemma {:induction false} MeasureDrops(P: set<Pair>, D: set<Pair>, p: Pair)
    requires p in P && p !in D
    ensures |P - (D + {p})| < |P - D|
  {
    assert P - D == (P - (D + {p})) + {p};
  }

  /** The `while stack` loop. Each turn moves one pair of `Pairs(U)` into
      `done`, and no pair leaves `done`, so the loop ends even on cyclic
      terms. */
  function Run(s: Store, f: Frame, ghost U: set<Term>): (r: Option<Unifier>)
    requires Closed(s, U) && Inv(U, f)
    ensures r.Some? ==> f.u <= r.value
    decreases |Pairs(U) - f.done|, 1
  {
    if |f.stack| == 0 then Some(f.u) else Turn(s, f, U)
  }

  /** One turn of the loop: pop a pair, then carry on. */
  function Turn(s: Store, f: Frame, ghost U: set<Term>): (r: Option<Unifier>)
    requires Closed(s, U) && Inv(U, f) && |f.stack| > 0
    ensures r.Some? ==> f.u <= r.value
    decreases |Pairs(U) - f.done|, 0
  {
    var g := Step(s, f);
    if g.None? then None
    else
      StepKeepsInv(s, U, f);
      StepKeepsU(s, f);
      MeasureDrops(Pairs(U), f.done, f.stack[|f.stack| - 1]);
      Run(s, g.value, U)
  }

  lemma {:induction false} StepKeepsU(s: Store, f: Frame)
    requires |f.stack| > 0
    ensures Step(s, f).Some? ==> f.u <= Step(s, f).value.u
  {
    var p := f.stack[|f.stack| - 1];
    var g := Frame(f.stack[..|f.stack| - 1], f.done + {p}, f.u);
    if p.0.Cmp? && p.1.Cmp? && p.0.name == p.1.name && |p.0.args| == |p.1.args| {
      assert PushArgs(s, g, p.0.args, p.1.args, true).u == f.u;
    }
  }

  /** The frame `mgu(a, b)` starts from. */
  function Start(s: Store, a: Term, b: Term): Frame {
    Frame([(Deref(s, a), Deref(s, b))], {}, [])
  }

  /** `mgu(a, b)`: the unifier of the two terms, or `None` when they do not
      unify. */
  function Mgu(s: Store, a: Term, b: Term): (r: Option<Unifier>)
    ensures Deref(s, a).Atom? && Deref(s, b).Atom? ==>
      (r.None? <==> Deref(s, a).payload != Deref(s, b).payload)
    ensures Deref(s, a).Atom? && Deref(s, b).Atom? && r.Some? ==> r.value == []
    ensures (Deref(s, a).Atom? && Deref(s, b).Cmp?) || (Deref(s, a).Cmp? && Deref(s, b).Atom?) ==> r.None?
    ensures Deref(s, a).Cmp? && Deref(s, b).Cmp? ==>
      (Deref(s, a).name != Deref(s, b).name || |Deref(s, a).args| != |Deref(s, b).args| ==> r.None?)
    ensures Deref(s, a).Var? ==> r == Some([(Deref(s, a).id, Deref(s, b))])
    ensures !Deref(s, a).Var? && Deref(s, b).Var? ==> r == Some([(Deref(s, b).id, Deref(s, a))])
  {
    UniverseClosed(s, a, b);
    FirstStep(s, a, b);
    FirstStepMismatch(s, a, b);
    Run(s, Start(s, a, b), Universe(s, a, b))
  }

  /** Unrolls the first turn of the loop on two compounds of different
      classes or arities. */
  lemma {:induction false} FirstStepMismatch(s: Store, a: Term, b: Term)
    requires Closed(s, Universe(s, a, b)) && Inv(Universe(s, a, b), Start(s, a, b))
    ensures var a', b' := Deref(s, a), Deref(s, b);
      a'.Cmp? && b'.Cmp? && (a'.name != b'.name || |a'.args| != |b'.args|) ==>
      Run(s, Start(s, a, b), Universe(s, a, b)) == None
  {
    var f := Start(s, a, b);
    assert Run(s, f, Universe(s, a, b)) == Turn(s, f, Universe(s, a, b));
  }

  /** Unrolls the first turn of the loop when it cannot push argument pairs. */
  lemma {:induction false} FirstStep(s: Store, a: Term, b: Term)
    ensures Closed(s, Universe(s, a, b)) && Inv(Universe(s, a, b), Start(s, a, b))
    ensures !(Deref(s, a).Cmp? && Deref(s, b).Cmp?) ==>
      var a', b' := Deref(s, a), Deref(s, b);
      Run(s, Start(s, a, b), Universe(s, a, b)) ==
        if a'.Var? then Some([(a'.id, b')])
        else if b'.Var? then Some([(b'.id, a')])
        else if a'.Atom? && b'.Atom? && a'.payload == b'.payload then Some([])
        else None
  {
    UniverseClosed(s, a, b);
    var U := Universe(s, a, b);
    var f := Start(s, a, b);
    var a', b' := Deref(s, a), Deref(s, b);
    assert a' in U && b' in U;
    if !(a'.Cmp? && b'.Cmp?) {
      var g := Step(s, f);
      var g0 := Frame([], {(a', b')}, []);
      assert f.stack[|f.stack| - 1] == (a', b');
      assert f.stack[..|f.stack| - 1] == [];
      if a'.Var? {
        assert Lookup(g0.u, a'.id).None?;
        assert g.value == Update(s, g0, a'.id, b');
      } else if b'.Var? {
        assert Lookup(g0.u, b'.id).None?;
        assert g.value == Update(s, g0, b'.id, a');
      }
      if g.Some? {
        assert g.value.stack == [];
        assert Run(s, g.value, U) == Some(g.value.u);
        assert Run(s, f, U) == Run(s, g.value, U);
        if a'.Var? {
          assert g.value.u == [(a'.id, b')];
        } else if b'.Var? {
          assert g.value.u == [(b'.id, a')];
        } else {
          assert a'.Atom? && b'.Atom?;
          assert a'.payload == b'.payload;
          assert g.value.u == [];
        }
      } else {
        assert Run(s, f, U) == None;
      }
    }
  }

  /** What the cell `k` holds in `s`: `None` for a free cell. */
  function Get(s: Store, k: nat): Option<Term> {
    if k in s then Some(s[k]) else None
  }

  lemma {:induction false} StoresEqual(s: Store, t: Store)
    requires forall k :: Get(s, k) == Get(t, k)
    ensures s == t
  {
    forall k | k in s ensures k in t && s[k] == t[k] {
      assert Get(s, k) == Get(t, k);
    }
    forall k | k in t ensures k in s {
      assert Get(s, k) == Get(t, k);
    }
  }

  /** `Unifier.backup`: each bound cell with the contents it had before. */
  type Backup = seq<(nat, Option<Term>)>

  /** `Unifier.unify`: records each variable's previous contents, then binds
      it to its term, in the unifier's order. */
  function Apply(s: Store, u: Unifier): (r: Result<(Store, Backup), BindError>)
    ensures r.Ok? ==> |r.value.1| == |u| && forall i :: 0 <= i < |u| ==> r.value.1[i].0 == u[i].0
    ensures r.Err? <==> exists i :: 0 <= i < |u| && ApplyFailsAt(s, u, i)
    decreases |u|
  {
    if |u| == 0 then Ok((s, []))
    else
      var v := u[0].0;
      match Bind(s, Var(v), u[0].1)
      case Err(e) =>
        assert ApplyFailsAt(s, u, 0);
        Err(e)
      case Ok(s1) =>
        var rest := Apply(s1, u[1..]);
        ApplyFailsShift(s, u);
        match rest
        case Err(e) => Err(e)
        case Ok(p) => Ok((p.0, [(v, Get(s, v))] + p.1))
  }

  /** The store just before the `i`-th binding, when all earlier ones
      succeeded. */
  function Before(s: Store, u: Unifier, i: nat): (r: Option<Store>)
    requires i <= |u|
    ensures i == 0 ==> r == Some(s)
    decreases i
  {
    if i == 0 then Some(s)
    else
      match Before(s, u, i - 1)
      case None => None
      case Some(t) =>
        match Bind(t, Var(u[i - 1].0), u[i - 1].1)
        case Err(_) => None
        case Ok(t') => Some(t')
  }

  /** The `i`-th binding is the one that raises `BindingError`. */
  predicate ApplyFailsAt(s: Store, u: Unifier, i: nat)
    requires i < |u|
  {
    Before(s, u, i).Some? && Bind(Before(s, u, i).value, Var(u[i].0), u[i].1).Err?
  }

  lemma {:induction false} BeforeShift(s: Store, u: Unifier, i: nat)
    requires |u| > 0 && 1 <= i <= |u|
    ensures Bind(s, Var(u[0].0), u[0].1).Ok? ==> Before(s, u, i) == Before(Bind(s, Var(u[0].0), u[0].1).value, u[1..], i - 1)
    ensures Bind(s, Var(u[0].0), u[0].1).Err? ==> Before(s, u, i).None?
    decreases i
  {
    if i > 1 {
      BeforeShift(s, u, i - 1);
    }
  }

  lemma {:induction false} ApplyFailsShift(s: Store, u: Unifier)
    requires |u| > 0 && Bind(s, Var(u[0].0), u[0].1).Ok?
    ensures (exists i :: 0 <= i < |u| && ApplyFailsAt(s, u, i)) <==>
      exists i :: 0 <= i < |u| - 1 && ApplyFailsAt(Bind(s, Var(u[0].0), u[0].1).value, u[1..], i)
  {
    var s1 := Bind(s, Var(u[0].0), u[0].1).value;
    forall i | 0 <= i < |u| && ApplyFailsAt(s, u, i)
      ensures 0 <= i - 1 < |u| - 1 && ApplyFailsAt(s1, u[1..], i - 1)
    {
      if i > 0 {
        BeforeShift(s, u, i);
      }
    }
    forall i | 0 <= i < |u| - 1 && ApplyFailsAt(s1, u[1..], i)
      ensures ApplyFailsAt(s, u, i + 1)
    {
      BeforeShift(s, u, i + 1);
    }
  }

  /** Puts one recorded cell back. */
  function Restore(s: Store, e: (nat, Option<Term>)): Store {
    match e.1
    case None => s - {e.0}
    case Some(t) => s[e.0 := t]
  }

  /** `Unifier.undo`: puts back every recorded cell and clears the backup.
      Cells not in the backup keep their contents, so an undo with the
      cleared backup changes nothing. */
  function Undo(s: Store, b: Backup): (r: (Store, Backup))
    ensures r.1 == []
    ensures forall k :: (forall i :: 0 <= i < |b| ==> b[i].0 != k) ==> Get(r.0, k) == Get(s, k)
    ensures (forall i, j :: 0 <= i < j < |b| ==> b[i].0 != b[j].0) ==>
      forall i :: 0 <= i < |b| ==> Get(r.0, b[i].0) == b[i].1
    decreases |b|
  {
    if |b| == 0 then (s, [])
    else
      var r := Undo(Restore(s, b[0]), b[1..]);
      assert forall i :: 1 <= i < |b| ==> b[i] == b[1..][i - 1];
      r
  }

  /** On fresh keys every binding succeeds; the backup records every cell as
      free, and cells outside the unifier are untouched. */
  lemma {:induction false} ApplyFresh(s: Store, u: Unifier)
    requires KeysFresh(s, u)
    ensures Apply(s, u).Ok?
    ensures forall i :: 0 <= i < |u| ==> Apply(s, u).value.1[i] == (u[i].0, None)
    ensures forall k :: (forall i :: 0 <= i < |u| ==> u[i].0 != k) ==> Get(Apply(s, u).value.0, k) == Get(s, k)
    decreases |u|
  {
    if |u| > 0 {
      var v := u[0].0;
      assert Deref(s, Var(v)) == Var(v);
      var s1 := Bind(s, Var(v), u[0].1).value;
      assert forall i :: 1 <= i < |u| ==> u[i] == u[1..][i - 1];
      assert KeysFresh(s1, u[1..]);
      ApplyFresh(s1, u[1..]);
    }
  }

  /** `undo` after `unify` gives back exactly the store before the unify. */
  lemma {:induction false} UndoApply(s: Store, u: Unifier)
    requires KeysFresh(s, u)
    ensures Apply(s, u).Ok?
    ensures var (s', b) := Apply(s, u).value; Undo(s', b).0 == s
  {
    ApplyFresh(s, u);
    var (s', b) := Apply(s, u).value;
    var r := Undo(s', b).0;
    forall k ensures Get(r, k) == Get(s, k) {
      if i :| 0 <= i < |u| && u[i].0 == k {
        assert b[i] == (k, None);
      }
    }
    StoresEqual(r, s);
  }

  /** On an acyclic store, applying a unifier with fresh keys keeps the store
      acyclic, makes every variable dereference to the same term as its
      recorded term, keeps every equality between dereferenced terms, and
      leaves every term that already dereferenced to a non-variable alone. */
  lemma {:induction false} ApplySound(s: Store, u: Unifier)
    requires Acyclic(s) && KeysFresh(s, u)
    ensures Apply(s, u).Ok?
    ensures var s' := Apply(s, u).value.0;
      && Acyclic(s')
      && (forall i :: 0 <= i < |u| ==> Deref(s', Var(u[i].0)) == Deref(s', u[i].1))
      && (forall x, y :: Deref(s, x) == Deref(s, y) ==> Deref(s', x) == Deref(s', y))
      && (forall x :: !Deref(s, x).Var? ==> Deref(s', x) == Deref(s, x))
    decreases |u|
  {
    ApplyFresh(s, u);
    if |u| > 0 {
      var v := u[0].0;
      assert Deref(s, Var(v)) == Var(v);
      BindSound(s, Var(v), u[0].1);
      var s1 := Bind(s, Var(v), u[0].1).value;
      assert forall i :: 1 <= i < |u| ==> u[i] == u[1..][i - 1];
      assert KeysFresh(s1, u[1..]);
      ApplySound(s1, u[1..]);
      var s' := Apply(s, u).value.0;
      assert s' == Apply(s1, u[1..]).value.0;
      forall x | !Deref(s, x).Var? ensures Deref(s', x) == Deref(s, x) {
        assert Deref(s1, x) == Deref(s, x);
      }
    }
  }

  /** Every pair still to be processed is dereferenced, and the unifier's
      keys are distinct free cells. */
  predicate Settled(s: Store, f: Frame) {
    && (forall i :: 0 <= i < |f.stack| ==> Resolved(s, f.stack[i].0) && Resolved(s, f.stack[i].1))
    && KeysFresh(s, f.u)
  }

  lemma {:induction false} PushSettled(s: Store, f: Frame, a: Term, b: Term)
    requires Acyclic(s) && Settled(s, f)
    ensures Settled(s, Push(s, f, a, b, true))
  {
    DerefFollows(s, a);
    DerefFollows(s, b);
  }

  lemma {:induction false} PushArgsSettled(s: Store, f: Frame, xs: seq<Term>, ys: seq<Term>)
    requires Acyclic(s) && Settled(s, f) && |xs| == |ys|
    ensures Settled(s, PushArgs(s, f, xs, ys, true))
    decreases |xs|
  {
    if |xs| > 0 {
      PushSettled(s, f, xs[0], ys[0]);
      PushArgsSettled(s, Push(s, f, xs[0], ys[0], true), xs[1..], ys[1..]);
    }
  }

  lemma {:induction false} UpdateSettled(s: Store, f: Frame, v: nat, t: Term)
    requires Acyclic(s) && Settled(s, f) && v !in s
    ensures Settled(s, Update(s, f, v, t))
  {
    match Lookup(f.u, v)
    case Some(w) => PushSettled(s, f, w, t);
    case None =>
  }

  lemma {:induction false} StepSettled(s: Store, f: Frame)
    requires Acyclic(s) && Settled(s, f) && |f.stack| > 0
    ensures Step(s, f).Some? ==> Settled(s, Step(s, f).value)
  {
    var p := f.stack[|f.stack| - 1];
    var g := Frame(f.stack[..|f.stack| - 1], f.done + {p}, f.u);
    assert Settled(s, g);
    match p.0
    case Atom(x) =>
      if p.1.Var? {
        UpdateSettled(s, g, p.1.id, p.0);
      }
    case Cmp(n, xs) =>
      if p.1.Var? {
        UpdateSettled(s, g, p.1.id, p.0);
      } else if p.1.Cmp? && n == p.1.name && |xs| == |p.1.args| {
        PushArgsSettled(s, g, xs, p.1.args);
      }
    case Var(v) =>
      UpdateSettled(s, g, v, p.1);
  }

  lemma {:induction false} RunSettled(s: Store, f: Frame, U: set<Term>)
    requires Acyclic(s) && Closed(s, U) && Inv(U, f) && Settled(s, f)
    ensures Run(s, f, U).Some? ==> KeysFresh(s, Run(s, f, U).value)
    decreases |Pairs(U) - f.done|
  {
    if |f.stack| > 0 && Step(s, f).Some? {
      StepKeepsInv(s, U, f);
      StepSettled(s, f);
      MeasureDrops(Pairs(U), f.done, f.stack[|f.stack| - 1]);
      RunSettled(s, Step(s, f).value, U);
    }
  }

  /** On an acyclic store the unifier `mgu` returns binds distinct free
      variables, so `Unifier.unify` never raises `BindingError` on it. */
  lemma {:induction false} MguFresh(s: Store, a: Term, b: Term)
    requires Acyclic(s)
    ensures Mgu(s, a, b).Some? ==> KeysFresh(s, Mgu(s, a, b).value) && Apply(s, Mgu(s, a, b).value).Ok?
  {
    FirstStep(s, a, b);
    DerefFollows(s, a);
    DerefFollows(s, b);
    RunSettled(s, Start(s, a, b), Universe(s, a, b));
    if Mgu(s, a, b).Some? {
      ApplyFresh(s, Mgu(s, a, b).value);
    }
  }

  /** The two terms dereference to the same term, or to compounds of the
      same class and arity. */
  predicate Agree(s: Store, a: Term, b: Term) {
    var a', b' := Deref(s, a), Deref(s, b);
    a' == b' || (a'.Cmp? && b'.Cmp? && a'.name == b'.name && |a'.args| == |b'.args|)
  }

  /** `unify(a, b)`: after applying the unifier `mgu` found, the two terms
      agree at the top (same dereferenced term, or compound terms of the
      same class and arity); and a unifier is found whenever the terms
      already dereference to the same term. Nothing is claimed below the
      top: `UnifyFixed.MguAsWrittenUnsound` shows the written loop can lose
      an argument's binding. */
  lemma {:induction false} MguSound(s: Store, a: Term, b: Term)
    requires Acyclic(s)
    ensures Deref(s, a) == Deref(s, b) ==> Mgu(s, a, b).Some?
    ensures Mgu(s, a, b).Some? ==>
      && Apply(s, Mgu(s, a, b).value).Ok?
      && var s' := Apply(s, Mgu(s, a, b).value).value.0;
      && Acyclic(s')
      && Agree(s', a, b)
  {
    MguFresh(s, a, b);
    var a', b' := Deref(s, a), Deref(s, b);
    DerefFollows(s, a);
    DerefFollows(s, b);
    if a' == b' {
      MguReflexive(s, a, b);
    }
    if Mgu(s, a, b).Some? {
      var u := Mgu(s, a, b).value;
      ApplySound(s, u);
      var s' := Apply(s, u).value.0;
      if a'.Var? {
        assert u[0] == (a'.id, b');
        assert Deref(s', a) == Deref(s', a');
        assert Deref(s', b) == Deref(s', b');
      } else if b'.Var? {
        assert u[0] == (b'.id, a');
        assert Deref(s', a) == Deref(s', a');
        assert Deref(s', b) == Deref(s', b');
      }
    }
  }

  /** Every pair still to be processed has two equal sides, and every
      variable is recorded against itself. */
  predicate Identical(f: Frame) {
    && (forall i :: 0 <= i < |f.stack| ==> f.stack[i].0 == f.stack[i].1)
    && (forall i :: 0 <= i < |f.u| ==> f.u[i].1 == Var(f.u[i].0))
  }

  lemma {:induction false} PushArgsIdentical(s: Store, f: Frame, xs: seq<Term>)
    requires Identical(f)
    ensures Identical(PushArgs(s, f, xs, xs, true))
    decreases |xs|
  {
    if |xs| > 0 {
      PushArgsIdentical(s, Push(s, f, xs[0], xs[0], true), xs[1..]);
    }
  }

  lemma {:induction false} StepIdentical(s: Store, f: Frame)
    requires Identical(f) && |f.stack| > 0
    ensures Step(s, f).Some? && Identical(Step(s, f).value)
  {
    var p := f.stack[|f.stack| - 1];
    var g := Frame(f.stack[..|f.stack| - 1], f.done + {p}, f.u);
    assert Identical(g);
    match p.0
    case Atom(x) =>
    case Cmp(n, xs) =>
      PushArgsIdentical(s, g, xs);
    case Var(v) =>
      match Lookup(g.u, v)
      case Some(w) =>
        var i :| 0 <= i < |g.u| && g.u[i] == (v, w);
      case None =>
  }

  lemma {:induction false} RunIdentical(s: Store, f: Frame, U: set<Term>)
    requires Closed(s, U) && Inv(U, f) && Identical(f)
    ensures Run(s, f, U).Some?
    decreases |Pairs(U) - f.done|
  {
    if |f.stack| > 0 {
      StepIdentical(s, f);
      StepKeepsInv(s, U, f);
      MeasureDrops(Pairs(U), f.done, f.stack[|f.stack| - 1]);
      RunIdentical(s, Step(s, f).value, U);
    }
  }

  lemma {:induction false} MguReflexive(s: Store, a: Term, b: Term)
    requires Deref(s, a) == Deref(s, b)
    ensures Mgu(s, a, b).Some?
  {
    FirstStep(s, a, b);
    RunIdentical(s, Start(s, a, b), Universe(s, a, b));
  }

  /** One turn of the loop, when it does not fail. */
  lemma {:induction false} RunTurn(s: Store, f: Frame, U: set<Term>)
    requires Closed(s, U) && Inv(U, f) && |f.stack| > 0 && Step(s, f).Some?
    ensures Inv(U, Step(s, f).value)
    ensures Run(s, f, U) == Run(s, Step(s, f).value, U)
  {
    StepKeepsInv(s, U, f);
  }

  /** Popping a variable paired with a term for the first time records it. */
  lemma {:induction false} StepNewVar(s: Store, f: Frame, v: nat, t: Term)
    requires |f.stack| > 0 && f.stack[|f.stack| - 1] == (Var(v), t)
    requires forall i :: 0 <= i < |f.u| ==> f.u[i].0 != v
    ensures Step(s, f) == Some(Frame(f.stack[..|f.stack| - 1], f.done + {(Var(v), t)}, f.u + [(v, t)]))
  {
  }

  /** Popping two compounds of the same class and arity pushes their
      argument pairs. */
  lemma {:induction false} StepSameClass(s: Store, f: Frame, n: string, xs: seq<Term>, ys: seq<Term>)
    requires |f.stack| > 0 && f.stack[|f.stack| - 1] == (Cmp(n, xs), Cmp(n, ys)) && |xs| == |ys|
    ensures Step(s, f) ==
      Some(PushArgs(s, Frame(f.stack[..|f.stack| - 1], f.done + {(Cmp(n, xs), Cmp(n, ys))}, f.u), xs, ys, true))
  {
  }

  lemma {:induction false} PushTwo(s: Store, g: Frame, x: nat, y: nat, p: Term, q: Term, written: bool)
    requires x !in s && y !in s && x != y && g.stack == []
    requires forall d :: d in g.done ==> !d.0.Var?
    ensures PushArgs(s, g, [Var(x), Var(y)], [p, q], written) ==
      g.(stack := [(Var(x), Deref(s, p)), (Var(y), Deref(s, q))])
  {
    var g1 := Push(s, g, Var(x), p, written);
    assert g1 == g.(stack := [(Var(x), Deref(s, p))]);
    assert [Var(x), Var(y)][1..] == [Var(y)];
    assert [p, q][1..] == [q];
    assert CompareAsWritten(s, Var(y), Var(x)) != 0;
    assert PushArgs(s, g1, [Var(y)], [q], written) == Push(s, g1, Var(y), q, written);
  }

  /** `mgu(Term(X, Y), Term(p, q))` for two distinct free variables: the
      argument pairs are pushed left to right and popped right to left, so
      `Y` is recorded first. */
  lemma {:induction false} MguTwoFree(s: Store, x: nat, y: nat, p: Term, q: Term)
    requires x != y && x !in s && y !in s
    ensures Mgu(s, Cmp("Term", [Var(x), Var(y)]), Cmp("Term", [p, q])) ==
      Some([(y, Deref(s, q)), (x, Deref(s, p))])
  {
    var a, b := Cmp("Term", [Var(x), Var(y)]), Cmp("Term", [p, q]);
    var U := Universe(s, a, b);
    FirstStep(s, a, b);
    var p', q' := Deref(s, p), Deref(s, q);
    var f0 := Start(s, a, b);
    var f1 := Frame([(Var(x), p'), (Var(y), q')], {(a, b)}, []);
    var f2 := Frame([(Var(x), p')], {(a, b), (Var(y), q')}, [(y, q')]);
    var f3 := Frame([], {(a, b), (Var(y), q'), (Var(x), p')}, [(y, q'), (x, p')]);
    assert Step(s, f0) == Some(f1) by {
      assert Deref(s, a) == a && Deref(s, b) == b;
      assert f0 == Frame([(a, b)], {}, []);
      assert f0.stack[..|f0.stack| - 1] == [];
      StepSameClass(s, f0, "Term", [Var(x), Var(y)], [p, q]);
      assert {} + {(a, b)} == {(a, b)};
      PushTwo(s, Frame([], {(a, b)}, []), x, y, p, q, true);
    }
    RunTurn(s, f0, U);
    assert Step(s, f1) == Some(f2) by {
      assert f1.stack[..|f1.stack| - 1] == [(Var(x), p')];
      StepNewVar(s, f1, y, q');
      assert f1.done + {(Var(y), q')} == f2.done;
      assert f1.u + [(y, q')] == f2.u;
    }
    RunTurn(s, f1, U);
    assert Step(s, f2) == Some(f3) by {
      assert f2.stack[..|f2.stack| - 1] == [];
      StepNewVar(s, f2, x, p');
      assert f2.done + {(Var(x), p')} == f3.done;
      assert f2.u + [(x, p')] == f3.u;
    }
    RunTurn(s, f2, U);
    assert Run(s, f3, U) == Some(f3.u);
  }

  /** With `X = h(a)`, the list test finds `(Z, g(h(a)))` equal to
      `(Z, g(X))`: `__cmp__` dereferences the right-hand `X` below `g`. */
  lemma SkipsSamePair()
    ensures var ha := Cmp("h", [Atom(Sym("a"))]);
      SamePair(map[0 := ha], (Var(1), Cmp("g", [ha])), (Var(1), Cmp("g", [Var(0)])))
  {
    var ha := Cmp("h", [Atom(Sym("a"))]);
    var s: Store := map[0 := ha];
    assert Deref(s, Var(0)) == ha;
    assert ArgsAsWritten(s, [Atom(Sym("a"))], [Atom(Sym("a"))]) == 0;
    assert CompareAsWritten(s, ha, Var(0)) == 0;
    assert ArgsAsWritten(s, [ha], [Var(0)]) == 0;
  }

  /** The first turn on `f(Z, Z) = f(g(X), g(h(a)))` with `X = h(a)` pushes
      only `(Z, g(X))`. */
  lemma {:induction false} SkipsFirstTurn()
    ensures var ha := Cmp("h", [Atom(Sym("a"))]);
      var s: Store := map[0 := ha];
      var a, b := Cmp("f", [Var(1), Var(1)]), Cmp("f", [Cmp("g", [Var(0)]), Cmp("g", [ha])]);
      Step(s, Start(s, a, b)) == Some(Frame([(Var(1), Cmp("g", [Var(0)]))], {(a, b)}, []))
  {
    var ha := Cmp("h", [Atom(Sym("a"))]);
    var s: Store := map[0 := ha];
    var z, gx, gh := Var(1), Cmp("g", [Var(0)]), Cmp("g", [ha]);
    var a, b := Cmp("f", [z, z]), Cmp("f", [gx, gh]);
    var f0 := Start(s, a, b);
    var g := Frame([], {(a, b)}, []);
    var g1 := Push(s, g, z, gx, true);
    assert g1 == g.(stack := [(z, gx)]);
    SkipsSamePair();
    assert g1.stack[0] == (z, gx);
    assert Push(s, g1, z, gh, true) == g1;
    assert f0 == Frame([(a, b)], {}, []);
    assert f0.stack[..|f0.stack| - 1] == [];
    StepSameClass(s, f0, "f", [z, z], [gx, gh]);
    assert {} + {(a, b)} == {(a, b)};
    assert [z, z][1..] == [z] && [gx, gh][1..] == [gh];
    assert PushArgs(s, g1, [z], [gh], true) == Push(s, g1, z, gh, true);
  }

  /** Popping `(Z, t)` with nothing recorded records `Z` against `t`. */
  lemma {:induction false} SkipsSecondTurn(s: Store, p: Pair, t: Term)
    ensures Step(s, Frame([(Var(1), t)], {p}, [])) == Some(Frame([], {p, (Var(1), t)}, [(1, t)]))
  {
    var f := Frame([(Var(1), t)], {p}, []);
    assert f.stack[..0] == [];
    StepNewVar(s, f, 1, t);
    assert f.done + {(Var(1), t)} == {p, (Var(1), t)};
    assert f.u + [(1, t)] == [(1, t)];
  }

  /** With `X = h(a)` and `Z` free, `mgu(f(Z, Z), f(g(X), g(h(a))))` as
      written pushes `(Z, g(X))` and then leaves out `(Z, g(h(a)))`, which
      the list test finds equal to the stacked pair. So `Z` is recorded
      against `g(X)` alone. */
  lemma {:induction false} MguSkipsEqualAsWritten()
    ensures var s: Store := map[0 := Cmp("h", [Atom(Sym("a"))])];
      Mgu(s, Cmp("f", [Var(1), Var(1)]), Cmp("f", [Cmp("g", [Var(0)]), Cmp("g", [Cmp("h", [Atom(Sym("a"))])])])) ==
        Some([(1, Cmp("g", [Var(0)]))])
  {
    var ha := Cmp("h", [Atom(Sym("a"))]);
    var s: Store := map[0 := ha];
    var z, gx, gh := Var(1), Cmp("g", [Var(0)]), Cmp("g", [ha]);
    var a, b := Cmp("f", [z, z]), Cmp("f", [gx, gh]);
    var U := Universe(s, a, b);
    FirstStep(s, a, b);
    var f0 := Start(s, a, b);
    assert f0 == Frame([(a, b)], {}, []);
    var f1 := Frame([(z, gx)], {(a, b)}, []);
    SkipsFirstTurn();
    RunTurn(s, f0, U);
    var f2 := Frame([], {(a, b), (z, gx)}, [(1, gx)]);
    SkipsSecondTurn(s, (a, b), gx);
    RunTurn(s, f1, U);
    assert Run(s, f2, U) == Some(f2.u);
  }

  /** Unifying `Term(X, Y)` with `Term(p, q)` for distinct free `X` and `Y`
      on an acyclic store binds `X` to `p` and `Y` to `q` and disturbs
      nothing that was already bound. */
  lemma {:induction false} ApplyTwoFree(s: Store, x: nat, y: nat, p: Term, q: Term)
    requires Acyclic(s) && x != y && x !in s && y !in s
    ensures var u := [(y, Deref(s, q)), (x, Deref(s, p))];
      && KeysFresh(s, u) && Apply(s, u).Ok?
      && var s' := Apply(s, u).value.0;
      && Acyclic(s')
      && Deref(s', Var(x)) == Deref(s', p)
      && Deref(s', Var(y)) == Deref(s', q)
      && (forall z :: !Deref(s, z).Var? ==> Deref(s', z) == Deref(s, z))
      && (forall z, w :: Deref(s, z) == Deref(s, w) ==> Deref(s', z) == Deref(s', w))
  {
    var u := [(y, Deref(s, q)), (x, Deref(s, p))];
    ApplySound(s, u);
    var s' := Apply(s, u).value.0;
    DerefFollows(s, p);
    DerefFollows(s, q);
    assert Deref(s', Var(u[1].0)) == Deref(s', u[1].1);
    assert Deref(s', Var(u[0].0)) == Deref(s', u[0].1);
  }

  /** Two binary compounds of the same class whose arguments are atoms
      unify exactly when their arguments are pairwise equal. */
  lemma {:induction false} MguAtomPairs(s: Store, n: string, p1: Term, p2: Term, q1: Term, q2: Term)
    requires p1.Atom? && p2.Atom? && q1.Atom? && q2.Atom?
    ensures Mgu(s, Cmp(n, [p1, p2]), Cmp(n, [q1, q2])).Some? <==> p1 == q1 && p2 == q2
  {
    var a, b := Cmp(n, [p1, p2]), Cmp(n, [q1, q2]);
    if p1 == q1 && p2 == q2 {
      MguReflexive(s, a, b);
    } else {
      var U := Universe(s, a, b);
      var f1 := AtomPairsPushed(s, n, p1, p2, q1, q2);
      if (p1, q1) == (p2, q2) || p2 != q2 {
        assert Step(s, f1).None?;
      } else {
        var f2 := Frame([(p1, q1)], {(a, b), (p2, q2)}, []);
        assert Step(s, f1) == Some(f2) by {
          assert [(p1, q1), (p2, q2)][..1] == [(p1, q1)];
          assert {(a, b)} + {(p2, q2)} == {(a, b), (p2, q2)};
        }
        RunTurn(s, f1, U);
        assert Step(s, f2).None?;
      }
    }
  }

  /** The first turn of `mgu` on two binary compounds of the same class
      with atom arguments pushes the two argument pairs (once, when they
      coincide). */
  lemma {:induction false} AtomPairsPushed(s: Store, n: string, p1: Term, p2: Term, q1: Term, q2: Term) returns (f1: Frame)
    requires p1.Atom? && p2.Atom? && q1.Atom? && q2.Atom?
    ensures var a, b := Cmp(n, [p1, p2]), Cmp(n, [q1, q2]);
      && Closed(s, Universe(s, a, b)) && Inv(Universe(s, a, b), f1)
      && Mgu(s, a, b) == Run(s, f1, Universe(s, a, b))
      && f1 == Frame(if (p1, q1) == (p2, q2) then [(p1, q1)] else [(p1, q1), (p2, q2)], {(a, b)}, [])
  {
    var a, b := Cmp(n, [p1, p2]), Cmp(n, [q1, q2]);
    var U := Universe(s, a, b);
    FirstStep(s, a, b);
    var f0 := Start(s, a, b);
    f1 := Frame(if (p1, q1) == (p2, q2) then [(p1, q1)] else [(p1, q1), (p2, q2)], {(a, b)}, []);
    assert Step(s, f0) == Some(f1) by {
      assert f0 == Frame([(a, b)], {}, []);
      assert f0.stack[..|f0.stack| - 1] == [];
      StepSameClass(s, f0, n, [p1, p2], [q1, q2]);
      assert {} + {(a, b)} == {(a, b)};
      PushAtomPairs(s, Frame([], {(a, b)}, []), p1, p2, q1, q2);
    }
    RunTurn(s, f0, U);
  }

  lemma {:induction false} PushAtomPairs(s: Store, g: Frame, p1: Term, p2: Term, q1: Term, q2: Term)
    requires p1.Atom? && p2.Atom? && q1.Atom? && q2.Atom? && g.stack == []
    requires forall d :: d in g.done ==> d.0.Cmp?
    ensures PushArgs(s, g, [p1, p2], [q1, q2], true) ==
      g.(stack := if (p1, q1) == (p2, q2) then [(p1, q1)] else [(p1, q1), (p2, q2)])
  {
    var g1 := Push(s, g, p1, q1, true);
    assert g1 == g.(stack := [(p1, q1)]);
    assert [p1, p2][1..] == [p2];
    assert [q1, q2][1..] == [q2];
    PayloadTotalOrder(p2.payload, p1.payload, p1.payload);
    PayloadTotalOrder(q2.payload, q1.payload, q1.payload);
    assert PushArgs(s, g1, [p2], [q2], true) == Push(s, g1, p2, q2, true);
  }
}

=== FILE: unify_fixed.dfy ===
/** The corrected `mgu`, which binds each variable as soon as it meets it,
    and the unifier the engine runs in either version. `mgu` as written
    records a variable's term without looking through the variables it has
    recorded so far, so two variables recorded against each other can lose
    the term either of them was meant to take (`MguAsWrittenUnsound`). */
module UnifyFixed {
  import opened Wrappers
  import opened Terms
  import opened Unify

  /** Walking a chain twice ends where walking it once does. */
  lemma {:induction false} DerefIdem(s: Store, t: Term)
    ensures Deref(s, Deref(s, t)) == Deref(s, t)
  {
    if Deref(s, t).Var? {
      DerefVarFixed(s, t);
    }
  }

  /** Every cell of `s` holds a term of `U`. */
  ghost predicate StoreIn(s: Store, U: set<Term>) {
    forall k :: k in s ==> s[k] in U
  }

  lemma {:induction false} UniverseStoreIn(s: Store, a: Term, b: Term)
    ensures StoreIn(s, Universe(s, a, b))
  {
    forall k | k in s ensures s[k] in Universe(s, a, b) {
      assert s[k] in Subterms(s[k]);
    }
  }

  lemma {:induction false} BindKeepsClosed(s: Store, U: set<Term>, v: nat, y: Term)
    requires Closed(s, U) && StoreIn(s, U) && y in U
    ensures Closed(s[v := y], U) && StoreIn(s[v := y], U)
  {
    var s' := s[v := y];
    forall x | x in U ensures Deref(s', x) in U {
      var r := Deref(s', x);
      if r != x {
        var k :| k in s' && s'[k] == r;
      }
    }
  }

  /** The frame with its last pair moved from the stack to the processed
      pairs. */
  function Pop(f: Frame): (r: Frame)
    requires |f.stack| > 0
    ensures r.stack == f.stack[..|f.stack| - 1] && r.u == f.u
    ensures r.done == f.done + {f.stack[|f.stack| - 1]}
  {
    Frame(f.stack[..|f.stack| - 1], f.done + {f.stack[|f.stack| - 1]}, f.u)
  }

  /** One turn of the corrected loop on the store `c` bound so far: the
      last pair is popped and both sides are dereferenced in `c`. Equal
      sides need nothing; a variable side is bound to the other side at
      once and recorded; two compounds of the same class and arity schedule
      their argument pairs; anything else is `NoMGU`. */
  function FixStep(c: Store, f: Frame): (r: Option<(Store, Frame)>)
    requires |f.stack| > 0
    ensures r.Some? ==> r.value.1.done == f.done + {f.stack[|f.stack| - 1]}
  {
    var p := f.stack[|f.stack| - 1];
    var g := Pop(f);
    var x, y := Deref(c, p.0), Deref(c, p.1);
    if x == y then Some((c, g))
    else if x.Var? then Some((c[x.id := y], g.(u := g.u + [(x.id, y)])))
    else if y.Var? then Some((c[y.id := x], g.(u := g.u + [(y.id, x)])))
    else if x.Cmp? && y.Cmp? && x.name == y.name && |x.args| == |y.args| then
      Some((c, PushArgs(c, g, x.args, y.args, false)))
    else None
  }

  lemma {:induction false} FixStepKeepsInv(c: Store, U: set<Term>, f: Frame)
    requires Closed(c, U) && StoreIn(c, U) && Inv(U, f) && |f.stack| > 0
    ensures f.stack[|f.stack| - 1] in Pairs(U) && f.stack[|f.stack| - 1] !in f.done
    ensures FixStep(c, f).Some? ==>
      && Closed(FixStep(c, f).value.0, U)
      && StoreIn(FixStep(c, f).value.0, U)
      && Inv(U, FixStep(c, f).value.1)
  {
    var p := f.stack[|f.stack| - 1];
    var g := Frame(f.stack[..|f.stack| - 1], f.done + {p}, f.u);
    assert Inv(U, g);
    var x, y := Deref(c, p.0), Deref(c, p.1);
    assert x in U && y in U;
    if x != y {
      if x.Var? {
        BindKeepsClosed(c, U, x.id, y);
      } else if y.Var? {
        BindKeepsClosed(c, U, y.id, x);
      } else if x.Cmp? && y.Cmp? && x.name == y.name && |x.args| == |y.args| {
        PushArgsKeepsInv(c, U, g, x.args, y.args, false);
      }
    }
  }

  /** The corrected `while stack` loop; it ends for the reason `Run` does. */
  function RunFixed(c: Store, f: Frame, ghost U: set<Term>): Option<Unifier>
    requires Closed(c, U) && StoreIn(c, U) && Inv(U, f)
    decreases |Pairs(U) - f.done|
  {
    if |f.stack| == 0 then Some(f.u)
    else
      match FixStep(c, f)
      case None => None
      case Some(n) =>
        FixStepKeepsInv(c, U, f);
        MeasureDrops(Pairs(U), f.done, f.stack[|f.stack| - 1]);
        RunFixed(n.0, n.1, U)
  }

  /** The corrected `mgu(a, b)`: the bindings, in the order made, that
      unify the two terms, or `None`. Terms that already dereference alike
      need no binding; a variable meeting anything else is bound to it. */
  function MguFixed(s: Store, a: Term, b: Term): (r: Option<Unifier>)
    ensures Deref(s, a) == Deref(s, b) ==> r == Some([])
    ensures Deref(s, a) != Deref(s, b) && Deref(s, a).Var? ==> r == Some([(Deref(s, a).id, Deref(s, b))])
    ensures Deref(s, a) != Deref(s, b) && !Deref(s, a).Var? && Deref(s, b).Var? ==>
      r == Some([(Deref(s, b).id, Deref(s, a))])
    ensures Deref(s, a).Atom? && Deref(s, b).Atom? ==>
      (r.None? <==> Deref(s, a).payload != Deref(s, b).payload)
    ensures (Deref(s, a).Atom? && Deref(s, b).Cmp?) || (Deref(s, a).Cmp? && Deref(s, b).Atom?) ==> r.None?
    ensures Deref(s, a).Cmp? && Deref(s, b).Cmp? ==>
      (Deref(s, a).name != Deref(s, b).name || |Deref(s, a).args| != |Deref(s, b).args| ==> r.None?)
  {
    UniverseClosed(s, a, b);
    UniverseStoreIn(s, a, b);
    FirstStep(s, a, b);
    FixFirstStep(s, a, b);
    RunFixed(s, Start(s, a, b), Universe(s, a, b))
  }

  /** Unrolls the first turn of the corrected loop when it does not push
      argument pairs. */
  lemma {:induction false} FixFirstStep(s: Store, a: Term, b: Term)
    requires Closed(s, Universe(s, a, b)) && StoreIn(s, Universe(s, a, b))
    requires Inv(Universe(s, a, b), Start(s, a, b))
    ensures var a', b' := Deref(s, a), Deref(s, b);
      !(a' != b' && a'.Cmp? && b'.Cmp? && a'.name == b'.name && |a'.args| == |b'.args|) ==>
      RunFixed(s, Start(s, a, b), Universe(s, a, b)) ==
        if a' == b' then Some([])
        else if a'.Var? then Some([(a'.id, b')])
        else if b'.Var? then Some([(b'.id, a')])
        else None
  {
    var U := Universe(s, a, b);
    var f := Start(s, a, b);
    var a', b' := Deref(s, a), Deref(s, b);
    DerefIdem(s, a);
    DerefIdem(s, b);
    assert f.stack[|f.stack| - 1] == (a', b');
    assert f.stack[..|f.stack| - 1] == [];
    FixStepKeepsInv(s, U, f);
    if FixStep(s, f).Some? {
      var n := FixStep(s, f).value;
      assert RunFixed(s, f, U) == RunFixed(n.0, n.1, U);
      if !(a' != b' && a'.Cmp? && b'.Cmp? && a'.name == b'.name && |a'.args| == |b'.args|) {
        assert n.1.stack == [];
        if a' != b' && a'.Var? {
          assert n.1.u == [(a'.id, b')];
        } else if a' != b' && b'.Var? {
          assert n.1.u == [(b'.id, a')];
        }
      }
    }
  }

  /** `x` and `y` dereference in `s` as the two sides of some pair of `R`. */
  ghost predicate RelatedIn(s: Store, R: set<Pair>, x: Term, y: Term) {
    exists q :: q in R && Deref(s, q.0) == Deref(s, x) && Deref(s, q.1) == Deref(s, y)
  }

  /** The two sides of `p` dereference to the same term, or to compounds of
      the same class and arity whose argument pairs are related by `R`. */
  ghost predicate Matched(s: Store, R: set<Pair>, p: Pair) {
    var x, y := Deref(s, p.0), Deref(s, p.1);
    || x == y
    || (&& x.Cmp? && y.Cmp? && x.name == y.name && |x.args| == |y.args|
        && forall k :: 0 <= k < |x.args| ==> RelatedIn(s, R, x.args[k], y.args[k]))
  }

  /** Every pair of `R` is matched: `R` is a bisimulation on the trees the
      terms stand for in `s`, cyclic bindings unfolded as far as needed. */
  ghost predicate Bisim(s: Store, R: set<Pair>) {
    forall p :: p in R ==> Matched(s, R, p)
  }

  /** `a` and `b` stand for the same, possibly infinite, tree in `s`: they
      are related by a bisimulation. */
  ghost predicate Unified(s: Store, a: Term, b: Term) {
    exists R :: Bisim(s, R) && RelatedIn(s, R, a, b)
  }

  /** `c'` only adds bindings to `c`: terms that dereference alike in `c`
      still do, and a term that dereferences to a non-variable keeps it. */
  ghost predicate Refines(c: Store, c': Store) {
    && (forall x, y :: Deref(c, x) == Deref(c, y) ==> Deref(c', x) == Deref(c', y))
    && (forall x :: !Deref(c, x).Var? ==> Deref(c', x) == Deref(c, x))
  }

  lemma {:induction false} RefinesTrans(c: Store, c': Store, c'': Store)
    requires Refines(c, c') && Refines(c', c'')
    ensures Refines(c, c'')
  {
  }

  lemma {:induction false} RelatedMono(c: Store, c': Store, R: set<Pair>, R': set<Pair>, x: Term, y: Term)
    requires Refines(c, c') && R <= R' && RelatedIn(c, R, x, y)
    ensures RelatedIn(c', R', x, y)
  {
    var q :| q in R && Deref(c, q.0) == Deref(c, x) && Deref(c, q.1) == Deref(c, y);
    assert q in R' && Deref(c', q.0) == Deref(c', x) && Deref(c', q.1) == Deref(c', y);
  }

  lemma {:induction false} MatchedMono(c: Store, c': Store, R: set<Pair>, R': set<Pair>, p: Pair)
    requires Refines(c, c') && R <= R' && Matched(c, R, p)
    ensures Matched(c', R', p)
  {
    var x, y := Deref(c, p.0), Deref(c, p.1);
    if x != y {
      assert Deref(c', p.0) == x && Deref(c', p.1) == y;
      forall k | 0 <= k < |x.args| ensures RelatedIn(c', R', x.args[k], y.args[k]) {
        RelatedMono(c, c', R, R', x.args[k], y.args[k]);
      }
    }
  }

  /** On an acyclic store, binding a free cell to a resolved term other
      than itself is what `bind` does, keeps the store acyclic, only adds a
      binding, and redirects exactly the walks that ended at the cell. */
  lemma {:induction false} BindFree(c: Store, v: nat, y: Term)
    requires Acyclic(c) && v !in c && Deref(c, y) == y && y != Var(v)
    ensures Bind(c, Var(v), y) == Ok(c[v := y])
    ensures Acyclic(c[v := y]) && Refines(c, c[v := y])
    ensures forall x :: Deref(c[v := y], x) == if Deref(c, x) == Var(v) then y else Deref(c, x)
  {
    BindSound(c, Var(v), y);
  }

  /** Applying one more binding after a unifier that applies. */
  lemma {:induction false} ApplySnoc(s: Store, u: Unifier, v: nat, t: Term)
    requires Apply(s, u).Ok? && Bind(Apply(s, u).value.0, Var(v), t).Ok?
    ensures Apply(s, u + [(v, t)]).Ok?
    ensures Apply(s, u + [(v, t)]).value.0 == Bind(Apply(s, u).value.0, Var(v), t).value
    decreases |u|
  {
    if |u| == 0 {
      assert u + [(v, t)] == [(v, t)];
      assert [(v, t)][1..] == [];
    } else {
      var s1 := Bind(s, Var(u[0].0), u[0].1).value;
      assert (u + [(v, t)])[0] == u[0];
      assert (u + [(v, t)])[1..] == u[1..] + [(v, t)];
      ApplySnoc(s1, u[1..], v, t);
    }
  }

  /** Everything the pair stack and the pairs already processed hold. */
  ghost function InPlay(f: Frame): set<Pair> {
    f.done + (set q | q in f.stack)
  }

  /** What the corrected loop keeps: the store `c` it works on is `s` with
      the recorded bindings applied, and is acyclic; the recorded cells are
      distinct and were free in `s`; every processed pair is matched in `c`
      by the pairs in play, and so are `a` and `b`. */
  ghost predicate FixInv(s: Store, a: Term, b: Term, c: Store, f: Frame) {
    && Acyclic(c)
    && KeysFresh(s, f.u)
    && (forall k :: k in s ==> k in c)
    && (forall i :: 0 <= i < |f.u| ==> f.u[i].0 in c)
    && Apply(s, f.u).Ok? && Apply(s, f.u).value.0 == c
    && (forall p :: p in f.done ==> Matched(c, InPlay(f), p))
    && RelatedIn(c, InPlay(f), a, b)
  }

  lemma {:induction false} DoneMono(c: Store, c': Store, f: Frame, R': set<Pair>)
    requires Refines(c, c') && InPlay(f) <= R'
    requires forall p :: p in f.done ==> Matched(c, InPlay(f), p)
    ensures forall p :: p in f.done ==> Matched(c', R', p)
  {
    forall p | p in f.done ensures Matched(c', R', p) {
      MatchedMono(c, c', InPlay(f), R', p);
    }
  }

  /** Popping the last pair moves it from the stack to the processed set. */
  lemma {:induction false} PopInPlay(f: Frame)
    requires |f.stack| > 0
    ensures InPlay(f) <= InPlay(Pop(f))
  {
    var n := |f.stack|;
    var p := f.stack[n - 1];
    var g := Pop(f);
    forall q | q in InPlay(f) ensures q in InPlay(g) {
      if q in f.stack && q != p {
        var i :| 0 <= i < n && f.stack[i] == q;
        assert g.stack[i] == q;
      }
    }
  }

  /** Recording one more binding of a cell free in `c` keeps the recorded
      cells distinct, free in `s`, and bound in the new store. */
  lemma {:induction false} RecordFresh(s: Store, c: Store, u: Unifier, v: nat, t: Term)
    requires KeysFresh(s, u) && (forall k :: k in s ==> k in c)
    requires (forall i :: 0 <= i < |u| ==> u[i].0 in c) && v !in c
    ensures KeysFresh(s, u + [(v, t)]) && (forall k :: k in s ==> k in c[v := t])
    ensures forall i :: 0 <= i < |u + [(v, t)]| ==> (u + [(v, t)])[i].0 in c[v := t]
  {
    var u' := u + [(v, t)];
    forall i | 0 <= i < |u'| ensures u'[i].0 in c[v := t] && u'[i].0 !in s {
      if i < |u| {
        assert u'[i] == u[i];
      }
    }
    forall i, j | 0 <= i < j < |u'| ensures u'[i].0 != u'[j].0 {
      assert u'[i] == u[i];
      if j < |u| {
        assert u'[j] == u[j];
      }
    }
  }

  /** The turn that finds both sides already alike. */
  lemma {:induction false} FixSkipKeeps(s: Store, a: Term, b: Term, c: Store, f: Frame)
    requires FixInv(s, a, b, c, f) && |f.stack| > 0
    requires Deref(c, f.stack[|f.stack| - 1].0) == Deref(c, f.stack[|f.stack| - 1].1)
    ensures FixInv(s, a, b, c, Pop(f))
  {
    var p := f.stack[|f.stack| - 1];
    PopInPlay(f);
    DoneMono(c, c, f, InPlay(Pop(f)));
    RelatedMono(c, c, InPlay(f), InPlay(Pop(f)), a, b);
    assert Matched(c, InPlay(Pop(f)), p);
  }

  /** The turn that binds the free cell `v` one side ends in to the term
      `t` the other side ends in. */
  lemma {:induction false} FixBindKeeps(s: Store, a: Term, b: Term, c: Store, f: Frame, v: nat, t: Term)
    requires FixInv(s, a, b, c, f) && |f.stack| > 0
    requires v !in c && Deref(c, t) == t && t != Var(v)
    requires var p := f.stack[|f.stack| - 1];
      || (Deref(c, p.0) == Var(v) && Deref(c, p.1) == t)
      || (Deref(c, p.0) == t && Deref(c, p.1) == Var(v))
    ensures FixInv(s, a, b, c[v := t], Pop(f).(u := f.u + [(v, t)]))
    ensures Refines(c, c[v := t])
  {
    var p := f.stack[|f.stack| - 1];
    var c' := c[v := t];
    var f' := Pop(f).(u := f.u + [(v, t)]);
    BindFree(c, v, t);
    ApplySnoc(s, f.u, v, t);
    RecordFresh(s, c, f.u, v, t);
    PopInPlay(f);
    assert InPlay(f') == InPlay(Pop(f));
    DoneMono(c, c', f, InPlay(f'));
    RelatedMono(c, c', InPlay(f), InPlay(f'), a, b);
    assert Deref(c', p.0) == t && Deref(c', p.1) == t;
    assert Matched(c', InPlay(f'), p);
  }

  /** The turn that schedules the argument pairs of two compounds of the
      same class and arity. */
  lemma {:induction false} FixPushKeeps(s: Store, a: Term, b: Term, c: Store, f: Frame)
    requires FixInv(s, a, b, c, f) && |f.stack| > 0
    requires var x, y := Deref(c, f.stack[|f.stack| - 1].0), Deref(c, f.stack[|f.stack| - 1].1);
      x.Cmp? && y.Cmp? && x.name == y.name && |x.args| == |y.args|
    ensures var x, y := Deref(c, f.stack[|f.stack| - 1].0), Deref(c, f.stack[|f.stack| - 1].1);
      FixInv(s, a, b, c, PushArgs(c, Pop(f), x.args, y.args, false))
  {
    var p := f.stack[|f.stack| - 1];
    var x, y := Deref(c, p.0), Deref(c, p.1);
    var g := Pop(f);
    var f' := PushArgs(c, g, x.args, y.args, false);
    PopInPlay(f);
    assert InPlay(g) <= InPlay(f') by {
      forall q | q in g.stack ensures q in f'.stack {
        var i :| 0 <= i < |g.stack| && g.stack[i] == q;
        assert f'.stack[i] == q;
      }
    }
    forall k | 0 <= k < |x.args| ensures RelatedIn(c, InPlay(f'), x.args[k], y.args[k]) {
      var q := (Deref(c, x.args[k]), Deref(c, y.args[k]));
      assert q in InPlay(f');
      DerefIdem(c, x.args[k]);
      DerefIdem(c, y.args[k]);
    }
    assert Matched(c, InPlay(f'), p);
    DoneMono(c, c, f, InPlay(f'));
    RelatedMono(c, c, InPlay(f), InPlay(f'), a, b);
  }

  lemma {:induction false} FixStepKeeps(s: Store, a: Term, b: Term, c: Store, f: Frame)
    requires FixInv(s, a, b, c, f) && |f.stack| > 0 && FixStep(c, f).Some?
    ensures FixInv(s, a, b, FixStep(c, f).value.0, FixStep(c, f).value.1)
    ensures Refines(c, FixStep(c, f).value.0)
  {
    var p := f.stack[|f.stack| - 1];
    var x, y := Deref(c, p.0), Deref(c, p.1);
    DerefFollows(c, p.0);
    DerefFollows(c, p.1);
    if x == y {
      FixSkipKeeps(s, a, b, c, f);
    } else if x.Var? {
      FixBindKeeps(s, a, b, c, f, x.id, y);
    } else if y.Var? {
      FixBindKeeps(s, a, b, c, f, y.id, x);
    } else {
      FixPushKeeps(s, a, b, c, f);
    }
  }

  lemma {:induction false} RunFixedSound(s: Store, a: Term, b: Term, c: Store, f: Frame, U: set<Term>)
    requires Closed(c, U) && StoreIn(c, U) && Inv(U, f) && FixInv(s, a, b, c, f)
    ensures RunFixed(c, f, U).Some? ==>
      var u := RunFixed(c, f, U).value;
      && KeysFresh(s, u) && Apply(s, u).Ok?
      && var s' := Apply(s, u).value.0;
      && Acyclic(s') && Refines(c, s') && Unified(s', a, b)
    decreases |Pairs(U) - f.done|
  {
    if |f.stack| == 0 {
      assert InPlay(f) == f.done;
      assert Bisim(c, f.done) && RelatedIn(c, f.done, a, b);
    } else if FixStep(c, f).Some? {
      var n := FixStep(c, f).value;
      FixStepKeepsInv(c, U, f);
      FixStepKeeps(s, a, b, c, f);
      MeasureDrops(Pairs(U), f.done, f.stack[|f.stack| - 1]);
      RunFixedSound(s, a, b, n.0, n.1, U);
      if RunFixed(c, f, U).Some? {
        RefinesTrans(c, n.0, Apply(s, RunFixed(c, f, U).value).value.0);
      }
    }
  }

  /** The frame `mgu(a, b)` starts from satisfies the corrected loop's
      invariant on `s` itself. */
  lemma {:induction false} FixStart(s: Store, a: Term, b: Term)
    requires Acyclic(s)
    ensures Closed(s, Universe(s, a, b)) && StoreIn(s, Universe(s, a, b))
    ensures Inv(Universe(s, a, b), Start(s, a, b)) && FixInv(s, a, b, s, Start(s, a, b))
  {
    UniverseClosed(s, a, b);
    UniverseStoreIn(s, a, b);
    FirstStep(s, a, b);
    var f := Start(s, a, b);
    DerefIdem(s, a);
    DerefIdem(s, b);
    assert (Deref(s, a), Deref(s, b)) in InPlay(f);
  }

  /** The corrected `mgu` is sound: on an acyclic store, applying its
      unifier never raises, keeps the store acyclic, only adds bindings,
      and leaves the two terms standing for the same tree. */
  lemma {:induction false} MguFixedSound(s: Store, a: Term, b: Term)
    requires Acyclic(s)
    ensures MguFixed(s, a, b).Some? ==>
      var u := MguFixed(s, a, b).value;
      && KeysFresh(s, u) && Apply(s, u).Ok?
      && var s' := Apply(s, u).value.0;
      && Acyclic(s') && Refines(s, s') && Unified(s', a, b)
  {
    FixStart(s, a, b);
    RunFixedSound(s, a, b, s, Start(s, a, b), Universe(s, a, b));
  }

  /** Terms standing for the same tree agree at the top. */
  lemma {:induction false} UnifiedAgree(s: Store, a: Term, b: Term)
    requires Unified(s, a, b)
    ensures Agree(s, a, b)
  {
    var R: set<Pair> :| Bisim(s, R) && RelatedIn(s, R, a, b);
    var q :| q in R && Deref(s, q.0) == Deref(s, a) && Deref(s, q.1) == Deref(s, b);
    assert Matched(s, R, q);
  }

  lemma {:induction false} BisimGround(s: Store, R: set<Pair>, x: Term, y: Term)
    requires Bisim(s, R) && RelatedIn(s, R, x, y) && NoVars(x) && NoVars(y)
    ensures x == y
    decreases x
  {
    var q :| q in R && Deref(s, q.0) == Deref(s, x) && Deref(s, q.1) == Deref(s, y);
    assert Matched(s, R, q);
    if x.Cmp? && y.Cmp? && |x.args| == |y.args| && forall k :: 0 <= k < |x.args| ==> RelatedIn(s, R, x.args[k], y.args[k]) {
      forall k | 0 <= k < |x.args| ensures x.args[k] == y.args[k] {
        BisimGround(s, R, x.args[k], y.args[k]);
      }
    }
  }

  /** On two terms without variables the corrected `mgu` succeeds exactly
      when they are equal. */
  lemma {:induction false} MguFixedGround(s: Store, a: Term, b: Term)
    requires Acyclic(s) && NoVars(a) && NoVars(b)
    ensures MguFixed(s, a, b).Some? <==> a == b
  {
    MguFixedSound(s, a, b);
    if MguFixed(s, a, b).Some? {
      var s' := Apply(s, MguFixed(s, a, b).value).value.0;
      var R: set<Pair> :| Bisim(s', R) && RelatedIn(s', R, a, b);
      BisimGround(s', R, a, b);
    }
  }

  /** Every pair on the stack is already related in `s`, and nothing has
      been recorded. */
  ghost predicate AllRelated(s: Store, R: set<Pair>, f: Frame) {
    && f.u == []
    && forall i :: 0 <= i < |f.stack| ==> RelatedIn(s, R, f.stack[i].0, f.stack[i].1)
  }

  lemma {:induction false} PushArgsRelated(s: Store, R: set<Pair>, g: Frame, xs: seq<Term>, ys: seq<Term>)
    requires AllRelated(s, R, g) && |xs| == |ys|
    requires forall k :: 0 <= k < |xs| ==> RelatedIn(s, R, xs[k], ys[k])
    ensures AllRelated(s, R, PushArgs(s, g, xs, ys, false))
    decreases |xs|
  {
    if |xs| > 0 {
      var g1 := Push(s, g, xs[0], ys[0], false);
      assert AllRelated(s, R, g1) by {
        if g1 != g {
          var q := (Deref(s, xs[0]), Deref(s, ys[0]));
          assert g1.stack == g.stack + [q];
          var w :| w in R && Deref(s, w.0) == Deref(s, xs[0]) && Deref(s, w.1) == Deref(s, ys[0]);
          DerefIdem(s, xs[0]);
          DerefIdem(s, ys[0]);
          assert RelatedIn(s, R, q.0, q.1);
        }
      }
      forall k | 0 <= k < |xs| - 1 ensures RelatedIn(s, R, xs[1..][k], ys[1..][k]) {
        assert xs[1..][k] == xs[k + 1] && ys[1..][k] == ys[k + 1];
      }
      PushArgsRelated(s, R, g1, xs[1..], ys[1..]);
    }
  }

  /** A turn on a stack of related pairs binds nothing and leaves a stack
      of related pairs. */
  lemma {:induction false} FixStepRelated(s: Store, R: set<Pair>, f: Frame)
    requires Bisim(s, R) && AllRelated(s, R, f) && |f.stack| > 0
    ensures FixStep(s, f).Some? && FixStep(s, f).value.0 == s
    ensures AllRelated(s, R, FixStep(s, f).value.1)
  {
    var n := |f.stack|;
    var p := f.stack[n - 1];
    var g := Pop(f);
    assert AllRelated(s, R, g) by {
      forall i | 0 <= i < n - 1 ensures RelatedIn(s, R, g.stack[i].0, g.stack[i].1) {
        assert g.stack[i] == f.stack[i];
      }
    }
    var x, y := Deref(s, p.0), Deref(s, p.1);
    assert RelatedIn(s, R, p.0, p.1);
    var w :| w in R && Deref(s, w.0) == x && Deref(s, w.1) == y;
    assert Matched(s, R, w);
    if x != y {
      PushArgsRelated(s, R, g, x.args, y.args);
    }
  }

  /** A turn of the corrected loop that does not fail, and the loop after it. */
  lemma {:induction false} FixTurn(c: Store, f: Frame, U: set<Term>)
    requires Closed(c, U) && StoreIn(c, U) && Inv(U, f) && |f.stack| > 0 && FixStep(c, f).Some?
    ensures var n := FixStep(c, f).value;
      && Closed(n.0, U) && StoreIn(n.0, U) && Inv(U, n.1)
      && |Pairs(U) - n.1.done| < |Pairs(U) - f.done|
      && RunFixed(c, f, U) == RunFixed(n.0, n.1, U)
  {
    FixStepKeepsInv(c, U, f);
    MeasureDrops(Pairs(U), f.done, f.stack[|f.stack| - 1]);
  }

  lemma {:induction false} RunRelated(s: Store, R: set<Pair>, f: Frame, U: set<Term>)
    requires Closed(s, U) && StoreIn(s, U) && Inv(U, f) && Bisim(s, R) && AllRelated(s, R, f)
    ensures RunFixed(s, f, U) == Some([])
    decreases |Pairs(U) - f.done|
  {
    if |f.stack| > 0 {
      FixStepRelated(s, R, f);
      FixTurn(s, f, U);
      RunRelated(s, R, FixStep(s, f).value.1, U);
    }
  }

  /** Unifying terms that already stand for the same tree binds nothing;
      in particular unifying again after a successful unification binds
      nothing. */
  lemma {:induction false} MguFixedIdempotent(s: Store, a: Term, b: Term)
    requires Unified(s, a, b)
    ensures MguFixed(s, a, b) == Some([])
  {
    var R: set<Pair> :| Bisim(s, R) && RelatedIn(s, R, a, b);
    var U := Universe(s, a, b);
    UniverseClosed(s, a, b);
    UniverseStoreIn(s, a, b);
    FirstStep(s, a, b);
    var f := Start(s, a, b);
    DerefIdem(s, a);
    DerefIdem(s, b);
    assert RelatedIn(s, R, f.stack[0].0, f.stack[0].1);
    RunRelated(s, R, f, U);
  }

  /** The unifier the engine runs: `mgu` as written, or the corrected one. */
  function MguBy(fixed: bool, s: Store, a: Term, b: Term): (r: Option<Unifier>)
    ensures Deref(s, a).Atom? && Deref(s, b).Atom? ==>
      (r.None? <==> Deref(s, a).payload != Deref(s, b).payload)
    ensures (Deref(s, a).Atom? && Deref(s, b).Cmp?) || (Deref(s, a).Cmp? && Deref(s, b).Atom?) ==> r.None?
    ensures Deref(s, a).Cmp? && Deref(s, b).Cmp? ==>
      (Deref(s, a).name != Deref(s, b).name || |Deref(s, a).args| != |Deref(s, b).args| ==> r.None?)
  {
    if fixed then MguFixed(s, a, b) else Mgu(s, a, b)
  }

  /** In either version, on an acyclic store: a unifier is found for terms
      that already dereference alike; a found unifier applies without
      raising, keeps the store acyclic, only adds bindings, and leaves the
      two terms agreeing at the top. The corrected version moreover leaves
      them standing for the same tree. */
  lemma {:induction false} MguBySound(fixed: bool, s: Store, a: Term, b: Term)
    requires Acyclic(s)
    ensures Deref(s, a) == Deref(s, b) ==> MguBy(fixed, s, a, b).Some?
    ensures MguBy(fixed, s, a, b).Some? ==>
      var u := MguBy(fixed, s, a, b).value;
      && KeysFresh(s, u) && Apply(s, u).Ok?
      && var s' := Apply(s, u).value.0;
      && Acyclic(s') && Refines(s, s') && Agree(s', a, b)
      && (fixed ==> Unified(s', a, b))
  {
    if fixed {
      MguFixedSound(s, a, b);
      if MguFixed(s, a, b).Some? {
        UnifiedAgree(Apply(s, MguFixed(s, a, b).value).value.0, a, b);
      }
    } else {
      MguSound(s, a, b);
      MguFresh(s, a, b);
      if Mgu(s, a, b).Some? {
        ApplySound(s, Mgu(s, a, b).value);
      }
    }
  }

  /** In either version, unifying a term whose chain ends in a free
      variable with anything succeeds, and binds that variable to what the
      other term dereferences to: exactly the walks that ended at the
      variable are redirected. */
  lemma {:induction false} MguByFree(fixed: bool, s: Store, a: Term, b: Term)
    requires Acyclic(s) && Deref(s, a).Var?
    ensures MguBy(fixed, s, a, b).Some?
    ensures var u := MguBy(fixed, s, a, b).value;
      && KeysFresh(s, u) && Apply(s, u).Ok?
      && var s' := Apply(s, u).value.0;
      && Acyclic(s')
      && forall y :: Deref(s', y) == if Deref(s, y) == Deref(s, a) then Deref(s, b) else Deref(s, y)
  {
    var a', b' := Deref(s, a), Deref(s, b);
    DerefFollows(s, a);
    DerefIdem(s, b);
    var u := MguBy(fixed, s, a, b).value;
    if u == [] {
      assert a' == b';
      assert Apply(s, u).value.0 == s;
    } else {
      assert u == [(a'.id, b')];
      BindSound(s, Var(a'.id), b');
      assert u[1..] == [];
      assert Apply(s, u).value.0 == Bind(s, Var(a'.id), b').value;
    }
  }

  /** In either version, two binary terms of one class whose arguments are
      atoms unify exactly when the arguments are equal pairwise. */
  lemma {:induction false} MguByAtomPairs(fixed: bool, s: Store, n: string, p1: Term, p2: Term, q1: Term, q2: Term)
    requires Acyclic(s)
    requires p1.Atom? && p2.Atom? && q1.Atom? && q2.Atom?
    ensures MguBy(fixed, s, Cmp(n, [p1, p2]), Cmp(n, [q1, q2])).Some? <==> p1 == q1 && p2 == q2
  {
    if fixed {
      var a, b := Cmp(n, [p1, p2]), Cmp(n, [q1, q2]);
      assert NoVars(a) && NoVars(b);
      MguFixedGround(s, a, b);
    } else {
      MguAtomPairs(s, n, p1, p2, q1, q2);
    }
  }

  /** The first turn of either loop on `Term(X, Y)` and `Term(p, q)`, with
      distinct free `X` and `Y`, schedules `(X, p)` and then `(Y, q)`. */
  lemma {:induction false} TwoFreeFirst(s: Store, x: nat, y: nat, p: Term, q: Term)
    requires x != y && x !in s && y !in s
    requires Cmp("Term", [Var(x), Var(y)]) != Cmp("Term", [p, q])
    ensures var a, b := Cmp("Term", [Var(x), Var(y)]), Cmp("Term", [p, q]);
      FixStep(s, Start(s, a, b)) ==
        Some((s, Frame([(Var(x), Deref(s, p)), (Var(y), Deref(s, q))], {(a, b)}, [])))
  {
    var a, b := Cmp("Term", [Var(x), Var(y)]), Cmp("Term", [p, q]);
    var f0 := Start(s, a, b);
    assert Deref(s, a) == a && Deref(s, b) == b;
    assert f0.stack[..|f0.stack| - 1] == [];
    assert {} + {(a, b)} == {(a, b)};
    PushTwo(s, Frame([], {(a, b)}, []), x, y, p, q, false);
  }

  /** A turn of the corrected loop that pops a pair whose left side ends in
      a free variable succeeds and leaves the two sides dereferencing alike. */
  lemma {:induction false} FixStepEquates(c: Store, f: Frame)
    requires Acyclic(c) && |f.stack| > 0 && Deref(c, f.stack[|f.stack| - 1].0).Var?
    ensures FixStep(c, f).Some?
    ensures FixStep(c, f).value.1.stack == f.stack[..|f.stack| - 1]
    ensures var c', p := FixStep(c, f).value.0, f.stack[|f.stack| - 1];
      && Deref(c', p.0) == Deref(c', p.1)
      && c'.Keys <= c.Keys + {Deref(c, p.0).id}
  {
    var p := f.stack[|f.stack| - 1];
    var x, y := Deref(c, p.0), Deref(c, p.1);
    if x != y {
      DerefFollows(c, p.0);
      DerefIdem(c, p.1);
      BindFree(c, x.id, y);
    }
  }

  /** A turn of the corrected loop that pops a pair whose left side ends in
      a free variable, with everything the loop keeps. */
  lemma {:induction false} FixPopVar(s: Store, a: Term, b: Term, c: Store, f: Frame, U: set<Term>)
      returns (c': Store, f': Frame)
    requires Closed(c, U) && StoreIn(c, U) && Inv(U, f) && FixInv(s, a, b, c, f)
    requires |f.stack| > 0 && Deref(c, f.stack[|f.stack| - 1].0).Var?
    ensures Closed(c', U) && StoreIn(c', U) && Inv(U, f') && FixInv(s, a, b, c', f')
    ensures f'.stack == f.stack[..|f.stack| - 1] && Refines(c, c')
    ensures RunFixed(c, f, U) == RunFixed(c', f', U)
    ensures var p := f.stack[|f.stack| - 1];
      && Deref(c', p.0) == Deref(c', p.1)
      && c'.Keys <= c.Keys + {Deref(c, p.0).id}
  {
    FixStepEquates(c, f);
    FixTurn(c, f, U);
    FixStepKeeps(s, a, b, c, f);
    c', f' := FixStep(c, f).value.0, FixStep(c, f).value.1;
  }

  /** The first turn of the corrected loop on `Term(X, Y)` and a different
      `Term(p, q)` pushes both argument pairs. */
  lemma {:induction false} FixTwoFreePush(s: Store, x: nat, y: nat, p: Term, q: Term) returns (f: Frame)
    requires Acyclic(s) && x != y && x !in s && y !in s
    requires Cmp("Term", [Var(x), Var(y)]) != Cmp("Term", [p, q])
    ensures var a, b := Cmp("Term", [Var(x), Var(y)]), Cmp("Term", [p, q]);
      var U := Universe(s, a, b);
      && Closed(s, U) && StoreIn(s, U) && Inv(U, f) && FixInv(s, a, b, s, f)
      && MguFixed(s, a, b) == RunFixed(s, f, U)
      && f.stack == [(Var(x), Deref(s, p)), (Var(y), Deref(s, q))]
  {
    var a, b := Cmp("Term", [Var(x), Var(y)]), Cmp("Term", [p, q]);
    var U := Universe(s, a, b);
    FixStart(s, a, b);
    var f0 := Start(s, a, b);
    TwoFreeFirst(s, x, y, p, q);
    FixTurn(s, f0, U);
    FixStepKeeps(s, a, b, s, f0);
    f := FixStep(s, f0).value.1;
  }

  /** The remaining two turns bind `Y`, then `X`. */
  lemma {:induction false} FixTwoFreeTurns(s: Store, x: nat, y: nat, p: Term, q: Term) returns (c: Store, f: Frame)
    requires Acyclic(s) && x != y && x !in s && y !in s
    requires Cmp("Term", [Var(x), Var(y)]) != Cmp("Term", [p, q])
    ensures var a, b := Cmp("Term", [Var(x), Var(y)]), Cmp("Term", [p, q]);
      && MguFixed(s, a, b) == Some(f.u) && FixInv(s, a, b, c, f) && Refines(s, c)
      && Deref(c, Var(x)) == Deref(c, Deref(s, p)) && Deref(c, Var(y)) == Deref(c, Deref(s, q))
  {
    var a, b := Cmp("Term", [Var(x), Var(y)]), Cmp("Term", [p, q]);
    var U := Universe(s, a, b);
    var f1 := FixTwoFreePush(s, x, y, p, q);
    var c1, f2 := FixPopVar(s, a, b, s, f1, U);
    assert Deref(c1, Var(x)) == Var(x);
    c, f := FixPopVar(s, a, b, c1, f2, U);
    assert RunFixed(c, f, U) == Some(f.u);
    RefinesTrans(s, c1, c);
  }

  /** The corrected `mgu(Term(X, Y), Term(p, q))` for distinct free `X`
      and `Y` binds `X` like `p` and `Y` like `q`. */
  lemma {:induction false} MguFixedTwoFree(s: Store, x: nat, y: nat, p: Term, q: Term)
    requires Acyclic(s) && x != y && x !in s && y !in s
    ensures var r := MguFixed(s, Cmp("Term", [Var(x), Var(y)]), Cmp("Term", [p, q]));
      && r.Some? && KeysFresh(s, r.value) && Apply(s, r.value).Ok?
      && var s' := Apply(s, r.value).value.0;
      && Acyclic(s') && Refines(s, s')
      && Deref(s', Var(x)) == Deref(s', p) && Deref(s', Var(y)) == Deref(s', q)
  {
    var a, b := Cmp("Term", [Var(x), Var(y)]), Cmp("Term", [p, q]);
    if a == b {
      assert Deref(s, a) == Deref(s, b);
      assert Apply(s, []).value.0 == s;
    } else {
      var c, f := FixTwoFreeTurns(s, x, y, p, q);
      DerefIdem(s, p);
      DerefIdem(s, q);
    }
  }

  /** In either version, unifying `Term(X, Y)` with `Term(p, q)` for
      distinct free `X` and `Y` on an acyclic store succeeds, binds `X`
      like `p` and `Y` like `q`, and only adds bindings. */
  lemma {:induction false} MguByTwoFree(fixed: bool, s: Store, x: nat, y: nat, p: Term, q: Term)
    requires Acyclic(s) && x != y && x !in s && y !in s
    ensures var r := MguBy(fixed, s, Cmp("Term", [Var(x), Var(y)]), Cmp("Term", [p, q]));
      && r.Some? && KeysFresh(s, r.value) && Apply(s, r.value).Ok?
      && var s' := Apply(s, r.value).value.0;
      && Acyclic(s') && Refines(s, s')
      && Deref(s', Var(x)) == Deref(s', p) && Deref(s', Var(y)) == Deref(s', q)
  {
    if fixed {
      MguFixedTwoFree(s, x, y, p, q);
    } else {
      MguTwoFree(s, x, y, p, q);
      ApplyTwoFree(s, x, y, p, q);
    }
  }

  /** The first turn of `mgu` as written on `f(X, Y, X) = f(t, X, Y)`,
      for distinct free `X` and `Y` and a non-variable `t`, pushes the three
      argument pairs. */
  lemma {:induction false} AsWrittenPushes(x: nat, y: nat, t: Term)
    requires x != y && !t.Var?
    ensures var v, w := Var(x), Var(y);
      var a, b := Cmp("f", [v, w, v]), Cmp("f", [t, v, w]);
      Step(map[], Frame([(a, b)], {}, [])) == Some(Frame([(v, t), (w, v), (v, w)], {(a, b)}, []))
  {
    var v, w := Var(x), Var(y);
    var a, b := Cmp("f", [v, w, v]), Cmp("f", [t, v, w]);
    var s: Store := map[];
    var f0 := Frame([(a, b)], {}, []);
    assert f0.stack[..|f0.stack| - 1] == [];
    StepSameClass(s, f0, "f", [v, w, v], [t, v, w]);
    var g := Frame([], {(a, b)}, []);
    assert f0.done + {(a, b)} == g.done;
    var g1 := Push(s, g, v, t, true);
    var g2 := Push(s, g1, w, v, true);
    var g3 := Push(s, g2, v, w, true);
    assert g3 == Frame([(v, t), (w, v), (v, w)], {(a, b)}, []);
    assert PushArgs(s, g, [v, w, v], [t, v, w], true) == PushArgs(s, g1, [w, v], [v, w], true) by {
      assert [v, w, v][1..] == [w, v] && [t, v, w][1..] == [v, w];
    }
    assert PushArgs(s, g1, [w, v], [v, w], true) == PushArgs(s, g2, [v], [w], true) by {
      assert [w, v][1..] == [v] && [v, w][1..] == [w];
    }
    assert PushArgs(s, g2, [v], [w], true) == g3 by {
      assert [v][1..] == [] && [w][1..] == [];
    }
  }

  /** The next two turns record `X` against `Y`, then `Y` against `X`. */
  lemma {:induction false} AsWrittenRecords(x: nat, y: nat, t: Term, D: set<Pair>)
    requires x != y
    ensures var v, w := Var(x), Var(y);
      var f1 := Frame([(v, t), (w, v), (v, w)], D, []);
      var f2 := Frame([(v, t), (w, v)], D + {(v, w)}, [(x, w)]);
      && Step(map[], f1) == Some(f2)
      && Step(map[], f2) == Some(Frame([(v, t)], D + {(v, w), (w, v)}, [(x, w), (y, v)]))
  {
    var v, w := Var(x), Var(y);
    var f1 := Frame([(v, t), (w, v), (v, w)], D, []);
    var f2 := Frame([(v, t), (w, v)], D + {(v, w)}, [(x, w)]);
    assert f1.stack[..2] == [(v, t), (w, v)];
    StepNewVar(map[], f1, x, w);
    assert f1.u + [(x, w)] == f2.u;
    assert Step(map[], f1) == Some(f2);
    assert f2.stack[..1] == [(v, t)];
    StepNewVar(map[], f2, y, v);
    assert f2.done + {(w, v)} == D + {(v, w), (w, v)};
    assert f2.u + [(y, v)] == [(x, w), (y, v)];
    assert Step(map[], f2) == Some(Frame([(v, t)], D + {(v, w), (w, v)}, [(x, w), (y, v)]));
  }

  /** The last two turns follow `X`'s record to `(Y, t)` and `Y`'s record
      back to `(X, t)`, which is already done. */
  lemma {:induction false} AsWrittenFollows(x: nat, y: nat, t: Term, D: set<Pair>)
    requires x != y && (Var(y), t) !in D
    ensures var v, w := Var(x), Var(y);
      var u := [(x, w), (y, v)];
      var f3 := Frame([(v, t)], D, u);
      var f4 := Frame([(w, t)], D + {(v, t)}, u);
      && Step(map[], f3) == Some(f4)
      && Step(map[], f4) == Some(Frame([], D + {(v, t), (w, t)}, u))
  {
    var v, w := Var(x), Var(y);
    var u := [(x, w), (y, v)];
    var f3 := Frame([(v, t)], D, u);
    var f4 := Frame([(w, t)], D + {(v, t)}, u);
    assert f3.stack[..0] == [];
    assert Lookup(u, x) == Some(w);
    assert Lookup(u, y) == Some(v);
    var g3 := Frame([], D + {(v, t)}, u);
    assert Push(map[], g3, w, t, true) == f4;
    assert Step(map[], f3) == Some(f4);
    assert f4.stack[..0] == [];
    var g4 := Frame([], f4.done + {(w, t)}, u);
    assert (v, t) in g4.done;
    assert Push(map[], g4, v, t, true) == g4;
    assert Step(map[], f4) == Some(g4);
    assert g4.done == D + {(v, t), (w, t)};
  }

  /** `mgu` as written on `f(X, Y, X) = f(t, X, Y)` returns the unifier
      that records `X` against `Y` and `Y` against `X`, and nothing for
      `t`. */
  lemma {:induction false} AsWrittenTrace(x: nat, y: nat, t: Term)
    requires x != y && !t.Var?
    ensures Mgu(map[], Cmp("f", [Var(x), Var(y), Var(x)]), Cmp("f", [t, Var(x), Var(y)])) ==
      Some([(x, Var(y)), (y, Var(x))])
  {
    var v, w := Var(x), Var(y);
    var a, b := Cmp("f", [v, w, v]), Cmp("f", [t, v, w]);
    var s: Store := map[];
    var U := Universe(s, a, b);
    FirstStep(s, a, b);
    var u := [(x, w), (y, v)];
    var D := {(a, b)};
    var f0 := Start(s, a, b);
    assert f0 == Frame([(a, b)], {}, []);
    var f1 := Frame([(v, t), (w, v), (v, w)], D, []);
    var f2 := Frame([(v, t), (w, v)], D + {(v, w)}, [(x, w)]);
    var f3 := Frame([(v, t)], D + {(v, w), (w, v)}, u);
    var f4 := Frame([(w, t)], D + {(v, w), (w, v)} + {(v, t)}, u);
    var f5 := Frame([], D + {(v, w), (w, v)} + {(v, t), (w, t)}, u);
    AsWrittenPushes(x, y, t);
    AsWrittenRecords(x, y, t, D);
    AsWrittenFollows(x, y, t, D + {(v, w), (w, v)});
    RunTurn(s, f0, U);
    RunTurn(s, f1, U);
    RunTurn(s, f2, U);
    RunTurn(s, f3, U);
    RunTurn(s, f4, U);
    assert Run(s, f5, U) == Some(u);
  }

  /** Two different compounds whose `k`-th arguments end in a free
      variable on one side and a non-variable on the other do not stand
      for the same tree. */
  lemma {:induction false} NotUnifiedAt(s: Store, a: Term, b: Term, k: nat)
    requires Deref(s, a).Cmp? && Deref(s, b).Cmp? && Deref(s, a) != Deref(s, b)
    requires k < |Deref(s, a).args| && k < |Deref(s, b).args|
    requires Deref(s, Deref(s, a).args[k]).Var? && !Deref(s, Deref(s, b).args[k]).Var?
    ensures !Unified(s, a, b)
  {
  }

  /** `mgu` as written is unsound. On `f(V, W, V) = f(g(a), V, W)` it
      records `V` against `W` and `W` against `V`, finds `(V, g(a))`
      again when it follows `W`'s record, and stops: the unifier it
      returns binds `V` to `W` and nothing to `g(a)`, so the two terms do
      not stand for the same tree afterwards. */
  lemma MguAsWrittenUnsound()
    ensures var a := Cmp("f", [Var(0), Var(1), Var(0)]);
      var b := Cmp("f", [Cmp("g", [Atom(Sym("a"))]), Var(0), Var(1)]);
      var s: Store := map[];
      && Mgu(s, a, b) == Some([(0, Var(1)), (1, Var(0))])
      && Apply(s, [(0, Var(1)), (1, Var(0))]).Ok?
      && var s' := Apply(s, [(0, Var(1)), (1, Var(0))]).value.0;
      && Deref(s', Var(0)) == Var(1) && Deref(s', Var(1)) == Var(1)
      && !Unified(s', a, b)
  {
    var v, w, ga := Var(0), Var(1), Cmp("g", [Atom(Sym("a"))]);
    var a := Cmp("f", [v, w, v]);
    var b := Cmp("f", [ga, v, w]);
    var s: Store := map[];
    AsWrittenTrace(0, 1, ga);
    var u: Unifier := [(0, w), (1, v)];
    var s1: Store := map[0 := w];
    assert Bind(s, v, w) == Ok(s1);
    assert Deref(s1, v) == w;
    assert Bind(s1, w, v) == Ok(s1);
    var u1: Unifier := [(1, v)];
    assert u[1..] == u1 && u1[1..] == [];
    assert Apply(s1, u1).value.0 == s1;
    assert Apply(s, u).value.0 == s1;
    NotUnifiedAt(s1, a, b, 0);
  }
}

=== FILE: wrappers.dfy ===
/** Optional values and results with an error, used wherever the engine can
    come back empty-handed or raise. */
module Wrappers {

  datatype Option<T> = None | Some(value: T)

  datatype Result<T, E> = Ok(value: T) | Err(error: E)

}
